=== FILE: README.md ===
# Advent of Code solutions, modelled in Dafny

This project models the puzzle logic of vulppine/advent-of-code: the Rust
solutions of days one to thirteen of 2021 and their shared grid helpers
(`util.rs`), the Java solutions of days one to three of 2022, and the
TypeScript solutions of days one and two of 2022. File reading is stripped
away. What remains is pure computation over finite data: closed enumerations,
sequences, sets, maps and small grids. Each operation is written as a Dafny
function or method, and its contract states what the solution computes. The
model and the contracts are checked by the Dafny verifier; nothing is
executed.

One module per source file (or per group of Java classes):

| module | models |
|---|---|
| `Sonar` | `rust/src/day_one.rs`: counting depth increases, over single readings and over three-reading windows |
| `Dive` | `rust/src/day_two.rs`: parsing course commands and moving the submarine, with and without aim |
| `Diagnostic` | `rust/src/day_three.rs`: bit counts per position, the common and least common bit patterns, and the oxygen and CO2 ratings |
| `Bingo` | `rust/src/day_four.rs`: bingo boards, marking, bingo detection along rows and columns, scoring, first and last winner |
| `Vents` | `rust/src/day_five.rs`: vent lines, their point-by-point iteration, and the overlap map |
| `Lanternfish` | `rust/src/day_six.rs`: fish timers and the daily spawning simulation |
| `Crabs` | `rust/src/day_seven.rs`: the cheapest meeting point under growing fuel cost, and the most-frequent-position heuristic |
| `Segments`, `SegmentsWiring` | `rust/src/day_eight.rs`: segment and digit masks, the string helpers, and `construct`, which recovers the wiring from ten scrambled patterns |
| `Basins` | `rust/src/day_nine.rs`: low points and flood-filled basins |
| `Chunks` | `rust/src/day_ten.rs`: the bracket-chunk stack machine, auto-completion, and the scoring folds of its tests |
| `Octopus` | `rust/src/day_eleven.rs`: the octopus flash cascade and its steps |
| `Caves` | `rust/src/day_twelve.rs`: cave labels, the symmetric adjacency map, and the path enumerator that lets one small cave be visited twice |
| `Origami` | `rust/src/day_thirteen.rs`: folding a set of dots along a line |
| `Grid` | `rust/src/util.rs`: reflection, the eight compass directions, the bounds-checked `Table`, and `coords_to_table` |
| `Calories`, `CaloriesScript` | `DayOne.java` and `day_one.ts`: grouping calorie lines by empty lines, and the highest and top-three totals |
| `StrategyGuide`, `GameRounds` | the Java day two classes and `day_two.ts`: rock-paper-scissors letters, outcomes, round scores and the two strategy parsers |
| `Rucksacks` | `DayThree.java` and `Rucksack.java`: compartments, item priorities, and the group badges |
| `Wrappers`, `Seqs`, `Strings` | shared helpers: `Option` and `Result`, sums and sorting, splitting and decimal numbers |

How the model handles the source:

- A Rust panic, or a Java or TypeScript exception, becomes an error value:
  `None` or `Failure(message)`, with the source's message where it has one.
- `HashSet` and `HashMap` iteration order is not fixed. Where the result
  depends on it, the model picks an arbitrary element, and the contract holds
  for every choice. The cave paths are returned as a set. No count is lost:
  at each branch the source explores a different neighbour taken from a
  `HashSet`, so the paths it collects in its `Vec` are pairwise distinct.
- Rust's in-place mutation (`&mut self`) becomes a function that returns the
  new state.
- The Java and TypeScript getters sort their list in place. Their model
  returns the sorted list next to the value (`Calories.Reading`).
- `day_nine.rs` declares its own `Table`. Its `new`, `get_elem_at` and
  `insert_row` are the same as those of `util.rs`, so `Basins` uses
  `Grid.Table`, `Grid.GetElemAt` and `Grid.InsertRow`. Only the four-neighbour
  `get_elems_around` is modelled separately.
- The Java and TypeScript solutions of the same day are related by agreement
  lemmas: `GameRounds.ParseRoundAgrees`, `GameRounds.GetRoundTotalAgrees`,
  `CaloriesScript.HighestAgrees` and others.

## Model

| member | source | states |
|---|---|---|
| Sonar.CountIncreases | rust/src/day_one.rs:1-16 | the loop's count is the number of positions i ≥ 1 whose reading exceeds the one before; it is 0 for at most one reading and at most len − 1 otherwise |
| Sonar.CountUpBound | rust/src/day_one.rs:1-16 | over the first n readings there are no increases when n ≤ 1 and at most n − 1 otherwise |
| Sonar.Windows | rust/src/day_one.rs:23-24 | there is one window per start i with i + 2 < len, in order, and each is the sum of readings i, i + 1 and i + 2 |
| Sonar.WindowUpsCount | rust/src/day_one.rs:18-36 | counting rises over the list of window sums is the same as counting the windows whose sum exceeds the previous window's |
| Sonar.CountIncreasesInThrees | rust/src/day_one.rs:18-36 | the loop's count is the number of rises in the sequence of three-window sums, and it is 0 for fewer than four readings |
| Sonar.WindowsAreSkips | rust/src/day_one.rs:24-27 | a window's sum exceeds the previous one exactly when the reading it gains exceeds the reading it loses |
| Sonar.ThreesAreSkips | rust/src/day_one.rs:24-27 | the three-window count equals the number of i with list[i + 3] > list[i] |
| Dive.ParseCommand | rust/src/day_two.rs:15-30 | a line that does not split at spaces into exactly two tokens fails with "too long"; a units token that is not an unsigned number fails with "parse error"; any other keyword than forward, down or up fails with "incorrect command"; a success carries the keyword's command with the parsed units |
| Dive.ParseRender | rust/src/day_two.rs:15-30 | writing a command as `<keyword> <units>` and parsing it gives the command back |
| Dive.ChangePos | rust/src/day_two.rs:42-58 | `forward` adds the units to the horizontal position, `down` adds them to the depth and `up` takes them off it; the aim is untouched |
| Dive.ChangePosAim | rust/src/day_two.rs:60-77 | `down` and `up` move only the aim; `forward` adds the units to the horizontal position and aim times units to the depth |
| Dive.CourseTotals | rust/src/day_two.rs:42-58 | applying `change_pos` from the origin ends at the total forward distance and the downward minus upward distance, with the aim still 0 |
| Dive.AimIsDepth | rust/src/day_two.rs:60-77 | with `change_pos_aim` the horizontal distance is the same as without aim, and the aim ends where the depth ends without aim |
| Diagnostic.Shl | rust/src/day_three.rs:47 | bit i of `x << c` is bit i − c of x, and the bits below c are clear |
| Diagnostic.Shr | rust/src/day_three.rs:56 | bit i of `x >> c` is bit i + c of x, and the bits that come in at the top are clear |
| Diagnostic.NthBit | rust/src/day_three.rs:60-62 | the result is 0 or 1, and it is 1 exactly when bit n of the word is set |
| Diagnostic.NextBit | rust/src/day_three.rs:12-21 | the iterator yields an item exactly while fewer than 64 bits are out, and it keeps its word |
| Diagnostic.BitIterYieldsBits | rust/src/day_three.rs:4-28 | a fresh iterator yields exactly 64 items, and item n is bit n of the word, least significant first |
| Diagnostic.CountsCoverWords | rust/src/day_three.rs:31-40 | at every position, the words with a 0 there plus the words with a 1 there are all the words |
| Diagnostic.AddWord | rust/src/day_three.rs:75-83 | one word adds to the zero count or the one count of each of its first `take` positions, by its bit there, and leaves the other pairs alone |
| Diagnostic.CountBitsPerField | rust/src/day_three.rs:67-85 | fails (the source's index panic) exactly when there is a word and the buffer is shorter than the fields taken; otherwise each pair holds its base counts plus the number of words with a 0 and with a 1 at that position |
| Diagnostic.MajorityBit | rust/src/day_three.rs:46 | 1 exactly when the position has strictly more ones than zeros, so a tie gives 0 |
| Diagnostic.OrBit | rust/src/day_three.rs:47 | or-ing in a 0 or 1 shifted to bit c sets at most bit c and leaves every other bit as it was |
| Diagnostic.CommonLoopBits | rust/src/day_three.rs:42-52 | the loop puts the majority bit of `counts[k]` at bit len − 1 − k for every k and leaves the bits above len clear |
| Diagnostic.GetCommonBits | rust/src/day_three.rs:42-52 | as written, bit len − 1 − k of the result is the majority bit of `counts[k]`, and the bits from len up are 0 |
| Diagnostic.ComplementBit | rust/src/day_three.rs:54-57 | shifting the inverted word up and back down by 64 − len inverts the low len bits and clears the rest |
| Diagnostic.GetLeastCommonBits | rust/src/day_three.rs:54-57 | bit len − 1 − k of the result is the other bit than the majority bit of `counts[k]`, and the bits from len up are 0 |
| Diagnostic.GammaLoopBits | rust/src/day_three.rs:42-52 | the corrected loop puts the majority bit of `counts[k]` at bit k for every k and leaves the bits above len clear |
| Diagnostic.GammaRate | rust/src/day_three.rs:42-52 | corrected: bit k of the result is the majority bit of position k, and the bits from len up are 0 |
| Diagnostic.EpsilonRate | rust/src/day_three.rs:54-57 | corrected: bit k of the result is the minority bit of position k, and the bits from len up are 0 |
| Diagnostic.CommonBitsReversed | rust/src/day_three.rs:42-52 | for the single word 1 over three fields, the as-written common bits differ from the gamma rate: the set bit lands at bit 2 instead of bit 0 |
| Diagnostic.PowerRates | rust/src/day_three.rs:197-201 | the corrected gamma rate has bit k set exactly when more words carry a 1 than a 0 at bit k, the epsilon rate has the opposite bit, and both are clear above the field count |
| Diagnostic.CommonBit | rust/src/day_three.rs:105-109 | the oxygen rating drops the words carrying 1 when the ones are at least the zeros and otherwise the words carrying 0; the CO2 rating drops the 0s when the ones are at least the zeros and otherwise the 1s |
| Diagnostic.Keep | rust/src/day_three.rs:111-114 | the words kept are exactly those whose bit i is not the dropped bit, and there are no more of them than before |
| Diagnostic.KeepCount | rust/src/day_three.rs:111-114 | as many words are kept as carry the other bit at that position |
| Diagnostic.Sieve | rust/src/day_three.rs:97-127 | filtering from bit `cur` down keeps only words of the input |
| Diagnostic.Co2Round | rust/src/day_three.rs:137-146 | a CO2 round keeps a non-empty list non-empty |
| Diagnostic.Co2NeverEmpties | rust/src/day_three.rs:129-157 | the CO2 filtering never runs out of words when it starts with some |
| Diagnostic.OxygenCanEmpty | rust/src/day_three.rs:100-124 | two equal words over one field leave no word: the oxygen rating keeps the minority bit, and when every word carries the same bit that minority is empty |
| Diagnostic.Round | rust/src/day_three.rs:101-114 | one round keeps the words whose bit `cur` is not the rating's common bit, computed from the counts of that round's words |
| Diagnostic.GetRating | rust/src/day_three.rs:97-157 | the result is the first word the filtering leaves, or none (the source's out-of-bounds panic) when none is left; any result is one of the input words |
| Diagnostic.GetOxyRating | rust/src/day_three.rs:97-127 | the oxygen filtering's first remaining word, or none when it empties; any result is one of the input words |
| Diagnostic.GetCo2Rating | rust/src/day_three.rs:129-157 | there is a CO2 rating exactly when there is an input word, and it is one of them |
| Bingo.ToCoords | rust/src/day_four.rs:146-153 | each direction is a unit step along exactly one axis |
| Bingo.MoveCoords | rust/src/day_four.rs:155-159 | moving adds the direction's unit step to the coordinates |
| Bingo.DirectionsExample | rust/src/day_four.rs:428-436 | from (1, 1), Up, Down, Left and Right lead to (1, 2), (1, 0), (0, 1) and (2, 1) |
| Bingo.OppositeDirections | rust/src/day_four.rs:146-159 | Up and Down undo each other, and so do Left and Right |
| Bingo.NewTable | rust/src/day_four.rs:195-212 | a new board has the given id and size, `size` rows of `size` cells all `(0, false)`, an empty search map and no bingo |
| Bingo.GetCell | rust/src/day_four.rs:252-258 | there is a cell exactly when row y exists and has an entry x, and it is that entry |
| Bingo.GetCellCoords | rust/src/day_four.rs:244-246 | a position comes back exactly when the number is in the search map, and it is the recorded one |
| Bingo.WriteCell | rust/src/day_four.rs:218 | writing one cell keeps the shape of the rows and changes only that cell |
| Bingo.Populate | rust/src/day_four.rs:215-222 | entry j of input row i is written, unmarked, to cell (i, j); the search map sends every input number to its last position in the input, since a later insert overwrites an earlier one, and keeps every key it had before; every other cell stays; an entry with no cell to go to is the source's index panic |
| Bingo.RepeatedLastWins | rust/src/day_four.rs:215-222 | populating the one-row input `5 5` maps 5 to its second position (0, 1) |
| Bingo.BuildTable | rust/src/day_four.rs:40-43 | a board built from a row set with a first row of 1 to 127 numbers is a valid board of that size with no bingo, on which every input number can be looked up to a cell holding it; it fails exactly when an input row is longer than the board leaves room for |
| Bingo.FitsSquare | rust/src/day_four.rs:215-222 | an input fits a square board exactly when each input row i has at most as many entries as the board has rows, and none past its last column |
| Bingo.PopulatedValid | rust/src/day_four.rs:215-222 | after populating a fresh board, every search entry points at a cell holding its number, and every input number has one |
| Bingo.CheckTowards | rust/src/day_four.rs:316-340 | the walk returns at least the amount it started with and at most that plus the steps left to the edge |
| Bingo.CheckTowardsMarked | rust/src/day_four.rs:316-340 | every cell the walk counts is on the board and marked |
| Bingo.CheckTowardsStops | rust/src/day_four.rs:316-340 | the cell just past the counted run is unmarked or off the board |
| Bingo.CheckTowardsUnfold | rust/src/day_four.rs:323-339 | a marked next cell continues the walk with one more; an unmarked or off-board next cell ends it at the amount so far |
| Bingo.WalkToEdge | rust/src/day_four.rs:316-340 | the walk reaches the edge exactly when every cell on the way is marked |
| Bingo.RowReaches | rust/src/day_four.rs:290-301 | a row is full exactly when a cell on it is marked and every cell left and right of it is too |
| Bingo.ColReaches | rust/src/day_four.rs:303-314 | a column is full exactly when a cell on it is marked and every cell above and below it is too |
| Bingo.CheckHorizontal | rust/src/day_four.rs:290-301 | the run through a cell along its row is never longer than the board |
| Bingo.CheckVertical | rust/src/day_four.rs:303-314 | the run through a cell along its column is never longer than the board |
| Bingo.HorizontalFull | rust/src/day_four.rs:290-301 | the row run through a cell equals the board size exactly when its row is fully marked |
| Bingo.VerticalFull | rust/src/day_four.rs:303-314 | the column run through a cell equals the board size exactly when its column is fully marked |
| Bingo.CheckForBingo | rust/src/day_four.rs:279-288 | the board gets a bingo exactly when it had one or the cell's row or column is fully marked; nothing else changes |
| Bingo.SetCell | rust/src/day_four.rs:264-277 | off the board it fails with "could not set cell"; on the board only that cell's mark changes, and the board has a bingo exactly when it had one or the cell's row or column is now full; a valid search map stays valid |
| Bingo.WithMark | rust/src/day_four.rs:267 | setting a mark changes that cell's mark only and keeps the number, the size, the search map and the bingo flag |
| Bingo.ScoreWrite | rust/src/day_four.rs:224-230 | replacing a cell changes the sum of unmarked numbers by what the two cells add |
| Bingo.CalculateScore | rust/src/day_four.rs:224-230 | the sum of the unmarked numbers is 0 exactly when every cell is marked or holds 0 |
| Bingo.ScoreAllMarked | rust/src/day_four.rs:224-230 | a board with every cell marked scores 0 |
| Bingo.MarkDraw | rust/src/day_four.rs:77-80 | drawing a number keeps the board valid with the same id, size and search map, and never loses a bingo |
| Bingo.DrawIsMark | rust/src/day_four.rs:77-80 | looking the number up and setting its cell, which cannot fail on a valid board, is the draw's effect |
| Bingo.MarkDrawScore | rust/src/day_four.rs:224-230 | drawing a number lowers the score by that number when it is on the board and not yet marked, and leaves it alone otherwise |
| Bingo.After | rust/src/day_four.rs:75-80 | a valid board stays valid with the same id, size and search map through any draws |
| Bingo.AfterKeepsBingo | rust/src/day_four.rs:267-287 | once a board has a bingo it keeps it through all later draws |
| Bingo.MarkAll | rust/src/day_four.rs:76-80 | every board takes the draw, in order |
| Bingo.DrawNumber | rust/src/day_four.rs:77-80 | one board takes one draw |
| Bingo.ProcessBingo | rust/src/day_four.rs:74-91 | a result names the first (draw, board) pair to reach a bingo, draws in order and boards in order within a draw, and the answer is that board's unmarked sum times the draw; with no win anywhere the answer is 0 |
| Bingo.NoWins | rust/src/day_four.rs:74-91 | a game in which no board wins by the last draw has no win at all |
| Bingo.LastWinUnique | rust/src/day_four.rs:93-122 | there is at most one last winner and one draw at which it wins |
| Bingo.NoLaterLast | rust/src/day_four.rs:93-122 | after the last win every board has a bingo |
| Bingo.RemoveIsUnwon | rust/src/day_four.rs:96-100 | removing exactly the ids of the boards with a bingo leaves the boards without one, in order |
| Bingo.SelectUnwon | rust/src/day_four.rs:93-122 | as bingos are kept, dropping the boards that have just won from those that had not leaves the boards unwon now |
| Bingo.UnwonIds | rust/src/day_four.rs:97 | the boards still in play keep their ids in increasing order, so the binary search by id finds them |
| Bingo.PlayDraw | rust/src/day_four.rs:102-118 | every board in play takes the draw; with one board left a bingo makes it the last winner; otherwise the boards that won are exactly those listed for removal |
| Bingo.PlayRound | rust/src/day_four.rs:95-118 | one draw of the last-winner game either finds the last winner, with its score times the draw, or leaves in play exactly the boards still without a bingo |
| Bingo.ProcessLeastBingo | rust/src/day_four.rs:93-122 | a result names the board that wins last, with its unmarked sum times the draw that completed it; 0 means no board ever wins last |
| Vents.Compare | rust/src/day_five.rs:44-46 | the ordering is Less, Equal or Greater exactly as the first coordinate is below, equal to or above the second |
| Vents.DeltaBetween | rust/src/day_five.rs:28-30 | each component of the difference is 0 exactly when the two points agree on that axis |
| Vents.DeltaSymmetric | rust/src/day_five.rs:28-30 | the difference is the same in both directions, and its components agree exactly when the absolute differences do |
| Vents.IsLevel | rust/src/day_five.rs:32-41 | two points are level exactly when they share an x or a y |
| Vents.Shift | rust/src/day_five.rs:15-25 | one axis moves up by the step when the target is above, down when it is below, and stays when it is there |
| Vents.MoveTowards | rust/src/day_five.rs:13-26 | both axes move independently toward the target by the step |
| Vents.MoveCloser | rust/src/day_five.rs:13-26 | with step 1, every axis that differs gets exactly one closer and an axis already at the target stays there |
| Vents.NewVector | rust/src/day_five.rs:58-65 | a new vector has the given ends and step and has not started iterating |
| Vents.Is45Deg | rust/src/day_five.rs:71-75 | a vector is at 45° exactly when both absolute differences are equal and non-zero, and such a vector is never level |
| Vents.Next | rust/src/day_five.rs:97-118 | the first call yields the tail; a call at the head yields nothing and resets the position; every yielded point is the new position, and the ends and step never change |
| Vents.Walk | rust/src/day_five.rs:97-118 | the reference description of a straight vector's points: one per unit step plus one, point k being k steps from the tail toward the head |
| Vents.StepAt | rust/src/day_five.rs:112-115 | on a straight vector, moving the k-th point toward the head gives the next one, and no point before the last is the head |
| Vents.EndAt | rust/src/day_five.rs:103 | the last point of a straight vector's walk is its head |
| Vents.WalkDistinct | rust/src/day_five.rs:97-118 | no point of a walk repeats |
| Vents.Points | rust/src/day_five.rs:97-118 | iterating a fresh level or 45° vector yields its walk, tail first and head last, and leaves it reset; any other vector yields only its tail and is left standing there |
| Vents.WalkOnce | rust/src/day_five.rs:97-118 | a point occurs in a walk at most once |
| Vents.AddPoints | rust/src/day_five.rs:157-164 | each yielded point's count goes up by the number of times it is yielded, other counts are untouched, and every stored count is positive |
| Vents.PopulateMap | rust/src/day_five.rs:154-166 | after clearing and iterating every stored vector, each point's count is the number of vectors whose walk passes through it, a point is in the map exactly when some walk passes through it, and the vectors are left as they were, so running it again recounts from scratch |
| Vents.ThroughPositive | rust/src/day_five.rs:154-166 | a point's count is positive exactly when some vector's walk passes through it |
| Vents.ParseNumbers | rust/src/day_five.rs:80-86 | the numbers of a point parse exactly when every comma-separated field is an integer, one number per field in order |
| Vents.ParseCoord | rust/src/day_five.rs:87 | a point is its first two numbers, and fewer than two is the source's index panic |
| Vents.ParseCoordString | rust/src/day_five.rs:80-87 | writing a point as `x,y` and reading it gives the point back |
| Vents.FromString | rust/src/day_five.rs:77-91 | a line parses exactly when it has at least two " -> " parts and every part is a point; the vector runs from the first point (head) to the second (tail) with step 1, and further parts are ignored |
| Vents.ParseRender | rust/src/day_five.rs:77-91 | writing two points as "x1,y1 -> x2,y2" and parsing the line gives the vector between them back |
| Vents.FromLines | rust/src/day_five.rs:135-148 | the result is every line parsed in order with only the level and 45° vectors kept, in line order and duplicates included; the lines parse exactly when each one does; each kept vector is fresh with step 1 |
| Vents.ParseAll | rust/src/day_five.rs:140-141 | the reference parse of all lines: it succeeds exactly when every line parses, and then holds line i's vector at index i |
| Vents.StraightOnes | rust/src/day_five.rs:143-145 | the reference filter keeps no more vectors than it is given |
| Vents.StraightOnesSnoc | rust/src/day_five.rs:140-146 | one more vector at the end adds itself to the filtered list exactly when it is level or 45° |
| Vents.StraightOnesCount | rust/src/day_five.rs:143-145 | the filter keeps every copy of a level or 45° vector and no copy of any other |
| Vents.KeepParsedIsFilter | rust/src/day_five.rs:140-146 | parsing line by line while filtering equals parsing every line and then filtering, failure included |
| Vents.FromLinesCounts | rust/src/day_five.rs:135-148 | each vector occurs in the kept list as often as it occurs among the parsed lines if it is level or 45°, and never otherwise |
| Lanternfish.NewFish | rust/src/day_six.rs:11-16 | a new fish has the given timer and is not spawning |
| Lanternfish.Dec | rust/src/day_six.rs:18-23 | the timer drops by one, and the fish is spawning afterwards exactly when it already was or the timer has just reached 0 |
| Lanternfish.SetTimer | rust/src/day_six.rs:25-32 | the timer is the given value, and the fish is spawning exactly when it is 0 |
| Lanternfish.Tick | rust/src/day_six.rs:87-95 | a fish at 0 restarts at 6 and any other counts down by one, so a timer up to 6 stays on the seven-day cycle and a newborn's timer drops by one; the fish is spawning afterwards exactly when it was or its timer was 1 |
| Lanternfish.DecRecur | rust/src/day_six.rs:84-102 | splitting the list in halves, every fish takes one day's tick in place (a fish at 0 goes to 6, any other counts down), and the result is the number of fish that were at 0 |
| Lanternfish.Halves | rust/src/day_six.rs:96-100 | ticking and counting the two halves separately is the same as ticking and counting the whole list |
| Lanternfish.Born | rust/src/day_six.rs:76-78 | n new fish, each with timer 8 |
| Lanternfish.Day | rust/src/day_six.rs:74-78 | one day adds exactly one fish per fish that was at 0 |
| Lanternfish.DayAppends | rust/src/day_six.rs:74-78 | after one day the old fish have ticked in place and every fish behind them is new with timer 8 |
| Lanternfish.Process | rust/src/day_six.rs:57-82 | the school never shrinks over the days, and timers from 0 to 8 stay from 0 to 8, so the count-down never reaches below 0 |
| Lanternfish.DayKeepsTimers | rust/src/day_six.rs:74-78 | a day keeps every timer in 0..8 |
| Lanternfish.TickCounts | rust/src/day_six.rs:84-102 | after a tick, the number of fish at timer t is the number that were at t + 1, plus, for t = 6, those that were at 0 |
| Lanternfish.DayCounts | rust/src/day_six.rs:74-78 | counted by timer a day is a rotation: the fish at 0 reappear at 6 and as new fish at 8, every other count moves down one timer |
| Crabs.CostAppend | rust/src/day_seven.rs:36-40 | the fuel of two groups of crabs is the sum of their fuels |
| Crabs.Cost | rust/src/day_seven.rs:36-40 | the fuel for no crabs is 0, and the total is at least each crab's own fuel to the position |
| Crabs.CostPermutation | rust/src/day_seven.rs:31-40 | the fuel to a meeting point does not depend on the order of the crabs, so sorting them first changes nothing |
| Crabs.CostAllSame | rust/src/day_seven.rs:36-40 | crabs that all sit at one position need no fuel to stay there |
| Crabs.MaxOf | rust/src/day_seven.rs:32 | the largest position is one of the positions and no position exceeds it |
| Crabs.Cheapest | rust/src/day_seven.rs:32-47 | the point returned is in 0 ..= hi, its fuel is the growing cost `d(d+1)/2` summed over the crabs, and no point in that range is cheaper |
| Crabs.GetAllPossibleVals | rust/src/day_seven.rs:30-48 | the positions are left sorted and permuted; an empty list is the source's index panic; otherwise the point returned lies in 0 ..= twice the largest position, its fuel is the growing cost to it, and no point in that range needs less |
| Crabs.CountPositions | rust/src/day_seven.rs:51-62 | the map has exactly the crabs' positions as keys, each with the number of crabs there |
| Crabs.Count | rust/src/day_seven.rs:51-62 | the count of a position is its multiplicity among the crabs |
| Crabs.MostFrequent | rust/src/day_seven.rs:64-69 | the position picked is a crab's position whose count no other crab's position exceeds |
| Crabs.LinearFuel | rust/src/day_seven.rs:70-76 | the fuel is the sum of the crabs' distances to the position |
| Crabs.GetEfficientCrabs | rust/src/day_seven.rs:50-77 | an empty list is the source's index panic; otherwise the position is a most frequent crab position and the result is the linear fuel to gather there |
| Crabs.AllSameFree | rust/src/day_seven.rs:30-77 | when every crab shares one position, both kinds of fuel to it are 0 |
| Segments.SegmentsAreBits | rust/src/day_eight.rs:7-13 | segment k is the single bit `1 << k`, and no two segments share a bit |
| Segments.Segment | rust/src/day_eight.rs:7-13 | the k-th segment constant is the bit `1 << k` |
| Segments.DigitMasksDistinct | rust/src/day_eight.rs:30-39 | the ten digit masks are pairwise different and none uses the eighth bit |
| Segments.DisplayAsInt | rust/src/day_eight.rs:41-60 | a decoded digit is below 10 and its mask is the value decoded; any other value is the "unsupported number" panic |
| Segments.DisplayRoundTrip | rust/src/day_eight.rs:41-60 | every digit's mask decodes to that digit |
| Segments.DisplayOnlyDigits | rust/src/day_eight.rs:56-58 | a value fails to decode exactly when it is none of the ten masks |
| Segments.NthBit | rust/src/day_eight.rs:84-86 | the bit read from a byte is 0 or 1 |
| Segments.NextBit | rust/src/day_eight.rs:71-80 | the iterator yields an item exactly while fewer than 8 bits are out, and it keeps its byte |
| Segments.ItemsFrom | rust/src/day_eight.rs:71-80 | from bit position c the iterator yields 8 − c items, the k-th being bit c + k |
| Segments.BitIterYieldsBits | rust/src/day_eight.rs:62-91 | a fresh iterator yields the byte's 8 bits, least significant first; for the byte 1 that is a 1 followed by seven 0s |
| Segments.XorString | rust/src/day_eight.rs:111-121 | the result keeps exactly the characters of the first string that do not occur in the second, so it is never longer |
| Segments.XorAppend | rust/src/day_eight.rs:111-121 | filtering distributes over concatenation, so the kept characters keep their order |
| Segments.XorMultiset | rust/src/day_eight.rs:111-121 | a kept character keeps all its occurrences, a removed one keeps none |
| Segments.XorNothing | rust/src/day_eight.rs:111-121 | removing the characters of the empty string keeps everything |
| Segments.XorTwice | rust/src/day_eight.rs:111-121 | removing the same characters twice is removing them once |
| Segments.HoldingPermutation | rust/src/day_eight.rs:124-139 | how many strings contain a character does not depend on the order of the strings, so sorting them first changes no count |
| Segments.CountCharsInStrings | rust/src/day_eight.rs:124-139 | one pair per character of `chars`, in order: the character and the number of strings that contain it, which is at most the number of strings |
| Segments.FindKey | rust/src/day_eight.rs:384 | the binary search finds an index holding the key, or the key is absent |
| Segments.InsertKey | rust/src/day_eight.rs:387-388 | pushing a new key with count 1 and re-sorting keeps the keys distinct and ascending, adds exactly that key and keeps every other pair |
| Segments.ElemCountInVec | rust/src/day_eight.rs:382-393 | the result lists each distinct element of the input once, in ascending order, with its number of occurrences, and the counts add up to the input's length |
| Segments.CountOne | rust/src/day_eight.rs:383-391 | one step of the fold keeps the accumulator a tally of what it has read, with one more element counted |
| Segments.SortByLength | rust/src/day_eight.rs:193 | the patterns come back ordered by length and permuted |
| Segments.SortIsStable | rust/src/day_eight.rs:193 | patterns of the same length keep their relative order, as `sort_by` is stable |
| Segments.Resolve | rust/src/day_eight.rs:275-287 | of two counted characters, the one found in fewer patterns gets the first segment; equal counts are the "malformed input" panic and fewer than two characters the index panic |
| Segments.FirstSingle | rust/src/day_eight.rs:228-233 | a character is found exactly when some count is at most 1, and it is the first such one |
| Segments.SegmentA | rust/src/day_eight.rs:222-236 | the character found for segment a occurs at most once in the seven's and the one's patterns put together |
| Segments.Deduce | rust/src/day_eight.rs:222-340 | any wiring found needs ten patterns; the c/f, e/g and b/d pairs are each two different letters, the first of each held by fewer patterns; c and f are the one's, e, g, b and d are the eight's, and of those b and d are the four's while e and g are not |
| Segments.Construct | rust/src/day_eight.rs:192-378 | construction fails exactly when the deductions on the length-sorted patterns do; it needs ten patterns and adds the seven wires to the known letters |
| Segments.Record | rust/src/day_eight.rs:236-335 | recording a wiring adds its seven letters to the known map, the last insert putting d's letter on segment d |
| Segments.SegmentSum | rust/src/day_eight.rs:142-145 | a sum is only produced when every character of the string is known; an unknown one is the `unwrap` panic and passing 255 the `u8` overflow |
| Segments.StringToNumber | rust/src/day_eight.rs:141-146 | the digit read is below 10 and its mask is the string's segment sum, and every sum that is a digit mask is read |
| Segments.NewSegmentMap | rust/src/day_eight.rs:15-27 | the letters a to g, each on its own segment in order |
| Segments.NewDisplay | rust/src/day_eight.rs:102-108 | a fresh display has the letter map and no known wires |
| SegmentsWiring.DigitSegmentsMatchMasks | rust/src/day_eight.rs:30-39 | the table of lit segments per digit agrees bit by bit with the digit masks |
| SegmentsWiring.LengthTable | rust/src/day_eight.rs:30-39 | each digit lights between 2 and 7 segments |
| SegmentsWiring.HoldingWire | rust/src/day_eight.rs:272 | on a scrambled set of the ten digits, the patterns holding a segment's letter are exactly the digits lighting that segment |
| SegmentsWiring.SortedPattern | rust/src/day_eight.rs:193 | each pattern after the sort by length is some digit's wires, of that digit's length |
| SegmentsWiring.FirstIsOne | rust/src/day_eight.rs:217-221 | after sorting, the first pattern is the one |
| SegmentsWiring.SecondIsSeven | rust/src/day_eight.rs:217-221 | the second is the seven |
| SegmentsWiring.ThirdIsFour | rust/src/day_eight.rs:217-221 | the third is the four |
| SegmentsWiring.LastIsEight | rust/src/day_eight.rs:298-301 | the last is the eight |
| SegmentsWiring.FindsA | rust/src/day_eight.rs:222-233 | seven and one together hold a's letter once and c's and f's twice, so the first letter counted at most once is a's |
| SegmentsWiring.ResolvesPair | rust/src/day_eight.rs:272-287 | two different letters held by different numbers of patterns are told apart, the rarer one first |
| SegmentsWiring.FindsEg | rust/src/day_eight.rs:298-301 | eight without four and a leaves the letters of e and g |
| SegmentsWiring.FindsBd | rust/src/day_eight.rs:318-325 | eight without e, g, a and one leaves the letters of b and d |
| SegmentsWiring.DeduceFindsWiring | rust/src/day_eight.rs:192-340 | on any scrambled set of the ten digits the deductions recover the true wiring |
| SegmentsWiring.ConstructFindsWiring | rust/src/day_eight.rs:192-378 | on any scrambled set of the ten digits `construct` succeeds and puts each wire on its own segment |
| SegmentsWiring.WiredTotal | rust/src/day_eight.rs:141-146 | once each wire is on its own segment, the letters wired to a digit add up to its mask |
| SegmentsWiring.ReadsDigit | rust/src/day_eight.rs:141-146 | then any arrangement of a digit's letters reads as that digit |
| SegmentsWiring.ConstructThenRead | rust/src/day_eight.rs:141-378 | after `construct` on a scrambled set of the ten digits, any arrangement of a digit's letters reads as that digit |
| SegmentsWiring.ExampleScrambled | rust/src/day_eight.rs:443-446 | the test's ten patterns are a scrambling of the ten digits |
| SegmentsWiring.ExampleOutput | rust/src/day_eight.rs:440-459 | from a fresh display, the test's patterns construct and its outputs "cdfeb", "fcadb" and "cdbaf" read as 5, 3 and 3 |
| Caves.FromString | rust/src/day_twelve.rs:11-56 | a parsed cave is written with the label it was parsed from and is well named; parsing fails exactly when the label is not `start` or `end` and has both cases or no letter, with "empty string" exactly when it has no upper-case letter (so none at all) and "incorrect string type" when it has both |
| Caves.FromStringLabel | rust/src/day_twelve.rs:44-56 | parsing a well-named cave's label gives the cave back |
| Caves.NodeParsingExamples | rust/src/day_twelve.rs:273-279 | "start", "end", "A" and "b" parse as the start, the end, the big cave A and the small cave b |
| Caves.SymmetricIsClosed | rust/src/day_twelve.rs:120-123 | in a map whose links all go both ways every linked cave has an entry, so the lookup at line 194 cannot fail |
| Caves.New | rust/src/day_twelve.rs:78-82 | a new system has no links |
| Caves.RegisterEdge | rust/src/day_twelve.rs:125-133 | registering `a -> b` adds `a`'s entry if it was missing and adds exactly that one directed link |
| Caves.InsertPair | rust/src/day_twelve.rs:120-123 | inserting a pair adds both caves' entries and exactly the link both ways, and keeps a symmetric map symmetric |
| Caves.InsertPairIdempotent | rust/src/day_twelve.rs:120-133 | inserting the same pair twice changes nothing the second time |
| Caves.InsertPairCommutes | rust/src/day_twelve.rs:120-123 | the order of the two caves of a pair does not matter |
| Caves.ParseEdge | rust/src/day_twelve.rs:100-115 | a line parses exactly when it splits at `-` into two labels that both parse, and it is then those two labels written around a `-`; fewer than two pieces is a missing cave, more than two is too many; both caves are well named |
| Caves.ParseEdgeLabels | rust/src/day_twelve.rs:100-115 | writing two well-named caves around a `-` and reading the line gives the same two caves back |
| Caves.InsertFromString | rust/src/day_twelve.rs:100-118 | a line is inserted exactly when it parses, and then it inserts the pair it names |
| Caves.ParseEdges | rust/src/day_twelve.rs:89-91 | one link per line |
| Caves.FromLines | rust/src/day_twelve.rs:84-94 | building a system fails exactly when a line does not parse, with that line's error; a system built has its links both ways and exactly the links the lines name |
| Caves.EdgesFromInsert | rust/src/day_twelve.rs:89-91 | inserting one more line's pair adds exactly that link, both ways |
| Caves.Visit | rust/src/day_twelve.rs:169-186 | entering a cave appends it to the path |
| Caves.VisitShrinks | rust/src/day_twelve.rs:169-219 | each step of the search makes progress: it counts a new small cave, raises the flag, or enters a big cave whose neighbours are all small |
| Caves.ExploreFrom | rust/src/day_twelve.rs:169-219 | every path found extends the current path through the cave entered and ends at `end` |
| Caves.ExploreFromStart | rust/src/day_twelve.rs:157-167 | a system without a start or an end is the "cannot explore" panic; otherwise a path is found exactly when it runs from `start` to `end` along links, never returns to `start`, and enters small caves at most twice with at most one of them twice |
| Caves.VisitLedger | rust/src/day_twelve.rs:172-186 | the ledger counts exactly the small caves on the path and the flag says whether one is on it twice, as long as a small cave is entered at most twice and not again once the flag is up |
| Caves.StepKeepsInv | rust/src/day_twelve.rs:204-216 | stepping from a cave into a neighbour the filter lets through keeps the path a valid start of a walk, with the ledger in step |
| Caves.AdmissibleKeepsVisits | rust/src/day_twelve.rs:204-208 | the filter only lets through caves that keep the visit limit |
| Caves.AdmissibleNext | rust/src/day_twelve.rs:204-208 | every cave other than `start` that keeps the visit limit is let through by the filter |
| Caves.ExploreSound | rust/src/day_twelve.rs:169-219 | every path the search returns is a valid path |
| Caves.ExploreComplete | rust/src/day_twelve.rs:169-219 | every valid path extending the current path through the cave entered is found |
| Caves.ExploreFindsExactlyValidPaths | rust/src/day_twelve.rs:157-219 | from `start` with a fresh traverser, the search finds exactly the valid paths |
| Grid.Reflect | rust/src/util.rs:20-25 | the mirror image keeps the other coordinate and lies as far beyond the line as the point lies before it |
| Grid.ReflectInvolution | rust/src/util.rs:20-25 | reflecting twice gives the point back, the points on the line are the only ones left in place, and a point before the line lands beyond it and vice versa |
| Grid.AxisFromChar | rust/src/util.rs:27-35 | only 'x' and 'y' are axes, 'x' the X axis; any other character is the "unsupported" panic |
| Grid.ToCoords | rust/src/util.rs:53-64 | each direction is a non-zero unit offset; the northern ones lower `y`, the southern ones raise it, the western ones lower `x` and the eastern ones raise it |
| Grid.MoveCoords | rust/src/util.rs:66-70 | moving adds the direction's offset to the coordinates |
| Grid.DirectionsCoverNeighbours | rust/src/util.rs:53-64 | the eight offsets are pairwise different, each leads to an 8-neighbour, and every 8-neighbour is reached by one of them |
| Grid.NewTable | rust/src/util.rs:96-101 | a new table has no rows |
| Grid.InsertRow | rust/src/util.rs:169-179 | a row is appended exactly when it is the first or has the width of the first, which then fixes the width; a row of another length is the "inequal row size" panic |
| Grid.GetElemAt | rust/src/util.rs:103-139 | a cell comes back exactly when the coordinates lie within the width and the row count, and it is the cell at row y, column x |
| Grid.SetElemAt | rust/src/util.rs:108-122 | writing through the mutable reference succeeds exactly inside the table, changes only that cell and keeps the shape |
| Grid.RectFacts | rust/src/util.rs:103-106 | the rectangle of width w and height h holds exactly the cells with 0 ≤ x < w and 0 ≤ y < h, w·h of them |
| Grid.CellsCard | rust/src/util.rs:103-106 | a table has width times row count in-bounds cells |
| Grid.GetElemsAround | rust/src/util.rs:141-167 | eight entries, in the order N, S, W, E, NW, NE, SW, SE; each is the neighbour's cell and coordinates when it lies inside the table and none otherwise |
| Grid.ElemsAroundAreNeighbours | rust/src/util.rs:141-167 | the coordinates listed are exactly the in-bounds 8-neighbours of the cell |
| Grid.MaxX | rust/src/util.rs:207-208 | the first coordinate found is one of the coordinates' and no coordinate exceeds it |
| Grid.MaxY | rust/src/util.rs:211-212 | the second coordinate found is one of the coordinates' and no coordinate exceeds it |
| Grid.BlankRows | rust/src/util.rs:214-218 | n rows of `width` empty cells, the width fixed by the first row |
| Grid.MarkAll | rust/src/util.rs:220-222 | writing the mark at each coordinate fails exactly when one lies outside the table (the `unwrap` panic); otherwise each cell holds the mark when listed and is unchanged otherwise |
| Grid.CoordsToTable | rust/src/util.rs:203-225 | an empty list or a negative coordinate is an error; otherwise the table spans 0 ..= max x by 0 ..= max y and holds the mark exactly at the listed coordinates and the empty character everywhere else |
| Octopus.Zeros | rust/src/day_eleven.rs:82-84 | the cells at energy 0 |
| Octopus.Charged | rust/src/day_eleven.rs:33-36 | every octopus one higher, shape kept |
| Octopus.ChargeOctopi | rust/src/day_eleven.rs:32-44 | every octopus gains one, the overcharged set gains exactly the octopi now above 9, and the flashed set and counter are unchanged |
| Octopus.Neighbours | rust/src/day_eleven.rs:55-61 | the cells a flash charges all lie inside the grid |
| Octopus.NeighboursAreAround | rust/src/day_eleven.rs:55-61 | those cells are the present entries of `get_elems_around`, in its order |
| Octopus.NeighbourCount | rust/src/day_eleven.rs:55-61 | each in-bounds 8-neighbour is charged exactly once per flash and nothing else is charged |
| Octopus.Lit | rust/src/day_eleven.rs:51-52 | flashing records the octopus in the flashed set and leaves the grid as it is |
| Octopus.FlashOctopus | rust/src/day_eleven.rs:46-72 | after the cascade the octopus is flashed, the flashed set only grows, the counter grows by exactly as many octopi as joined the flashed set, and the overcharged set is unchanged |
| Octopus.FlashUnfold | rust/src/day_eleven.rs:46-72 | an octopus not yet flashed is recorded and then its neighbours are charged in order |
| Octopus.Bump | rust/src/day_eleven.rs:64-66 | charging one octopus raises it by one and leaves the others and the working sets alone |
| Octopus.ChargeNeighbours | rust/src/day_eleven.rs:63-71 | charging the listed cells keeps the shape, only grows the flashed set and grows the counter with it |
| Octopus.Step | rust/src/day_eleven.rs:64-70 | charging a cell and flashing it when above 9 keeps the shape, only grows the flashed set and grows the counter with it |
| Octopus.FlashEnergy | rust/src/day_eleven.rs:46-72 | a cascade raises every octopus by the number of its neighbours that flashed during it |
| Octopus.ChargeEnergy | rust/src/day_eleven.rs:63-71 | charging a list raises each octopus by the number of times it is listed plus its neighbours that flashed meanwhile |
| Octopus.FlashHot | rust/src/day_eleven.rs:46-72 | flashed octopi stay above 9 until the step ends |
| Octopus.FlashSettled | rust/src/day_eleven.rs:46-72 | a cascade leaves no octopus above 9 unflashed unless it was already there untouched |
| Octopus.FlashOvercharged | rust/src/day_eleven.rs:78-80 | flashing every overcharged octopus, in any order, flashes all of them and keeps energies equal to the charged energy plus flashed neighbours |
| Octopus.StepOutcomes | rust/src/day_eleven.rs:74-88 | after the flash loop and the reset, the octopi at 0 are exactly the flashed ones, each being one whose energy plus one plus its flashed neighbours exceeds 9, and every other octopus holds that sum, at most 9 |
| Octopus.FlashWithin | rust/src/day_eleven.rs:46-72 | a cascade started at an octopus of a set closed under ignition flashes only octopi of that set |
| Octopus.FlashSetLeast | rust/src/day_eleven.rs:74-80 | the reference flash set, defined without the source's loop, is a fixed point of ignition (flash when energy plus one plus flashing neighbours exceeds 9) and lies inside every set that ignition does not leave |
| Octopus.NextEnergy | rust/src/day_eleven.rs:74-88 | in the reference next grid an octopus of the flash set is at 0 and any other holds its energy plus one plus its flashing neighbours |
| Octopus.LeastIsFlashSet | rust/src/day_eleven.rs:74-80 | a set of in-bounds octopi that meets the ignition rule and lies inside every closed set is the reference flash set |
| Octopus.StepIsNext | rust/src/day_eleven.rs:74-88 | the flashed set of the step loop is the reference flash set, and the grid after the reset is the reference next grid |
| Octopus.Drain | rust/src/day_eleven.rs:83 | resetting sets that octopus to 0 and leaves the rest alone |
| Octopus.DrainFlashed | rust/src/day_eleven.rs:82-84 | every flashed octopus is at 0 afterwards and every other keeps its energy |
| Octopus.ProcessOctopi | rust/src/day_eleven.rs:74-88 | one step ends at rest with every octopus at most 9; the octopi at 0 are exactly those whose energy plus one plus the number of neighbours at 0 exceeds 9, the others hold that sum, and the counter grows by the number at 0; the octopi at 0 lie inside every set closed under that rule, so they are the reference flash set and the grid is the reference next grid |
| Octopus.IterateNext | rust/src/day_eleven.rs:90-94 | k + 1 reference steps are one reference step after k steps |
| Octopus.ProcessNTimes | rust/src/day_eleven.rs:90-94 | n steps give the reference grid after n steps and grow the counter by the reference flash total, which is at most one per octopus and step; after at least one step every octopus is at most 9 |
| Octopus.SyncedIsDark | rust/src/day_eleven.rs:98 | a step that starts from a zero counter flashes `row_size * rows.len()` octopi exactly when every octopus ends at 0 |
| Octopus.SyncedCount | rust/src/day_eleven.rs:98 | a step flashes `row_size * rows.len()` octopi exactly when its flash set is the whole grid |
| Octopus.FirstSyncIn | rust/src/day_eleven.rs:96-105 | a found index is the first grid from i on whose step flashes the whole grid; none found means no such grid from i on |
| Octopus.FirstSyncIsFirst | rust/src/day_eleven.rs:96-105 | the reference search returns the first k below the fuel whose k-th grid flashes entirely in its step, and none means no k below the fuel does |
| Octopus.FirstSyncNone | rust/src/day_eleven.rs:96-105 | when no step below the fuel flashes the whole grid, the reference search finds none |
| Octopus.FirstSyncAt | rust/src/day_eleven.rs:96-105 | when step n - 1 is below the fuel, flashes the whole grid and no earlier step does, the reference search finds exactly n - 1 |
| Octopus.ProcessUntilSync | rust/src/day_eleven.rs:96-105 | an empty grid has no `row_size` to compare with (the `unwrap` panic); a counter that already covers the grid returns 0 steps; otherwise the step count is one more than the reference search's first synchronising step, and the search finding none within the fuel means none is returned; a returned count is at most the fuel, the grid is then the reference grid after that many steps, all at 0 when the count is positive |
| Origami.BeyondDots | rust/src/day_thirteen.rs:72-85 | the dots the fold moves are exactly the dots strictly past the line on the fold's axis |
| Origami.FoldAcross | rust/src/day_thirteen.rs:79-91 | removing each dot past the line and inserting its reflection, in whatever order the set yields them, gives the dots up to the line plus the mirror images of the dots past it |
| Origami.FoldOne | rust/src/day_thirteen.rs:87-90 | moving one more dot past the line onto its mirror image extends the partial fold by that dot |
| Origami.FoldMembership | rust/src/day_thirteen.rs:79-91 | a point holds a dot after the fold exactly when it held one and is not past the line, or its reflection held one past the line |
| Origami.FoldLeavesNothingBeyond | rust/src/day_thirteen.rs:79-91 | after a fold no dot lies past the line, and every dot that was up to the line is still there |
| Origami.ImageNoLarger | rust/src/day_thirteen.rs:89 | reflecting a set of dots never makes more dots |
| Origami.FoldNoMoreDots | rust/src/day_thirteen.rs:79-91 | a fold never increases the number of dots; coinciding images merge |
| Origami.ApplyFoldsSnoc | rust/src/day_thirteen.rs:98-103 | applying one more instruction folds the result of the earlier ones |
| Origami.ApplyFoldsNoMoreDots | rust/src/day_thirteen.rs:98-103 | no sequence of folds increases the number of dots |
| Origami.FoldAgainstNInstructions | rust/src/day_thirteen.rs:93-104 | asking for more folds than there are instructions is the panic, and exactly then; otherwise the first n instructions are folded in order and the instructions are kept |
| Origami.FoldAll | rust/src/day_thirteen.rs:106-108 | folding every instruction in order, ending with no more dots than at the start |
| Basins.Probes | rust/src/day_nine.rs:35-40 | the four probe points are exactly the 4-neighbours of the cell |
| Basins.Probe | rust/src/day_nine.rs:21-33 | a probe finds the height and coordinate exactly when the point lies inside the table |
| Basins.GetElemsAround | rust/src/day_nine.rs:35-47 | four entries, up, down, left, right, each the probe of that neighbour |
| Basins.ElemsAroundAreNeighbours | rust/src/day_nine.rs:35-47 | the present entries are exactly the in-bounds 4-neighbours |
| Basins.ComparePoints | rust/src/day_nine.rs:83-90 | true exactly when every present neighbour is strictly higher, so a cell with no neighbours passes |
| Basins.LowPointIff | rust/src/day_nine.rs:83-117 | a cell is a low point exactly when each in-bounds 4-neighbour is strictly higher |
| Basins.LowsInRow | rust/src/day_nine.rs:97-111 | the low points of one row from a column on, left to right, and no others |
| Basins.LowHere | rust/src/day_nine.rs:100-110 | the single cell reported as a low point exactly when it is one |
| Basins.LowsInRowCons | rust/src/day_nine.rs:97-111 | scanning one more column adds exactly that cell's low point |
| Basins.LowsFrom | rust/src/day_nine.rs:92-117 | the low points of the rows from one on, in row-major order, and no others |
| Basins.GetLowPoints | rust/src/day_nine.rs:92-117 | every low point with its height, in row-major order, and nothing else |
| Basins.EnteredMember | rust/src/day_nine.rs:172-179 | a cell is entered exactly when some present probe entry names it with a height other than 9 |
| Basins.OpenMember | rust/src/day_nine.rs:172-179 | the search steps onto exactly the in-bounds 4-neighbours that are not 9 |
| Basins.OpenInBounds | rust/src/day_nine.rs:172-179 | the search never steps outside the table |
| Basins.SearchFromPoint | rust/src/day_nine.rs:164-184 | the search keeps the table, only grows the visited set, visits its start, and pushes one entry per newly visited cell |
| Basins.SearchAll | rust/src/day_nine.rs:181-183 | searching from each listed cell visits all of them and pushes one entry per newly visited cell |
| Basins.SearchFromCounts | rust/src/day_nine.rs:164-184 | each newly visited cell is pushed exactly once and nothing else is pushed |
| Basins.SearchAllCounts | rust/src/day_nine.rs:181-183 | across the searches from a list, each newly visited cell is pushed exactly once |
| Basins.SearchFromMember | rust/src/day_nine.rs:164-184 | a cell is pushed exactly when this search newly visited it |
| Basins.SearchFromReached | rust/src/day_nine.rs:164-184 | every pushed cell lies inside the table and is the start or entered from a cell pushed before it |
| Basins.SearchAllReached | rust/src/day_nine.rs:181-183 | every pushed cell is one of the roots or entered from a cell pushed before it |
| Basins.SearchFromClosed | rust/src/day_nine.rs:164-184 | every cell the search could enter from a pushed cell ends up visited |
| Basins.SearchAllClosed | rust/src/day_nine.rs:181-183 | the same closure for the searches from a list |
| Basins.ReachedNotNine | rust/src/day_nine.rs:177 | only a root can have height 9; every other pushed cell was entered |
| Basins.SearchEach | rust/src/day_nine.rs:144-153 | one basin per low point, all inside the table, with every low point visited |
| Basins.BasinIsSearch | rust/src/day_nine.rs:144-153 | basin i is the search from the i-th low point, started from the visited set the earlier searches left |
| Basins.SearchEachNew | rust/src/day_nine.rs:144-153 | a basin holds only cells its own search visited first |
| Basins.BasinsDisjoint | rust/src/day_nine.rs:119-153 | no cell lies in two basins, because the visited set is shared by all searches |
| Basins.BasinNoRepeats | rust/src/day_nine.rs:165-170 | within a basin no cell is pushed twice |
| Basins.BasinReached | rust/src/day_nine.rs:144-153 | each basin grows from its own low point through entered cells |
| Basins.NewCellInBasin | rust/src/day_nine.rs:144-153 | every cell the searches newly visit lies in some basin |
| Basins.BasinsCover | rust/src/day_nine.rs:144-153 | the newly visited cells are exactly the cells of the basins |
| Basins.BasinsClosed | rust/src/day_nine.rs:144-184 | every cell the search could enter from a basin cell is visited |
| Basins.LowCoords | rust/src/day_nine.rs:137-140 | the coordinates of the low points, in order |
| Basins.BasinCells | rust/src/day_nine.rs:136-156 | one basin per low point in row-major order, all inside the table |
| Basins.BasinsPartition | rust/src/day_nine.rs:136-156 | the basins are pairwise disjoint |
| Basins.BasinFromLowPoint | rust/src/day_nine.rs:136-156 | each basin grows from its low point through cells other than 9 |
| Basins.BasinsComplete | rust/src/day_nine.rs:136-184 | no neighbour other than 9 of a basin cell lies outside every basin |
| Basins.Heights | rust/src/day_nine.rs:170 | the heights of the pushed cells, in order |
| Basins.GetBasins | rust/src/day_nine.rs:136-156 | one list of heights per low point, each the heights of its basin's cells in visiting order |
| Chunks.ChunkFor | rust/src/day_ten.rs:81-94 | exactly the four openers `{`, `(`, `[`, `<` start a chunk, and the chunk started has that opener |
| Chunks.OpenersAndClosers | rust/src/day_ten.rs:21-94 | openers and closers are disjoint, and each of them determines its chunk |
| Chunks.New | rust/src/day_ten.rs:81-94 | a new parser has no open chunk |
| Chunks.PushFromChar | rust/src/day_ten.rs:96-103 | succeeds exactly on an opener, then pushes that chunk on top and keeps the stack beneath |
| Chunks.ParseFromChar | rust/src/day_ten.rs:105-117 | the innermost chunk's closer pops it; any other character is pushed when it is an opener and rejected otherwise, including a closer when no chunk is open |
| Chunks.RunAppend | rust/src/day_ten.rs:123-127 | feeding a concatenation feeds the halves in turn, stopping at the first rejected character |
| Chunks.RunRejects | rust/src/day_ten.rs:123-127 | a rejected character is a character of the line, the line before it is accepted, and the stack then cannot take it |
| Chunks.ParseLine | rust/src/day_ten.rs:120-130 | the error is the first character the stack cannot take, and exactly when there is one; otherwise the result says whether every chunk was closed, and the parser keeps the stack the line left |
| Chunks.ParseLineStartsEmpty | rust/src/day_ten.rs:121 | the stack is cleared first, so earlier lines play no part |
| Chunks.AutoComplete | rust/src/day_ten.rs:134-141 | one closer per open chunk, innermost first |
| Chunks.RunAutoComplete | rust/src/day_ten.rs:134-141 | feeding the completion to the stack it was made from closes every chunk without error |
| Chunks.AutoCompleteCompletes | rust/src/day_ten.rs:120-141 | an incomplete line followed by its completion parses as complete |
| Chunks.RunExample | rust/src/day_ten.rs:224-229 | "<[({" opens four chunks, the last one innermost |
| Chunks.AutoCompleteExample | rust/src/day_ten.rs:224-229 | "<[({" is incomplete and completes with "})]>" |
| Chunks.OpenThenClose | rust/src/day_ten.rs:96-117 | an opener pushes its chunk and its closer pops it again |
| Chunks.PushOpener | rust/src/day_ten.rs:105-117 | an opener is always pushed, whatever is on top |
| Chunks.WrappedRuns | rust/src/day_ten.rs:105-117 | a chunk around a string that leaves the stack alone, followed by another such string, leaves the stack alone |
| Chunks.BalancedRuns | rust/src/day_ten.rs:105-130 | a balanced string, by the bracket grammar, leaves any stack as it found it |
| Chunks.BalancedIsComplete | rust/src/day_ten.rs:120-130 | every balanced line parses as complete |
| Chunks.InsertPair | rust/src/day_ten.rs:96-117 | inserting a matching opener and closer anywhere in a balanced line keeps it balanced |
| Chunks.RunBalanced | rust/src/day_ten.rs:120-130 | a run that starts from a stack and ends with an empty stack and no error read a line that balances the stack's openers |
| Chunks.CompleteIsBalanced | rust/src/day_ten.rs:120-130 | every line that parses as complete is balanced |
| Chunks.CompleteIffBalanced | rust/src/day_ten.rs:120-130 | a line parses as complete exactly when it is balanced |
| Chunks.ErrorScore | rust/src/day_ten.rs:169-179 | `)` scores exactly 3, `]` exactly 57, `}` exactly 1197 and `>` exactly 25137; anything else is the "incorrect input" panic |
| Chunks.TotalErrorScore | rust/src/day_ten.rs:169-179 | the total exists exactly when every character is a closer, and is at least 3 per character |
| Chunks.TotalErrorScoreAppend | rust/src/day_ten.rs:169-179 | the total of two lists joined exists exactly when both totals exist, and is then their sum |
| Chunks.TotalErrorScoreSingle | rust/src/day_ten.rs:169-179 | the total of one character is that character's score |
| Chunks.CompletionDigit | rust/src/day_ten.rs:184-195 | exactly the four closers have a digit, between 1 and 4 |
| Chunks.CompletionScore | rust/src/day_ten.rs:181-197 | a score exists exactly for strings of closers, and is 0 only for the empty string |
| Chunks.CompletionScoreInjective | rust/src/day_ten.rs:181-197 | two completion strings with the same score are equal: the score is a base-5 numeral with digits 1 to 4 |
| Chunks.CompletionScoreExample | rust/src/day_ten.rs:205-222 | ")}>]})" scores 5566 |
| Chunks.MiddleScore | rust/src/day_ten.rs:199-202 | on a non-empty list, and only then, a score of the list with at most k scores below and at most len-1-k above, for k = (len+1)/2-1: the median for an odd count |
| StrategyGuide.SelectionValues | java/src/com/adventofcode/challenges/daytwo/GameSelection.java:3-12 | the shape values are 1, 2, 3 and tell the shapes apart |
| StrategyGuide.ResultValues | java/src/com/adventofcode/challenges/daytwo/GameResult.java:3-12 | the outcome values are 0, 3, 6 and tell the outcomes apart |
| StrategyGuide.SelectionFromLetter | java/src/com/adventofcode/challenges/daytwo/GameSelection.java:14-21 | A or X reads as rock, B or Y as paper, C or Z as scissors, and every other letter is the exception with its message |
| StrategyGuide.ResultFromLetter | java/src/com/adventofcode/challenges/daytwo/GameResult.java:14-21 | X, Y and Z, and only they, read as an outcome; every other letter is the exception with its message |
| StrategyGuide.ResultLetterBijection | java/src/com/adventofcode/challenges/daytwo/GameResult.java:14-21 | reading outcomes from letters is a bijection between X, Y, Z and loss, draw, win |
| StrategyGuide.CheckWin | java/src/com/adventofcode/challenges/daytwo/GameSelection.java:24-43 | a draw exactly for equal shapes, a win exactly when our shape beats theirs (rock over scissors, scissors over paper, paper over rock), a loss exactly when theirs beats ours |
| StrategyGuide.CheckWinSwapped | java/src/com/adventofcode/challenges/daytwo/GameSelection.java:24-43 | winning one way round is losing the other way round, and draws are symmetric |
| StrategyGuide.GetResult | java/src/com/adventofcode/challenges/daytwo/GameSelection.java:45-59 | the shape picked gets the intended outcome against the given shape |
| StrategyGuide.GetResultUnique | java/src/com/adventofcode/challenges/daytwo/GameSelection.java:45-59 | that shape is the only one getting the intended outcome |
| StrategyGuide.BeatsExactlyOne | java/src/com/adventofcode/challenges/daytwo/GameSelection.java:24-59 | each shape beats exactly one shape and loses to exactly one |
| StrategyGuide.RoundScore | java/src/com/adventofcode/challenges/daytwo/GameRound.java:12-16 | the score lies in 1 to 9 and encodes both our shape's value and the outcome's value |
| StrategyGuide.RoundScoreDecodes | java/src/com/adventofcode/challenges/daytwo/GameRound.java:12-16 | rounds with the same score have the same shape played by us and the same outcome |
| StrategyGuide.BothSelectStrategy | java/src/com/adventofcode/challenges/daytwo/GameStrategyBothSelectParser.java:4-10 | succeeds exactly when both letters are shapes, and reads each one as a shape |
| StrategyGuide.RoundResultStrategy | java/src/com/adventofcode/challenges/daytwo/GameStrategyRoundResultSelectParser.java:4-13 | succeeds exactly when the first letter is a shape and the second an outcome, and our play then gets that outcome against the opponent's shape |
| StrategyGuide.ParseLine | java/src/com/adventofcode/challenges/daytwo/DayTwo.java:25-32 | a line is accepted exactly when it has three characters and the first and last are shapes; any other length is the "Too many characters in line" exception |
| StrategyGuide.ParseStrategyGuide | java/src/com/adventofcode/challenges/daytwo/DayTwo.java:19-40 | accepted exactly when every line is, then one round per line in order |
| StrategyGuide.TotalScoreAppend | java/src/com/adventofcode/challenges/daytwo/DayTwo.java:10-17 | the total of two lists of rounds is the sum of their totals |
| StrategyGuide.TotalScoreBounds | java/src/com/adventofcode/challenges/daytwo/DayTwo.java:10-17 | the total lies between the number of rounds and nine times it |
| StrategyGuide.ExampleLinesParse | java/src/com/adventofcode/challenges/daytwo/DayTwoTest.java:9-24 | each line of the example guide reads as its round |
| StrategyGuide.ExampleParses | java/src/com/adventofcode/challenges/daytwo/DayTwoTest.java:9-24 | the example guide reads as its three rounds |
| StrategyGuide.ExampleGuide | java/src/com/adventofcode/challenges/daytwo/DayTwoTest.java:9-24 | the guide A Y, B X, C Z scores 15 |
| GameRounds.ParseGameSelection | typescript/challenges/day_two/day_two.ts:9-23 | exactly the one-character strings A or X, B or Y, C or Z read as a shape, the same shape as the Java letters; everything else throws with its message |
| GameRounds.GetGameResult | typescript/challenges/day_two/day_two.ts:26-57 | a draw exactly for equal shapes, a win exactly when our shape beats the opponent's, a loss exactly when it is beaten; the unlisted pairs that fall through are the equal ones |
| GameRounds.GetGameResultAgrees | typescript/challenges/day_two/day_two.ts:26-57 | the outcome is the one Java's checkWin gives for our shape against theirs |
| GameRounds.ParseGameResult | typescript/challenges/day_two/day_two.ts:65-76 | exactly X, Y and Z read as an outcome, the same one Java reads; everything else throws with its message |
| GameRounds.GetGameSelectionFromResult | typescript/challenges/day_two/day_two.ts:78-104 | the shape picked gets the wanted outcome against the opponent; a draw falls through to the opponent's own shape |
| GameRounds.SelectionFromResultAgrees | typescript/challenges/day_two/day_two.ts:78-104 | it picks the same shape as Java's getResult |
| GameRounds.ParseRound | typescript/challenges/day_two/day_two.ts:115-133 | the shape-for-shape parser accepts exactly two shapes and records them; the outcome parser accepts a shape and an outcome and records a play that gets that outcome |
| GameRounds.ParseRoundAgrees | typescript/challenges/day_two/day_two.ts:115-133 | on the same two letters each parser fails exactly when the matching Java strategy parser throws, and otherwise builds the same round |
| GameRounds.ParseGameRound | typescript/challenges/day_two/day_two.ts:135-144 | a string of any length but three throws the length error; otherwise its first and third characters go to the parser |
| GameRounds.ParseGameRounds | typescript/challenges/day_two/day_two.ts:146-160 | succeeds exactly when every line does, with one round per line in order |
| GameRounds.ParseGameRoundsAgrees | typescript/challenges/day_two/day_two.ts:146-160 | with the shape-for-shape parser the rounds are those of Java's parseStrategyGuide, and they fail together |
| GameRounds.ParseGameRoundsFromString | typescript/challenges/day_two/day_two.ts:182-191 | succeeds exactly when every part between newlines is a round, then gives one round per part, in order |
| GameRounds.TrailingNewlineFails | typescript/challenges/day_two/day_two.ts:182-191 | an input ending in a line break leaves an empty last part, which throws |
| GameRounds.EmptyLineFails | typescript/challenges/day_two/day_two.ts:146-160 | an empty line anywhere at the end makes the whole parse fail |
| GameRounds.GetRoundTotalAgrees | typescript/challenges/day_two/day_two.ts:162-169 | the total is Java's score of the same rounds |
| GameRounds.ExampleSplits | typescript/challenges/day_two/day_two.test.ts:5-7 | the test's input splits into its three lines |
| GameRounds.ExampleBothSelect | typescript/challenges/day_two/day_two.test.ts:4-12 | read shape for shape, the example totals 15 |
| GameRounds.ExampleResultLinesParse | typescript/challenges/day_two/day_two.test.ts:22-30 | read as wanted outcomes, each example line gives its round |
| GameRounds.ExampleResultParses | typescript/challenges/day_two/day_two.test.ts:22-30 | read as wanted outcomes, the example gives rock against rock, rock against paper, rock against scissors |
| GameRounds.ExampleRoundResultSelect | typescript/challenges/day_two/day_two.test.ts:22-30 | read as wanted outcomes, the example totals 12 |
| GameRounds.ExampleResultTotal | typescript/challenges/day_two/day_two.test.ts:22-30 | those three rounds total 4 + 1 + 7 = 12 |
| Rucksacks.GetPriority | java/src/com/adventofcode/challenges/daythree/DayThree.java:13-27 | as written: everything up to 'z' gets a priority and everything above throws with its message; lower-case letters get 1 to 26 and capitals 27 to 52 |
| Rucksacks.GetPriorityAcceptsNonLetters | java/src/com/adventofcode/challenges/daythree/DayThree.java:14-16 | the guard for characters below 'A' has an empty body, so '!' and '[' get -5 and '`' gets 0 instead of the exception |
| Rucksacks.Priority | java/src/com/adventofcode/challenges/daythree/DayThree.java:13-27 | corrected: exactly the letters get a priority, a to z as 1 to 26 and A to Z as 27 to 52; everything else throws with the same message |
| Rucksacks.PriorityInjective | java/src/com/adventofcode/challenges/daythree/DayThree.java:13-27 | different letters have different priorities |
| Rucksacks.PriorityAgrees | java/src/com/adventofcode/challenges/daythree/DayThree.java:18-24 | on letters the code as written gives the corrected priority |
| Rucksacks.LetterOf | java/src/com/adventofcode/challenges/daythree/DayThree.java:13-27 | every priority 1 to 52 belongs to a letter, so priorities and letters are in bijection |
| Rucksacks.LetterOfPriority | java/src/com/adventofcode/challenges/daythree/DayThree.java:13-27 | the letter of a letter's priority is that letter |
| Rucksacks.PrioritySum | java/src/com/adventofcode/challenges/daythree/DayThree.java:33-35 | the sum of a set's priorities, whatever order the loop takes its items in, is never negative |
| Rucksacks.PrioritySumSingle | java/src/com/adventofcode/challenges/daythree/DayThree.java:33-35 | a single letter adds its own priority |
| Rucksacks.PrioritySumUnion | java/src/com/adventofcode/challenges/daythree/DayThree.java:33-35 | the sums over disjoint sets add up |
| Rucksacks.PrioritySumPositive | java/src/com/adventofcode/challenges/daythree/DayThree.java:33-35 | each letter of the set counts in full |
| Rucksacks.SetScore | java/src/com/adventofcode/challenges/daythree/DayThree.java:29-62 | with the priorities as intended, the loop over a set of items gets through exactly when every item is a letter, and otherwise throws the priority exception |
| Rucksacks.SetScoreAsWritten | java/src/com/adventofcode/challenges/daythree/DayThree.java:13-35 | with `getPriority` as written, the loop over a set of items throws exactly when an item lies above `z`, with the priority exception |
| Rucksacks.CodeSumUnion | java/src/com/adventofcode/challenges/daythree/DayThree.java:33-35 | the as-written sum over two disjoint sets is the sum of their sums |
| Rucksacks.CodeSumSingle | java/src/com/adventofcode/challenges/daythree/DayThree.java:33-35 | a single item up to `z` adds its as-written value |
| Rucksacks.SetScoreAgrees | java/src/com/adventofcode/challenges/daythree/DayThree.java:13-35 | on sets of letters the as-written and the intended scores are equal |
| Rucksacks.SetScoreAsWrittenAcceptsDigits | java/src/com/adventofcode/challenges/daythree/DayThree.java:13-35 | the item `1` scores 11 as written, where the intended score throws |
| Rucksacks.PopulateCompartmentsSpec | java/src/com/adventofcode/challenges/daythree/Rucksack.java:19-28 | the items of the first half, rounded down, join the first compartment and the rest join the second; what was there stays and nothing else is added |
| Rucksacks.HalvesSizes | java/src/com/adventofcode/challenges/daythree/Rucksack.java:19-28 | with an odd number of items the second half holds the extra one |
| Rucksacks.CommonItems | java/src/com/adventofcode/challenges/daythree/Rucksack.java:11-16 | an item is common to a line's rucksack exactly when it occurs in both halves of the line |
| Rucksacks.FindEqualCharacters | java/src/com/adventofcode/challenges/daythree/Rucksack.java:11-16 | an item is common exactly when both compartments hold it |
| Rucksacks.UnionCompartments | java/src/com/adventofcode/challenges/daythree/DayThree.java:51-53 | an item is in the union exactly when either compartment holds it |
| Rucksacks.UnionIsLine | java/src/com/adventofcode/challenges/daythree/DayThree.java:51-53 | the union of a line's compartments holds exactly the line's items |
| Rucksacks.ParseFromInput | java/src/com/adventofcode/challenges/daythree/DayThree.java:64-78 | one fresh rucksack per line, in order, each filled from its line |
| Rucksacks.ArrangementScore | java/src/com/adventofcode/challenges/daythree/DayThree.java:29-39 | with `getPriority` as written, gets through exactly when no rucksack's common items lie above `z` |
| Rucksacks.ScoreFromSucceeds | java/src/com/adventofcode/challenges/daythree/DayThree.java:31-36 | the loop from a rucksack on gets through exactly when no later common item lies above `z`, the only items `getPriority` as written rejects |
| Rucksacks.ScoreFromShift | java/src/com/adventofcode/challenges/daythree/DayThree.java:31-36 | the loop over the second of two runs sees only that run |
| Rucksacks.ScoreFromAppend | java/src/com/adventofcode/challenges/daythree/DayThree.java:31-36 | a run of rucksacks followed by another adds the second run's score |
| Rucksacks.ArrangementScoreAppend | java/src/com/adventofcode/challenges/daythree/DayThree.java:29-39 | the score of two runs of rucksacks is the sum of theirs |
| Rucksacks.GroupCommonItems | java/src/com/adventofcode/challenges/daythree/DayThree.java:51-54 | an item survives the running retainAll exactly when the first rucksack and every later one in the range carries it |
| Rucksacks.SumGroupScore | java/src/com/adventofcode/challenges/daythree/DayThree.java:50-62 | reading a rucksack outside the list throws; otherwise the as-written score of the items common to the range |
| Rucksacks.GroupScoresFrom | java/src/com/adventofcode/challenges/daythree/DayThree.java:41-48 | the loop from index i is 0 when fewer than three rucksacks remain, and gets through exactly when every group of three from i on does |
| Rucksacks.GetGroupScores | java/src/com/adventofcode/challenges/daythree/DayThree.java:41-48 | 0 for fewer than three rucksacks, and gets through exactly when every whole group of three does |
| Rucksacks.AddScores | java/src/com/adventofcode/challenges/daythree/DayThree.java:44 | the running total gets through exactly when both parts do, and adds them; the first exception wins |
| Rucksacks.GroupScoresIgnoreTail | java/src/com/adventofcode/challenges/daythree/DayThree.java:41-48 | only whole groups of three count: one or two rucksacks after the last full group change nothing |
| Rucksacks.GroupsIgnoreTail | java/src/com/adventofcode/challenges/daythree/DayThree.java:43-45 | the same from any index with whole groups left |
| Rucksacks.NoGroupLeft | java/src/com/adventofcode/challenges/daythree/DayThree.java:43 | with fewer than three rucksacks left the loop adds nothing |
| Rucksacks.GroupCommonPrefix | java/src/com/adventofcode/challenges/daythree/DayThree.java:51-54 | the items common to a range do not depend on rucksacks after it |
| Rucksacks.FromLineHalves | java/src/com/adventofcode/challenges/daythree/Rucksack.java:11-28 | for a line of even length, the common items are those of both halves |
| Rucksacks.GroupBadge | java/src/com/adventofcode/challenges/daythree/DayThree.java:50-54 | the items common to a group of three lines are those all three lines carry |
| Rucksacks.GroupOfThree | java/src/com/adventofcode/challenges/daythree/DayThree.java:50-54 | the items common to three rucksacks are the intersection of their unions |
| Rucksacks.BadgeScore | java/src/com/adventofcode/challenges/daythree/DayThree.java:50-62 | a group whose only common item is a letter scores that letter |
| Rucksacks.GroupsOfSix | java/src/com/adventofcode/challenges/daythree/DayThree.java:41-48 | six rucksacks make two groups; with one common letter each, they score those two letters |
| Rucksacks.TwoGroups | java/src/com/adventofcode/challenges/daythree/DayThree.java:41-48 | six rucksacks score their two groups |
| Rucksacks.ExampleArrangement | java/src/com/adventofcode/challenges/daythree/DayThreeTest.java:9-24 | the example's compartments score 157 |
| Rucksacks.ExampleBadges | java/src/com/adventofcode/challenges/daythree/DayThreeTest.java:34-49 | the example's badges are r and Z |
| Rucksacks.ExampleGroups | java/src/com/adventofcode/challenges/daythree/DayThreeTest.java:34-49 | the example's two groups score 70 |
| Rucksacks.ArrangementAcceptsDigits | java/src/com/adventofcode/challenges/daythree/DayThree.java:29-39 | the line `1a1b` has the common item `1` and scores 11 as written, where the intended score throws |
| Calories.TallyAppend | java/src/com/adventofcode/challenges/dayone/DayOne.java:34-43 | running the reading loop over two runs of lines is running it over the first, then the second |
| Calories.TallyFails | java/src/com/adventofcode/challenges/dayone/DayOne.java:34-43 | the loop fails exactly when some line is neither empty nor a decimal integer, and then names the first such line |
| Calories.TallyCount | java/src/com/adventofcode/challenges/dayone/DayOne.java:35-38 | every empty line records exactly one total |
| Calories.TallyNumerals | java/src/com/adventofcode/challenges/dayone/DayOne.java:38-40 | reading numbers adds them all to the running total |
| Calories.CloseGroup | java/src/com/adventofcode/challenges/dayone/DayOne.java:35-38 | a group read and closed by an empty line has its total recorded and the running total reset |
| Calories.TallyRender | java/src/com/adventofcode/challenges/dayone/DayOne.java:34-43 | reading groups each closed by an empty line records their totals, in order, and leaves no group open |
| Calories.RenderedGroups | java/src/com/adventofcode/challenges/dayone/DayOne.java:28-46 | closed groups are recorded with their totals, consecutive empty lines as 0, and the numbers after the last empty line stay a running total that is never recorded |
| Calories.RecordedClosed | java/src/com/adventofcode/challenges/dayone/DayOne.java:35-38 | a final empty line records the running total |
| Calories.ParseCalories | java/src/com/adventofcode/challenges/dayone/DayOne.java:28-46 | succeeds exactly when every line is empty or a decimal integer, then records one total per empty line, in order; otherwise the exception names the first unreadable line |
| Calories.SplitTerminated | java/src/com/adventofcode/challenges/dayone/DayOne.java:54-58 | lines each ended by a line break split into those lines and an empty last part |
| Calories.ReadLines | java/src/com/adventofcode/challenges/dayone/DayOne.java:54-58 | the lines hold no line break; an empty string has none, and the lines joined by line breaks give the string back, plus a last line break when it ended in one |
| Calories.ReadLinesTerminated | java/src/com/adventofcode/challenges/dayone/DayOne.java:54-58 | lines each ended by a line break are read back as they are, without an empty last line |
| Calories.ReadLinesUnterminated | java/src/com/adventofcode/challenges/dayone/DayOne.java:54-58 | lines joined by line breaks, the last one not empty, are read back as they are |
| Calories.ParseCaloriesFromString | java/src/com/adventofcode/challenges/dayone/DayOne.java:54-58 | the string's lines, as the reader yields them, go through the reading loop with the same success condition, totals and error |
| Calories.LargestAreLargest | java/src/com/adventofcode/challenges/dayone/DayOne.java:11-16 | the k values picked are values of the list and none left out is larger than one picked |
| Calories.GetHighestCalories | java/src/com/adventofcode/challenges/dayone/DayOne.java:21-26 | the list is left sorted and a permutation of itself; the result is a total no total exceeds, and exists exactly when there is a total, the empty list throwing on get(-1) |
| Calories.MaxUnique | java/src/com/adventofcode/challenges/dayone/DayOne.java:21-26 | two totals that no total exceeds are equal, so the highest total is determined |
| Calories.HighestIs | java/src/com/adventofcode/challenges/dayone/DayOne.java:21-26 | the highest total is the one no total exceeds |
| Calories.GetTopThreeHighestCalories | java/src/com/adventofcode/challenges/dayone/DayOne.java:10-19 | the list is left sorted and a permutation of itself; with three totals or more, and only then, the result is the sum of the three largest; otherwise get throws at the first index that falls off |
| Calories.ReadRendered | java/src/com/adventofcode/challenges/dayone/DayOne.java:28-58 | with every line ended by a line break, the numbers after the last empty line are still dropped |
| Calories.ExampleShape | java/src/com/adventofcode/challenges/dayone/DayOneTest.java:10-33 | the example is four closed groups and an open one holding 10000 |
| Calories.ExampleRecorded | java/src/com/adventofcode/challenges/dayone/DayOneTest.java:10-33 | the example records 6000, 4000, 11000 and 24000; the last elf's 10000 is never recorded |
| Calories.ExampleReadLines | java/src/com/adventofcode/challenges/dayone/DayOneTest.java:12-27 | the test's text block reads back as the example's lines |
| Calories.ExampleHighest | java/src/com/adventofcode/challenges/dayone/DayOneTest.java:10-33 | the example's highest total is 24000 |
| Calories.ExampleTopThree | java/src/com/adventofcode/challenges/dayone/DayOne.java:10-19 | the example's three largest totals add to 41000, because 10000 is not among the totals |
| CaloriesScript.ParseCaloriesFromStrings | typescript/challenges/day_one/day_one.ts:24-38 | succeeds exactly when every line is empty or a decimal integer, then records the same totals as the Java loop, one per empty line; otherwise the failure names the first unreadable line |
| CaloriesScript.ParseCaloriesFromString | typescript/challenges/day_one/day_one.ts:51-53 | splitting at every line break, it succeeds exactly when every piece is empty or a decimal integer, and records one total per empty piece (the source's `parseInt` never fails; see "## Left out") |
| CaloriesScript.UnterminatedGroupDropped | typescript/challenges/day_one/day_one.ts:51-53 | with no final line break the numbers after the last empty line are dropped, as in Java |
| CaloriesScript.FinalBreakClosesGroup | typescript/challenges/day_one/day_one.ts:51-53 | with a final line break the last part is empty and closes the open group, so its total is recorded, unlike Java |
| CaloriesScript.GetHighestCalories | typescript/challenges/day_one/day_one.ts:18-22 | the list is left sorted and a permutation of itself; the result is a total no total exceeds, and is undefined exactly when the list is empty |
| CaloriesScript.GetThreeHighestCalories | typescript/challenges/day_one/day_one.ts:10-16 | the list is left sorted and a permutation of itself; reduce throws exactly on an empty list; fewer than three totals are all added up, otherwise the three largest |
| CaloriesScript.HighestAgrees | typescript/challenges/day_one/day_one.ts:18-22 | wherever either language has a highest total, both do and they are equal |
| CaloriesScript.ThreeHighestAgrees | typescript/challenges/day_one/day_one.ts:10-16 | with three totals or more both languages add up the same three |
| CaloriesScript.ExampleHighest | typescript/challenges/day_one/day_one.test.ts:4-23 | the test's input records 6000, 4000, 11000 and 24000, whose highest is 24000 |
| CaloriesScript.ExampleThreeHighest | typescript/challenges/day_one/day_one.ts:10-16 | the example's three largest add to 41000 |

## Left out

- File, reader and stream plumbing is not modelled. This covers every
  `from_file`, `parse_from_file` and `new_from_file`, the Java `File`, `String`
  and path overloads, `parseCaloriesFromFile` and `parseGameRoundsFromFile`.
  Their input is modelled as a sequence of lines. The line splitting itself is
  modelled where a string overload does it (`Calories.ReadLines`,
  `Strings.Split`).
- Output-only code is not modelled: the `Display` and `fmt` implementations,
  `println!` and `console.log`.
- Dead code is not modelled: the commented-out blocks of `day_eight.rs`, the
  unused `create_chunk` of `day_ten.rs`, and the unused `bit_filter` of
  `day_three.rs`.
- `BufferedReader` also treats `\r` and `\r\n` as line breaks. The model reads
  only `\n`.
- Machine integers are unbounded in the model. This covers `isize`, `usize`,
  `u32` and Java `int` arithmetic. Overflow only happens far beyond puzzle
  sizes, so none of it is modelled; the exceptions are listed below.
- Exception messages are the source's own text where the source writes one.
  The messages that the Java runtime and the JavaScript engine generate
  (`Calories.NumberFormatError`, `Calories.IndexError`,
  `CaloriesScript.EMPTY_REDUCE`) are approximations. Where a Rust `unwrap` or
  index panics without a message of the source's own, the model chose a label:
  `Caves.MissingCave` ("missing second cave") stands for
  `split.next().unwrap()` at day_twelve.rs:104-105, and Vents' "parse error",
  "missing coordinate" and "missing point" stand for the `parse().unwrap()`,
  `c[0]`/`c[1]` and `coord_set[1]` panics at day_five.rs:83-90.
- Grid.CoordsToTable: the source also sorts the caller's coordinate slice in
  place with `sort_by` (util.rs:206, 211), by descending y last. The model
  takes the list by value and leaves it unchanged. The only caller,
  `Display` (day_thirteen.rs:12-13), sorts a fresh `Vec` copied from the dots
  and then drops it.
- Sort stability and tie order are not modelled: the model does not say which
  crab position wins a tie in `Crabs.Cheapest` or `Crabs.MostFrequent`.
- `Rucksacks.UnionCompartments`: `unionCompartments` is called in
  `DayThree.java` but is not defined in `Rucksack.java`. It is taken to be the
  union of both compartments. That is consistent with the test's expected 70.
- Bingo.BuildTable: requires a board size from 1 to 127. The source walks the
  board with `i8` casts, which wrap beyond that.
- Lanternfish.Dec: requires a positive timer. The source would underflow a
  `usize` at 0. `Lanternfish.Process` states that this never happens from
  timers 0 to 8.
- Diagnostic.GetRating, Diagnostic.GetOxyRating and Diagnostic.GetCo2Rating:
  require a field count from 1 to 64. A field count of 0 underflows
  `field_count - 1` in the source, and a field count above 64 overflows the
  shift.
- Diagnostic.GetLeastCommonBits: requires 1 to 64 fields. The source's mask
  shift overflows outside that range.
- Diagnostic.GetCommonBits: requires at most 64 fields. With more, the
  source's first shift `new_bit << (cur_bit - 1)` exceeds the width of a
  `usize` and panics. With no fields the loop does not run, and both the
  source and the model give 0.
- Grid.GetElemAt, Grid.SetElemAt and Grid.GetElemsAround: require a table
  whose width is known and positive (`Grid.Accessible`). For x >= 0 the source
  panics on such a table: `row_size.unwrap()` panics on an empty table, and
  on rows of width 0 `row_size - 1` underflows a `usize`. For a negative x the
  source tests `x < 0` first and returns `None` on any table, so
  `Grid.Accessible` also excludes inputs on which the source returns `None`.
  Every caller in the repository queries around a cell the table holds,
  so it never reaches an empty table or one of width 0.
- Caves.ExploreFromStart: requires an adjacency map with no two adjacent big
  caves, because otherwise the source's search never ends. It also requires
  every neighbour to be a key, which `Caves.SymmetricIsClosed` proves for
  every map built from edge lines.
- Octopus.ProcessUntilSync: takes a fuel bound on the number of steps. Running
  out of fuel is reported as no synchronisation within the bound. The source
  loops forever on a grid that never synchronises.
- CaloriesScript.ParseCaloriesFromStrings: reports a `Failure` for a line that
  is not a decimal integer. JavaScript's `parseInt` is lenient there: it
  accepts a numeric prefix, or yields `NaN`. It never throws.
- CaloriesScript.ParseCaloriesFromString: passes the pieces of its split to
  `CaloriesScript.ParseCaloriesFromStrings`. It therefore reports the same
  `Failure` for a piece that is not a decimal integer, where the source never
  fails.
- Caves.FromString: tells upper from lower case for ASCII letters only
  (`Caves.IsUpper`, `Caves.IsLower`). The source uses Rust's Unicode
  `is_uppercase` and `is_lowercase`, so a label such as `É` is read
  differently.
- Chunks.ParseLine: walks a line character by character. The source walks its
  UTF-8 bytes. The two agree on ASCII lines; on a line with a multi-byte
  character both reject it, but the source reports the character's first byte.
- Segments: strings are taken to be ASCII, one byte per character. The source
  reads them as bytes (`as_bytes()`) and casts characters with `as u8`, and
  the two readings agree only on ASCII text.
- StrategyGuide.ParseLine, GameRounds.ParseGameRound and
  GameRounds.ParseGameRounds: check that a line has 3 characters. Java's
  `length()` and TypeScript's `length` count UTF-16 code units, so a line with
  a character outside the Basic Multilingual Plane is measured differently.
- Rucksacks.SumGroupScore: reports `Rucksacks.INDEX_ERROR` for a rucksack
  outside the list. The message of the `IndexOutOfBoundsException` that
  `ArrayList.get` throws is generated by the Java runtime and is only
  approximated.
- `Vents`: iteration is modelled for a step of 1, which is the only step that
  `from_string` creates.
- Decimal parsing by the standard libraries (`str::parse`, `Integer.parseInt`)
  is modelled by `Strings.ParseNat` and `Strings.ParseInt`: decimal digits with
  an optional leading sign, and a minus sign only for signed types.

## Findings

| source | as written | input that shows it | evidently intended | confidence | as-written member | corrected member |
|---|---|---|---|---|---|---|
| rust/src/day_three.rs:42-52 | `get_common_bits` puts the majority bit of `buf[k]` at bit `len - 1 - k`. `count_bits_per_field` fills `buf[k]` from bit `k` of the words, so the pattern comes out bit-reversed. | one word `0b001` with three fields: the result is `0b100`, where the word's own pattern `0b001` is meant | bit `k` of the gamma rate is the majority bit of bit `k` of the words, and the epsilon rate is its complement | not executed | `Diagnostic.GetCommonBits`, `Diagnostic.CommonBitsReversed` | `Diagnostic.GammaRate`, `Diagnostic.EpsilonRate`, `Diagnostic.PowerRates` |
| java/src/com/adventofcode/challenges/daythree/DayThree.java:13-27 | the guard for characters below `'A'` has an empty body. Every character up to `'z'` gets a priority, including punctuation. | `'!'` and `'['` get priority -5 and `` '`' `` gets 0, instead of the exception | only letters have a priority (a to z are 1 to 26, A to Z are 27 to 52); any other character throws | not executed | `Rucksacks.GetPriority`, `Rucksacks.GetPriorityAcceptsNonLetters`, `Rucksacks.SetScoreAsWritten`, `Rucksacks.ArrangementAcceptsDigits` | `Rucksacks.Priority`, `Rucksacks.PriorityAgrees`, `Rucksacks.PriorityInjective`, `Rucksacks.SetScore`, `Rucksacks.SetScoreAgrees` |

=== FILE: basins.dfy ===
/** Day nine: a height map of digits. A low point is lower than each of its
    four neighbours; a basin is flooded from a low point through the cells
    that are not 9, with one cache of visited cells shared by all basins. */
module Basins {
  import opened Wrappers
  import opened Grid

  /** The height recorded at an in-bounds cell. */
  function Height(t: Table<nat>, c: Coord): nat
    requires WellFormed(t) && InBounds(t, c)
  {
    t.rows[c.1][c.0]
  }

  /** Two points are 4-neighbours: one step apart along exactly one axis. */
  predicate Adjacent4(a: Coord, b: Coord)
  {
    (a.0 == b.0 && (a.1 == b.1 + 1 || a.1 == b.1 - 1)) ||
    (a.1 == b.1 && (a.0 == b.0 + 1 || a.0 == b.0 - 1))
  }

  /** The probe points of `get_elems_around`, in its order: `(x, y + 1)`,
      `(x, y - 1)`, `(x - 1, y)`, `(x + 1, y)`. */
  function Probes(c: Coord): (r: seq<Coord>)
    ensures |r| == 4
    ensures forall e :: e in r <==> Adjacent4(e, c)
  {
    [(c.0, c.1 + 1), (c.0, c.1 - 1), (c.0 - 1, c.1), (c.0 + 1, c.1)]
  }

  /** The cell at `p` with its coordinate, `None` outside the table. */
  function Probe(t: Table<nat>, p: Coord): (r: Option<(nat, Coord)>)
    requires Accessible(t)
    ensures r.Some? <==> InBounds(t, p)
    ensures r.Some? ==> r.value == (Height(t, p), p)
  {
    match GetElemAt(t, p.0, p.1)
    case Some(v) => Some((v, p))
    case None => None
  }

  /** `get_elems_around` of this file: the four 4-neighbours, in probe
      order, each `None` when it lies outside the table. */
  function GetElemsAround(t: Table<nat>, x: int, y: int): (r: seq<Option<(nat, Coord)>>)
    requires Accessible(t)
    ensures |r| == 4
    ensures forall i :: 0 <= i < 4 ==> r[i] == Probe(t, Probes((x, y))[i])
  {
    var p := Probes((x, y));
    [Probe(t, p[0]), Probe(t, p[1]), Probe(t, p[2]), Probe(t, p[3])]
  }

  /** The listed neighbours are exactly the in-bounds 4-neighbours. */
  lemma ElemsAroundAreNeighbours(t: Table<nat>, x: int, y: int, c: Coord)
    requires Accessible(t)
    ensures (exists i :: 0 <= i < 4 && GetElemsAround(t, x, y)[i].Some? && GetElemsAround(t, x, y)[i].value.1 == c)
      <==> InBounds(t, c) && Adjacent4(c, (x, y))
  {
    var r := GetElemsAround(t, x, y);
    var p := Probes((x, y));
    if InBounds(t, c) && Adjacent4(c, (x, y)) {
      var i :| 0 <= i < 4 && p[i] == c;
      assert r[i].Some? && r[i].value.1 == c;
    }
  }

  // ------------------------------------------------------------ low points

  /** `compare_points`: every neighbour that exists is strictly higher than
      `point`. */
  function ComparePoints(point: nat, surrounding: seq<Option<(nat, Coord)>>): (b: bool)
    ensures b <==> forall i :: 0 <= i < |surrounding| && surrounding[i].Some? ==>
      surrounding[i].value.0 > point
  {
    if |surrounding| == 0 then true
    else
      var rest := ComparePoints(point, surrounding[1..]);
      assert forall i :: 1 <= i < |surrounding| ==> surrounding[i] == surrounding[1..][i - 1];
      (surrounding[0].None? || surrounding[0].value.0 > point) && rest
  }

  predicate IsLow(t: Table<nat>, c: Coord)
    requires WellFormed(t) && InBounds(t, c)
  {
    ComparePoints(Height(t, c), GetElemsAround(t, c.0, c.1))
  }

  /** A cell is a low point exactly when each of its in-bounds 4-neighbours
      is strictly higher. */
  lemma LowPointIff(t: Table<nat>, c: Coord)
    requires WellFormed(t) && InBounds(t, c)
    ensures IsLow(t, c) <==>
      forall d :: InBounds(t, d) && Adjacent4(d, c) ==> Height(t, d) > Height(t, c)
  {
    var r := GetElemsAround(t, c.0, c.1);
    if IsLow(t, c) {
      forall d | InBounds(t, d) && Adjacent4(d, c)
        ensures Height(t, d) > Height(t, c)
      {
        ElemsAroundAreNeighbours(t, c.0, c.1, d);
      }
    }
    if !IsLow(t, c) {
      var i :| 0 <= i < 4 && r[i].Some? && r[i].value.0 <= Height(t, c);
      assert Probes(c)[i] in Probes(c);
    }
  }

  /** Row-major order of coordinates: by row, then by column. */
  predicate Before(a: Coord, b: Coord)
  {
    a.1 < b.1 || (a.1 == b.1 && a.0 < b.0)
  }

  ghost predicate RowMajor(s: seq<(nat, Coord)>)
  {
    forall i, j :: 0 <= i < j < |s| ==> Before(s[i].1, s[j].1)
  }

  /** A found low point: the cell's height and its coordinate. */
  ghost predicate LowEntry(t: Table<nat>, p: (nat, Coord))
    requires WellFormed(t)
  {
    InBounds(t, p.1) && IsLow(t, p.1) && p.0 == Height(t, p.1)
  }

  lemma RowMajorConcat(a: seq<(nat, Coord)>, b: seq<(nat, Coord)>)
    requires RowMajor(a) && RowMajor(b)
    requires forall p, q :: p in a && q in b ==> Before(p.1, q.1)
    ensures RowMajor(a + b)
  {
    forall i, j | 0 <= i < j < |a + b|
      ensures Before((a + b)[i].1, (a + b)[j].1)
    {
      if j < |a| {
      } else if i >= |a| {
        assert (a + b)[i] == b[i - |a|] && (a + b)[j] == b[j - |a|];
      } else {
        assert (a + b)[i] in a && (a + b)[j] in b;
      }
    }
  }

  /** The low points of row `y` from column `x` on, left to right. */
  function LowsInRow(t: Table<nat>, y: nat, x: nat): (r: seq<(nat, Coord)>)
    requires WellFormed(t) && y < |t.rows|
    ensures forall p :: p in r <==> LowEntry(t, p) && p.1.1 == y && p.1.0 >= x
    ensures RowMajor(r)
    decreases Width(t) - x
  {
    if x >= Width(t) then []
    else
      var rest := LowsInRow(t, y, x + 1);
      var here := LowHere(t, (x, y));
      RowMajorConcat(here, rest);
      LowsInRowCons(t, y, x, rest);
      here + rest
  }

  /** The low point at `c`, if it is one. */
  function LowHere(t: Table<nat>, c: Coord): (r: seq<(nat, Coord)>)
    requires WellFormed(t) && InBounds(t, c)
    ensures forall p :: p in r <==> LowEntry(t, p) && p.1 == c
    ensures RowMajor(r)
  {
    if IsLow(t, c) then [(Height(t, c), c)] else []
  }

  lemma LowsInRowCons(t: Table<nat>, y: nat, x: nat, rest: seq<(nat, Coord)>)
    requires WellFormed(t) && y < |t.rows| && x < Width(t)
    requires forall p :: p in rest <==> LowEntry(t, p) && p.1.1 == y && p.1.0 >= x + 1
    ensures forall p :: p in LowHere(t, (x, y)) + rest <==> LowEntry(t, p) && p.1.1 == y && p.1.0 >= x
  {
  }

  /** The low points of rows `y` onwards, in row-major order. */
  function LowsFrom(t: Table<nat>, y: nat): (r: seq<(nat, Coord)>)
    requires WellFormed(t)
    ensures forall p :: p in r <==> LowEntry(t, p) && p.1.1 >= y
    ensures RowMajor(r)
    decreases |t.rows| - y
  {
    if y >= |t.rows| then []
    else
      var here := LowsInRow(t, y, 0);
      var rest := LowsFrom(t, y + 1);
      RowMajorConcat(here, rest);
      here + rest
  }

  /** `get_low_points`: every low point with its height, in row-major
      order, and nothing else. */
  function GetLowPoints(t: Table<nat>): (r: seq<(nat, Coord)>)
    requires WellFormed(t)
    ensures forall p :: p in r <==> LowEntry(t, p)
    ensures RowMajor(r)
  {
    LowsFrom(t, 0)
  }

  /** The sum of `height + 1` over the low points (the risk level). */
  function RiskLevel(lows: seq<(nat, Coord)>): nat
  {
    if |lows| == 0 then 0 else lows[0].0 + 1 + RiskLevel(lows[1..])
  }

  // ------------------------------------------------------------ the search

  /** The height map and the cells visited so far by any basin search. */
  datatype DepthChecker = DepthChecker(table: Table<nat>, known: set<Coord>)

  ghost predicate Valid(dc: DepthChecker)
  {
    WellFormed(dc.table) && forall c :: c in dc.known ==> InBounds(dc.table, c)
  }

  /** The 4-neighbours of `c` that the search enters: those present and
      not 9, in probe order. */
  function Entered(s: seq<Option<(nat, Coord)>>): (r: seq<Coord>)
  {
    if |s| == 0 then []
    else (if s[0].Some? && s[0].value.0 != 9 then [s[0].value.1] else []) + Entered(s[1..])
  }

  function Open(t: Table<nat>, c: Coord): (r: seq<Coord>)
    requires WellFormed(t) && InBounds(t, c)
  {
    Entered(GetElemsAround(t, c.0, c.1))
  }

  /** Entry `i` of the probe list is the cell `e`, and it is not 9. */
  predicate EntersAt(s: seq<Option<(nat, Coord)>>, i: int, e: Coord)
  {
    0 <= i < |s| && s[i].Some? && s[i].value.1 == e && s[i].value.0 != 9
  }

  lemma {:induction false} EnteredMember(s: seq<Option<(nat, Coord)>>, e: Coord)
    ensures e in Entered(s) <==> exists i :: EntersAt(s, i, e)
  {
    if |s| > 0 {
      var head := if s[0].Some? && s[0].value.0 != 9 then [s[0].value.1] else [];
      assert Entered(s) == head + Entered(s[1..]);
      EnteredMember(s[1..], e);
      if e in head {
        assert EntersAt(s, 0, e);
      } else if e in Entered(s[1..]) {
        var i :| EntersAt(s[1..], i, e);
        assert EntersAt(s, i + 1, e);
      }
      if exists i :: EntersAt(s, i, e) {
        var i :| EntersAt(s, i, e);
        if i > 0 {
          assert EntersAt(s[1..], i - 1, e);
        }
      }
    }
  }

  /** The search enters exactly the in-bounds 4-neighbours that are not 9. */
  lemma OpenMember(t: Table<nat>, c: Coord, e: Coord)
    requires WellFormed(t) && InBounds(t, c)
    ensures e in Open(t, c) <==> InBounds(t, e) && Adjacent4(e, c) && Height(t, e) != 9
  {
    var s := GetElemsAround(t, c.0, c.1);
    EnteredMember(s, e);
    if InBounds(t, e) && Adjacent4(e, c) && Height(t, e) != 9 {
      var i :| 0 <= i < 4 && Probes(c)[i] == e;
      assert EntersAt(s, i, e);
    }
  }

  lemma OpenInBounds(t: Table<nat>, c: Coord)
    requires WellFormed(t) && InBounds(t, c)
    ensures forall e :: e in Open(t, c) ==> InBounds(t, e)
  {
    forall e | e in Open(t, c)
      ensures InBounds(t, e)
    {
      OpenMember(t, c, e);
    }
  }

  /** A search's result: the checker afterwards and the cells it pushed to
      the basin, in visiting order. */
  datatype Visit = Visit(dc: DepthChecker, cells: seq<Coord>)

  /** `search_from_point`: unless `c` was visited before, mark it, push it,
      and search from each entered neighbour in turn. */
  function SearchFromPoint(dc: DepthChecker, c: Coord): (r: Visit)
    requires Valid(dc) && InBounds(dc.table, c)
    ensures Valid(r.dc) && r.dc.table == dc.table && dc.known <= r.dc.known && c in r.dc.known
    ensures |r.cells| == |r.dc.known| - |dc.known|
    decreases |Cells(dc.table) - dc.known|, 0, 0
  {
    if c in dc.known then Visit(dc, [])
    else
      var marked := dc.(known := dc.known + {c});
      CellsMember(dc.table, c);
      RemoveOneCard(Cells(dc.table), dc.known, c);
      OpenInBounds(dc.table, c);
      var rest := SearchAll(marked, Open(dc.table, c));
      Visit(rest.dc, [c] + rest.cells)
  }

  /** Searches from each listed cell in order, one basin buffer for all. */
  function SearchAll(dc: DepthChecker, cs: seq<Coord>): (r: Visit)
    requires Valid(dc) && forall e :: e in cs ==> InBounds(dc.table, e)
    ensures Valid(r.dc) && r.dc.table == dc.table && dc.known <= r.dc.known
    ensures forall e :: e in cs ==> e in r.dc.known
    ensures |r.cells| == |r.dc.known| - |dc.known|
    decreases |Cells(dc.table) - dc.known|, 1, |cs|
  {
    if |cs| == 0 then Visit(dc, [])
    else
      var first := SearchFromPoint(dc, cs[0]);
      SubsetCard(Cells(dc.table) - first.dc.known, Cells(dc.table) - dc.known);
      assert forall e :: e in cs[1..] ==> e in cs;
      var rest := SearchAll(first.dc, cs[1..]);
      assert forall e :: e in cs ==> e == cs[0] || e in cs[1..];
      Visit(rest.dc, first.cells + rest.cells)
  }

  // --------------------------------------------------- what a search visits

  /** The cells pushed are exactly the newly visited ones, each once. */
  lemma {:induction false} SearchFromCounts(dc: DepthChecker, c: Coord, d: Coord)
    requires Valid(dc) && InBounds(dc.table, c)
    ensures var r := SearchFromPoint(dc, c);
      multiset(r.cells)[d] == if d in r.dc.known && d !in dc.known then 1 else 0
    decreases |Cells(dc.table) - dc.known|, 0, 0
  {
    if c !in dc.known {
      var marked := dc.(known := dc.known + {c});
      CellsMember(dc.table, c);
      RemoveOneCard(Cells(dc.table), dc.known, c);
      OpenInBounds(dc.table, c);
      var rest := SearchAll(marked, Open(dc.table, c));
      SearchAllCounts(marked, Open(dc.table, c), d);
      assert SearchFromPoint(dc, c) == Visit(rest.dc, [c] + rest.cells);
      assert multiset([c] + rest.cells) == multiset([c]) + multiset(rest.cells);
    }
  }

  lemma {:induction false} SearchAllCounts(dc: DepthChecker, cs: seq<Coord>, d: Coord)
    requires Valid(dc) && forall e :: e in cs ==> InBounds(dc.table, e)
    ensures var r := SearchAll(dc, cs);
      multiset(r.cells)[d] == if d in r.dc.known && d !in dc.known then 1 else 0
    decreases |Cells(dc.table) - dc.known|, 1, |cs|
  {
    if |cs| > 0 {
      var first := SearchFromPoint(dc, cs[0]);
      SubsetCard(Cells(dc.table) - first.dc.known, Cells(dc.table) - dc.known);
      assert forall e :: e in cs[1..] ==> e in cs;
      var rest := SearchAll(first.dc, cs[1..]);
      SearchFromCounts(dc, cs[0], d);
      SearchAllCounts(first.dc, cs[1..], d);
      assert SearchAll(dc, cs) == Visit(rest.dc, first.cells + rest.cells);
      assert multiset(first.cells + rest.cells) == multiset(first.cells) + multiset(rest.cells);
    }
  }

  lemma SearchFromMember(dc: DepthChecker, c: Coord, d: Coord)
    requires Valid(dc) && InBounds(dc.table, c)
    ensures var r := SearchFromPoint(dc, c); d in r.cells <==> d in r.dc.known && d !in dc.known
  {
    SearchFromCounts(dc, c, d);
  }

  /** The search may step from `d` onto `e`: a 4-neighbour inside the
      table whose height is not 9. */
  predicate Enters(t: Table<nat>, d: Coord, e: Coord)
    requires WellFormed(t)
  {
    InBounds(t, e) && Adjacent4(e, d) && Height(t, e) != 9
  }

  /** Every cell of `cells` is a root or is entered from a cell visited
      before it. */
  ghost predicate Reached(t: Table<nat>, cells: seq<Coord>, roots: seq<Coord>)
    requires WellFormed(t)
  {
    forall i :: 0 <= i < |cells| ==> cells[i] in roots || EnteredBefore(t, cells, i)
  }

  /** Cell `i` is entered from an earlier cell of the list. */
  ghost predicate EnteredBefore(t: Table<nat>, cells: seq<Coord>, i: nat)
    requires WellFormed(t) && i < |cells|
  {
    exists j :: 0 <= j < i && Enters(t, cells[j], cells[i])
  }

  lemma EnteredBeforeLeft(t: Table<nat>, a: seq<Coord>, b: seq<Coord>, i: nat)
    requires WellFormed(t) && i < |a| && EnteredBefore(t, a, i)
    ensures EnteredBefore(t, a + b, i)
  {
    var j :| 0 <= j < i && Enters(t, a[j], a[i]);
    assert (a + b)[j] == a[j] && (a + b)[i] == a[i];
  }

  lemma EnteredBeforeRight(t: Table<nat>, a: seq<Coord>, b: seq<Coord>, k: nat)
    requires WellFormed(t) && k < |b| && EnteredBefore(t, b, k)
    ensures EnteredBefore(t, a + b, |a| + k)
  {
    var j :| 0 <= j < k && Enters(t, b[j], b[k]);
    assert (a + b)[|a| + j] == b[j] && (a + b)[|a| + k] == b[k];
  }

  lemma ReachedCons(t: Table<nat>, c: Coord, roots: seq<Coord>, rest: seq<Coord>)
    requires WellFormed(t) && forall e :: e in roots ==> Enters(t, c, e)
    requires Reached(t, rest, roots)
    ensures Reached(t, [c] + rest, [c])
  {
    var s := [c] + rest;
    forall i | 0 < i < |s|
      ensures EnteredBefore(t, s, i)
    {
      assert s[i] == rest[i - 1];
      if rest[i - 1] in roots {
        assert Enters(t, s[0], s[i]);
      } else {
        EnteredBeforeRight(t, [c], rest, i - 1);
      }
    }
  }

  lemma OpenEnters(t: Table<nat>, c: Coord)
    requires WellFormed(t) && InBounds(t, c)
    ensures forall e :: e in Open(t, c) ==> Enters(t, c, e)
  {
    forall e | e in Open(t, c)
      ensures Enters(t, c, e)
    {
      OpenMember(t, c, e);
    }
  }

  lemma ReachedConcat(t: Table<nat>, a: seq<Coord>, b: seq<Coord>, roots: seq<Coord>, ra: seq<Coord>, rb: seq<Coord>)
    requires WellFormed(t) && (forall e :: e in a ==> InBounds(t, e)) && (forall e :: e in b ==> InBounds(t, e))
    requires Reached(t, a, ra) && Reached(t, b, rb)
    requires (forall e :: e in ra ==> e in roots) && (forall e :: e in rb ==> e in roots)
    ensures forall e :: e in a + b ==> InBounds(t, e)
    ensures Reached(t, a + b, roots)
  {
    var s := a + b;
    forall i | 0 <= i < |s|
      ensures s[i] in roots || EnteredBefore(t, s, i)
    {
      if i < |a| {
        assert s[i] == a[i];
        if a[i] !in ra {
          EnteredBeforeLeft(t, a, b, i);
        }
      } else {
        var k := i - |a|;
        assert s[i] == b[k];
        if b[k] !in rb {
          EnteredBeforeRight(t, a, b, k);
        }
      }
    }
  }

  /** Every visited cell is `c` or entered from a cell visited before it,
      and stays inside the table. */
  lemma {:induction false} SearchFromReached(dc: DepthChecker, c: Coord)
    requires Valid(dc) && InBounds(dc.table, c)
    ensures var r := SearchFromPoint(dc, c);
      (forall e :: e in r.cells ==> InBounds(dc.table, e)) && Reached(dc.table, r.cells, [c])
    decreases |Cells(dc.table) - dc.known|, 0, 0
  {
    if c !in dc.known {
      var marked := dc.(known := dc.known + {c});
      CellsMember(dc.table, c);
      RemoveOneCard(Cells(dc.table), dc.known, c);
      OpenInBounds(dc.table, c);
      var rest := SearchAll(marked, Open(dc.table, c));
      SearchAllReached(marked, Open(dc.table, c));
      OpenEnters(dc.table, c);
      ReachedCons(dc.table, c, Open(dc.table, c), rest.cells);
      assert SearchFromPoint(dc, c) == Visit(rest.dc, [c] + rest.cells);
    }
  }

  lemma {:induction false} SearchAllReached(dc: DepthChecker, cs: seq<Coord>)
    requires Valid(dc) && forall e :: e in cs ==> InBounds(dc.table, e)
    ensures var r := SearchAll(dc, cs);
      (forall e :: e in r.cells ==> InBounds(dc.table, e)) && Reached(dc.table, r.cells, cs)
    decreases |Cells(dc.table) - dc.known|, 1, |cs|
  {
    if |cs| > 0 {
      var first := SearchFromPoint(dc, cs[0]);
      SubsetCard(Cells(dc.table) - first.dc.known, Cells(dc.table) - dc.known);
      assert forall e :: e in cs[1..] ==> e in cs;
      var rest := SearchAll(first.dc, cs[1..]);
      SearchFromReached(dc, cs[0]);
      SearchAllReached(first.dc, cs[1..]);
      ReachedConcat(dc.table, first.cells, rest.cells, cs, [cs[0]], cs[1..]);
      assert SearchAll(dc, cs) == Visit(rest.dc, first.cells + rest.cells);
    }
  }

  /** Nothing the search could enter from a visited cell is left unvisited. */
  lemma {:induction false} SearchFromClosed(dc: DepthChecker, c: Coord, d: Coord, e: Coord)
    requires Valid(dc) && InBounds(dc.table, c)
    requires d in SearchFromPoint(dc, c).cells && InBounds(dc.table, d) && e in Open(dc.table, d)
    ensures e in SearchFromPoint(dc, c).dc.known
    decreases |Cells(dc.table) - dc.known|, 0, 0
  {
    var marked := dc.(known := dc.known + {c});
    CellsMember(dc.table, c);
    RemoveOneCard(Cells(dc.table), dc.known, c);
    OpenInBounds(dc.table, c);
    var rest := SearchAll(marked, Open(dc.table, c));
    assert SearchFromPoint(dc, c) == Visit(rest.dc, [c] + rest.cells);
    if d != c {
      assert d in rest.cells;
      SearchAllClosed(marked, Open(dc.table, c), d, e);
    }
  }

  lemma {:induction false} SearchAllClosed(dc: DepthChecker, cs: seq<Coord>, d: Coord, e: Coord)
    requires Valid(dc) && forall x :: x in cs ==> InBounds(dc.table, x)
    requires d in SearchAll(dc, cs).cells && InBounds(dc.table, d) && e in Open(dc.table, d)
    ensures e in SearchAll(dc, cs).dc.known
    decreases |Cells(dc.table) - dc.known|, 1, |cs|
  {
    var first := SearchFromPoint(dc, cs[0]);
    SubsetCard(Cells(dc.table) - first.dc.known, Cells(dc.table) - dc.known);
    assert forall x :: x in cs[1..] ==> x in cs;
    var rest := SearchAll(first.dc, cs[1..]);
    assert SearchAll(dc, cs) == Visit(rest.dc, first.cells + rest.cells);
    if d in first.cells {
      SearchFromClosed(dc, cs[0], d, e);
    } else {
      SearchAllClosed(first.dc, cs[1..], d, e);
    }
  }

  /** Only the root can be 9: every other reached cell was entered. */
  lemma ReachedNotNine(t: Table<nat>, cells: seq<Coord>, roots: seq<Coord>, k: nat)
    requires WellFormed(t) && forall e :: e in cells ==> InBounds(t, e)
    requires Reached(t, cells, roots) && k < |cells| && cells[k] !in roots
    ensures Height(t, cells[k]) != 9
  {
    assert EnteredBefore(t, cells, k);
    var j :| 0 <= j < k && Enters(t, cells[j], cells[k]);
  }

  // ---------------------------------------------------------------- basins

  /** The checker after all searches, and one basin per low point. */
  datatype Flood = Flood(dc: DepthChecker, basins: seq<seq<Coord>>)

  /** The searches of `get_basins`, one per listed low point, in order. */
  function SearchEach(dc: DepthChecker, lows: seq<Coord>): (r: Flood)
    requires Valid(dc) && forall e :: e in lows ==> InBounds(dc.table, e)
    ensures Valid(r.dc) && r.dc.table == dc.table && dc.known <= r.dc.known
    ensures |r.basins| == |lows|
    ensures forall e :: e in lows ==> e in r.dc.known
    ensures forall i, e :: 0 <= i < |r.basins| && e in r.basins[i] ==> InBounds(dc.table, e)
    decreases |lows|
  {
    if |lows| == 0 then Flood(dc, [])
    else
      var v := SearchFromPoint(dc, lows[0]);
      SearchFromReached(dc, lows[0]);
      assert forall e :: e in lows[1..] ==> e in lows;
      var rest := SearchEach(v.dc, lows[1..]);
      assert forall e :: e in lows ==> e == lows[0] || e in lows[1..];
      CellsConsInBounds(dc.table, v.cells, rest.basins);
      Flood(rest.dc, [v.cells] + rest.basins)
  }

  lemma CellsConsInBounds(t: Table<nat>, first: seq<Coord>, rest: seq<seq<Coord>>)
    requires forall e :: e in first ==> InBounds(t, e)
    requires forall i, e :: 0 <= i < |rest| && e in rest[i] ==> InBounds(t, e)
    ensures forall i, e :: 0 <= i < |[first] + rest| && e in ([first] + rest)[i] ==> InBounds(t, e)
  {
    forall i, e | 0 <= i < |[first] + rest| && e in ([first] + rest)[i]
      ensures InBounds(t, e)
    {
      if i > 0 {
        assert ([first] + rest)[i] == rest[i - 1];
      }
    }
  }

  /** `SearchEach` on a non-empty list: the first search, then the rest. */
  lemma SearchEachUnfold(dc: DepthChecker, lows: seq<Coord>)
    requires Valid(dc) && (forall e :: e in lows ==> InBounds(dc.table, e)) && |lows| > 0
    ensures forall e :: e in lows[1..] ==> InBounds(dc.table, e)
    ensures var v := SearchFromPoint(dc, lows[0]); var rest := SearchEach(v.dc, lows[1..]);
      SearchEach(dc, lows) == Flood(rest.dc, [v.cells] + rest.basins)
  {
    assert forall e :: e in lows[1..] ==> e in lows;
  }

  /** The first basin is the first search, and the checker after all
      searches is the one after the searches that follow it. */
  lemma SearchEachFirst(dc: DepthChecker, lows: seq<Coord>)
    requires Valid(dc) && (forall e :: e in lows ==> InBounds(dc.table, e)) && 0 < |lows|
    ensures forall e :: e in lows[1..] ==> InBounds(dc.table, e)
    ensures var v := SearchFromPoint(dc, lows[0]);
      SearchEach(dc, lows).basins[0] == v.cells &&
      SearchEach(dc, lows).dc == SearchEach(v.dc, lows[1..]).dc
  {
    SearchEachUnfold(dc, lows);
  }

  /** A later basin of `SearchEach` is a basin of the searches after the
      first. */
  lemma SearchEachLater(dc: DepthChecker, lows: seq<Coord>, i: nat)
    requires Valid(dc) && (forall e :: e in lows ==> InBounds(dc.table, e)) && 0 < i < |lows|
    ensures forall e :: e in lows[1..] ==> InBounds(dc.table, e)
    ensures var v := SearchFromPoint(dc, lows[0]);
      SearchEach(dc, lows).basins[i] == SearchEach(v.dc, lows[1..]).basins[i - 1]
  {
    SearchEachUnfold(dc, lows);
  }

  /** Basin `i` is what `search_from_point` finds from the `i`-th low point,
      started from the checker the earlier searches left. */
  lemma {:induction false} BasinIsSearch(dc: DepthChecker, lows: seq<Coord>, i: nat) returns (w: DepthChecker)
    requires Valid(dc) && (forall e :: e in lows ==> InBounds(dc.table, e)) && i < |lows|
    ensures Valid(w) && w.table == dc.table && dc.known <= w.known && InBounds(w.table, lows[i])
    ensures SearchEach(dc, lows).basins[i] == SearchFromPoint(w, lows[i]).cells
    ensures SearchFromPoint(w, lows[i]).dc.known <= SearchEach(dc, lows).dc.known
    decreases |lows|
  {
    SearchEachFirst(dc, lows);
    var v := SearchFromPoint(dc, lows[0]);
    if i == 0 {
      w := dc;
    } else {
      SearchEachLater(dc, lows, i);
      w := BasinIsSearch(v.dc, lows[1..], i - 1);
      assert lows[1..][i - 1] == lows[i];
    }
  }

  /** A basin holds only cells first visited by its own search. */
  lemma SearchEachNew(dc: DepthChecker, lows: seq<Coord>, i: nat, d: Coord)
    requires Valid(dc) && (forall e :: e in lows ==> InBounds(dc.table, e)) && i < |lows|
    ensures var r := SearchEach(dc, lows);
      d in r.basins[i] ==> d !in dc.known && d in r.dc.known
  {
    var w := BasinIsSearch(dc, lows, i);
    SearchFromMember(w, lows[i], d);
  }

  /** The first basin shares no cell with a later one. */
  lemma FirstBasinApart(dc: DepthChecker, lows: seq<Coord>, j: nat, d: Coord)
    requires Valid(dc) && (forall e :: e in lows ==> InBounds(dc.table, e))
    requires 0 < j < |lows|
    ensures var r := SearchEach(dc, lows); d in r.basins[0] ==> d !in r.basins[j]
  {
    var v := FirstAndLater(dc, lows, j);
    FirstSearchApart(dc, lows[0], v, lows[1..], j - 1, d);
  }

  /** The first basin and basin `j` of `SearchEach`, as the search from the
      first low point and a basin of the searches after it. */
  lemma FirstAndLater(dc: DepthChecker, lows: seq<Coord>, j: nat) returns (v: Visit)
    requires Valid(dc) && (forall e :: e in lows ==> InBounds(dc.table, e))
    requires 0 < j < |lows|
    ensures InBounds(dc.table, lows[0]) && v == SearchFromPoint(dc, lows[0])
    ensures forall e :: e in lows[1..] ==> InBounds(dc.table, e)
    ensures SearchEach(dc, lows).basins[0] == v.cells
    ensures SearchEach(dc, lows).basins[j] == SearchEach(v.dc, lows[1..]).basins[j - 1]
  {
    SearchEachFirst(dc, lows);
    SearchEachLater(dc, lows, j);
    v := SearchFromPoint(dc, lows[0]);
  }

  /** A cell found by the search from `c` is not in any basin of the
      searches that follow it. */
  lemma FirstSearchApart(dc: DepthChecker, c: Coord, v: Visit, rest: seq<Coord>, k: nat, d: Coord)
    requires Valid(dc) && InBounds(dc.table, c) && v == SearchFromPoint(dc, c)
    requires (forall e :: e in rest ==> InBounds(dc.table, e)) && k < |rest|
    ensures d in v.cells ==> d !in SearchEach(v.dc, rest).basins[k]
  {
    SearchFromMember(dc, c, d);
    SearchEachNew(v.dc, rest, k, d);
  }

  /** No cell lies in two basins: `known_points` is shared by all searches. */
  lemma {:induction false} BasinsDisjoint(dc: DepthChecker, lows: seq<Coord>, i: nat, j: nat, d: Coord)
    requires Valid(dc) && (forall e :: e in lows ==> InBounds(dc.table, e))
    requires i < j < |lows|
    ensures var r := SearchEach(dc, lows); d in r.basins[i] ==> d !in r.basins[j]
    decreases |lows|
  {
    if i == 0 {
      FirstBasinApart(dc, lows, j, d);
    } else {
      SearchEachLater(dc, lows, i);
      SearchEachLater(dc, lows, j);
      BasinsDisjoint(SearchFromPoint(dc, lows[0]).dc, lows[1..], i - 1, j - 1, d);
    }
  }

  /** Within a basin no cell is pushed twice. */
  lemma BasinNoRepeats(dc: DepthChecker, lows: seq<Coord>, i: nat, d: Coord)
    requires Valid(dc) && (forall e :: e in lows ==> InBounds(dc.table, e)) && i < |lows|
    ensures multiset(SearchEach(dc, lows).basins[i])[d] <= 1
  {
    var w := BasinIsSearch(dc, lows, i);
    SearchFromCounts(w, lows[i], d);
  }

  /** Each basin grows from its own low point through entered cells. */
  lemma BasinReached(dc: DepthChecker, lows: seq<Coord>, i: nat)
    requires Valid(dc) && (forall e :: e in lows ==> InBounds(dc.table, e)) && i < |lows|
    ensures Reached(dc.table, SearchEach(dc, lows).basins[i], [lows[i]])
  {
    var w := BasinIsSearch(dc, lows, i);
    SearchFromReached(w, lows[i]);
  }

  /** A cell newly visited by the searches is in the first basin or newly
      visited by the searches after the first. */
  lemma NewCellSplit(dc: DepthChecker, lows: seq<Coord>, d: Coord)
    requires Valid(dc) && (forall e :: e in lows ==> InBounds(dc.table, e))
    requires d in SearchEach(dc, lows).dc.known && d !in dc.known
    ensures |lows| > 0 && forall e :: e in lows[1..] ==> InBounds(dc.table, e)
    ensures var v := SearchFromPoint(dc, lows[0]);
      d in SearchEach(dc, lows).basins[0] ||
      (d !in v.dc.known && d in SearchEach(v.dc, lows[1..]).dc.known)
  {
    if |lows| == 0 {
      assert false;
    }
    SearchEachFirst(dc, lows);
    SearchFromMember(dc, lows[0], d);
  }

  lemma LaterBasinLifts(dc: DepthChecker, lows: seq<Coord>, i: nat, d: Coord)
    requires Valid(dc) && (forall e :: e in lows ==> InBounds(dc.table, e)) && 0 < i < |lows|
    requires forall e :: e in lows[1..] ==> InBounds(dc.table, e)
    requires d in SearchEach(SearchFromPoint(dc, lows[0]).dc, lows[1..]).basins[i - 1]
    ensures d in SearchEach(dc, lows).basins[i]
  {
    SearchEachLater(dc, lows, i);
  }

  /** Every cell newly visited by the searches lies in some basin. */
  lemma {:induction false} NewCellInBasin(dc: DepthChecker, lows: seq<Coord>, d: Coord) returns (i: nat)
    requires Valid(dc) && (forall e :: e in lows ==> InBounds(dc.table, e))
    requires d in SearchEach(dc, lows).dc.known && d !in dc.known
    ensures i < |lows| && d in SearchEach(dc, lows).basins[i]
    decreases |lows|
  {
    NewCellSplit(dc, lows, d);
    if d in SearchEach(dc, lows).basins[0] {
      return 0;
    }
    var v := SearchFromPoint(dc, lows[0]);
    var k := NewCellInBasin(v.dc, lows[1..], d);
    i := k + 1;
    LaterBasinLifts(dc, lows, i, d);
  }

  /** The cells visited by the searches are exactly the cells of the
      basins. */
  lemma BasinsCover(dc: DepthChecker, lows: seq<Coord>, d: Coord)
    requires Valid(dc) && (forall e :: e in lows ==> InBounds(dc.table, e))
    ensures var r := SearchEach(dc, lows);
      d in r.dc.known && d !in dc.known <==> exists i :: 0 <= i < |lows| && d in r.basins[i]
  {
    var r := SearchEach(dc, lows);
    if d in r.dc.known && d !in dc.known {
      var i := NewCellInBasin(dc, lows, d);
    }
    if exists i :: 0 <= i < |lows| && d in r.basins[i] {
      var i :| 0 <= i < |lows| && d in r.basins[i];
      SearchEachNew(dc, lows, i, d);
    }
  }

  /** Every cell the search would enter from a basin cell is visited. */
  lemma BasinsClosed(dc: DepthChecker, lows: seq<Coord>, i: nat, d: Coord, e: Coord)
    requires Valid(dc) && (forall x :: x in lows ==> InBounds(dc.table, x)) && i < |lows|
    requires d in SearchEach(dc, lows).basins[i] && InBounds(dc.table, d) && e in Open(dc.table, d)
    ensures e in SearchEach(dc, lows).dc.known
  {
    var w := BasinIsSearch(dc, lows, i);
    SearchFromClosed(w, lows[i], d, e);
  }

  function LowCoords(lows: seq<(nat, Coord)>): (r: seq<Coord>)
    ensures |r| == |lows| && forall i :: 0 <= i < |lows| ==> r[i] == lows[i].1
  {
    seq(|lows|, i requires 0 <= i < |lows| => lows[i].1)
  }

  /** The basins of `get_basins`, as cells in visiting order, one per low
      point in row-major order. */
  function BasinCells(t: Table<nat>): (r: Flood)
    requires WellFormed(t)
    ensures Valid(r.dc) && r.dc.table == t && |r.basins| == |GetLowPoints(t)|
    ensures forall i, e :: 0 <= i < |r.basins| && e in r.basins[i] ==> InBounds(t, e)
  {
    var lows := LowCoords(GetLowPoints(t));
    SearchEach(DepthChecker(t, {}), lows)
  }

  /** The basins of `get_basins` are pairwise disjoint. */
  lemma BasinsPartition(t: Table<nat>, i: nat, j: nat, d: Coord)
    requires WellFormed(t)
    requires i < j < |BasinCells(t).basins|
    ensures var b := BasinCells(t).basins; d in b[i] ==> d !in b[j]
  {
    BasinsDisjoint(DepthChecker(t, {}), LowCoords(GetLowPoints(t)), i, j, d);
  }

  /** Each basin grows from its low point through cells other than 9. */
  lemma BasinFromLowPoint(t: Table<nat>, i: nat)
    requires WellFormed(t) && i < |BasinCells(t).basins|
    ensures Reached(t, BasinCells(t).basins[i], [GetLowPoints(t)[i].1])
  {
    BasinReached(DepthChecker(t, {}), LowCoords(GetLowPoints(t)), i);
  }

  /** No enterable neighbour of a basin cell lies outside every basin. */
  lemma BasinsComplete(t: Table<nat>, i: nat, d: Coord, e: Coord)
    requires WellFormed(t) && i < |BasinCells(t).basins|
    requires d in BasinCells(t).basins[i] && InBounds(t, d)
    requires InBounds(t, e) && Adjacent4(e, d) && Height(t, e) != 9
    ensures exists j :: 0 <= j < |BasinCells(t).basins| && e in BasinCells(t).basins[j]
  {
    var dc := DepthChecker(t, {});
    var lows := LowCoords(GetLowPoints(t));
    OpenMember(t, d, e);
    BasinsClosed(dc, lows, i, d, e);
    BasinsCover(dc, lows, e);
  }

  /** The heights of the given cells, in order. */
  function Heights(t: Table<nat>, cells: seq<Coord>): (r: seq<nat>)
    requires WellFormed(t) && forall e :: e in cells ==> InBounds(t, e)
    ensures |r| == |cells| && forall k :: 0 <= k < |cells| ==> r[k] == Height(t, cells[k])
  {
    seq(|cells|, k requires 0 <= k < |cells| => Height(t, cells[k]))
  }

  /** `get_basins`: the heights pushed for each basin. */
  function GetBasins(t: Table<nat>): (r: seq<seq<nat>>)
    requires WellFormed(t)
    ensures |r| == |GetLowPoints(t)|
    ensures forall i :: 0 <= i < |r| ==> r[i] == Heights(t, BasinCells(t).basins[i])
  {
    var f := BasinCells(t);
    seq(|f.basins|, i requires 0 <= i < |f.basins| => Heights(t, f.basins[i]))
  }
}

=== FILE: bingo.dfy ===
/** Day four: square bingo boards. Drawn numbers are marked on every board
    that holds them; a board wins once a whole row or column is marked, and
    its score is the sum of its unmarked numbers times the last draw. */
module Bingo {
  import opened Wrappers

  /** A cell holds its number and whether it is marked. */
  type BingoCell = (nat, bool)

  /** A position `(x, y)`: column `x` of row `y`. */
  type BingoPos = (nat, nat)

  /** `rows[y][x]` is the cell at `(x, y)`; `search` finds the position of a
      number; `hasBingo` records a completed row or column. */
  datatype BingoTable = BingoTable(
    id: nat,
    rows: seq<seq<BingoCell>>,
    size: nat,
    search: map<nat, BingoPos>,
    hasBingo: bool)

  // ------------------------------------------------------------- directions

  datatype Direction = Up | Down | Left | Right

  function ToCoords(d: Direction): (r: (int, int))
    ensures (r.0 == 0) != (r.1 == 0) && -1 <= r.0 <= 1 && -1 <= r.1 <= 1
  {
    match d
    case Up => (0, 1)
    case Down => (0, -1)
    case Left => (-1, 0)
    case Right => (1, 0)
  }

  function MoveCoords(d: Direction, c: (int, int)): (r: (int, int))
    ensures r == (c.0 + ToCoords(d).0, c.1 + ToCoords(d).1)
  {
    var dir := ToCoords(d);
    (c.0 + dir.0, c.1 + dir.1)
  }

  lemma DirectionsExample()
    ensures MoveCoords(Up, (1, 1)) == (1, 2) && MoveCoords(Down, (1, 1)) == (1, 0)
    ensures MoveCoords(Left, (1, 1)) == (0, 1) && MoveCoords(Right, (1, 1)) == (2, 1)
  {
  }

  /** Up and Down, and Left and Right, undo each other. */
  lemma OppositeDirections(c: (int, int))
    ensures MoveCoords(Down, MoveCoords(Up, c)) == c && MoveCoords(Up, MoveCoords(Down, c)) == c
    ensures MoveCoords(Left, MoveCoords(Right, c)) == c && MoveCoords(Right, MoveCoords(Left, c)) == c
  {
  }

  // ----------------------------------------------------------------- tables

  /** A `size` by `size` board; `size - 1` must fit the signed byte that
      the walk along a row or column works in. */
  predicate WellShaped(t: BingoTable)
  {
    1 <= t.size <= 127 && |t.rows| == t.size &&
    forall y :: 0 <= y < |t.rows| ==> |t.rows[y]| == t.size
  }

  /** Every number the search map knows sits at its recorded position. */
  ghost predicate SearchValid(t: BingoTable)
  {
    forall v :: v in t.search ==>
      t.search[v].1 < |t.rows| && t.search[v].0 < |t.rows[t.search[v].1]| &&
      t.rows[t.search[v].1][t.search[v].0].0 == v
  }

  ghost predicate Valid(t: BingoTable)
  {
    WellShaped(t) && SearchValid(t)
  }

  /** A fresh board: every cell `(0, false)`, nothing to search, no bingo. */
  function NewTable(size: nat, id: nat): (r: BingoTable)
    ensures r.id == id && r.size == size && r.search == map[] && !r.hasBingo
    ensures |r.rows| == size && forall y :: 0 <= y < size ==> |r.rows[y]| == size
    ensures forall y, x :: 0 <= y < size && 0 <= x < size ==> r.rows[y][x] == (0, false)
    ensures 1 <= size <= 127 ==> Valid(r)
  {
    BingoTable(id, seq(size, _ => seq(size, _ => (0, false))), size, map[], false)
  }

  function GetCell(t: BingoTable, x: nat, y: nat): (r: Option<BingoCell>)
    ensures r.Some? <==> y < |t.rows| && x < |t.rows[y]|
    ensures r.Some? ==> r.value == t.rows[y][x]
  {
    if y < |t.rows| then
      if x < |t.rows[y]| then Some(t.rows[y][x]) else None
    else None
  }

  function GetCellCoords(t: BingoTable, content: nat): (r: Option<BingoPos>)
    ensures r.Some? <==> content in t.search
    ensures r.Some? ==> r.value == t.search[content]
  {
    if content in t.search then Some(t.search[content]) else None
  }

  // --------------------------------------------------------------- populate

  /** Cell `(x, y)` has been written once the loops reach input row `i`,
      entry `j`: input row `x` fills column `x`. */
  predicate Done(input: seq<seq<nat>>, i: nat, j: nat, x: nat, y: nat)
  {
    x < |input| && y < |input[x]| && (x < i || (x == i && y < j))
  }

  /** Entry `j` of input row `i` has no cell `(i, j)` to go to. */
  predicate Misfit(t: BingoTable, input: seq<seq<nat>>, i: nat, j: nat)
  {
    i < |input| && j < |input[i]| && !(j < |t.rows| && i < |t.rows[j]|)
  }

  /** Every entry of the input has a cell to go to. */
  ghost predicate Fits(t: BingoTable, input: seq<seq<nat>>)
  {
    forall i: nat, j: nat :: !Misfit(t, input, i, j)
  }

  /** `p` is an input position holding `v`. */
  predicate FromInput(input: seq<seq<nat>>, p: BingoPos, v: nat)
  {
    p.0 < |input| && p.1 < |input[p.0]| && input[p.0][p.1] == v
  }

  /** Input position `(a, b)` comes no later than `p`: the loops take the
      input rows in order and each row's entries in order. */
  predicate NoLater(a: nat, b: nat, p: BingoPos)
  {
    a < p.0 || (a == p.0 && b <= p.1)
  }

  /** `p` is the last input position holding `v`. */
  ghost predicate LastFromInput(input: seq<seq<nat>>, p: BingoPos, v: nat)
  {
    FromInput(input, p, v) &&
    forall a, b :: 0 <= a < |input| && 0 <= b < |input[a]| && input[a][b] == v ==> NoLater(a, b, p)
  }

  /** `p` is the last position holding `v` that the loops have reached by
      input row `i`, entry `j`. */
  ghost predicate LastDone(input: seq<seq<nat>>, i: nat, j: nat, p: BingoPos, v: nat)
  {
    Done(input, i, j, p.0, p.1) && input[p.0][p.1] == v &&
    forall a: nat, b: nat :: Done(input, i, j, a, b) && input[a][b] == v ==> NoLater(a, b, p)
  }

  predicate SameShape(a: seq<seq<BingoCell>>, b: seq<seq<BingoCell>>)
  {
    |a| == |b| && forall y :: 0 <= y < |a| ==> |a[y]| == |b[y]|
  }

  /** What populating `t` from `input` leaves in `r`: entry `j` of input
      row `i` sits, unmarked, in cell `(i, j)`, every other cell is as it
      was, every input number is searched for at the last input position
      holding it (a later `insert` overwrites an earlier one), no earlier
      search entry is lost, and any other search entry is as it was. */
  ghost predicate Populated(t: BingoTable, input: seq<seq<nat>>, r: BingoTable)
  {
    r.id == t.id && r.size == t.size && r.hasBingo == t.hasBingo &&
    SameShape(r.rows, t.rows) &&
    (forall y, x :: 0 <= y < |t.rows| && 0 <= x < |t.rows[y]| ==>
      r.rows[y][x] == if x < |input| && y < |input[x]| then (input[x][y], false) else t.rows[y][x]) &&
    (forall a, b :: 0 <= a < |input| && 0 <= b < |input[a]| ==>
      input[a][b] in r.search && LastFromInput(input, r.search[input[a][b]], input[a][b])) &&
    (forall v :: v in t.search ==> v in r.search) &&
    (forall v :: v in r.search ==>
      (v in t.search && r.search[v] == t.search[v]) || FromInput(input, r.search[v], v))
  }

  /** A number listed twice is searched for at its second position: the
      second `insert` overwrites the first. */
  lemma RepeatedLastWins(t: BingoTable, r: BingoTable)
    requires Populated(t, [[5, 5]], r)
    ensures 5 in r.search && r.search[5] == (0, 1)
  {
    var input := [[5, 5]];
    assert input[0][0] == 5 && input[0][1] == 5;
    assert LastFromInput(input, r.search[input[0][1]], input[0][1]);
  }

  /** The state of the populate loops at input row `i`, entry `j`. */
  ghost predicate PopInv(t: BingoTable, input: seq<seq<nat>>, i: nat, j: nat,
                         rows: seq<seq<BingoCell>>, search: map<nat, BingoPos>)
  {
    SameShape(rows, t.rows) &&
    (forall a: nat, b: nat :: Done(input, i, j, a, b) ==> b < |t.rows| && a < |t.rows[b]|) &&
    (forall y, x :: 0 <= y < |t.rows| && 0 <= x < |t.rows[y]| ==>
      rows[y][x] == if Done(input, i, j, x, y) then (input[x][y], false) else t.rows[y][x]) &&
    (forall a: nat, b: nat :: Done(input, i, j, a, b) ==>
      input[a][b] in search && LastDone(input, i, j, search[input[a][b]], input[a][b])) &&
    (forall v :: v in t.search ==> v in search) &&
    (forall v :: v in search ==> (v in t.search && search[v] == t.search[v]) || FromInput(input, search[v], v))
  }

  function WriteCell(rows: seq<seq<BingoCell>>, x: nat, y: nat, c: BingoCell): (r: seq<seq<BingoCell>>)
    requires y < |rows| && x < |rows[y]|
    ensures SameShape(r, rows)
    ensures forall b, a :: 0 <= b < |rows| && 0 <= a < |rows[b]| ==>
      r[b][a] == if a == x && b == y then c else rows[b][a]
  {
    rows[y := rows[y][x := c]]
  }

  /** Entry `j` of input row `i` goes, unmarked, to cell `(i, j)`, and the
      search map records `(i, j)` for it; an entry with no cell to go to is
      an index out of bounds. */
  method Populate(t: BingoTable, input: seq<seq<nat>>) returns (r: Option<BingoTable>)
    ensures r.None? <==> !Fits(t, input)
    ensures r.Some? ==> Populated(t, input, r.value)
  {
    var rows := t.rows;
    var search: map<nat, BingoPos> := t.search;
    PopStart(t, input);
    for i := 0 to |input|
      invariant PopInv(t, input, i, 0, rows, search)
    {
      var ok;
      ok, rows, search := PopulateRow(t, input, i, rows, search);
      if !ok {
        return None;
      }
    }
    PopEnd(t, input, rows, search);
    r := Some(t.(rows := rows, search := search));
  }

  /** Writes input row `i`; `ok` is false at an entry with no cell. */
  method PopulateRow(t: BingoTable, input: seq<seq<nat>>, i: nat,
                     rows0: seq<seq<BingoCell>>, search0: map<nat, BingoPos>)
    returns (ok: bool, rows: seq<seq<BingoCell>>, search: map<nat, BingoPos>)
    requires i < |input| && PopInv(t, input, i, 0, rows0, search0)
    ensures ok ==> PopInv(t, input, i + 1, 0, rows, search)
    ensures !ok ==> !Fits(t, input)
  {
    rows, search := rows0, search0;
    for j := 0 to |input[i]|
      invariant PopInv(t, input, i, j, rows, search)
    {
      if j >= |rows| || i >= |rows[j]| {
        PopFail(t, input, i, j, rows, search);
        return false, rows, search;
      }
      PopStep(t, input, i, j, rows, search);
      rows := WriteCell(rows, i, j, (input[i][j], false));
      search := search[input[i][j] := (i, j)];
    }
    PopNextRow(t, input, i, rows, search);
    ok := true;
  }

  lemma PopStart(t: BingoTable, input: seq<seq<nat>>)
    ensures PopInv(t, input, 0, 0, t.rows, t.search)
  {
  }

  lemma PopFail(t: BingoTable, input: seq<seq<nat>>, i: nat, j: nat,
                rows: seq<seq<BingoCell>>, search: map<nat, BingoPos>)
    requires PopInv(t, input, i, j, rows, search) && i < |input| && j < |input[i]|
    requires j >= |rows| || i >= |rows[j]|
    ensures !Fits(t, input)
  {
    assert Misfit(t, input, i, j);
  }

  lemma PopStep(t: BingoTable, input: seq<seq<nat>>, i: nat, j: nat,
                rows: seq<seq<BingoCell>>, search: map<nat, BingoPos>)
    requires PopInv(t, input, i, j, rows, search) && i < |input| && j < |input[i]|
    requires j < |rows| && i < |rows[j]|
    ensures PopInv(t, input, i, j + 1, WriteCell(rows, i, j, (input[i][j], false)), search[input[i][j] := (i, j)])
  {
    var k := j + 1;
    var search' := search[input[i][j] := (i, j)];
    DoneStep(input, i, j);
    assert |rows[j]| == |t.rows[j]|;
    forall a: nat, b: nat | Done(input, i, k, a, b)
      ensures b < |t.rows| && a < |t.rows[b]| && input[a][b] in search'
    {
      if !(a == i && b == j) {
        assert Done(input, i, j, a, b);
      }
    }
    PopStepCells(t, input, i, j, rows);
    forall v | v in search'
      ensures (v in t.search && search'[v] == t.search[v]) || FromInput(input, search'[v], v)
    {
      if v != input[i][j] {
        assert search'[v] == search[v];
      }
    }
  }

  /** The cells after writing entry `j` of input row `i`. */
  lemma PopStepCells(t: BingoTable, input: seq<seq<nat>>, i: nat, j: nat, rows: seq<seq<BingoCell>>)
    requires i < |input| && j < |input[i]| && j < |rows| && i < |rows[j]| && SameShape(rows, t.rows)
    requires forall y, x :: 0 <= y < |t.rows| && 0 <= x < |t.rows[y]| ==>
      rows[y][x] == if Done(input, i, j, x, y) then (input[x][y], false) else t.rows[y][x]
    ensures forall y, x :: 0 <= y < |t.rows| && 0 <= x < |t.rows[y]| ==>
      WriteCell(rows, i, j, (input[i][j], false))[y][x] == if Done(input, i, j + 1, x, y) then (input[x][y], false) else t.rows[y][x]
  {
    var k := j + 1;
    var rows' := WriteCell(rows, i, j, (input[i][j], false));
    forall y, x | 0 <= y < |t.rows| && 0 <= x < |t.rows[y]|
      ensures rows'[y][x] == if Done(input, i, k, x, y) then (input[x][y], false) else t.rows[y][x]
    {
      assert |rows[y]| == |t.rows[y]|;
      assert rows[y][x] == if Done(input, i, j, x, y) then (input[x][y], false) else t.rows[y][x];
      assert Done(input, i, k, x, y) <==> Done(input, i, j, x, y) || (x == i && y == j);
    }
  }

  lemma PopNextRow(t: BingoTable, input: seq<seq<nat>>, i: nat,
                   rows: seq<seq<BingoCell>>, search: map<nat, BingoPos>)
    requires i < |input| && PopInv(t, input, i, |input[i]|, rows, search)
    ensures PopInv(t, input, i + 1, 0, rows, search)
  {
    var k := i + 1;
    DoneNextRow(input, i);
    forall a: nat, b: nat | Done(input, k, 0, a, b)
      ensures b < |t.rows| && a < |t.rows[b]| && input[a][b] in search
    {
      assert Done(input, i, |input[i]|, a, b);
    }
    forall y, x | 0 <= y < |t.rows| && 0 <= x < |t.rows[y]|
      ensures rows[y][x] == if Done(input, k, 0, x, y) then (input[x][y], false) else t.rows[y][x]
    {
      assert Done(input, k, 0, x, y) == Done(input, i, |input[i]|, x, y);
    }
  }

  lemma PopEnd(t: BingoTable, input: seq<seq<nat>>, rows: seq<seq<BingoCell>>, search: map<nat, BingoPos>)
    requires PopInv(t, input, |input|, 0, rows, search)
    ensures Fits(t, input) && Populated(t, input, t.(rows := rows, search := search))
  {
    DoneAll(input);
    forall a: nat, b: nat ensures !Misfit(t, input, a, b) {
      if a < |input| && b < |input[a]| {
        assert Done(input, |input|, 0, a, b);
      }
    }
    PopEndSearch(input, search);
    forall y, x | 0 <= y < |t.rows| && 0 <= x < |t.rows[y]|
      ensures rows[y][x] == if x < |input| && y < |input[x]| then (input[x][y], false) else t.rows[y][x]
    {
      assert Done(input, |input|, 0, x, y) == (x < |input| && y < |input[x]|);
    }
  }

  /** Once every input row is done, the last position reached is the last
      input position. */
  lemma PopEndSearch(input: seq<seq<nat>>, search: map<nat, BingoPos>)
    requires forall a: nat, b: nat :: Done(input, |input|, 0, a, b) ==>
      input[a][b] in search && LastDone(input, |input|, 0, search[input[a][b]], input[a][b])
    ensures forall a, b :: 0 <= a < |input| && 0 <= b < |input[a]| ==>
      input[a][b] in search && LastFromInput(input, search[input[a][b]], input[a][b])
  {
    forall a, b | 0 <= a < |input| && 0 <= b < |input[a]|
      ensures input[a][b] in search && LastFromInput(input, search[input[a][b]], input[a][b])
    {
      assert Done(input, |input|, 0, a, b);
      var v := input[a][b];
      var p := search[v];
      forall a', b' | 0 <= a' < |input| && 0 <= b' < |input[a']| && input[a'][b'] == v
        ensures NoLater(a', b', p)
      {
        assert Done(input, |input|, 0, a', b');
      }
    }
  }

  lemma DoneStep(input: seq<seq<nat>>, i: nat, j: nat)
    requires i < |input| && j < |input[i]|
    ensures forall x: nat, y: nat :: Done(input, i, j + 1, x, y) <==> Done(input, i, j, x, y) || (x == i && y == j)
  {
    forall x: nat, y: nat
      ensures Done(input, i, j + 1, x, y) <==> Done(input, i, j, x, y) || (x == i && y == j)
    {
    }
  }

  lemma DoneNextRow(input: seq<seq<nat>>, i: nat)
    requires i < |input|
    ensures forall x: nat, y: nat :: Done(input, i + 1, 0, x, y) <==> Done(input, i, |input[i]|, x, y)
  {
  }

  lemma DoneAll(input: seq<seq<nat>>)
    ensures forall x: nat, y: nat :: Done(input, |input|, 0, x, y) <==> x < |input| && y < |input[x]|
  {
  }

  /** A board built from `rowSet`, input row `i` filling column `i`; its
      size is the length of the first row, and an input that does not fit
      the square is an index out of bounds. */
  method BuildTable(rowSet: seq<seq<nat>>, id: nat) returns (r: Option<BingoTable>)
    requires |rowSet| > 0 && 1 <= |rowSet[0]| <= 127
    ensures r.None? <==> exists i :: 0 <= i < |rowSet| && |rowSet[i]| > RowRoom(|rowSet[0]|, i)
    ensures r.Some? ==> Valid(r.value) && r.value.id == id && r.value.size == |rowSet[0]| && !r.value.hasBingo
    ensures r.Some? ==> forall i, j :: 0 <= i < |rowSet| && 0 <= j < |rowSet[i]| ==>
      rowSet[i][j] in r.value.search && r.value.rows[r.value.search[rowSet[i][j]].1][r.value.search[rowSet[i][j]].0].0 == rowSet[i][j]
  {
    var blank := NewTable(|rowSet[0]|, id);
    FitsSquare(blank, rowSet);
    r := Populate(blank, rowSet);
    if r.Some? {
      PopulatedValid(blank, rowSet, r.value);
    }
  }

  /** The widest input row `i` a square board takes: `size` entries for a
      column of the board, none beyond the last column. */
  function RowRoom(size: nat, i: nat): nat
  {
    if i < size then size else 0
  }

  lemma FitsSquare(t: BingoTable, input: seq<seq<nat>>)
    requires WellShaped(t)
    ensures Fits(t, input) <==> forall i :: 0 <= i < |input| ==> |input[i]| <= RowRoom(t.size, i)
  {
    if exists i :: 0 <= i < |input| && |input[i]| > RowRoom(t.size, i) {
      var i :| 0 <= i < |input| && |input[i]| > RowRoom(t.size, i);
      assert Misfit(t, input, i, RowRoom(t.size, i));
    }
    if forall i :: 0 <= i < |input| ==> |input[i]| <= RowRoom(t.size, i) {
      forall i: nat, j: nat ensures !Misfit(t, input, i, j) {
        if i < |input| && j < |input[i]| {
          assert |input[i]| <= RowRoom(t.size, i);
        }
      }
    }
  }

  /** Populating a board with an empty search map from an input that fits
      leaves every search entry pointing at its number. */
  lemma PopulatedValid(t: BingoTable, input: seq<seq<nat>>, r: BingoTable)
    requires WellShaped(t) && t.search == map[] && Fits(t, input) && Populated(t, input, r)
    ensures Valid(r)
    ensures forall i, j :: 0 <= i < |input| && 0 <= j < |input[i]| ==>
      input[i][j] in r.search && r.rows[r.search[input[i][j]].1][r.search[input[i][j]].0].0 == input[i][j]
  {
    forall v | v in r.search
      ensures r.search[v].1 < |r.rows| && r.search[v].0 < |r.rows[r.search[v].1]| && r.rows[r.search[v].1][r.search[v].0].0 == v
    {
      var p := r.search[v];
      assert FromInput(input, p, v) && !Misfit(t, input, p.0, p.1);
      var w := input[p.0][p.1];
    }
  }

  // ---------------------------------------------------------------- marking

  /** Position `p` lies on the board and its cell is marked. */
  predicate Marked(t: BingoTable, p: (int, int))
    requires WellShaped(t)
  {
    0 <= p.0 < t.size && 0 <= p.1 < t.size && t.rows[p.1][p.0].1
  }

  /** Every cell of row `y` is marked. */
  predicate RowFull(t: BingoTable, y: nat)
    requires WellShaped(t) && y < t.size
  {
    forall x :: 0 <= x < t.size ==> t.rows[y][x].1
  }

  /** Every cell of column `x` is marked. */
  predicate ColFull(t: BingoTable, x: nat)
    requires WellShaped(t) && x < t.size
  {
    forall y :: 0 <= y < t.size ==> t.rows[y][x].1
  }

  /** Where `k` steps towards `d` lead from `p`. */
  function Shift(d: Direction, p: (int, int), k: nat): (int, int)
  {
    match d
    case Up => (p.0, p.1 + k)
    case Down => (p.0, p.1 - k)
    case Left => (p.0 - k, p.1)
    case Right => (p.0 + k, p.1)
  }

  lemma ShiftStep(d: Direction, p: (int, int), k: nat)
    requires k > 0
    ensures Shift(d, p, k) == Shift(d, MoveCoords(d, p), k - 1)
  {
  }

  /** Steps towards `d` that stay on a `size` board from `p`. */
  function Remaining(d: Direction, p: (int, int), size: nat): int
  {
    match d
    case Up => size - 1 - p.1
    case Down => p.1
    case Left => p.0
    case Right => size - 1 - p.0
  }

  predicate OnBoard(t: BingoTable, p: (int, int))
  {
    0 <= p.0 < t.size && 0 <= p.1 < t.size
  }

  /** Walks from `p` towards `d` while the next cell is on the board and
      marked, adding one to `amount` per cell. The board size bounds the
      walk, so the signed-byte coordinates of the walk never wrap. */
  function CheckTowards(t: BingoTable, p: (int, int), d: Direction, amount: nat): (r: nat)
    requires WellShaped(t) && OnBoard(t, p)
    ensures amount <= r <= amount + Remaining(d, p, t.size)
    decreases Remaining(d, p, t.size)
  {
    var n := MoveCoords(d, p);
    if n.0 < 0 || n.0 > t.size - 1 || n.1 < 0 || n.1 > t.size - 1 then amount
    else
      match GetCell(t, n.0, n.1)
      case None => amount
      case Some(c) => if c.1 then CheckTowards(t, n, d, amount + 1) else amount
  }

  /** The walk only counts marked cells: the first `r - amount` cells
      towards `d` from `p` are marked. */
  lemma {:induction false} CheckTowardsMarked(t: BingoTable, p: (int, int), d: Direction, amount: nat)
    requires WellShaped(t) && OnBoard(t, p)
    ensures forall k: nat :: 1 <= k <= CheckTowards(t, p, d, amount) - amount ==> Marked(t, Shift(d, p, k))
    decreases Remaining(d, p, t.size)
  {
    var n := MoveCoords(d, p);
    CheckTowardsUnfold(t, p, d, amount);
    if Marked(t, n) {
      CheckTowardsMarked(t, n, d, amount + 1);
      RunExtends(t, p, d, CheckTowards(t, n, d, amount + 1) - amount);
    }
  }

  /** The walk stops at the first cell that is unmarked or off the board:
      cell `r - amount + 1` towards `d` from `p`. */
  lemma {:induction false} CheckTowardsStops(t: BingoTable, p: (int, int), d: Direction, amount: nat)
    requires WellShaped(t) && OnBoard(t, p)
    ensures forall k: nat :: k == CheckTowards(t, p, d, amount) - amount + 1 ==> !Marked(t, Shift(d, p, k))
    decreases Remaining(d, p, t.size)
  {
    var n := MoveCoords(d, p);
    CheckTowardsUnfold(t, p, d, amount);
    if Marked(t, n) {
      CheckTowardsStops(t, n, d, amount + 1);
      StopExtends(t, p, d, amount, CheckTowards(t, n, d, amount + 1));
    } else {
      assert CheckTowards(t, p, d, amount) - amount + 1 == 1;
      StopFirst(t, p, d);
    }
  }

  /** One step of the walk: a marked next cell continues it, anything
      else ends it. */
  lemma CheckTowardsUnfold(t: BingoTable, p: (int, int), d: Direction, amount: nat)
    requires WellShaped(t) && OnBoard(t, p)
    ensures var n := MoveCoords(d, p);
      if Marked(t, n) then OnBoard(t, n) &&
        0 <= Remaining(d, n, t.size) < Remaining(d, p, t.size) &&
        CheckTowards(t, p, d, amount) == CheckTowards(t, n, d, amount + 1)
      else CheckTowards(t, p, d, amount) == amount
  {
  }

  /** A run of `m - 1` marked cells after the first step, with the first
      step marked, is a run of `m` cells from `p`. */
  lemma RunExtends(t: BingoTable, p: (int, int), d: Direction, m: nat)
    requires WellShaped(t) && m >= 1 && Marked(t, MoveCoords(d, p))
    requires forall k: nat :: 1 <= k <= m - 1 ==> Marked(t, Shift(d, MoveCoords(d, p), k))
    ensures forall k: nat :: 1 <= k <= m ==> Marked(t, Shift(d, p, k))
  {
    forall k: nat | 1 <= k <= m
      ensures Marked(t, Shift(d, p, k))
    {
      ShiftStep(d, p, k);
    }
  }

  /** The cell ending a walk from the first step ends the walk from `p`. */
  lemma StopExtends(t: BingoTable, p: (int, int), d: Direction, a: nat, r: nat)
    requires WellShaped(t) && r >= a + 1
    requires forall k: nat :: k == r - (a + 1) + 1 ==> !Marked(t, Shift(d, MoveCoords(d, p), k))
    ensures forall k: nat :: k == r - a + 1 ==> !Marked(t, Shift(d, p, k))
  {
    forall k: nat | k == r - a + 1
      ensures !Marked(t, Shift(d, p, k))
    {
      ShiftStep(d, p, k);
    }
  }

  lemma StopFirst(t: BingoTable, p: (int, int), d: Direction)
    requires WellShaped(t) && !Marked(t, MoveCoords(d, p))
    ensures forall k: nat :: k == 1 ==> !Marked(t, Shift(d, p, k))
  {
    ShiftStep(d, p, 1);
  }

  /** Every cell from `p` to the edge of the board towards `d` is marked. */
  ghost predicate Reaches(t: BingoTable, p: (int, int), d: Direction)
    requires WellShaped(t)
  {
    forall k: nat :: 1 <= k <= Remaining(d, p, t.size) ==> Marked(t, Shift(d, p, k))
  }

  /** The walk goes all the way to the edge exactly when every cell on the
      way is marked. */
  lemma WalkToEdge(t: BingoTable, p: (int, int), d: Direction)
    requires WellShaped(t) && OnBoard(t, p)
    ensures CheckTowards(t, p, d, 0) == Remaining(d, p, t.size) <==> Reaches(t, p, d)
  {
    CheckTowardsMarked(t, p, d, 0);
    CheckTowardsStops(t, p, d, 0);
    var q := Shift(d, p, CheckTowards(t, p, d, 0) - 0 + 1);
  }

  /** A row is full exactly when the cell `p` on it is marked and so is
      everything left and right of it. */
  lemma RowReaches(t: BingoTable, p: (int, int))
    requires WellShaped(t) && OnBoard(t, p)
    ensures RowFull(t, p.1) <==> Marked(t, p) && Reaches(t, p, Left) && Reaches(t, p, Right)
  {
    if RowFull(t, p.1) {
      forall k: nat | 1 <= k <= Remaining(Left, p, t.size) ensures Marked(t, Shift(Left, p, k)) {
        assert t.rows[p.1][p.0 - k].1;
      }
      forall k: nat | 1 <= k <= Remaining(Right, p, t.size) ensures Marked(t, Shift(Right, p, k)) {
        assert t.rows[p.1][p.0 + k].1;
      }
      assert t.rows[p.1][p.0].1;
    }
    if Marked(t, p) && Reaches(t, p, Left) && Reaches(t, p, Right) {
      forall x | 0 <= x < t.size ensures t.rows[p.1][x].1 {
        if x < p.0 {
          assert Marked(t, Shift(Left, p, p.0 - x));
        } else if x > p.0 {
          assert Marked(t, Shift(Right, p, x - p.0));
        }
      }
    }
  }

  /** A column is full exactly when the cell `p` on it is marked and so is
      everything above and below it. */
  lemma ColReaches(t: BingoTable, p: (int, int))
    requires WellShaped(t) && OnBoard(t, p)
    ensures ColFull(t, p.0) <==> Marked(t, p) && Reaches(t, p, Up) && Reaches(t, p, Down)
  {
    if ColFull(t, p.0) {
      forall k: nat | 1 <= k <= Remaining(Up, p, t.size) ensures Marked(t, Shift(Up, p, k)) {
        assert t.rows[p.1 + k][p.0].1;
      }
      forall k: nat | 1 <= k <= Remaining(Down, p, t.size) ensures Marked(t, Shift(Down, p, k)) {
        assert t.rows[p.1 - k][p.0].1;
      }
      assert t.rows[p.1][p.0].1;
    }
    if Marked(t, p) && Reaches(t, p, Up) && Reaches(t, p, Down) {
      forall y | 0 <= y < t.size ensures t.rows[y][p.0].1 {
        if y < p.1 {
          assert Marked(t, Shift(Down, p, p.1 - y));
        } else if y > p.1 {
          assert Marked(t, Shift(Up, p, y - p.1));
        }
      }
    }
  }

  /** The length of the marked run through `p` along its row: 0 when `p`
      itself is unmarked. */
  function CheckHorizontal(t: BingoTable, p: (int, int)): (r: nat)
    requires WellShaped(t) && OnBoard(t, p)
    ensures r <= t.size
  {
    match GetCell(t, p.0, p.1)
    case None => 0
    case Some(c) => if !c.1 then 0 else 1 + CheckTowards(t, p, Left, 0) + CheckTowards(t, p, Right, 0)
  }

  /** The length of the marked run through `p` along its column. */
  function CheckVertical(t: BingoTable, p: (int, int)): (r: nat)
    requires WellShaped(t) && OnBoard(t, p)
    ensures r <= t.size
  {
    match GetCell(t, p.0, p.1)
    case None => 0
    case Some(c) => if !c.1 then 0 else 1 + CheckTowards(t, p, Up, 0) + CheckTowards(t, p, Down, 0)
  }

  /** The run through `p` spans the board exactly when `p`'s row is full. */
  lemma HorizontalFull(t: BingoTable, p: (int, int))
    requires WellShaped(t) && OnBoard(t, p)
    ensures CheckHorizontal(t, p) == t.size <==> RowFull(t, p.1)
  {
    WalkToEdge(t, p, Left);
    WalkToEdge(t, p, Right);
    RowReaches(t, p);
  }

  /** The run through `p` spans the board exactly when `p`'s column is full. */
  lemma VerticalFull(t: BingoTable, p: (int, int))
    requires WellShaped(t) && OnBoard(t, p)
    ensures CheckVertical(t, p) == t.size <==> ColFull(t, p.0)
  {
    WalkToEdge(t, p, Up);
    WalkToEdge(t, p, Down);
    ColReaches(t, p);
  }

  /** Sets `hasBingo` once the run through `p` spans its row or column;
      it is never cleared. */
  function CheckForBingo(t: BingoTable, p: (int, int)): (r: BingoTable)
    requires WellShaped(t) && OnBoard(t, p)
    ensures r == t.(hasBingo := t.hasBingo || RowFull(t, p.1) || ColFull(t, p.0))
  {
    HorizontalFull(t, p);
    VerticalFull(t, p);
    if CheckHorizontal(t, p) == t.size || CheckVertical(t, p) == t.size then t.(hasBingo := true) else t
  }

  /** Sets the mark of cell `(x, y)` to `toggle` and checks for a bingo
      through it; a position off the board is an error. */
  function SetCell(t: BingoTable, x: nat, y: nat, toggle: bool): (r: Result<BingoTable, string>)
    requires WellShaped(t)
    ensures r.Failure? <==> !OnBoard(t, (x, y))
    ensures r.Failure? ==> r.error == "could not set cell"
    ensures r.Success? ==> WellShaped(r.value) && r.value.id == t.id && r.value.size == t.size && r.value.search == t.search
    ensures r.Success? ==> forall b, a :: 0 <= b < t.size && 0 <= a < t.size ==>
      r.value.rows[b][a] == if a == x && b == y then (t.rows[y][x].0, toggle) else t.rows[b][a]
    ensures r.Success? ==> (r.value.hasBingo <==> t.hasBingo || RowFull(r.value, y) || ColFull(r.value, x))
    ensures r.Success? && Valid(t) ==> Valid(r.value)
  {
    if y < |t.rows| && x < |t.rows[y]| then
      Success(CheckForBingo(WithMark(t, x, y, toggle), (x, y)))
    else
      Failure("could not set cell")
  }

  /** `t` with the mark of cell `(x, y)` set to `toggle`. */
  function WithMark(t: BingoTable, x: nat, y: nat, toggle: bool): (u: BingoTable)
    requires WellShaped(t) && OnBoard(t, (x, y))
    ensures WellShaped(u) && u.id == t.id && u.size == t.size && u.search == t.search && u.hasBingo == t.hasBingo
    ensures forall b, a :: 0 <= b < t.size && 0 <= a < t.size ==>
      u.rows[b][a] == if a == x && b == y then (t.rows[y][x].0, toggle) else t.rows[b][a]
    ensures Valid(t) ==> Valid(u)
  {
    t.(rows := WriteCell(t.rows, x, y, (t.rows[y][x].0, toggle)))
  }

  // ------------------------------------------------------------------ score

  /** What a cell adds to the score: its number while unmarked. */
  function CellScore(c: BingoCell): nat
  {
    if c.1 then 0 else c.0
  }

  function RowScore(cs: seq<BingoCell>): nat
  {
    if |cs| == 0 then 0 else CellScore(cs[0]) + RowScore(cs[1..])
  }

  function RowsScore(rows: seq<seq<BingoCell>>): nat
  {
    if |rows| == 0 then 0 else RowScore(rows[0]) + RowsScore(rows[1..])
  }

  /** The sum of the unmarked numbers, row by row. */
  function CalculateScore(t: BingoTable): (r: nat)
    ensures r == 0 <==> forall y, x :: 0 <= y < |t.rows| && 0 <= x < |t.rows[y]| ==> t.rows[y][x].1 || t.rows[y][x].0 == 0
  {
    RowsScoreZero(t.rows);
    RowsScore(t.rows)
  }

  lemma {:induction false} RowScoreZero(cs: seq<BingoCell>)
    ensures RowScore(cs) == 0 <==> forall x :: 0 <= x < |cs| ==> CellScore(cs[x]) == 0
    decreases |cs|
  {
    if |cs| > 0 {
      RowScoreZero(cs[1..]);
      assert forall x :: 1 <= x < |cs| ==> cs[1..][x - 1] == cs[x];
    }
  }

  lemma {:induction false} RowsScoreZero(rows: seq<seq<BingoCell>>)
    ensures RowsScore(rows) == 0 <==> forall y, x :: 0 <= y < |rows| && 0 <= x < |rows[y]| ==> CellScore(rows[y][x]) == 0
    decreases |rows|
  {
    if |rows| > 0 {
      RowScoreZero(rows[0]);
      RowsScoreZero(rows[1..]);
      assert forall y :: 1 <= y < |rows| ==> rows[1..][y - 1] == rows[y];
    }
  }

  lemma {:induction false} RowScoreWrite(cs: seq<BingoCell>, x: nat, c: BingoCell)
    requires x < |cs|
    ensures RowScore(cs[x := c]) + CellScore(cs[x]) == RowScore(cs) + CellScore(c)
    decreases x
  {
    if x == 0 {
      assert cs[x := c][1..] == cs[1..];
    } else {
      assert cs[x := c][1..] == cs[1..][x - 1 := c];
      RowScoreWrite(cs[1..], x - 1, c);
    }
  }

  lemma {:induction false} RowsScoreWrite(rows: seq<seq<BingoCell>>, y: nat, row: seq<BingoCell>)
    requires y < |rows|
    ensures RowsScore(rows[y := row]) + RowScore(rows[y]) == RowsScore(rows) + RowScore(row)
    decreases y
  {
    if y == 0 {
      assert rows[y := row][1..] == rows[1..];
    } else {
      assert rows[y := row][1..] == rows[1..][y - 1 := row];
      RowsScoreWrite(rows[1..], y - 1, row);
    }
  }

  /** Replacing one cell changes the score by what the two cells add. */
  lemma ScoreWrite(rows: seq<seq<BingoCell>>, x: nat, y: nat, c: BingoCell)
    requires y < |rows| && x < |rows[y]|
    ensures RowsScore(WriteCell(rows, x, y, c)) + CellScore(rows[y][x]) == RowsScore(rows) + CellScore(c)
  {
    RowScoreWrite(rows[y], x, c);
    RowsScoreWrite(rows, y, rows[y][x := c]);
  }

  /** Once every cell is marked the score is zero. */
  lemma {:induction false} ScoreAllMarked(rows: seq<seq<BingoCell>>)
    requires forall y, x :: 0 <= y < |rows| && 0 <= x < |rows[y]| ==> rows[y][x].1
    ensures RowsScore(rows) == 0
    decreases |rows|
  {
    if |rows| > 0 {
      RowMarked(rows[0]);
      ScoreAllMarked(rows[1..]);
    }
  }

  lemma {:induction false} RowMarked(cs: seq<BingoCell>)
    requires forall x :: 0 <= x < |cs| ==> cs[x].1
    ensures RowScore(cs) == 0
    decreases |cs|
  {
    if |cs| > 0 {
      RowMarked(cs[1..]);
    }
  }

  // ------------------------------------------------------------------ draws

  /** What drawing `v` does to a board: the cell holding `v`, if any, is
      marked, and the board wins if that completes the cell's row or
      column. */
  function MarkDraw(t: BingoTable, v: nat): (r: BingoTable)
    requires Valid(t)
    ensures Valid(r) && r.id == t.id && r.size == t.size && r.search == t.search
    ensures t.hasBingo ==> r.hasBingo
  {
    if v in t.search then
      var c := t.search[v];
      var u := t.(rows := WriteCell(t.rows, c.0, c.1, (v, true)));
      u.(hasBingo := t.hasBingo || RowFull(u, c.1) || ColFull(u, c.0))
    else t
  }

  /** Drawing `v` the way the game does: look up its cell and mark it with
      `SetCell`, which cannot fail on a valid board. */
  function Draw(t: BingoTable, v: nat): (r: BingoTable)
    requires Valid(t)
  {
    match GetCellCoords(t, v)
    case None => t
    case Some(c) => SetCell(t, c.0, c.1, true).value
  }

  /** The lookup-and-set step is the draw's effect. */
  lemma DrawIsMark(t: BingoTable, v: nat)
    requires Valid(t)
    ensures Draw(t, v) == MarkDraw(t, v)
  {
    if v in t.search {
      var c := t.search[v];
      var r := SetCell(t, c.0, c.1, true);
      var u := MarkDraw(t, v);
      assert r.value.rows == u.rows by {
        forall b | 0 <= b < t.size ensures r.value.rows[b] == u.rows[b] {
          assert |r.value.rows[b]| == |u.rows[b]| == t.size;
        }
      }
    }
  }

  /** Marking a draw lowers the score by the number, if it was on the board
      and not yet marked. */
  lemma MarkDrawScore(t: BingoTable, v: nat)
    requires Valid(t)
    ensures CalculateScore(MarkDraw(t, v)) + (if v in t.search && !t.rows[t.search[v].1][t.search[v].0].1 then v else 0)
      == CalculateScore(t)
  {
    if v in t.search {
      var c := t.search[v];
      ScoreWrite(t.rows, c.0, c.1, (v, true));
    }
  }

  /** The board after the draws `ds`, in order. */
  function After(t: BingoTable, ds: seq<nat>): (r: BingoTable)
    requires Valid(t)
    ensures Valid(r) && r.id == t.id && r.size == t.size && r.search == t.search
    decreases |ds|
  {
    if |ds| == 0 then t else MarkDraw(After(t, ds[..|ds| - 1]), ds[|ds| - 1])
  }

  lemma AfterStep(t: BingoTable, ds: seq<nat>, k: nat)
    requires Valid(t) && k < |ds|
    ensures After(t, ds[..k + 1]) == MarkDraw(After(t, ds[..k]), ds[k])
  {
    assert ds[..k + 1][..k] == ds[..k];
  }

  /** A bingo, once had, stays. */
  lemma {:induction false} AfterKeepsBingo(t: BingoTable, ds: seq<nat>, i: nat, j: nat)
    requires Valid(t) && i <= j <= |ds| && After(t, ds[..i]).hasBingo
    ensures After(t, ds[..j]).hasBingo
    decreases j
  {
    if i < j {
      var k := j - 1;
      AfterKeepsBingo(t, ds, i, k);
      AfterStep(t, ds, k);
      assert ds[..k + 1] == ds[..j];
    }
  }

  // ------------------------------------------------------------------ games

  ghost predicate AllValid(tables: seq<BingoTable>)
  {
    forall j :: 0 <= j < |tables| ==> Valid(tables[j])
  }

  /** Board `j` has a bingo once draw `k` has been marked. */
  ghost predicate Wins(draws: seq<nat>, tables: seq<BingoTable>, k: nat, j: nat)
    requires AllValid(tables)
  {
    k < |draws| && j < |tables| && After(tables[j], draws[..k + 1]).hasBingo
  }

  /** `(k, j)` is the first win when draws are taken in order and, for each
      draw, the boards in order. */
  ghost predicate FirstWin(draws: seq<nat>, tables: seq<BingoTable>, k: nat, j: nat)
    requires AllValid(tables)
  {
    Wins(draws, tables, k, j) &&
    (forall k': nat, j': nat :: k' < k ==> !Wins(draws, tables, k', j')) &&
    (forall j': nat :: j' < j ==> !Wins(draws, tables, k, j'))
  }

  /** No board has won during the first `k` draws. */
  ghost predicate NoWinBefore(draws: seq<nat>, tables: seq<BingoTable>, k: nat)
    requires AllValid(tables)
  {
    forall k': nat, j': nat :: k' < k ==> !Wins(draws, tables, k', j')
  }

  /** `bs` are the boards after the first `k` draws. */
  ghost predicate Boards(draws: seq<nat>, tables: seq<BingoTable>, k: nat, bs: seq<BingoTable>)
    requires AllValid(tables) && k <= |draws|
  {
    |bs| == |tables| && forall m :: 0 <= m < |bs| ==> bs[m] == After(tables[m], draws[..k])
  }

  /** Every board marks `v`. */
  function MarkAll(bs: seq<BingoTable>, v: nat): (r: seq<BingoTable>)
    requires AllValid(bs)
    ensures |r| == |bs| && AllValid(r)
    ensures forall m :: 0 <= m < |bs| ==> r[m] == MarkDraw(bs[m], v)
    decreases |bs|
  {
    if |bs| == 0 then [] else [MarkDraw(bs[0], v)] + MarkAll(bs[1..], v)
  }

  lemma NextBoards(draws: seq<nat>, tables: seq<BingoTable>, k: nat, bs: seq<BingoTable>)
    requires AllValid(tables) && k < |draws| && Boards(draws, tables, k, bs)
    ensures AllValid(bs) && Boards(draws, tables, k + 1, MarkAll(bs, draws[k]))
  {
    var next := MarkAll(bs, draws[k]);
    forall m | 0 <= m < |next| ensures next[m] == After(tables[m], draws[..k + 1]) {
      AfterStep(tables[m], draws, k);
    }
  }

  /** Part way through a draw: the boards before `j` have marked it (and
      none of them won), the rest have not yet. */
  ghost predicate Scan(j: nat, ts: seq<BingoTable>, cur: seq<BingoTable>, next: seq<BingoTable>)
  {
    |ts| == |cur| == |next| && j <= |ts| &&
    (forall m :: 0 <= m < j ==> ts[m] == next[m] && !next[m].hasBingo) &&
    (forall m :: j <= m < |ts| ==> ts[m] == cur[m])
  }

  lemma ScanOn(j: nat, ts: seq<BingoTable>, cur: seq<BingoTable>, next: seq<BingoTable>)
    requires Scan(j, ts, cur, next) && j < |ts| && !next[j].hasBingo
    ensures Scan(j + 1, ts[j := next[j]], cur, next)
  {
  }

  /** The first bingo of draw `k` is the first win of the game. */
  lemma ScanWin(draws: seq<nat>, tables: seq<BingoTable>, k: nat, j: nat,
                ts: seq<BingoTable>, cur: seq<BingoTable>, next: seq<BingoTable>)
    requires AllValid(tables) && k < |draws| && NoWinBefore(draws, tables, k)
    requires Boards(draws, tables, k + 1, next) && Scan(j, ts, cur, next) && j < |ts| && next[j].hasBingo
    ensures FirstWin(draws, tables, k, j)
  {
    forall j': nat | j' < j ensures !Wins(draws, tables, k, j') {
      assert !next[j'].hasBingo;
    }
  }

  /** A draw that no board wins on ends with every board marked. */
  lemma ScanDone(draws: seq<nat>, tables: seq<BingoTable>, k: nat,
                 ts: seq<BingoTable>, cur: seq<BingoTable>, next: seq<BingoTable>)
    requires AllValid(tables) && k < |draws| && NoWinBefore(draws, tables, k)
    requires Boards(draws, tables, k + 1, next) && Scan(|ts|, ts, cur, next)
    ensures ts == next && NoWinBefore(draws, tables, k + 1)
  {
    var k1 := k + 1;
    forall k': nat, j': nat | k' < k1 ensures !Wins(draws, tables, k', j') {
      if k' == k && j' < |tables| {
        assert !next[j'].hasBingo;
      }
    }
  }

  /** One board takes one draw. */
  method DrawNumber(t: BingoTable, v: nat) returns (u: BingoTable)
    requires Valid(t)
    ensures u == MarkDraw(t, v)
  {
    DrawIsMark(t, v);
    u := Draw(t, v);
  }

  /** The answer for a winning board: its score times the winning draw. */
  function WinScore(t: BingoTable, draw: nat): nat
  {
    CalculateScore(t) * draw
  }

  /** Marks each draw on every board in turn and scores the first board to
      reach a bingo, times the draw that completed it; 0 when none does. */
  method ProcessBingo(draws: seq<nat>, tables: seq<BingoTable>) returns (r: nat, win: Option<(nat, nat)>)
    requires AllValid(tables)
    ensures win.Some? ==> FirstWin(draws, tables, win.value.0, win.value.1)
    ensures win.Some? ==> r == WinScore(After(tables[win.value.1], draws[..win.value.0 + 1]), draws[win.value.0])
    ensures win.None? ==> r == 0 && forall k: nat, j: nat :: !Wins(draws, tables, k, j)
  {
    var ts := tables;
    assert Boards(draws, tables, 0, ts);
    for k := 0 to |draws|
      invariant Boards(draws, tables, k, ts) && NoWinBefore(draws, tables, k)
    {
      NextBoards(draws, tables, k, ts);
      ghost var cur := ts;
      ghost var next := MarkAll(ts, draws[k]);
      for j := 0 to |ts|
        invariant Scan(j, ts, cur, next)
      {
        var u := DrawNumber(ts[j], draws[k]);
        if u.hasBingo {
          ScanWin(draws, tables, k, j, ts, cur, next);
          win := Some((k, j));
          assert win.value.0 == k && win.value.1 == j;
          r := WinScore(u, draws[k]);
          return;
        }
        ScanOn(j, ts, cur, next);
        ts := ts[j := u];
      }
      ScanDone(draws, tables, k, ts, cur, next);
    }
    NoWins(draws, tables);
    return 0, None;
  }

  lemma NoWins(draws: seq<nat>, tables: seq<BingoTable>)
    requires AllValid(tables) && NoWinBefore(draws, tables, |draws|)
    ensures forall k: nat, j: nat :: !Wins(draws, tables, k, j)
  {
    forall k: nat, j: nat ensures !Wins(draws, tables, k, j) {
      if k < |draws| {
        assert !Wins(draws, tables, k, j);
      }
    }
  }

  // ------------------------------------------------------------ last winner

  /** Board ids strictly increase along the list, as the parser numbers them. */
  predicate IdsIncrease(tables: seq<BingoTable>)
  {
    forall a, b :: 0 <= a < b < |tables| ==> tables[a].id < tables[b].id
  }

  /** After the draws `ds`, board `w` is the only one from `lo` on without a bingo. */
  ghost predicate Only(tables: seq<BingoTable>, ds: seq<nat>, lo: nat, w: nat)
    requires AllValid(tables) && w < |tables|
  {
    !After(tables[w], ds).hasBingo &&
    forall m :: lo <= m < |tables| && m != w ==> After(tables[m], ds).hasBingo
  }

  /** Board `w` wins last: after `k` draws it is the only board left
      without a bingo, and draw `k` completes one on it. */
  ghost predicate LastWin(draws: seq<nat>, tables: seq<BingoTable>, k: nat, w: nat)
    requires AllValid(tables)
  {
    k < |draws| && w < |tables| && Only(tables, draws[..k], 0, w) &&
    After(tables[w], draws[..k + 1]).hasBingo
  }

  /** There is at most one last winner. */
  lemma LastWinUnique(draws: seq<nat>, tables: seq<BingoTable>, k: nat, w: nat, k': nat, w': nat)
    requires AllValid(tables) && LastWin(draws, tables, k, w) && LastWin(draws, tables, k', w')
    ensures k == k' && w == w'
  {
    if k < k' {
      NoLaterLast(draws, tables, k, w, k', w');
    } else if k' < k {
      NoLaterLast(draws, tables, k', w', k, w);
    }
  }

  /** After a last win at draw `k`, every board has a bingo, so no later draw is a last win. */
  lemma NoLaterLast(draws: seq<nat>, tables: seq<BingoTable>, k: nat, w: nat, k': nat, w': nat)
    requires AllValid(tables) && LastWin(draws, tables, k, w) && k < k' <= |draws| && w' < |tables|
    ensures After(tables[w'], draws[..k']).hasBingo
  {
    if w' == w {
      AfterKeepsBingo(tables[w], draws, k + 1, k');
    } else {
      AfterKeepsBingo(tables[w'], draws, k, k');
    }
  }

  /** The boards of `ts` without a bingo, in order. */
  function Unwon(ts: seq<BingoTable>): (r: seq<BingoTable>)
    ensures |r| <= |ts| && forall m :: 0 <= m < |r| ==> !r[m].hasBingo
    decreases |ts|
  {
    if |ts| == 0 then []
    else (if ts[0].hasBingo then [] else [ts[0]]) + Unwon(ts[1..])
  }

  /** The boards of `post` whose counterpart in `pre` has no bingo, in order. */
  function Select(pre: seq<BingoTable>, post: seq<BingoTable>): (r: seq<BingoTable>)
    requires |pre| == |post|
    ensures |r| == |Unwon(pre)|
    decreases |pre|
  {
    if |pre| == 0 then []
    else (if pre[0].hasBingo then [] else [post[0]]) + Select(pre[1..], post[1..])
  }

  /** Removes the boards whose id is in `ids`, keeping the order of the rest. */
  function RemoveIds(ts: seq<BingoTable>, ids: set<nat>): (r: seq<BingoTable>)
    ensures |r| <= |ts| && forall m :: 0 <= m < |r| ==> r[m].id !in ids
    decreases |ts|
  {
    if |ts| == 0 then []
    else (if ts[0].id in ids then [] else [ts[0]]) + RemoveIds(ts[1..], ids)
  }

  /** When exactly the boards with a bingo are listed, removing them leaves the unwon ones. */
  lemma {:induction false} RemoveIsUnwon(ts: seq<BingoTable>, ids: set<nat>)
    requires forall m :: 0 <= m < |ts| ==> (ts[m].id in ids <==> ts[m].hasBingo)
    ensures RemoveIds(ts, ids) == Unwon(ts)
    decreases |ts|
  {
    if |ts| > 0 {
      RemoveIsUnwon(ts[1..], ids);
    }
  }

  /** Before any bingo, every board is unwon. */
  lemma {:induction false} UnwonAll(ts: seq<BingoTable>)
    requires forall m :: 0 <= m < |ts| ==> !ts[m].hasBingo
    ensures Unwon(ts) == ts
    decreases |ts|
  {
    if |ts| > 0 {
      UnwonAll(ts[1..]);
      assert ts == [ts[0]] + ts[1..];
    }
  }

  /** A bingo, once had, is kept: dropping the new winners from the boards
      that were unwon leaves the boards that are unwon now. */
  lemma {:induction false} SelectUnwon(pre: seq<BingoTable>, post: seq<BingoTable>)
    requires |pre| == |post| && forall m :: 0 <= m < |pre| && pre[m].hasBingo ==> post[m].hasBingo
    ensures Unwon(Select(pre, post)) == Unwon(post)
    decreases |pre|
  {
    if |pre| > 0 {
      var pre', post' := pre[1..], post[1..];
      assert forall m :: 0 <= m < |pre'| && pre'[m].hasBingo ==> post'[m].hasBingo by {
        forall m | 0 <= m < |pre'| && pre'[m].hasBingo ensures post'[m].hasBingo {
          assert pre'[m] == pre[m + 1] && post'[m] == post[m + 1];
        }
      }
      SelectUnwon(pre', post');
      var rest := Select(pre', post');
      if pre[0].hasBingo {
        assert Select(pre, post) == rest && Unwon(post) == Unwon(post');
      } else {
        UnwonCons(post[0], rest);
      }
    }
  }

  lemma UnwonCons(b: BingoTable, bs: seq<BingoTable>)
    ensures Unwon([b] + bs) == (if b.hasBingo then [] else [b]) + Unwon(bs)
  {
    assert ([b] + bs)[1..] == bs;
  }

  /** `Select` pairs each unwon board with its counterpart in `post`. */
  lemma {:induction false} SelectPairs(pre: seq<BingoTable>, post: seq<BingoTable>, i: nat) returns (m: nat)
    requires |pre| == |post| && i < |Unwon(pre)|
    ensures m < |pre| && Unwon(pre)[i] == pre[m] && Select(pre, post)[i] == post[m]
    decreases |pre|
  {
    if pre[0].hasBingo {
      m := SelectPairs(pre[1..], post[1..], i);
      m := m + 1;
    } else if i == 0 {
      m := 0;
    } else {
      m := SelectPairs(pre[1..], post[1..], i - 1);
      m := m + 1;
    }
  }

  /** Boards that took one more draw, restricted to the unwon ones. */
  lemma SelectMarked(pre: seq<BingoTable>, post: seq<BingoTable>, v: nat, i: nat)
    requires AllValid(pre) && |pre| == |post| && i < |Unwon(pre)|
    requires forall m :: 0 <= m < |pre| ==> post[m] == MarkDraw(pre[m], v)
    ensures Valid(Unwon(pre)[i]) && Select(pre, post)[i] == MarkDraw(Unwon(pre)[i], v)
  {
    var m := SelectPairs(pre, post, i);
  }

  /** Unwon boards keep the order of their ids. */
  lemma {:induction false} UnwonIds(ts: seq<BingoTable>)
    requires IdsIncrease(ts)
    ensures IdsIncrease(Unwon(ts))
    ensures |ts| > 0 ==> forall a :: 0 <= a < |Unwon(ts)| ==> ts[0].id <= Unwon(ts)[a].id
    decreases |ts|
  {
    if |ts| > 0 {
      UnwonIds(ts[1..]);
    }
  }

  /** A single unwon board is the only board without a bingo. */
  lemma {:induction false} UnwonSingle(ts: seq<BingoTable>) returns (w: nat)
    requires |Unwon(ts)| == 1
    ensures w < |ts| && Unwon(ts)[0] == ts[w] && !ts[w].hasBingo
    ensures forall m :: 0 <= m < |ts| && m != w ==> ts[m].hasBingo
    decreases |ts|
  {
    if ts[0].hasBingo {
      w := UnwonSingle(ts[1..]);
      w := w + 1;
    } else {
      w := 0;
      UnwonNone(ts[1..]);
    }
  }

  lemma {:induction false} UnwonNone(ts: seq<BingoTable>)
    requires |Unwon(ts)| == 0
    ensures forall m :: 0 <= m < |ts| ==> ts[m].hasBingo
    decreases |ts|
  {
    if |ts| > 0 {
      UnwonNone(ts[1..]);
    }
  }

  /** The only board without a bingo is the single unwon board. */
  lemma {:induction false} OnlyUnwon(pre: seq<BingoTable>, post: seq<BingoTable>, w: nat)
    requires |pre| == |post| && w < |pre| && !pre[w].hasBingo
    requires forall m :: 0 <= m < |pre| && m != w ==> pre[m].hasBingo
    ensures Unwon(pre) == [pre[w]] && Select(pre, post) == [post[w]]
    decreases |pre|
  {
    if w > 0 {
      OnlyUnwon(pre[1..], post[1..], w - 1);
    } else {
      AllWon(pre[1..], post[1..]);
    }
  }

  lemma {:induction false} AllWon(pre: seq<BingoTable>, post: seq<BingoTable>)
    requires |pre| == |post| && forall m :: 0 <= m < |pre| ==> pre[m].hasBingo
    ensures Unwon(pre) == [] && Select(pre, post) == []
    decreases |pre|
  {
    if |pre| > 0 {
      AllWon(pre[1..], post[1..]);
    }
  }

  /** Marking one draw on every board keeps bingos and ids. */
  lemma MarkAllKeeps(bs: seq<BingoTable>, v: nat)
    requires AllValid(bs)
    ensures forall m :: 0 <= m < |bs| && bs[m].hasBingo ==> MarkAll(bs, v)[m].hasBingo
    ensures IdsIncrease(bs) ==> IdsIncrease(MarkAll(bs, v))
  {
  }

  /** No draw before `k` is a last win. */
  ghost predicate NoLastBefore(draws: seq<nat>, tables: seq<BingoTable>, k: nat)
    requires AllValid(tables)
  {
    forall k': nat, w: nat :: k' < k ==> !LastWin(draws, tables, k', w)
  }

  /** Part way through a draw of the last-winner game: the boards before
      `j` have marked it and exactly those of them with a bingo are listed
      in `ids`; no later board is listed. */
  ghost predicate Sweep(j: nat, ts: seq<BingoTable>, cur: seq<BingoTable>, next: seq<BingoTable>, ids: set<nat>)
  {
    |ts| == |cur| == |next| && j <= |ts| &&
    (forall m :: 0 <= m < j ==> ts[m] == next[m]) &&
    (forall m :: j <= m < |ts| ==> ts[m] == cur[m]) &&
    (forall m :: 0 <= m < j ==> (next[m].id in ids <==> next[m].hasBingo)) &&
    (forall m :: j <= m < |ts| ==> next[m].id !in ids)
  }

  /** The alive boards of draw `k` and what they become once it is marked. */
  lemma SweepStart(bs: seq<BingoTable>, bs': seq<BingoTable>, v: nat, ids: set<nat>, ts: seq<BingoTable>)
    requires AllValid(bs) && IdsIncrease(bs) && bs' == MarkAll(bs, v)
    requires ts == Unwon(bs) && forall m :: 0 <= m < |ts| ==> ts[m].id !in ids
    ensures AllValid(ts) && IdsIncrease(Select(bs, bs')) && Sweep(0, ts, ts, Select(bs, bs'), ids)
    ensures forall i :: 0 <= i < |ts| ==> Select(bs, bs')[i] == MarkDraw(ts[i], v)
  {
    var next := Select(bs, bs');
    forall i | 0 <= i < |ts| ensures Valid(ts[i]) && next[i] == MarkDraw(ts[i], v) {
      SelectMarked(bs, bs', v, i);
    }
    UnwonIds(bs);
  }

  lemma SweepOn(j: nat, ts: seq<BingoTable>, cur: seq<BingoTable>, next: seq<BingoTable>, ids: set<nat>)
    requires Sweep(j, ts, cur, next, ids) && j < |ts| && IdsIncrease(next)
    ensures Sweep(j + 1, ts[j := next[j]], cur, next, if next[j].hasBingo then ids + {next[j].id} else ids)
  {
  }

  /** A single alive board that completes a bingo wins last. */
  lemma LastFound(draws: seq<nat>, tables: seq<BingoTable>, k: nat, bs: seq<BingoTable>, bs': seq<BingoTable>)
    returns (w: nat)
    requires AllValid(tables) && k < |draws| && Boards(draws, tables, k, bs) && Boards(draws, tables, k + 1, bs')
    requires |Unwon(bs)| == 1 && Select(bs, bs')[0].hasBingo
    ensures LastWin(draws, tables, k, w) && Select(bs, bs')[0] == After(tables[w], draws[..k + 1])
  {
    w := UnwonSingle(bs);
    var m := SelectPairs(bs, bs', 0);
    assert m == w;
  }

  /** A last win at draw `k` needs a single alive board that completes a bingo. */
  lemma LastShape(draws: seq<nat>, tables: seq<BingoTable>, k: nat, bs: seq<BingoTable>, bs': seq<BingoTable>)
    requires AllValid(tables) && k < |draws| && Boards(draws, tables, k, bs) && Boards(draws, tables, k + 1, bs')
    ensures forall w: nat :: LastWin(draws, tables, k, w) ==> |Unwon(bs)| == 1 && Select(bs, bs')[0].hasBingo
  {
    forall w: nat | LastWin(draws, tables, k, w) ensures |Unwon(bs)| == 1 && Select(bs, bs')[0].hasBingo {
      OnlyUnwon(bs, bs', w);
    }
  }

  /** At the end of a draw the boards listed for removal are exactly the
      new winners, so what survives is the boards still unwon. */
  lemma SweepRemove(bs: seq<BingoTable>, bs': seq<BingoTable>, ts: seq<BingoTable>, ids: set<nat>)
    requires |bs| == |bs'| && forall m :: 0 <= m < |bs| && bs[m].hasBingo ==> bs'[m].hasBingo
    requires ts == Select(bs, bs') && forall m :: 0 <= m < |ts| ==> (ts[m].id in ids <==> ts[m].hasBingo)
    ensures RemoveIds(ts, ids) == Unwon(bs')
  {
    RemoveIsUnwon(ts, ids);
    SelectUnwon(bs, bs');
  }

  /** A draw whose single alive board, if any, stays unwon is no last win. */
  lemma NoLastNow(draws: seq<nat>, tables: seq<BingoTable>, k: nat, bs: seq<BingoTable>, bs': seq<BingoTable>)
    requires AllValid(tables) && k < |draws| && NoLastBefore(draws, tables, k)
    requires Boards(draws, tables, k, bs) && Boards(draws, tables, k + 1, bs')
    requires |Unwon(bs)| == 1 ==> !Select(bs, bs')[0].hasBingo
    ensures NoLastBefore(draws, tables, k + 1)
  {
    LastShape(draws, tables, k, bs, bs');
    var k1 := k + 1;
    forall k': nat, w: nat | k' < k1 ensures !LastWin(draws, tables, k', w) {
    }
  }

  /** One draw of the last-winner game over the alive boards `ts`: each
      marks `v`; a board that completes a bingo is listed in `ids` for
      removal, unless it is the only board, which wins last. */
  method PlayDraw(ts: seq<BingoTable>, v: nat, ids: set<nat>, ghost next: seq<BingoTable>)
    returns (ts': seq<BingoTable>, ids': set<nat>, last: Option<BingoTable>)
    requires AllValid(ts) && |next| == |ts| && IdsIncrease(next)
    requires forall i :: 0 <= i < |ts| ==> next[i] == MarkDraw(ts[i], v)
    requires forall m :: 0 <= m < |next| ==> next[m].id !in ids
    ensures last.Some? ==> |ts| == 1 && next[0].hasBingo && last.value == next[0]
    ensures last.None? ==> ts' == next && (|ts| == 1 ==> !next[0].hasBingo)
    ensures last.None? ==> forall m :: 0 <= m < |next| ==> (next[m].id in ids' <==> next[m].hasBingo)
  {
    ts', ids' := ts, ids;
    for j := 0 to |ts|
      invariant Sweep(j, ts', ts, next, ids')
      invariant |ts| == 1 && j > 0 ==> !next[0].hasBingo
    {
      var u := DrawNumber(ts'[j], v);
      if u.hasBingo && |ts| == 1 {
        return ts', ids', Some(u);
      }
      SweepOn(j, ts', ts, next, ids');
      if u.hasBingo {
        ids' := ids' + {u.id};
      }
      ts' := ts'[j := u];
    }
    last := None;
  }

  /** The answer of the last-winner game: board `id` wins last at draw `k`
      and `r` is its score times that draw. */
  ghost predicate LastAnswer(draws: seq<nat>, tables: seq<BingoTable>, k: nat, id: nat, r: nat)
    requires AllValid(tables)
  {
    exists w: nat :: w < |tables| && tables[w].id == id && LastWin(draws, tables, k, w) &&
      r == WinScore(After(tables[w], draws[..k + 1]), draws[k])
  }

  lemma AnswerOf(draws: seq<nat>, tables: seq<BingoTable>, k: nat, w: nat, u: BingoTable, r: nat)
    requires AllValid(tables) && LastWin(draws, tables, k, w)
    requires u == After(tables[w], draws[..k + 1]) && r == WinScore(u, draws[k])
    ensures LastAnswer(draws, tables, k, u.id, r)
  {
  }

  lemma NoLasts(draws: seq<nat>, tables: seq<BingoTable>)
    requires AllValid(tables) && NoLastBefore(draws, tables, |draws|)
    ensures forall k: nat, w: nat :: !LastWin(draws, tables, k, w)
  {
    forall k: nat, w: nat ensures !LastWin(draws, tables, k, w) {
      if k < |draws| {
        assert !LastWin(draws, tables, k, w);
      }
    }
  }

  /** At the start of draw `k` of the last-winner game: `bs` are all boards
      after the first `k` draws, and removing the listed ids from the boards
      in play leaves exactly those of them still unwon. */
  ghost predicate Round(draws: seq<nat>, tables: seq<BingoTable>, k: nat, ts: seq<BingoTable>, ids: set<nat>,
                        bs: seq<BingoTable>)
    requires AllValid(tables)
  {
    k <= |draws| && Boards(draws, tables, k, bs) && IdsIncrease(bs) &&
    RemoveIds(ts, ids) == Unwon(bs) && NoLastBefore(draws, tables, k)
  }

  /** One draw of the last-winner game: drop the listed boards, then mark
      the draw on the rest. */
  method PlayRound(draws: seq<nat>, tables: seq<BingoTable>, k: nat, ts: seq<BingoTable>, ids: set<nat>,
                   ghost bs: seq<BingoTable>)
    returns (ts': seq<BingoTable>, ids': set<nat>, last: Option<BingoTable>, ghost bs': seq<BingoTable>)
    requires AllValid(tables) && k < |draws| && Round(draws, tables, k, ts, ids, bs)
    ensures last.Some? ==> LastAnswer(draws, tables, k, last.value.id, WinScore(last.value, draws[k]))
    ensures last.None? ==> Round(draws, tables, k + 1, ts', ids', bs')
  {
    var alive := RemoveIds(ts, ids);
    NextBoards(draws, tables, k, bs);
    bs' := MarkAll(bs, draws[k]);
    MarkAllKeeps(bs, draws[k]);
    SweepStart(bs, bs', draws[k], ids, alive);
    ghost var next := Select(bs, bs');
    ts', ids', last := PlayDraw(alive, draws[k], ids, next);
    if last.Some? {
      ghost var w := LastFound(draws, tables, k, bs, bs');
      AnswerOf(draws, tables, k, w, last.value, WinScore(last.value, draws[k]));
    } else {
      SweepRemove(bs, bs', ts', ids');
      NoLastNow(draws, tables, k, bs, bs');
    }
  }

  /** Plays on, dropping each board once it has a bingo (at the start of the
      next draw), and scores the last board to reach one, times the draw
      that completed it; 0 when there is no such board. */
  method ProcessLeastBingo(draws: seq<nat>, tables: seq<BingoTable>) returns (r: nat, win: Option<(nat, nat)>)
    requires AllValid(tables) && IdsIncrease(tables)
    requires forall m :: 0 <= m < |tables| ==> !tables[m].hasBingo
    ensures win.Some? ==> LastAnswer(draws, tables, win.value.0, win.value.1, r)
    ensures win.None? ==> r == 0 && forall k: nat, w: nat :: !LastWin(draws, tables, k, w)
  {
    var ts := tables;
    var toRemove: set<nat> := {};
    ghost var bs := tables;
    assert Boards(draws, tables, 0, bs);
    RemoveIsUnwon(ts, toRemove);
    for k := 0 to |draws|
      invariant Round(draws, tables, k, ts, toRemove, bs)
    {
      var last;
      ts, toRemove, last, bs := PlayRound(draws, tables, k, ts, toRemove, bs);
      if last.Some? {
        r := WinScore(last.value, draws[k]);
        win := Some((k, last.value.id));
        return;
      }
    }
    NoLasts(draws, tables);
    return 0, None;
  }
}

=== FILE: calories.dfy ===
/** Calorie counting in the Java solution
    (java/src/com/adventofcode/challenges/dayone/DayOne.java): one number
    per line, an empty line ends an elf's group, and the group totals are
    ranked. The reading loop is shared with the TypeScript solution
    (`CaloriesScript`). Numbers are unbounded: `int` overflow of the sums
    and of `Integer.parseInt` is not modelled. */
module Calories {
  import opened Wrappers
  import opened Seqs
  import opened Strings

  /** A `DayOne` object: the recorded group totals, in reading order. */
  datatype DayOne = DayOne(calories: seq<int>)

  /** What a getter returns, with the list it leaves behind: both getters
      sort `calories` in place before reading it. */
  datatype Reading<T> = Reading(value: T, after: DayOne)

  /** The reading loop's state: the totals recorded so far and the running
      total of the group still open. */
  datatype Tally = Tally(recorded: seq<int>, current: int)

  const Start: Tally := Tally([], 0)

  /** A non-empty line that is not a decimal integer. */
  predicate Unreadable(line: string)
  {
    |line| > 0 && ParseInt(line).None?
  }

  /** `lines[i]` is the first unreadable line. */
  predicate FirstUnreadable(lines: seq<string>, i: int)
  {
    0 <= i < |lines| && Unreadable(lines[i]) && forall j :: 0 <= j < i ==> !Unreadable(lines[j])
  }

  /** One turn of the loop: an empty line records the running total and
      starts a new group; any other line is added to the running total.
      The failure carries the line that could not be read. */
  function TallyLine(t: Tally, line: string): Result<Tally, string>
  {
    if |line| == 0 then Success(Tally(t.recorded + [t.current], 0))
    else
      match ParseInt(line)
      case None => Failure(line)
      case Some(v) => Success(Tally(t.recorded, t.current + v))
  }

  /** The loop run over `lines`, starting from state `t`. */
  function TallyFrom(t: Tally, lines: seq<string>): Result<Tally, string>
    decreases |lines|
  {
    if |lines| == 0 then Success(t)
    else
      match TallyFrom(t, lines[..|lines| - 1])
      case Failure(e) => Failure(e)
      case Success(u) => TallyLine(u, lines[|lines| - 1])
  }

  /** Runs the loop over more lines after an earlier run. */
  function Continue(r: Result<Tally, string>, lines: seq<string>): Result<Tally, string>
  {
    match r
    case Failure(e) => Failure(e)
    case Success(t) => TallyFrom(t, lines)
  }

  /** The totals a whole input records; the running total left open at the
      end is not among them. */
  function Recorded(lines: seq<string>): Result<seq<int>, string>
  {
    match TallyFrom(Start, lines)
    case Failure(e) => Failure(e)
    case Success(t) => Success(t.recorded)
  }

  /** Number of empty lines. */
  function CountEmpty(lines: seq<string>): nat
  {
    if |lines| == 0 then 0
    else CountEmpty(lines[..|lines| - 1]) + (if lines[|lines| - 1] == "" then 1 else 0)
  }

  /** Running the loop over `a + b` is running it over `a`, then over `b`. */
  lemma {:induction false} TallyAppend(t: Tally, a: seq<string>, b: seq<string>)
    ensures TallyFrom(t, a + b) == Continue(TallyFrom(t, a), b)
    decreases |b|
  {
    if |b| == 0 {
      assert a + b == a;
    } else {
      assert (a + b)[..|a + b| - 1] == a + b[..|b| - 1];
      assert (a + b)[|a + b| - 1] == b[|b| - 1];
      TallyAppend(t, a, b[..|b| - 1]);
    }
  }

  /** The loop fails exactly when some line is unreadable, and then names
      the first one. */
  lemma {:induction false} TallyFails(t: Tally, lines: seq<string>)
    ensures TallyFrom(t, lines).Failure? <==> exists i :: 0 <= i < |lines| && Unreadable(lines[i])
    ensures TallyFrom(t, lines).Failure? ==>
      exists i :: FirstUnreadable(lines, i) && TallyFrom(t, lines).error == lines[i]
    decreases |lines|
  {
    if |lines| > 0 {
      var n := |lines|;
      var init := lines[..n - 1];
      TallyFails(t, init);
      assert forall i :: 0 <= i < n - 1 ==> init[i] == lines[i];
      match TallyFrom(t, init)
      case Failure(e) =>
        var i :| FirstUnreadable(init, i) && e == init[i];
        assert FirstUnreadable(lines, i);
      case Success(u) =>
        if Unreadable(lines[n - 1]) {
          assert FirstUnreadable(lines, n - 1);
        } else {
          forall i | 0 <= i < n
            ensures !Unreadable(lines[i])
          {
            if i < n - 1 {
              assert init[i] == lines[i];
            }
          }
        }
    }
  }

  /** Every empty line records one total. */
  lemma {:induction false} TallyCount(t: Tally, lines: seq<string>)
    ensures TallyFrom(t, lines).Success? ==>
      |TallyFrom(t, lines).value.recorded| == |t.recorded| + CountEmpty(lines)
    decreases |lines|
  {
    if |lines| > 0 {
      TallyCount(t, lines[..|lines| - 1]);
    }
  }

  /** A line holding a decimal number, as rendered. */
  function Numerals(xs: seq<int>): seq<string>
  {
    seq(|xs|, i requires 0 <= i < |xs| => IntToString(xs[i]))
  }

  /** Groups written out, each followed by the empty line that closes it. */
  function Render(groups: seq<seq<int>>): seq<string>
  {
    if |groups| == 0 then []
    else Render(groups[..|groups| - 1]) + Numerals(groups[|groups| - 1]) + [""]
  }

  /** The total of each group. */
  function Totals(groups: seq<seq<int>>): seq<int>
  {
    seq(|groups|, i requires 0 <= i < |groups| => Sum(groups[i]))
  }

  /** Reading numbers adds them all to the running total. */
  lemma {:induction false} TallyNumerals(t: Tally, xs: seq<int>)
    ensures TallyFrom(t, Numerals(xs)) == Success(Tally(t.recorded, t.current + Sum(xs)))
    decreases |xs|
  {
    if |xs| > 0 {
      var n := |xs|;
      assert Numerals(xs)[..n - 1] == Numerals(xs[..n - 1]);
      TallyNumerals(t, xs[..n - 1]);
      ParseIntRoundTrip(xs[n - 1]);
    }
  }

  /** A group read and closed: its total is recorded. */
  lemma CloseGroup(t: Tally, xs: seq<int>)
    ensures TallyFrom(t, Numerals(xs) + [""]) == Success(Tally(t.recorded + [t.current + Sum(xs)], 0))
  {
    TallyAppend(t, Numerals(xs), [""]);
    TallyNumerals(t, xs);
    var u := Tally(t.recorded, t.current + Sum(xs));
    assert [""][..0] == [];
    assert TallyFrom(u, []) == Success(u);
    assert TallyFrom(u, [""]) == TallyLine(u, "");
  }

  lemma TotalsSnoc(groups: seq<seq<int>>)
    requires |groups| > 0
    ensures Totals(groups) == Totals(groups[..|groups| - 1]) + [Sum(groups[|groups| - 1])]
  {
  }

  /** Reading rendered groups records their totals and leaves no group open. */
  lemma {:induction false} TallyRender(groups: seq<seq<int>>)
    ensures TallyFrom(Start, Render(groups)) == Success(Tally(Totals(groups), 0))
    decreases |groups|
  {
    if |groups| == 0 {
      assert Totals(groups) == [];
    } else {
      var n := |groups|;
      var init := groups[..n - 1];
      var last := groups[n - 1];
      TallyRender(init);
      assert Render(groups) == Render(init) + (Numerals(last) + [""]);
      TallyAppend(Start, Render(init), Numerals(last) + [""]);
      CloseGroup(Tally(Totals(init), 0), last);
      TotalsSnoc(groups);
    }
  }

  /** The grouping read back: closed groups are recorded with their totals,
      empty groups (consecutive empty lines) as 0, and the numbers after the
      last empty line are only a running total, never recorded. */
  lemma RenderedGroups(groups: seq<seq<int>>, tail: seq<int>)
    ensures TallyFrom(Start, Render(groups) + Numerals(tail)) == Success(Tally(Totals(groups), Sum(tail)))
    ensures Recorded(Render(groups) + Numerals(tail)) == Success(Totals(groups))
  {
    TallyRender(groups);
    TallyAppend(Start, Render(groups), Numerals(tail));
    TallyNumerals(Tally(Totals(groups), 0), tail);
  }

  /** A final empty line records the running total. */
  lemma RecordedClosed(lines: seq<string>, t: Tally)
    requires TallyFrom(Start, lines) == Success(t)
    ensures Recorded(lines + [""]) == Success(t.recorded + [t.current])
  {
    TallyAppend(Start, lines, [""]);
    assert [""][..0] == [];
    assert TallyFrom(t, []) == Success(t);
  }

  /** The message of the `NumberFormatException` `Integer.parseInt` throws. */
  function NumberFormatError(line: string): string
  {
    "For input string: \"" + line + "\""
  }

  /** `parseCalories(Reader)`, over the lines the reader yields. */
  method ParseCalories(lines: seq<string>) returns (r: Result<DayOne, string>)
    ensures r.Success? <==> forall i :: 0 <= i < |lines| ==> !Unreadable(lines[i])
    ensures r.Success? ==> Recorded(lines) == Success(r.value.calories)
    ensures r.Success? ==> |r.value.calories| == CountEmpty(lines)
    ensures r.Failure? ==> exists i :: FirstUnreadable(lines, i) && r.error == NumberFormatError(lines[i])
  {
    var calories: seq<int> := [];
    var current := 0;
    var i := 0;
    while i < |lines|
      invariant 0 <= i <= |lines|
      invariant TallyFrom(Start, lines[..i]) == Success(Tally(calories, current))
      invariant forall j :: 0 <= j < i ==> !Unreadable(lines[j])
    {
      var line := lines[i];
      assert lines[..i + 1][..i] == lines[..i];
      if |line| == 0 {
        calories := calories + [current];
        current := 0;
      } else {
        var v := ParseInt(line);
        if v.None? {
          assert FirstUnreadable(lines, i);
          r := Failure(NumberFormatError(line));
          return;
        }
        current := current + v.value;
      }
      i := i + 1;
    }
    assert lines[..i] == lines;
    TallyCount(Start, lines);
    r := Success(DayOne(calories));
  }

  /** The lines `BufferedReader.readLine` yields for a string whose line
      breaks are `\n`: a final line break ends the last line rather than
      starting an empty one, and the empty string has no lines. */
  function ReadLines(s: string): (r: seq<string>)
    ensures forall i :: 0 <= i < |r| ==> !Contains(r[i], "\n")
    ensures |s| == 0 ==> r == []
    ensures |s| > 0 && s[|s| - 1] == '\n' ==> Join(r, "\n") + "\n" == s
    ensures |s| > 0 && s[|s| - 1] != '\n' ==> Join(r, "\n") == s
  {
    if |s| == 0 then []
    else
      LinesOf(s);
      DropEmptyTail(Split(s, "\n"))
  }

  /** The parts less the last one when that is empty. */
  function DropEmptyTail(parts: seq<string>): seq<string>
    requires |parts| >= 1
  {
    if parts[|parts| - 1] == "" then parts[..|parts| - 1] else parts
  }

  /** The parts of a split at line breaks, less an empty last part, are the
      string's lines: none holds a line break, and they join back to the
      string less its final line break, if it has one. */
  lemma LinesOf(s: string)
    requires |s| > 0
    ensures var lines := DropEmptyTail(Split(s, "\n"));
      (forall i :: 0 <= i < |lines| ==> !Contains(lines[i], "\n")) &&
      (s[|s| - 1] == '\n' ==> Join(lines, "\n") + "\n" == s) &&
      (s[|s| - 1] != '\n' ==> Join(lines, "\n") == s)
  {
    LastPartEmpty(s);
    LinesOfParts(s, Split(s, "\n"));
  }

  /** `LinesOf` for any parts that join to `s` without a line break in
      them, whose last part is empty exactly when `s` ends with one. */
  lemma LinesOfParts(s: string, parts: seq<string>)
    requires |s| > 0 && |parts| >= 1 && Join(parts, "\n") == s
    requires forall i :: 0 <= i < |parts| ==> !Contains(parts[i], "\n")
    requires (parts[|parts| - 1] == "" <==> s[|s| - 1] == '\n') && (parts[|parts| - 1] == "" ==> |parts| >= 2)
    ensures var lines := DropEmptyTail(parts);
      (forall i :: 0 <= i < |lines| ==> !Contains(lines[i], "\n")) &&
      (s[|s| - 1] == '\n' ==> Join(lines, "\n") + "\n" == s) &&
      (s[|s| - 1] != '\n' ==> Join(lines, "\n") == s)
  {
    if parts[|parts| - 1] == "" {
      DropEmptyLast(s, parts);
      var lines := parts[..|parts| - 1];
      assert forall i :: 0 <= i < |lines| ==> lines[i] == parts[i];
    }
  }

  /** Dropping the empty last part of a split leaves the lines the string
      holds before its final line break. */
  lemma DropEmptyLast(s: string, parts: seq<string>)
    requires |parts| >= 2 && parts[|parts| - 1] == "" && Join(parts, "\n") == s
    ensures Join(parts[..|parts| - 1], "\n") + "\n" == s
  {
    var lines := parts[..|parts| - 1];
    assert parts == lines + [parts[|parts| - 1]];
    JoinSnoc(lines, "", "\n");
    assert Join(lines, "\n") + "\n" + "" == Join(lines, "\n") + "\n";
  }

  /** The last part of a split at line breaks is empty exactly when the
      string ends with one, and it is then not the only part. */
  lemma LastPartEmpty(s: string)
    requires |s| > 0
    ensures var parts := Split(s, "\n");
      (parts[|parts| - 1] == "" <==> s[|s| - 1] == '\n') && (parts[|parts| - 1] == "" ==> |parts| >= 2)
  {
    if s[|s| - 1] == '\n' {
      SplitTrailing(s, '\n');
    }
    var parts := Split(s, "\n");
    if parts[|parts| - 1] == "" {
      EmptyLastPart(s, parts);
    }
  }

  /** Parts joining to a non-empty string, the last of them empty: there is
      another part before it, and the string ends with a line break. */
  lemma EmptyLastPart(s: string, parts: seq<string>)
    requires |s| > 0 && |parts| >= 1 && Join(parts, "\n") == s && parts[|parts| - 1] == ""
    ensures |parts| >= 2 && s[|s| - 1] == '\n'
  {
    if |parts| == 1 {
      assert false;
    }
    DropEmptyLast(s, parts);
    LastChar(Join(parts[..|parts| - 1], "\n"), "\n");
  }

  /** Lines each ended by a line break split into those lines and an
      empty last part. */
  lemma SplitTerminated(lines: seq<string>)
    requires |lines| >= 1 && forall i :: 0 <= i < |lines| ==> '\n' !in lines[i]
    ensures Split(Join(lines, "\n") + "\n", "\n") == lines + [""]
  {
    var parts := lines + [""];
    JoinSnoc(lines, "", "\n");
    assert Join(parts, "\n") == Join(lines, "\n") + "\n";
    forall i | 0 <= i < |parts|
      ensures '\n' !in parts[i]
    {
      if i < |lines| {
        assert parts[i] == lines[i];
      }
    }
    SplitJoinChar(parts, '\n');
  }

  /** Lines each ended by a line break are read back as they are. */
  lemma ReadLinesTerminated(lines: seq<string>)
    requires |lines| >= 1 && forall i :: 0 <= i < |lines| ==> '\n' !in lines[i]
    ensures ReadLines(Join(lines, "\n") + "\n") == lines
  {
    var parts := lines + [""];
    SplitTerminated(lines);
    ReadLinesEmptyLast(Join(lines, "\n") + "\n", parts);
    assert parts[..|lines|] == lines;
  }

  lemma ReadLinesEmptyLast(s: string, parts: seq<string>)
    requires |s| > 0 && Split(s, "\n") == parts && parts[|parts| - 1] == ""
    ensures ReadLines(s) == parts[..|parts| - 1]
  {
  }

  /** Lines joined by line breaks, the last one not empty, are read back as
      they are. */
  lemma ReadLinesUnterminated(lines: seq<string>)
    requires |lines| >= 1 && forall i :: 0 <= i < |lines| ==> '\n' !in lines[i]
    requires lines[|lines| - 1] != ""
    ensures ReadLines(Join(lines, "\n")) == lines
  {
    var s := Join(lines, "\n");
    var prefix := JoinEndsWithLast(lines, "\n");
    assert |s| > 0;
    SplitJoinChar(lines, '\n');
    ReadLinesNonEmpty(s, lines);
  }

  lemma ReadLinesNonEmpty(s: string, parts: seq<string>)
    requires |s| > 0 && Split(s, "\n") == parts && parts[|parts| - 1] != ""
    ensures ReadLines(s) == parts
  {
  }

  /** `parseCalories(String)`. */
  method ParseCaloriesFromString(s: string) returns (r: Result<DayOne, string>)
    ensures r.Success? <==> forall i :: 0 <= i < |ReadLines(s)| ==> !Unreadable(ReadLines(s)[i])
    ensures r.Success? ==> Recorded(ReadLines(s)) == Success(r.value.calories)
    ensures r.Failure? ==>
      exists i :: FirstUnreadable(ReadLines(s), i) && r.error == NumberFormatError(ReadLines(s)[i])
  {
    r := ParseCalories(ReadLines(s));
  }

  /** The message of the `IndexOutOfBoundsException` of `get(-1)`. */
  function IndexError(length: nat): string
  {
    "Index -1 out of bounds for length " + NatToString(length)
  }

  /** The `k` largest values, smallest first. */
  function Largest(s: seq<int>, k: nat): seq<int>
    requires k <= |s|
  {
    var sorted := SortAscending(s);
    sorted[|s| - k..]
  }

  /** `Largest(s, k)` picks `k` of the values of `s`, and none of the
      values left out is larger than a value picked. */
  lemma LargestAreLargest(s: seq<int>, k: nat)
    requires k <= |s|
    ensures |Largest(s, k)| == k
    ensures multiset(Largest(s, k)) <= multiset(s)
    ensures forall x, y :: x in multiset(s) - multiset(Largest(s, k)) && y in Largest(s, k) ==> x <= y
  {
    var t := SortAscending(s);
    var top := Largest(s, k);
    var rest := t[..|s| - k];
    assert t == rest + top;
    assert multiset(s) == multiset(rest) + multiset(top);
    assert multiset(s) - multiset(top) == multiset(rest);
    forall x, y | x in multiset(s) - multiset(top) && y in top
      ensures x <= y
    {
      assert x in rest;
      var i :| 0 <= i < |rest| && rest[i] == x;
      var j :| 0 <= j < |top| && top[j] == y;
      assert t[i] == x && t[|s| - k + j] == y;
    }
  }

  /** `getHighestCalories`: the largest total; `get(-1)` throws on an
      empty list. */
  function GetHighestCalories(d: DayOne): (r: Reading<Result<int, string>>)
    ensures Sorted(r.after.calories) && multiset(r.after.calories) == multiset(d.calories)
    ensures r.value.Success? <==> |d.calories| > 0
    ensures r.value.Failure? ==> r.value.error == IndexError(0)
    ensures r.value.Success? ==> r.value.value in d.calories
    ensures r.value.Success? ==> forall i :: 0 <= i < |d.calories| ==> d.calories[i] <= r.value.value
  {
    var sorted := SortAscending(d.calories);
    if |sorted| == 0 then Reading(Failure(IndexError(0)), DayOne(sorted))
    else
      SortedLastIsMax(d.calories, sorted);
      Reading(Success(sorted[|sorted| - 1]), DayOne(sorted))
  }

  lemma SumOfThree(t: seq<int>)
    requires |t| == 3
    ensures Sum(t) == t[2] + t[1] + t[0]
  {
    assert t[..2][..1] == [t[0]];
    SumSingleton(t[0]);
  }

  /** Two values of `s` that no value of `s` exceeds are equal. */
  lemma MaxUnique(s: seq<int>, a: int, b: int)
    requires a in s && b in s
    requires forall i :: 0 <= i < |s| ==> s[i] <= a
    requires forall i :: 0 <= i < |s| ==> s[i] <= b
    ensures a == b
  {
    var k :| 0 <= k < |s| && s[k] == a;
    var j :| 0 <= j < |s| && s[j] == b;
  }

  /** The highest total is the one no total exceeds. */
  lemma HighestIs(d: DayOne, m: int)
    requires m in d.calories && forall i :: 0 <= i < |d.calories| ==> d.calories[i] <= m
    ensures GetHighestCalories(d).value == Success(m)
  {
    var r := GetHighestCalories(d).value;
    MaxUnique(d.calories, r.value, m);
  }

  /** `getTopThreeHighestCalories`: the last three values after the sort,
      added from the largest down; with fewer than three the first index
      that falls off the list is -1. */
  function GetTopThreeHighestCalories(d: DayOne): (r: Reading<Result<int, string>>)
    ensures Sorted(r.after.calories) && multiset(r.after.calories) == multiset(d.calories)
    ensures r.value.Success? <==> |d.calories| >= 3
    ensures r.value.Failure? ==> r.value.error == IndexError(|d.calories|)
    ensures r.value.Success? ==> r.value.value == Sum(Largest(d.calories, 3))
  {
    var sorted := SortAscending(d.calories);
    var n := |sorted|;
    if n < 3 then Reading(Failure(IndexError(n)), DayOne(sorted))
    else
      SumOfThree(sorted[n - 3..]);
      Reading(Success(sorted[n - 1] + sorted[n - 2] + sorted[n - 3]), DayOne(sorted))
  }

  /** Rendered groups with every line, the last included, ended by a line
      break: the reader yields the lines back, so the numbers after the
      last empty line are still dropped. */
  lemma ReadRendered(groups: seq<seq<int>>, tail: seq<int>)
    requires |Render(groups) + Numerals(tail)| > 0
    ensures Recorded(ReadLines(Join(Render(groups) + Numerals(tail), "\n") + "\n")) == Success(Totals(groups))
  {
    RenderUnbroken(groups, tail);
    ReadLinesTerminated(Render(groups) + Numerals(tail));
    RenderedGroups(groups, tail);
  }

  /** The lines of the example. */
  function ExampleLines(): seq<string>
  {
    ["1000", "2000", "3000", "", "4000", "", "5000", "6000", "", "7000", "8000", "9000", "", "10000"]
  }

  function ExampleGroups(): seq<seq<int>>
  {
    [[1000, 2000, 3000], [4000], [5000, 6000], [7000, 8000, 9000]]
  }

  /** Appending a zero digit multiplies by ten. */
  lemma AppendZero(n: nat)
    requires n > 0
    ensures IntToString(10 * n) == IntToString(n) + "0"
  {
    assert (10 * n) / 10 == n && (10 * n) % 10 == 0;
    assert DigitChar(0) == '0';
  }

  /** A multiple of a thousand below ten thousand, in decimal. */
  lemma Thousands(d: nat)
    requires 1 <= d <= 9
    ensures IntToString(d * 1000) == [DigitChar(d)] + "000"
  {
    AppendZero(d);
    AppendZero(10 * d);
    AppendZero(100 * d);
    assert 10 * (10 * d) == 100 * d && 10 * (100 * d) == d * 1000;
  }

  lemma ExampleNumbersLow()
    ensures IntToString(1000) == "1000" && IntToString(2000) == "2000" && IntToString(3000) == "3000"
    ensures IntToString(4000) == "4000"
  {
    Thousands(1);
    Thousands(2);
    Thousands(3);
    Thousands(4);
  }

  lemma ExampleNumbersHigh()
    ensures IntToString(5000) == "5000" && IntToString(6000) == "6000" && IntToString(7000) == "7000"
    ensures IntToString(8000) == "8000" && IntToString(9000) == "9000"
  {
    Thousands(5);
    Thousands(6);
    Thousands(7);
    Thousands(8);
    Thousands(9);
  }

  lemma TenThousand()
    ensures IntToString(10000) == "10000"
  {
    Thousands(1);
    AppendZero(1000);
  }

  lemma RenderSnoc(init: seq<seq<int>>, g: seq<int>)
    ensures Render(init + [g]) == Render(init) + Numerals(g) + [""]
  {
    assert (init + [g])[..|init|] == init;
  }

  /** Four groups written out, group by group. */
  lemma RenderFour(g0: seq<int>, g1: seq<int>, g2: seq<int>, g3: seq<int>)
    ensures Render([g0, g1, g2, g3]) ==
      (Numerals(g0) + [""]) + (Numerals(g1) + [""]) + (Numerals(g2) + [""]) + (Numerals(g3) + [""])
  {
    RenderSnoc([], g0);
    RenderSnoc([g0], g1);
    RenderSnoc([g0, g1], g2);
    RenderSnoc([g0, g1, g2], g3);
    assert [g0] == [] + [g0];
    assert [g0, g1] == [g0] + [g1];
    assert [g0, g1, g2] == [g0, g1] + [g2];
    assert [g0, g1, g2, g3] == [g0, g1, g2] + [g3];
  }

  lemma ExampleChunk0()
    ensures Numerals([1000, 2000, 3000]) + [""] == ["1000", "2000", "3000", ""]
  {
    ExampleNumbersLow();
  }

  lemma ExampleChunk1()
    ensures Numerals([4000]) + [""] == ["4000", ""]
  {
    ExampleNumbersLow();
  }

  lemma ExampleChunk2()
    ensures Numerals([5000, 6000]) + [""] == ["5000", "6000", ""]
  {
    ExampleNumbersHigh();
  }

  lemma ExampleChunk3()
    ensures Numerals([7000, 8000, 9000]) + [""] == ["7000", "8000", "9000", ""]
  {
    ExampleNumbersHigh();
  }

  lemma ExampleChunk4()
    ensures Numerals([10000]) == ["10000"]
  {
    TenThousand();
  }

  /** The example is four closed groups and an open one holding 10000. */
  lemma ExampleShape()
    ensures ExampleLines() == Render(ExampleGroups()) + Numerals([10000])
  {
    ExampleChunk0();
    ExampleChunk1();
    ExampleChunk2();
    ExampleChunk3();
    ExampleChunk4();
    RenderFour([1000, 2000, 3000], [4000], [5000, 6000], [7000, 8000, 9000]);
  }

  /** The example records 6000, 4000, 11000 and 24000: the last elf's
      10000 is never recorded. */
  lemma ExampleRecorded()
    ensures Recorded(ExampleLines()) == Success([6000, 4000, 11000, 24000])
  {
    ExampleShape();
    RenderedGroups(ExampleGroups(), [10000]);
    var gs := ExampleGroups();
    assert Sum(gs[0]) == 6000 && Sum(gs[1]) == 4000 && Sum(gs[2]) == 11000 && Sum(gs[3]) == 24000;
    assert Totals(gs) == [6000, 4000, 11000, 24000];
  }

  /** The example as the Java test writes it: each line, the last one
      included, ended by a line break. */
  function ExampleInput(): string
  {
    Join(ExampleLines(), "\n") + "\n"
  }

  /** Rendered numbers hold no line break. */
  lemma NumeralsUnbroken(xs: seq<int>)
    ensures forall i :: 0 <= i < |Numerals(xs)| ==> '\n' !in Numerals(xs)[i]
  {
    forall i | 0 <= i < |xs|
      ensures '\n' !in Numerals(xs)[i]
    {
      var line := IntToString(xs[i]);
      assert forall k :: 0 <= k < |line| ==> line[k] != '\n';
    }
  }

  lemma {:induction false} GroupsUnbroken(groups: seq<seq<int>>)
    ensures forall i :: 0 <= i < |Render(groups)| ==> '\n' !in Render(groups)[i]
    decreases |groups|
  {
    if |groups| > 0 {
      GroupsUnbroken(groups[..|groups| - 1]);
      NumeralsUnbroken(groups[|groups| - 1]);
    }
  }

  lemma RenderUnbroken(groups: seq<seq<int>>, tail: seq<int>)
    ensures var lines := Render(groups) + Numerals(tail);
      forall i :: 0 <= i < |lines| ==> '\n' !in lines[i]
  {
    var lines := Render(groups) + Numerals(tail);
    GroupsUnbroken(groups);
    NumeralsUnbroken(tail);
    forall i | 0 <= i < |lines|
      ensures '\n' !in lines[i]
    {
      if i >= |Render(groups)| {
        assert lines[i] == Numerals(tail)[i - |Render(groups)|];
      }
    }
  }

  /** No line of the example holds a line break. */
  lemma ExampleUnbroken()
    ensures forall i :: 0 <= i < |ExampleLines()| ==> '\n' !in ExampleLines()[i]
  {
    ExampleShape();
    RenderUnbroken(ExampleGroups(), [10000]);
  }

  lemma ExampleReadLines()
    ensures ReadLines(ExampleInput()) == ExampleLines()
  {
    ExampleUnbroken();
    ReadLinesTerminated(ExampleLines());
  }

  function ExampleTotals(): seq<int>
  {
    [6000, 4000, 11000, 24000]
  }

  lemma ExampleSorted(s: seq<int>)
    requires s == ExampleTotals()
    ensures SortAscending(s) == [4000, 6000, 11000, 24000]
  {
    var t := [4000, 6000, 11000, 24000];
    ExampleSortedTotals(t);
    ExampleSameTotals(s, t);
    SortedUnique(SortAscending(s), t);
  }

  lemma ExampleSortedTotals(t: seq<int>)
    requires t == [4000, 6000, 11000, 24000]
    ensures Sorted(t)
  {
  }

  lemma ExampleSameTotals(s: seq<int>, t: seq<int>)
    requires s == ExampleTotals() && t == [4000, 6000, 11000, 24000]
    ensures multiset(s) == multiset(t)
  {
    assert s == [6000, 4000] + [11000, 24000] && t == [4000, 6000] + [11000, 24000];
  }

  /** The example's highest total is 24000. */
  lemma ExampleHighest(d: DayOne)
    requires d.calories == ExampleTotals()
    ensures GetHighestCalories(d).value == Success(24000)
  {
    assert d.calories[3] == 24000;
    HighestIs(d, 24000);
  }

  /** The example's top three add to 41000, not 45000: 10000 is not among
      the totals. */
  lemma ExampleTopThree(d: DayOne)
    requires d.calories == ExampleTotals()
    ensures GetTopThreeHighestCalories(d).value == Success(41000)
  {
    ExampleSorted(d.calories);
  }
}

=== FILE: calories_script.dfy ===
/** Calorie counting in the TypeScript solution
    (typescript/challenges/day_one/day_one.ts). The reading loop is the
    Java one (`Calories.TallyFrom`); the getters differ at the edges: an
    empty list has no highest total (`undefined`), and fewer than three
    totals are all added up. Input is split at `\n` without the special
    treatment `BufferedReader` gives a final line break. */
module CaloriesScript {
  import opened Wrappers
  import opened Seqs
  import opened Strings
  import Calories

  /** `parseCaloriesFromStrings`. The failure carries the first line that
      is not a decimal integer. */
  function ParseCaloriesFromStrings(input: seq<string>): (r: Result<Calories.DayOne, string>)
    ensures r.Success? <==> forall i :: 0 <= i < |input| ==> !Calories.Unreadable(input[i])
    ensures r.Success? ==> Calories.Recorded(input) == Success(r.value.calories)
    ensures r.Success? ==> |r.value.calories| == Calories.CountEmpty(input)
    ensures r.Failure? ==> exists i :: Calories.FirstUnreadable(input, i) && r.error == input[i]
  {
    Calories.TallyFails(Calories.Start, input);
    Calories.TallyCount(Calories.Start, input);
    match Calories.Recorded(input)
    case Failure(e) => Failure(e)
    case Success(calories) => Success(Calories.DayOne(calories))
  }

  /** `parseCaloriesFromString`: the parts between `\n`s are the lines. */
  function ParseCaloriesFromString(input: string): (r: Result<Calories.DayOne, string>)
    ensures r.Success? <==> forall i :: 0 <= i < |Split(input, "\n")| ==> !Calories.Unreadable(Split(input, "\n")[i])
    ensures r.Success? ==> |r.value.calories| == Calories.CountEmpty(Split(input, "\n"))
  {
    var parts := Split(input, "\n");
    var res := ParseCaloriesFromStrings(parts);
    assert parts == Split(input, "\n");
    assert res.Success? <==> forall i :: 0 <= i < |parts| ==> !Calories.Unreadable(parts[i]);
    assert res.Success? <==> forall i :: 0 <= i < |Split(input, "\n")| ==> !Calories.Unreadable(Split(input, "\n")[i]);
    res
  }

  /** Groups written out and joined by line breaks: the numbers after the
      last empty line are dropped, as in Java. */
  lemma UnterminatedGroupDropped(groups: seq<seq<int>>, tail: seq<int>)
    requires |Calories.Render(groups) + Calories.Numerals(tail)| > 0
    ensures ParseCaloriesFromString(Join(Calories.Render(groups) + Calories.Numerals(tail), "\n"))
      == Success(Calories.DayOne(Calories.Totals(groups)))
  {
    var lines := Calories.Render(groups) + Calories.Numerals(tail);
    Calories.RenderUnbroken(groups, tail);
    SplitJoinChar(lines, '\n');
    Calories.RenderedGroups(groups, tail);
  }

  /** With a final line break, the last part is empty and closes the open
      group: unlike Java (`Calories.ReadRendered`), its total is recorded. */
  lemma FinalBreakClosesGroup(groups: seq<seq<int>>, tail: seq<int>)
    requires |Calories.Render(groups) + Calories.Numerals(tail)| > 0
    ensures ParseCaloriesFromString(Join(Calories.Render(groups) + Calories.Numerals(tail), "\n") + "\n")
      == Success(Calories.DayOne(Calories.Totals(groups) + [Sum(tail)]))
  {
    var lines := Calories.Render(groups) + Calories.Numerals(tail);
    Calories.RenderUnbroken(groups, tail);
    Calories.SplitTerminated(lines);
    Calories.RenderedGroups(groups, tail);
    Calories.RecordedClosed(lines, Calories.Tally(Calories.Totals(groups), Sum(tail)));
  }

  /** What `reduce` without an initial value throws on an empty array. */
  const EMPTY_REDUCE := "Reduce of empty array with no initial value"

  /** `getHighestCalories`: the last total after the sort, `undefined`
      (`None`) when there is none. */
  function GetHighestCalories(d: Calories.DayOne): (r: Calories.Reading<Option<int>>)
    ensures Sorted(r.after.calories) && multiset(r.after.calories) == multiset(d.calories)
    ensures r.value.Some? <==> |d.calories| > 0
    ensures r.value.Some? ==> r.value.value in d.calories
    ensures r.value.Some? ==> forall i :: 0 <= i < |d.calories| ==> d.calories[i] <= r.value.value
  {
    var sorted := SortAscending(d.calories);
    if |sorted| == 0 then Calories.Reading(None, Calories.DayOne(sorted))
    else
      SortedLastIsMax(d.calories, sorted);
      Calories.Reading(Some(sorted[|sorted| - 1]), Calories.DayOne(sorted))
  }

  /** `getThreeHighestCalories`: `slice(-3)` keeps the last three totals
      after the sort, or all of them when there are fewer, and `reduce`
      adds them up; an empty list makes `reduce` throw. */
  function GetThreeHighestCalories(d: Calories.DayOne): (r: Calories.Reading<Result<int, string>>)
    ensures Sorted(r.after.calories) && multiset(r.after.calories) == multiset(d.calories)
    ensures r.value.Success? <==> |d.calories| > 0
    ensures r.value.Failure? ==> r.value.error == EMPTY_REDUCE
    ensures r.value.Success? && |d.calories| < 3 ==> r.value.value == Sum(d.calories)
    ensures r.value.Success? && |d.calories| >= 3 ==> r.value.value == Sum(Calories.Largest(d.calories, 3))
  {
    var sorted := SortAscending(d.calories);
    var n := |sorted|;
    if n == 0 then Calories.Reading(Failure(EMPTY_REDUCE), Calories.DayOne(sorted))
    else if n < 3 then
      SumPermutation(sorted, d.calories);
      Calories.Reading(Success(Sum(sorted)), Calories.DayOne(sorted))
    else Calories.Reading(Success(Sum(sorted[n - 3..])), Calories.DayOne(sorted))
  }

  /** Both highest totals agree wherever there is one. */
  lemma HighestAgrees(d: Calories.DayOne)
    ensures GetHighestCalories(d).value.Some? <==> Calories.GetHighestCalories(d).value.Success?
    ensures GetHighestCalories(d).value.Some? ==>
      GetHighestCalories(d).value.value == Calories.GetHighestCalories(d).value.value
  {
    if |d.calories| > 0 {
      Calories.MaxUnique(d.calories, GetHighestCalories(d).value.value, Calories.GetHighestCalories(d).value.value);
    }
  }

  /** With three totals or more, both solutions add up the same three. */
  lemma ThreeHighestAgrees(d: Calories.DayOne)
    requires |d.calories| >= 3
    ensures GetThreeHighestCalories(d).value == Calories.GetTopThreeHighestCalories(d).value
  {
  }

  /** The example as the TypeScript test writes it, with no final line
      break. */
  function ExampleInput(): string
  {
    Join(Calories.ExampleLines(), "\n")
  }

  /** The example records 6000, 4000, 11000 and 24000, whose highest is
      24000. */
  lemma ExampleHighest()
    ensures ParseCaloriesFromString(ExampleInput()) == Success(Calories.DayOne(Calories.ExampleTotals()))
    ensures GetHighestCalories(Calories.DayOne(Calories.ExampleTotals())).value == Some(24000)
  {
    Calories.ExampleUnbroken();
    SplitJoinChar(Calories.ExampleLines(), '\n');
    Calories.ExampleRecorded();
    var d := Calories.DayOne(Calories.ExampleTotals());
    Calories.ExampleHighest(d);
    HighestAgrees(d);
  }

  /** The example's three highest add to 41000. */
  lemma ExampleThreeHighest(d: Calories.DayOne)
    requires d.calories == Calories.ExampleTotals()
    ensures GetThreeHighestCalories(d).value == Success(41000)
  {
    Calories.ExampleTopThree(d);
    ThreeHighestAgrees(d);
  }
}

=== FILE: caves.dfy ===
/** Day twelve: a cave system read as an undirected adjacency map, and the
    traverser that enumerates every path from `start` to `end` that visits
    small caves at most once, except for a single small cave that may be
    visited twice. */
module Caves {
  import opened Wrappers
  import Strings

  datatype Cave = Start | End | Big(name: string) | Small(name: string)

  predicate IsUpper(c: char) { 'A' <= c <= 'Z' }
  predicate IsLower(c: char) { 'a' <= c <= 'z' }

  predicate HasUpper(s: string) { exists i | 0 <= i < |s| :: IsUpper(s[i]) }
  predicate HasLower(s: string) { exists i | 0 <= i < |s| :: IsLower(s[i]) }

  /** Every cave but a big one is small: `start` and `end` included. */
  predicate IsSmall(c: Cave) { !c.Big? }

  /** The label a cave is written with in the input. */
  function Label(c: Cave): string
  {
    match c
    case Start => "start"
    case End => "end"
    case Big(s) => s
    case Small(s) => s
  }

  /** A cave the parser can produce: big names are upper case only, small
      names lower case only and different from the two reserved labels. */
  predicate WellNamed(c: Cave)
  {
    match c
    case Big(s) => HasUpper(s) && !HasLower(s)
    case Small(s) => HasLower(s) && !HasUpper(s) && s != "start" && s != "end"
    case _ => true
  }

  const EmptyLabel := "empty string"
  const MixedLabel := "incorrect string type"

  /** Parses a cave label: the reserved labels, an upper-case (big) or a
      lower-case (small) name; a name with no letters or with both cases is
      an error. */
  function FromString(s: string): (r: Result<Cave, string>)
    ensures r.Success? ==> Label(r.value) == s && WellNamed(r.value)
    ensures r.Failure? <==> s != "start" && s != "end" && HasUpper(s) == HasLower(s)
    ensures r.Failure? ==> (r.error == EmptyLabel <==> !HasUpper(s))
  {
    if s == "start" then Success(Start)
    else if s == "end" then Success(End)
    else if HasUpper(s) && !HasLower(s) then Success(Big(s))
    else if HasLower(s) && !HasUpper(s) then Success(Small(s))
    else if HasUpper(s) then Failure(MixedLabel)
    else Failure(EmptyLabel)
  }

  /** Parsing is the inverse of writing a label. */
  lemma FromStringLabel(c: Cave)
    requires WellNamed(c)
    ensures FromString(Label(c)) == Success(c)
  {
    if c.Big? {
      assert IsLower("start"[0]) && IsLower("end"[0]);
    }
  }

  /** The four labels of the parsing example. */
  lemma NodeParsingExamples()
    ensures FromString("start") == Success(Start)
    ensures FromString("end") == Success(End)
    ensures FromString("A") == Success(Big("A"))
    ensures FromString("b") == Success(Small("b"))
  {
    assert IsUpper("A"[0]) && IsLower("b"[0]);
  }

  type Graph = map<Cave, set<Cave>>

  /** The adjacency map of the system: a cave maps to the caves it links to. */
  datatype CaveSystem = CaveSystem(caves: Graph)

  predicate HasEdge(g: Graph, a: Cave, b: Cave)
  {
    a in g && b in g[a]
  }

  ghost predicate Symmetric(g: Graph)
  {
    forall a, b :: HasEdge(g, a, b) ==> HasEdge(g, b, a)
  }

  /** Every cave that is linked to has its own entry. */
  ghost predicate Closed(g: Graph)
  {
    forall a, b :: HasEdge(g, a, b) ==> b in g
  }

  /** No two big caves are linked; with such a link the traversal would
      bounce between them for ever. */
  ghost predicate NoBigBig(g: Graph)
  {
    forall a, b :: HasEdge(g, a, b) ==> !(a.Big? && b.Big?)
  }

  lemma SymmetricIsClosed(g: Graph)
    requires Symmetric(g)
    ensures Closed(g)
  {
  }

  function New(): (r: CaveSystem)
    ensures Symmetric(r.caves) && forall a, b :: !HasEdge(r.caves, a, b)
  {
    CaveSystem(map[])
  }

  /** Both reserved caves have an entry. */
  predicate Verify(sys: CaveSystem)
  {
    End in sys.caves && Start in sys.caves
  }

  /** Adds the directed link `a -> b`, creating the entry of `a` if needed. */
  function RegisterEdge(g: Graph, a: Cave, b: Cave): (r: Graph)
    ensures r.Keys == g.Keys + {a}
    ensures forall x, y :: HasEdge(r, x, y) <==> HasEdge(g, x, y) || (x == a && y == b)
  {
    if a in g then g[a := g[a] + {b}] else g[a := {b}]
  }

  /** Adds the undirected link between `n` and `m`. */
  function InsertPair(sys: CaveSystem, n: Cave, m: Cave): (r: CaveSystem)
    ensures r.caves.Keys == sys.caves.Keys + {n, m}
    ensures forall x, y :: HasEdge(r.caves, x, y) <==>
      HasEdge(sys.caves, x, y) || (x == n && y == m) || (x == m && y == n)
    ensures Symmetric(sys.caves) ==> Symmetric(r.caves)
  {
    CaveSystem(RegisterEdge(RegisterEdge(sys.caves, n, m), m, n))
  }

  /** A map is determined by its keys and links. */
  lemma SameEdgesSameGraph(g: Graph, h: Graph)
    requires g.Keys == h.Keys
    requires forall x, y :: HasEdge(g, x, y) <==> HasEdge(h, x, y)
    ensures g == h
  {
    forall x | x in g
      ensures g[x] == h[x]
    {
      forall y
        ensures y in g[x] <==> y in h[x]
      {
        assert HasEdge(g, x, y) <==> HasEdge(h, x, y);
      }
    }
  }

  /** Inserting the same link twice changes nothing the second time. */
  lemma InsertPairIdempotent(sys: CaveSystem, n: Cave, m: Cave)
    ensures InsertPair(InsertPair(sys, n, m), n, m) == InsertPair(sys, n, m)
  {
    SameEdgesSameGraph(InsertPair(InsertPair(sys, n, m), n, m).caves, InsertPair(sys, n, m).caves);
  }

  /** The order of the two caves of a link does not matter. */
  lemma InsertPairCommutes(sys: CaveSystem, n: Cave, m: Cave)
    ensures InsertPair(sys, n, m) == InsertPair(sys, m, n)
  {
    SameEdgesSameGraph(InsertPair(sys, n, m).caves, InsertPair(sys, m, n).caves);
  }

  const MissingCave := "missing second cave"
  const TooManyCaves := "incorrect string format"

  /** Reads a line `n-m`: exactly two labels separated by `-`. A line
      parses exactly when it splits at `-` into two labels, and it is then
      those two labels written around a `-`. */
  function ParseEdge(s: string): (r: Result<(Cave, Cave), string>)
    ensures var parts := Strings.Split(s, "-");
      (r.Success? <==> |parts| == 2 && FromString(parts[0]).Success? && FromString(parts[1]).Success?) &&
      (r.Failure? && |parts| < 2 ==> r.error == MissingCave) &&
      (r.Failure? && |parts| > 2 ==> r.error == TooManyCaves)
    ensures r.Success? ==> s == Label(r.value.0) + "-" + Label(r.value.1)
    ensures r.Success? ==> WellNamed(r.value.0) && WellNamed(r.value.1)
  {
    var parts := Strings.Split(s, "-");
    if |parts| < 2 then Failure(MissingCave)
    else if |parts| > 2 then Failure(TooManyCaves)
    else
      assert parts[1..] == [parts[1]];
      var n :- FromString(parts[0]);
      var m :- FromString(parts[1]);
      Success((n, m))
  }

  /** Writing a link and reading it back gives the same two caves. */
  lemma ParseEdgeLabels(n: Cave, m: Cave)
    requires WellNamed(n) && WellNamed(m)
    requires '-' !in Label(n) && '-' !in Label(m)
    ensures ParseEdge(Label(n) + "-" + Label(m)) == Success((n, m))
  {
    var parts := [Label(n), Label(m)];
    assert parts[1..] == [Label(m)];
    assert Strings.Join(parts, "-") == Label(n) + "-" + Label(m);
    Strings.SplitJoinChar(parts, '-');
    FromStringLabel(n);
    FromStringLabel(m);
  }

  function InsertFromString(sys: CaveSystem, s: string): (r: Result<CaveSystem, string>)
    ensures r.Success? <==> ParseEdge(s).Success?
    ensures r.Success? ==> r.value == InsertPair(sys, ParseEdge(s).value.0, ParseEdge(s).value.1)
  {
    var e :- ParseEdge(s);
    Success(InsertPair(sys, e.0, e.1))
  }

  /** The link each line names, in order; the first line that does not
      parse is an error. */
  function ParseEdges(lines: seq<string>): (r: Result<seq<(Cave, Cave)>, string>)
    ensures r.Success? ==> |r.value| == |lines|
  {
    MapAll(lines, ParseEdge)
  }

  predicate Names(e: (Cave, Cave), a: Cave, b: Cave)
  {
    e == (a, b) || e == (b, a)
  }

  /** The links of `g` are exactly the listed links, both ways. */
  ghost predicate EdgesFrom(g: Graph, es: seq<(Cave, Cave)>)
  {
    forall a, b :: HasEdge(g, a, b) <==> exists i :: 0 <= i < |es| && Names(es[i], a, b)
  }

  /** Builds the system from its input lines, in order; the first line that
      does not parse is an error. */
  function FromLines(lines: seq<string>): (r: Result<CaveSystem, string>)
    ensures r.Success? <==> ParseEdges(lines).Success?
    ensures r.Failure? ==> r.error == ParseEdges(lines).error
    ensures r.Success? ==> Symmetric(r.value.caves) && EdgesFrom(r.value.caves, ParseEdges(lines).value)
    decreases |lines|
  {
    if |lines| == 0 then Success(New())
    else
      var prefix := lines[..|lines| - 1];
      match FromLines(prefix)
      case Failure(e) => Failure(e)
      case Success(sys) =>
        var r := InsertFromString(sys, lines[|lines| - 1]);
        if r.Success? then
          EdgesFromInsert(sys, ParseEdges(prefix).value, ParseEdge(lines[|lines| - 1]).value);
          r
        else r
  }

  /** Inserting one more link adds exactly that link, both ways. */
  lemma EdgesFromInsert(sys: CaveSystem, es: seq<(Cave, Cave)>, e: (Cave, Cave))
    requires EdgesFrom(sys.caves, es)
    ensures EdgesFrom(InsertPair(sys, e.0, e.1).caves, es + [e])
  {
    var g := InsertPair(sys, e.0, e.1).caves;
    var es' := es + [e];
    forall a, b
      ensures HasEdge(g, a, b) <==> exists i :: 0 <= i < |es'| && Names(es'[i], a, b)
    {
      if HasEdge(sys.caves, a, b) {
        var i :| 0 <= i < |es| && Names(es[i], a, b);
        assert es'[i] == es[i];
      } else if Names(e, a, b) {
        assert es'[|es|] == e;
      }
      if exists i :: 0 <= i < |es'| && Names(es'[i], a, b) {
        var i :| 0 <= i < |es'| && Names(es'[i], a, b);
        if i < |es| {
          assert es'[i] == es[i];
        }
      }
    }
  }

  // ---------------------------------------------------------------- traversal

  /** The state a traverser carries down one branch of the search: how often
      each small cave was entered, the path so far, and whether some small
      cave has already been entered twice. */
  datatype Traverser = Traverser(ledger: map<Cave, nat>, path: seq<Cave>, doubled: bool)

  const Fresh := Traverser(map[], [], false)

  /** Entering cave `n`: it is appended to the path and, when small, counted.
      The first repeat of a small cave raises the `doubled` flag; once it is
      raised a small cave is recorded with count 1. */
  function Visit(st: Traverser, n: Cave): (r: Traverser)
    ensures r.path == st.path + [n]
  {
    var path := st.path + [n];
    if !IsSmall(n) then st.(path := path)
    else if !st.doubled then
      if n in st.ledger then
        var c := st.ledger[n] + 1;
        Traverser(st.ledger[n := c], path, c >= 2)
      else Traverser(st.ledger[n := 1], path, false)
    else Traverser(st.ledger[n := 1], path, true)
  }

  /** The neighbours a traverser steps into: never `start`, and once the flag
      is raised no cave it has already counted. */
  predicate Admissible(st: Traverser, c: Cave)
  {
    if st.doubled then c !in st.ledger && !c.Start? else !c.Start?
  }

  /** Small caves of the system not yet entered. */
  ghost function Unvisited(g: Graph, ledger: map<Cave, nat>): set<Cave>
  {
    set k | k in g.Keys && IsSmall(k) && k !in ledger
  }

  /** What the search needs to terminate: the map is closed, no two big caves
      are linked, every ledger count is positive and, once the flag is up,
      the small cave about to be entered has not been counted. */
  ghost predicate CanExplore(g: Graph, n: Cave, st: Traverser)
  {
    Closed(g) && NoBigBig(g) && n in g &&
    (forall k :: k in st.ledger ==> st.ledger[k] >= 1) &&
    (st.doubled && IsSmall(n) ==> n !in st.ledger)
  }

  lemma NeighbourFacts(g: Graph, n: Cave)
    requires Closed(g) && NoBigBig(g) && n in g
    ensures forall c :: c in g[n] ==> c in g && !(n.Big? && c.Big?)
  {
    forall c | c in g[n]
      ensures c in g && !(n.Big? && c.Big?)
    {
      assert HasEdge(g, n, c);
    }
  }

  lemma CountingShrinks(g: Graph, n: Cave, ledger: map<Cave, nat>)
    requires n in g && IsSmall(n) && n !in ledger
    ensures |Unvisited(g, ledger[n := 1])| < |Unvisited(g, ledger)|
  {
    assert Unvisited(g, ledger[n := 1]) == Unvisited(g, ledger) - {n};
    assert n in Unvisited(g, ledger);
  }

  lemma RecountingKeeps(g: Graph, n: Cave, ledger: map<Cave, nat>, c: nat)
    requires n in ledger
    ensures Unvisited(g, ledger[n := c]) == Unvisited(g, ledger)
  {
    assert ledger[n := c].Keys == ledger.Keys;
  }

  /** Each step of the search makes progress: a newly counted small cave,
      the flag raised, or a big cave (whose neighbours are all small). */
  lemma VisitShrinks(g: Graph, n: Cave, st: Traverser)
    requires CanExplore(g, n, st)
    ensures var next := Visit(st, n);
      (IsSmall(n) ==> |Unvisited(g, next.ledger)| < |Unvisited(g, st.ledger)| ||
                      (Unvisited(g, next.ledger) == Unvisited(g, st.ledger) && !st.doubled && next.doubled)) &&
      (!IsSmall(n) ==> next.ledger == st.ledger && next.doubled == st.doubled)
    ensures forall k :: k in Visit(st, n).ledger ==> Visit(st, n).ledger[k] >= 1
    ensures forall c :: c in g[n] ==> c in g && !(n.Big? && c.Big?)
  {
    NeighbourFacts(g, n);
    if IsSmall(n) && n !in st.ledger {
      CountingShrinks(g, n, st.ledger);
    } else if IsSmall(n) {
      RecountingKeeps(g, n, st.ledger, st.ledger[n] + 1);
    }
  }

  /** `p` begins with `q`. */
  predicate Extends(p: seq<Cave>, q: seq<Cave>)
  {
    |q| <= |p| && p[..|q|] == q
  }

  lemma ExtendsDrop(q: seq<Cave>)
    ensures forall p, x :: Extends(p, q + [x]) ==> Extends(p, q)
  {
    forall p, x | Extends(p, q + [x])
      ensures Extends(p, q)
    {
      assert p[..|q|] == (q + [x])[..|q|];
    }
  }

  /** The paths found from `n`: enter `n`; at `end` the path is complete;
      otherwise continue, on a copy of the state, into every admissible
      neighbour. The neighbours' iteration order is immaterial to the set. */
  function ExploreFrom(g: Graph, n: Cave, st: Traverser): (r: set<seq<Cave>>)
    requires CanExplore(g, n, st)
    ensures forall p :: p in r ==> Extends(p, st.path + [n]) && p[|p| - 1] == End
    decreases |Unvisited(g, st.ledger)|, if st.doubled then 0 else 1, if n.Big? then 1 else 0
  {
    var next := Visit(st, n);
    if n == End then {next.path}
    else
      VisitShrinks(g, n, st);
      ExtendsDrop(next.path);
      set c, p | c in g[n] && Admissible(next, c) && p in ExploreFrom(g, c, next) :: p
  }

  const NotVerified := "cannot explore system without a start or end"

  /** Every path from `start` to `end`, or an error when either is missing. */
  function ExploreFromStart(sys: CaveSystem): (r: Result<set<seq<Cave>>, string>)
    requires Closed(sys.caves) && NoBigBig(sys.caves)
    ensures r.Failure? <==> !Verify(sys)
    ensures r.Success? ==> forall p :: p in r.value <==> ValidPath(sys.caves, p)
  {
    if !Verify(sys) then Failure(NotVerified)
    else
      ExploreFindsExactlyValidPaths(sys.caves);
      Success(ExploreFrom(sys.caves, Start, Fresh))
  }

  // ------------------------------------------------------ the paths, declaratively

  function Visits(p: seq<Cave>, k: Cave): nat
  {
    multiset(p)[k]
  }

  /** Small caves are entered at most twice, and at most one of them twice. */
  ghost predicate SmallVisitsOK(p: seq<Cave>)
  {
    (forall k :: IsSmall(k) ==> Visits(p, k) <= 2) &&
    (forall a, b :: IsSmall(a) && IsSmall(b) && Visits(p, a) == 2 && Visits(p, b) == 2 ==> a == b)
  }

  /** A walk that begins at `start`, never returns to it, has not yet reached
      `end` before its last cave, follows links and respects the visit limit. */
  ghost predicate PrefixOK(g: Graph, q: seq<Cave>)
  {
    |q| >= 1 && q[0] == Start &&
    (forall i :: 1 <= i < |q| ==> q[i] != Start) &&
    (forall i :: 0 <= i < |q| - 1 ==> q[i] != End) &&
    (forall i :: 0 <= i < |q| - 1 ==> HasEdge(g, q[i], q[i + 1])) &&
    SmallVisitsOK(q)
  }

  /** A complete path: such a walk that ends at `end`. */
  ghost predicate ValidPath(g: Graph, p: seq<Cave>)
  {
    PrefixOK(g, p) && p[|p| - 1] == End
  }

  /** The ledger and the flag agree with the path: the ledger counts exactly
      the small caves on it, and the flag says some small cave is on it twice. */
  ghost predicate LedgerMatches(st: Traverser)
  {
    (forall k :: k in st.ledger <==> IsSmall(k) && Visits(st.path, k) > 0) &&
    (forall k :: k in st.ledger ==> st.ledger[k] == Visits(st.path, k)) &&
    (st.doubled <==> exists k :: IsSmall(k) && Visits(st.path, k) == 2)
  }

  ghost predicate Inv(g: Graph, n: Cave, st: Traverser)
  {
    Closed(g) && NoBigBig(g) && n in g && LedgerMatches(st) && PrefixOK(g, st.path + [n])
  }

  lemma VisitsSnoc(p: seq<Cave>, c: Cave, k: Cave)
    ensures Visits(p + [c], k) == Visits(p, k) + (if k == c then 1 else 0)
  {
    assert multiset(p + [c]) == multiset(p) + multiset{c};
  }

  lemma VisitsPrefix(p: seq<Cave>, m: int, k: Cave)
    requires 0 <= m <= |p|
    ensures Visits(p[..m], k) <= Visits(p, k)
  {
    assert p == p[..m] + p[m..];
    assert multiset(p) == multiset(p[..m]) + multiset(p[m..]);
  }

  lemma PrefixOfPrefixOK(g: Graph, p: seq<Cave>, m: int)
    requires PrefixOK(g, p) && 1 <= m <= |p|
    ensures PrefixOK(g, p[..m])
  {
    var q := p[..m];
    forall k
      ensures Visits(q, k) <= Visits(p, k)
    {
      VisitsPrefix(p, m, k);
    }
  }

  lemma InvCanExplore(g: Graph, n: Cave, st: Traverser)
    requires Inv(g, n, st)
    ensures CanExplore(g, n, st)
  {
    if st.doubled && IsSmall(n) {
      var k :| IsSmall(k) && Visits(st.path, k) == 2;
      VisitsSnoc(st.path, n, n);
      VisitsSnoc(st.path, n, k);
      assert Visits(st.path, n) == 0;
    }
  }

  lemma VisitMatches(g: Graph, n: Cave, st: Traverser)
    requires Inv(g, n, st)
    ensures LedgerMatches(Visit(st, n))
  {
    InvCanExplore(g, n, st);
    VisitsSnoc(st.path, n, n);
    VisitLedger(st, n);
  }

  /** Entering `n` keeps the ledger in step with the path, provided a small
      `n` is on the path at most once, and not at all once the flag is up. */
  lemma VisitLedger(st: Traverser, n: Cave)
    requires LedgerMatches(st) && (IsSmall(n) ==> Visits(st.path, n) <= 1)
    requires st.doubled && IsSmall(n) ==> n !in st.ledger
    ensures LedgerMatches(Visit(st, n))
  {
    var next := Visit(st, n);
    forall k
      ensures Visits(next.path, k) == Visits(st.path, k) + (if k == n then 1 else 0)
    {
      VisitsSnoc(st.path, n, k);
    }
    if IsSmall(n) && !st.doubled && n !in st.ledger {
      if next.doubled {
        assert false;
      }
      forall k | IsSmall(k)
        ensures Visits(next.path, k) != 2
      {
        if k != n {
          assert Visits(st.path, k) != 2;
        }
      }
    } else if IsSmall(n) && st.doubled {
      var k :| IsSmall(k) && Visits(st.path, k) == 2;
      assert Visits(next.path, k) == 2;
    } else if IsSmall(n) {
      assert Visits(next.path, n) == 2;
    } else {
      if st.doubled {
        var k :| IsSmall(k) && Visits(st.path, k) == 2;
        assert Visits(next.path, k) == 2;
      }
    }
  }

  /** Stepping from `n` into an admissible neighbour keeps the invariant. */
  lemma StepKeepsInv(g: Graph, n: Cave, st: Traverser, c: Cave)
    requires Inv(g, n, st) && n != End
    requires HasEdge(g, n, c) && Admissible(Visit(st, n), c)
    ensures Inv(g, c, Visit(st, n))
  {
    VisitMatches(g, n, st);
    var next := Visit(st, n);
    AdmissibleKeepsVisits(next, c);
    PrefixSnoc(g, next.path, c);
  }

  /** A walk that has not reached `end` may go on along a link to any cave
      but `start`, within the visit limit. */
  lemma PrefixSnoc(g: Graph, q: seq<Cave>, c: Cave)
    requires PrefixOK(g, q) && q[|q| - 1] != End && HasEdge(g, q[|q| - 1], c) && c != Start
    requires SmallVisitsOK(q + [c])
    ensures PrefixOK(g, q + [c])
  {
    var q2 := q + [c];
    assert forall i :: 0 <= i < |q| ==> q2[i] == q[i];
  }

  /** Entering an admissible cave keeps the visit limit. */
  lemma AdmissibleKeepsVisits(next: Traverser, c: Cave)
    requires LedgerMatches(next) && SmallVisitsOK(next.path) && Admissible(next, c)
    ensures SmallVisitsOK(next.path + [c])
  {
    var q := next.path;
    var q2 := q + [c];
    forall k
      ensures Visits(q2, k) == Visits(q, k) + (if k == c then 1 else 0)
    {
      VisitsSnoc(q, c, k);
    }
    if next.doubled {
      var k0 :| IsSmall(k0) && Visits(q, k0) == 2;
      assert Visits(q2, k0) == 2;
      if IsSmall(c) {
        assert c !in next.ledger;
        assert Visits(q, c) == 0;
      }
    } else {
      assert forall k :: IsSmall(k) ==> Visits(q, k) <= 1;
    }
  }

  /** Every path the search returns is a valid path. */
  lemma {:induction false} ExploreSound(g: Graph, n: Cave, st: Traverser, p: seq<Cave>)
    requires Inv(g, n, st)
    requires CanExplore(g, n, st) && p in ExploreFrom(g, n, st)
    ensures ValidPath(g, p)
    decreases |Unvisited(g, st.ledger)|, if st.doubled then 0 else 1, if n.Big? then 1 else 0
  {
    var next := Visit(st, n);
    if n == End {
      assert p == next.path;
    } else {
      VisitShrinks(g, n, st);
      var c :| c in g[n] && Admissible(next, c) && p in ExploreFrom(g, c, next);
      StepKeepsInv(g, n, st, c);
      ExploreSound(g, c, next, p);
    }
  }

  /** The cave a valid path takes after `n` is one the search steps into. */
  lemma NextIsAdmissible(g: Graph, n: Cave, st: Traverser, p: seq<Cave>)
    requires Inv(g, n, st) && ValidPath(g, p) && n != End
    requires |st.path| < |p| && p[..|st.path| + 1] == st.path + [n]
    ensures |st.path| + 1 < |p|
    ensures HasEdge(g, n, p[|st.path| + 1]) && Admissible(Visit(st, n), p[|st.path| + 1])
    ensures p[..|st.path| + 2] == Visit(st, n).path + [p[|st.path| + 1]]
  {
    var next := Visit(st, n);
    NextOnPath(g, p, st.path, n);
    VisitMatches(g, n, st);
    PrefixOfPrefixOK(g, p, |st.path| + 2);
    AdmissibleNext(next, p[|st.path| + 1]);
  }

  /** A valid path through `q + [n]`, with `n` not the end, goes on along a
      link to a cave other than `start`. */
  lemma NextOnPath(g: Graph, p: seq<Cave>, q: seq<Cave>, n: Cave)
    requires ValidPath(g, p) && n != End
    requires |q| < |p| && p[..|q| + 1] == q + [n]
    ensures |q| + 1 < |p| && p[|q| + 1] != Start && HasEdge(g, n, p[|q| + 1])
    ensures p[..|q| + 2] == (q + [n]) + [p[|q| + 1]]
  {
    var m := |q|;
    assert p[m] == (q + [n])[m];
    assert p[..m + 2] == p[..m + 1] + [p[m + 1]];
  }

  /** A walk that stays within the visit limit only steps where the search
      would step. */
  lemma AdmissibleNext(next: Traverser, c: Cave)
    requires LedgerMatches(next) && SmallVisitsOK(next.path + [c]) && c != Start
    ensures Admissible(next, c)
  {
    if next.doubled && IsSmall(c) {
      var k :| IsSmall(k) && Visits(next.path, k) == 2;
      SecondRepeatExcluded(next.path, c, k);
    }
  }

  /** Once a small cave `k` is on a walk twice, extending the walk within the
      visit limit cannot repeat another small cave. */
  lemma SecondRepeatExcluded(q: seq<Cave>, c: Cave, k: Cave)
    requires SmallVisitsOK(q + [c]) && IsSmall(c) && IsSmall(k) && Visits(q, k) == 2
    ensures Visits(q, c) == 0
  {
    VisitsSnoc(q, c, c);
    VisitsSnoc(q, c, k);
  }

  lemma InExploreFrom(g: Graph, n: Cave, st: Traverser, c: Cave, p: seq<Cave>)
    requires CanExplore(g, n, st) && n != End
    requires c in g[n] && Admissible(Visit(st, n), c)
    requires CanExplore(g, c, Visit(st, n)) && p in ExploreFrom(g, c, Visit(st, n))
    ensures p in ExploreFrom(g, n, st)
  {
  }

  /** Every valid path that extends the current path through `n` is found. */
  lemma {:induction false} ExploreComplete(g: Graph, n: Cave, st: Traverser, p: seq<Cave>)
    requires Inv(g, n, st) && ValidPath(g, p)
    requires |st.path| < |p| && p[..|st.path| + 1] == st.path + [n]
    ensures CanExplore(g, n, st) && p in ExploreFrom(g, n, st)
    decreases |p| - |st.path|, 1
  {
    InvCanExplore(g, n, st);
    if n == End {
      EndFound(g, st, p);
    } else {
      ExploreCompleteVia(g, n, st, p);
    }
  }

  /** Away from `end`, the search follows `p` into its next cave. */
  lemma {:induction false} ExploreCompleteVia(g: Graph, n: Cave, st: Traverser, p: seq<Cave>)
    requires Inv(g, n, st) && ValidPath(g, p) && n != End && CanExplore(g, n, st)
    requires |st.path| < |p| && p[..|st.path| + 1] == st.path + [n]
    ensures p in ExploreFrom(g, n, st)
    decreases |p| - |st.path|, 0
  {
    NextIsAdmissible(g, n, st, p);
    var c := p[|st.path| + 1];
    StepKeepsInv(g, n, st, c);
    ExploreComplete(g, c, Visit(st, n), p);
    InExploreFrom(g, n, st, c, p);
  }

  /** At `end` the search records the path it walked, which is all of `p`. */
  lemma EndFound(g: Graph, st: Traverser, p: seq<Cave>)
    requires CanExplore(g, End, st) && ValidPath(g, p)
    requires |st.path| < |p| && p[..|st.path| + 1] == st.path + [End]
    ensures p in ExploreFrom(g, End, st)
  {
    var m := |st.path|;
    assert p[m] == (st.path + [End])[m];
    assert m == |p| - 1;
    assert p == p[..m + 1];
  }

  /** The search from `start` finds exactly the valid paths. */
  lemma ExploreFindsExactlyValidPaths(g: Graph)
    requires Closed(g) && NoBigBig(g) && Start in g
    ensures CanExplore(g, Start, Fresh)
    ensures forall p :: p in ExploreFrom(g, Start, Fresh) <==> ValidPath(g, p)
  {
    assert Inv(g, Start, Fresh) by {
      assert Fresh.path + [Start] == [Start];
      forall k
        ensures Visits([Start], k) == (if k == Start then 1 else 0)
      {
      }
    }
    InvCanExplore(g, Start, Fresh);
    forall p
      ensures p in ExploreFrom(g, Start, Fresh) <==> ValidPath(g, p)
    {
      if p in ExploreFrom(g, Start, Fresh) {
        ExploreSound(g, Start, Fresh, p);
      }
      if ValidPath(g, p) {
        ExploreComplete(g, Start, Fresh, p);
      }
    }
  }
}

=== FILE: chunks.dfy ===
/** Day ten: a stack machine over bracket chunks. An opener pushes its chunk,
    the closer of the innermost open chunk pops it, anything else is the
    first illegal character of the line. */
module Chunks {
  import opened Wrappers
  import Seqs

  /** The four chunk kinds, named after the structs of the source. */
  datatype Chunk = Bracket | Parentheses | Angle | Arrow

  function Opener(ch: Chunk): char
  {
    match ch
    case Bracket => '{'
    case Parentheses => '('
    case Angle => '['
    case Arrow => '<'
  }

  function Closer(ch: Chunk): char
  {
    match ch
    case Bracket => '}'
    case Parentheses => ')'
    case Angle => ']'
    case Arrow => '>'
  }

  predicate IsCloser(ch: Chunk, c: char)
  {
    c == Closer(ch)
  }

  /** The chunk map: the chunk an opening character starts. */
  function ChunkFor(c: char): (r: Option<Chunk>)
    ensures r.Some? <==> c in "{([<"
    ensures r.Some? ==> Opener(r.value) == c
  {
    match c
    case '{' => Some(Bracket)
    case '(' => Some(Parentheses)
    case '[' => Some(Angle)
    case '<' => Some(Arrow)
    case _ => None
  }

  /** Openers and closers are disjoint, and each determines its chunk. */
  lemma OpenersAndClosers(a: Chunk, b: Chunk)
    ensures ChunkFor(Opener(a)) == Some(a)
    ensures ChunkFor(Closer(a)).None?
    ensures Opener(a) == Opener(b) ==> a == b
    ensures Closer(a) == Closer(b) ==> a == b
  {
  }

  /** The open chunks, innermost last. */
  type Stack = seq<Chunk>

  datatype ChunkParser = ChunkParser(queue: Stack)

  function New(): (r: ChunkParser)
    ensures |r.queue| == 0
  {
    ChunkParser([])
  }

  /** Pushes the chunk `c` opens; `None` when `c` opens no chunk. */
  function PushFromChar(q: Stack, c: char): (r: Option<Stack>)
    ensures r.Some? <==> c in "{([<"
    ensures r.Some? ==> |r.value| == |q| + 1 && r.value[..|q|] == q && Opener(r.value[|q|]) == c
  {
    match ChunkFor(c)
    case Some(ch) => Some(q + [ch])
    case None => None
  }

  /** One character: pop when it closes the innermost chunk, else push. */
  function ParseFromChar(q: Stack, c: char): (r: Option<Stack>)
    ensures |q| > 0 && c == Closer(q[|q| - 1]) ==> r == Some(q[..|q| - 1])
    ensures !(|q| > 0 && c == Closer(q[|q| - 1])) ==>
      (r.Some? <==> c in "{([<") && (r.Some? ==> |r.value| == |q| + 1 && r.value[..|q|] == q)
  {
    if |q| > 0 && IsCloser(q[|q| - 1], c) then Some(q[..|q| - 1])
    else PushFromChar(q, c)
  }

  /** Feeds the characters of `l` one by one: the final stack, and the first
      rejected character (the stack is then the one it met). */
  function Run(q: Stack, l: string): (r: (Stack, Option<char>))
    decreases |l|
  {
    if |l| == 0 then (q, None)
    else
      match ParseFromChar(q, l[0])
      case None => (q, Some(l[0]))
      case Some(q') => Run(q', l[1..])
  }

  /** Feeding a concatenation is feeding its halves in turn. */
  lemma {:induction false} RunAppend(q: Stack, a: string, b: string)
    ensures Run(q, a + b) == (if Run(q, a).1.None? then Run(Run(q, a).0, b) else Run(q, a))
    decreases |a|
  {
    if |a| == 0 {
      assert a + b == b;
    } else {
      assert (a + b)[0] == a[0] && (a + b)[1..] == a[1..] + b;
      match ParseFromChar(q, a[0])
      case None =>
      case Some(q') => RunAppend(q', a[1..], b);
    }
  }

  /** The error of a run is a character of the line, and the line up to it
      is accepted. */
  lemma {:induction false} RunRejects(q: Stack, l: string)
    requires Run(q, l).1.Some?
    ensures exists i :: (0 <= i < |l| && l[i] == Run(q, l).1.value &&
      Run(q, l[..i]) == (Run(q, l).0, None) && ParseFromChar(Run(q, l).0, l[i]).None?)
    decreases |l|
  {
    match ParseFromChar(q, l[0])
    case None =>
      assert l[..0] == [];
      assert Run(q, l[..0]) == (q, None);
    case Some(q') =>
      RunRejects(q', l[1..]);
      var i :| 0 <= i < |l[1..]| && l[1..][i] == Run(q', l[1..]).1.value &&
        Run(q', l[1..][..i]) == (Run(q', l[1..]).0, None) && ParseFromChar(Run(q', l[1..]).0, l[1..][i]).None?;
      assert l[..i + 1] == [l[0]] + l[1..][..i];
      assert l[..i + 1][0] == l[0] && l[..i + 1][1..] == l[1..][..i];
      assert l[i + 1] == l[1..][i];
  }

  /** Parses a whole line from an empty stack: `Failure(c)` for the first
      illegal character, otherwise whether every chunk was closed. The
      returned parser holds the stack the line left. */
  function ParseLine(p: ChunkParser, l: string): (r: (ChunkParser, Result<bool, char>))
    ensures r.1.Failure? <==> Run([], l).1.Some?
    ensures r.1.Failure? ==> exists i :: (0 <= i < |l| && l[i] == r.1.error &&
      Run([], l[..i]) == (r.0.queue, None) && ParseFromChar(r.0.queue, l[i]).None?)
    ensures r.1.Success? ==> r.0.queue == Run([], l).0 && (r.1.value <==> |r.0.queue| == 0)
  {
    var (q, err) := Run([], l);
    if err.Some? then
      RunRejects([], l);
      (ChunkParser(q), Failure(err.value))
    else (ChunkParser(q), Success(|q| == 0))
  }

  /** The parser's previous state plays no part. */
  lemma ParseLineStartsEmpty(p1: ChunkParser, p2: ChunkParser, l: string)
    ensures ParseLine(p1, l) == ParseLine(p2, l)
  {
  }

  /** The closers of the open chunks, innermost first. */
  function AutoComplete(p: ChunkParser): (r: string)
    ensures |r| == |p.queue|
    ensures forall i :: 0 <= i < |r| ==> r[i] == Closer(p.queue[|p.queue| - 1 - i])
    decreases |p.queue|
  {
    if |p.queue| == 0 then ""
    else [Closer(p.queue[|p.queue| - 1])] + AutoComplete(ChunkParser(p.queue[..|p.queue| - 1]))
  }

  /** Feeding the completion closes every open chunk without error. */
  lemma {:induction false} RunAutoComplete(q: Stack)
    ensures Run(q, AutoComplete(ChunkParser(q))) == ([], None)
    decreases |q|
  {
    var s := AutoComplete(ChunkParser(q));
    if |q| > 0 {
      assert s[0] == Closer(q[|q| - 1]);
      assert s[1..] == AutoComplete(ChunkParser(q[..|q| - 1]));
      RunAutoComplete(q[..|q| - 1]);
    }
  }

  /** An incomplete line followed by its completion is a complete line. */
  lemma AutoCompleteCompletes(p: ChunkParser, l: string)
    requires ParseLine(p, l).1 == Success(false)
    ensures ParseLine(p, l + AutoComplete(ParseLine(p, l).0)).1 == Success(true)
  {
    var q := ParseLine(p, l).0.queue;
    RunAppend([], l, AutoComplete(ChunkParser(q)));
    RunAutoComplete(q);
  }

  /** Feeding "<[({" to an empty stack opens four chunks. */
  lemma RunExample()
    ensures Run([], "<[({") == ([Arrow, Angle, Parentheses, Bracket], None)
  {
    var q1, q2, q3, q4 := [Arrow], [Arrow, Angle], [Arrow, Angle, Parentheses], [Arrow, Angle, Parentheses, Bracket];
    var t3 := [Opener(Bracket)];
    var t2 := [Opener(Parentheses)] + t3;
    var t1 := [Opener(Angle)] + t2;
    var l := [Opener(Arrow)] + t1;
    assert l == "<[({";
    assert Run(q4, "") == (q4, None);
    assert Run(q3, t3) == (q4, None) by {
      OpenThenClose(q3, Bracket);
      assert q3 + [Bracket] == q4;
    }
    assert Run(q2, t2) == (q4, None) by {
      PushOpener(q2, Parentheses, t3);
      assert q2 + [Parentheses] == q3;
    }
    assert Run(q1, t1) == (q4, None) by {
      PushOpener(q1, Angle, t2);
      assert q1 + [Angle] == q2;
    }
    assert Run([], l) == (q4, None) by {
      PushOpener([], Arrow, t1);
      assert [] + [Arrow] == q1;
    }
  }

  /** The example of the tests: "<[({" leaves four chunks open and
      completes with "})]>". */
  lemma AutoCompleteExample()
    ensures ParseLine(New(), "<[({").1 == Success(false)
    ensures AutoComplete(ParseLine(New(), "<[({").0) == "})]>"
  {
    RunExample();
    var a := AutoComplete(ChunkParser([Arrow, Angle, Parentheses, Bracket]));
    assert a[0] == '}' && a[1] == ')' && a[2] == ']' && a[3] == '>';
    assert a == "})]>";
  }

  /** The bracket language, as a grammar: empty, or a chunk around a balanced
      string followed by a balanced string. */
  ghost predicate Balanced(s: string)
    decreases |s|
  {
    |s| == 0 || exists ch: Chunk, j :: WrapsAt(s, ch, j)
  }

  /** `s` opens chunk `ch`, closes it at `j`, and both the part inside and
      the part after are balanced. */
  ghost predicate WrapsAt(s: string, ch: Chunk, j: int)
    decreases |s|, 0
  {
    1 <= j < |s| && s[0] == Opener(ch) && s[j] == Closer(ch) &&
    Balanced(s[1..j]) && Balanced(s[j + 1..])
  }

  lemma OpenThenClose(q: Stack, ch: Chunk)
    ensures Run(q, [Opener(ch)]) == (q + [ch], None)
    ensures Run(q + [ch], [Closer(ch)]) == (q, None)
  {
    OpenersAndClosers(ch, ch);
    var o, c := [Opener(ch)], [Closer(ch)];
    assert o[0] == Opener(ch) && o[1..] == [];
    assert |q| > 0 ==> Opener(ch) != Closer(q[|q| - 1]);
    assert ParseFromChar(q, Opener(ch)) == Some(q + [ch]);
    assert Run(q, o) == Run(q + [ch], []);
    assert c[0] == Closer(ch) && c[1..] == [];
    assert (q + [ch])[..|q|] == q;
    assert ParseFromChar(q + [ch], Closer(ch)) == Some(q);
    assert Run(q + [ch], c) == Run(q, []);
  }

  lemma PushOpener(q: Stack, ch: Chunk, rest: string)
    ensures Run(q, [Opener(ch)] + rest) == Run(q + [ch], rest)
  {
    OpenThenClose(q, ch);
    RunAppend(q, [Opener(ch)], rest);
  }

  /** A chunk wrapped round a string that leaves the stack alone, followed
      by another such string, leaves the stack alone. */
  lemma WrappedRuns(q: Stack, ch: Chunk, inner: string, rest: string)
    requires Run(q + [ch], inner) == (q + [ch], None)
    requires Run(q, rest) == (q, None)
    ensures Run(q, [Opener(ch)] + (inner + ([Closer(ch)] + rest))) == (q, None)
  {
    OpenThenClose(q, ch);
    PushOpener(q, ch, inner + ([Closer(ch)] + rest));
    RunAppend(q + [ch], inner, [Closer(ch)] + rest);
    RunAppend(q + [ch], [Closer(ch)], rest);
  }

  /** A balanced string leaves any stack as it found it. */
  lemma {:induction false} BalancedRuns(q: Stack, s: string)
    requires Balanced(s)
    ensures Run(q, s) == (q, None)
    decreases |s|
  {
    if |s| > 0 {
      var ch: Chunk, j :| WrapsAt(s, ch, j);
      var inner, rest := s[1..j], s[j + 1..];
      assert s == [Opener(ch)] + (inner + ([Closer(ch)] + rest));
      BalancedRuns(q + [ch], inner);
      BalancedRuns(q, rest);
      WrappedRuns(q, ch, inner, rest);
    }
  }

  /** Every balanced line parses as complete. */
  lemma BalancedIsComplete(p: ChunkParser, l: string)
    requires Balanced(l)
    ensures ParseLine(p, l).1 == Success(true)
  {
    BalancedRuns([], l);
  }

  /** The openers of the chunks of `q`, outermost first. */
  function Opens(q: Stack): (r: string)
    ensures |r| == |q| && forall i :: 0 <= i < |q| ==> r[i] == Opener(q[i])
  {
    seq(|q|, i requires 0 <= i < |q| => Opener(q[i]))
  }

  /** A string that opens `d` at 0, closes it at `j`, and is balanced
      inside and after, is balanced. */
  lemma WrapsIsBalanced(t: string, d: Chunk, j: int)
    requires 1 <= j < |t| && t[0] == Opener(d) && t[j] == Closer(d)
    requires Balanced(t[1..j]) && Balanced(t[j + 1..])
    ensures Balanced(t)
  {
    assert WrapsAt(t, d, j);
  }

  /** The two sides of a split of a concatenation. */
  lemma SplitWrapped(d: Chunk, inner: string, rest: string, x: string, y: string, k: nat)
    requires x + y == [Opener(d)] + inner + ([Closer(d)] + rest) && |x| == k
    ensures 0 < k <= |inner| + 1 ==>
      x == [Opener(d)] + inner[..k - 1] && y == inner[k - 1..] + ([Closer(d)] + rest)
    ensures k > |inner| + 1 ==>
      x == [Opener(d)] + inner + [Closer(d)] + rest[..k - |inner| - 2] && y == rest[k - |inner| - 2..]
  {
    var s := x + y;
    assert x == s[..k] && y == s[k..];
  }

  /** An opener and its closer put side by side anywhere in a balanced
      string leave it balanced. */
  lemma {:induction false} InsertPair(x: string, y: string, ch: Chunk)
    requires Balanced(x + y)
    ensures Balanced(x + ([Opener(ch), Closer(ch)] + y))
    decreases |x| + |y|, 1
  {
    var s := x + y;
    var p := [Opener(ch), Closer(ch)];
    var t := x + (p + y);
    if |x| == 0 {
      assert s == y && t == p + y;
      assert t[1..1] == [] && t[2..] == y;
      WrapsIsBalanced(t, ch, 1);
    } else {
      var d: Chunk, j :| WrapsAt(s, d, j);
      var inner, rest := s[1..j], s[j + 1..];
      assert s == [Opener(d)] + inner + ([Closer(d)] + rest);
      SplitWrapped(d, inner, rest, x, y, |x|);
      if |x| <= j {
        InsertInner(d, inner, rest, inner[..|x| - 1], inner[|x| - 1..], ch);
      } else {
        InsertRest(d, inner, rest, rest[..|x| - j - 1], rest[|x| - j - 1..], ch);
      }
    }
  }

  lemma {:induction false} InsertInner(d: Chunk, inner: string, rest: string, xi: string, yi: string, ch: Chunk)
    requires Balanced(inner) && Balanced(rest) && inner == xi + yi
    ensures var p := [Opener(ch), Closer(ch)];
      Balanced(([Opener(d)] + xi) + (p + (yi + ([Closer(d)] + rest))))
    decreases |inner| + |rest| + 1, 0
  {
    var p := [Opener(ch), Closer(ch)];
    InsertPair(xi, yi, ch);
    var inner' := xi + (p + yi);
    var t := ([Opener(d)] + xi) + (p + (yi + ([Closer(d)] + rest)));
    RegroupInner(Opener(d), xi, p, yi, Closer(d), rest);
    WrappedParts(t, Opener(d), inner', Closer(d), rest);
    WrapsIsBalanced(t, d, |inner'| + 1);
  }

  lemma {:induction false} InsertRest(d: Chunk, inner: string, rest: string, xr: string, yr: string, ch: Chunk)
    requires Balanced(inner) && Balanced(rest) && rest == xr + yr
    ensures var p := [Opener(ch), Closer(ch)];
      Balanced(([Opener(d)] + inner + [Closer(d)] + xr) + (p + yr))
    decreases |inner| + |rest| + 1, 0
  {
    var p := [Opener(ch), Closer(ch)];
    InsertPair(xr, yr, ch);
    var rest' := xr + (p + yr);
    var t := ([Opener(d)] + inner + [Closer(d)] + xr) + (p + yr);
    assert t == [Opener(d)] + inner + ([Closer(d)] + rest');
    WrappedParts(t, Opener(d), inner, Closer(d), rest');
    WrapsIsBalanced(t, d, |inner| + 1);
  }

  /** Regrouping the string `InsertInner` builds around its new inner part. */
  lemma RegroupInner(o: char, xi: string, p: string, yi: string, c: char, rest: string)
    ensures ([o] + xi) + (p + (yi + ([c] + rest))) == [o] + (xi + (p + yi)) + ([c] + rest)
  {
  }

  /** The inner part and the rest of a string wrapped as `o inner c rest`. */
  lemma WrappedParts(t: string, o: char, inner: string, c: char, rest: string)
    requires t == [o] + inner + ([c] + rest)
    ensures t[1..|inner| + 1] == inner && t[|inner| + 2..] == rest
  {
  }

  /** A run that closes every chunk, those of `q` included, makes the
      openers of `q` followed by the line a balanced string. */
  lemma {:induction false} RunBalanced(q: Stack, s: string)
    requires Run(q, s) == ([], None)
    ensures Balanced(Opens(q) + s)
    decreases |s|
  {
    if |s| == 0 {
      assert Opens(q) + s == [];
    } else {
      var q' := ParseFromChar(q, s[0]).value;
      RunBalanced(q', s[1..]);
      if |q| > 0 && s[0] == Closer(q[|q| - 1]) {
        var top := q[|q| - 1];
        assert Opens(q) == Opens(q') + [Opener(top)];
        assert Opens(q) + s == Opens(q') + ([Opener(top), Closer(top)] + s[1..]);
        InsertPair(Opens(q'), s[1..], top);
      } else {
        assert Opens(q') == Opens(q) + [s[0]];
        assert Opens(q') + s[1..] == Opens(q) + s;
      }
    }
  }

  /** Every line that parses as complete is balanced. */
  lemma CompleteIsBalanced(p: ChunkParser, l: string)
    requires ParseLine(p, l).1 == Success(true)
    ensures Balanced(l)
  {
    RunBalanced([], l);
    assert Opens([]) + l == l;
  }

  /** A line parses as complete exactly when it is balanced. */
  lemma CompleteIffBalanced(p: ChunkParser, l: string)
    ensures ParseLine(p, l).1 == Success(true) <==> Balanced(l)
  {
    if Balanced(l) {
      BalancedIsComplete(p, l);
    }
    if ParseLine(p, l).1 == Success(true) {
      CompleteIsBalanced(p, l);
    }
  }

  // ------------------------------------------------------------------ scoring

  /** Score of an illegal character; other characters are an input error. */
  function ErrorScore(c: char): (r: Option<nat>)
    ensures r.Some? <==> c in ")]}>"
    ensures r == Some(3) <==> c == ')'
    ensures r == Some(57) <==> c == ']'
    ensures r == Some(1197) <==> c == '}'
    ensures r == Some(25137) <==> c == '>'
  {
    match c
    case ')' => Some(3)
    case ']' => Some(57)
    case '}' => Some(1197)
    case '>' => Some(25137)
    case _ => None
  }

  /** Total of the illegal characters' scores, as the left fold of the tests. */
  function TotalErrorScore(errs: string): (r: Option<nat>)
    ensures r.Some? <==> forall i :: 0 <= i < |errs| ==> errs[i] in ")]}>"
    ensures r.Some? ==> r.value >= 3 * |errs|
  {
    if |errs| == 0 then Some(0)
    else
      match (TotalErrorScore(errs[..|errs| - 1]), ErrorScore(errs[|errs| - 1]))
      case (Some(a), Some(b)) => Some(a + b)
      case _ => None
  }

  /** The total over two runs of illegal characters: it exists exactly
      when both halves have one, and is then their sum. */
  lemma {:induction false} TotalErrorScoreAppend(a: string, b: string)
    ensures TotalErrorScore(a + b).Some? <==> TotalErrorScore(a).Some? && TotalErrorScore(b).Some?
    ensures TotalErrorScore(a + b).Some? ==>
      TotalErrorScore(a + b).value == TotalErrorScore(a).value + TotalErrorScore(b).value
    decreases |b|
  {
    if |b| == 0 {
      assert a + b == a;
    } else {
      var b' := b[..|b| - 1];
      assert (a + b)[..|a + b| - 1] == a + b';
      assert (a + b)[|a + b| - 1] == b[|b| - 1];
      TotalErrorScoreAppend(a, b');
    }
  }

  /** A single character totals its own score. */
  lemma TotalErrorScoreSingle(c: char)
    ensures TotalErrorScore([c]) == ErrorScore(c)
  {
    assert [c][..0] == [];
  }

  /** The digit a completion character contributes. */
  function CompletionDigit(c: char): (r: Option<nat>)
    ensures r.Some? <==> c in ")]}>"
    ensures r.Some? ==> 1 <= r.value <= 4
  {
    match c
    case ')' => Some(1)
    case ']' => Some(2)
    case '}' => Some(3)
    case '>' => Some(4)
    case _ => None
  }

  predicate IsCompletion(s: string)
  {
    forall i :: 0 <= i < |s| ==> s[i] in ")]}>"
  }

  /** Score of a completion string: `acc * 5 + digit` folded from the left. */
  function CompletionScore(s: string): (r: Option<nat>)
    ensures r.Some? <==> IsCompletion(s)
    ensures r.Some? ==> (r.value == 0 <==> |s| == 0)
  {
    if |s| == 0 then Some(0)
    else
      match (CompletionScore(s[..|s| - 1]), CompletionDigit(s[|s| - 1]))
      case (Some(a), Some(d)) => Some(a * 5 + d)
      case _ => None
  }

  /** The score is a base-5 numeral with digits 1..4, so it identifies the
      completion string. */
  lemma {:induction false} CompletionScoreInjective(a: string, b: string)
    requires IsCompletion(a) && IsCompletion(b)
    requires CompletionScore(a) == CompletionScore(b)
    ensures a == b
    decreases |a|
  {
    if |a| > 0 && |b| > 0 {
      var x := CompletionScore(a[..|a| - 1]).value;
      var y := CompletionScore(b[..|b| - 1]).value;
      var dx := CompletionDigit(a[|a| - 1]).value;
      var dy := CompletionDigit(b[|b| - 1]).value;
      assert x * 5 + dx == y * 5 + dy;
      assert dx == dy && x == y;
      assert a[|a| - 1] == b[|b| - 1];
      CompletionScoreInjective(a[..|a| - 1], b[..|b| - 1]);
      assert a == a[..|a| - 1] + [a[|a| - 1]];
      assert b == b[..|b| - 1] + [b[|b| - 1]];
    }
  }

  /** The scoring example of the tests. */
  lemma CompletionScoreExample()
    ensures CompletionScore(")}>]})") == Some(5566)
  {
    var s := ")}>]})";
    assert ")"[..0] == "" && CompletionScore(")") == Some(1);
    assert ")}"[..1] == ")" && CompletionScore(")}") == Some(8);
    assert ")}>"[..2] == ")}" && CompletionScore(")}>") == Some(44);
    assert ")}>]"[..3] == ")}>" && CompletionScore(")}>]") == Some(222);
    assert ")}>]}"[..4] == ")}>]" && CompletionScore(")}>]}") == Some(1113);
    assert s[..5] == ")}>]}";
  }

  /** The element at index `(len + 1) / 2 - 1` of the ascending scores: the
      median for an odd count. An empty list is an error (the index would
      underflow). */
  function MiddleScore(scores: seq<int>): (r: Option<int>)
    ensures r.Some? <==> |scores| > 0
    ensures r.Some? ==> r.value in scores
    ensures r.Some? ==> var k := (|scores| + 1) / 2 - 1;
      Seqs.CountBelow(scores, r.value) <= k && Seqs.CountAbove(scores, r.value) <= |scores| - 1 - k
  {
    if |scores| == 0 then None
    else
      var sorted := Seqs.SortAscending(scores);
      var k := (|sorted| + 1) / 2 - 1;
      assert sorted[k] in multiset(sorted);
      Seqs.SortedRank(sorted, k);
      Seqs.CountPermutation(sorted, scores, sorted[k]);
      Some(sorted[k])
  }
}

=== FILE: crabs.dfy ===
/** Crab alignment (rust/src/day_seven.rs): the fuel the crabs need to line
    up at one position, under the growing cost (a move of `d` steps costs
    `1 + 2 + ... + d`) and under the linear cost at a most frequent
    position. Positions are unbounded naturals. */
module Crabs {
  import opened Wrappers
  import Seqs

  function Dist(a: int, b: int): nat
  {
    if a > b then a - b else b - a
  }

  /** `1 + 2 + ... + d`. */
  function Tri(d: nat): nat
  {
    d * (d + 1) / 2
  }

  function Linear(d: nat): nat
  {
    d
  }

  /** Fuel for every crab to reach `v`, each move of `d` steps costing
      `f(d)`, summed left to right. */
  function Cost(crabs: seq<int>, v: int, f: nat -> nat): (r: nat)
    ensures |crabs| == 0 ==> r == 0
    ensures forall i :: 0 <= i < |crabs| ==> f(Dist(crabs[i], v)) <= r
  {
    if |crabs| == 0 then 0 else Cost(crabs[..|crabs| - 1], v, f) + f(Dist(crabs[|crabs| - 1], v))
  }

  lemma {:induction false} CostAppend(a: seq<int>, b: seq<int>, v: int, f: nat -> nat)
    ensures Cost(a + b, v, f) == Cost(a, v, f) + Cost(b, v, f)
    decreases |b|
  {
    if |b| == 0 {
      assert a + b == a;
    } else {
      assert (a + b)[..|a + b| - 1] == a + b[..|b| - 1];
      CostAppend(a, b[..|b| - 1], v, f);
    }
  }

  /** The fuel does not depend on the order of the crabs. */
  lemma {:induction false} CostPermutation(a: seq<int>, b: seq<int>, v: int, f: nat -> nat)
    requires multiset(a) == multiset(b)
    ensures Cost(a, v, f) == Cost(b, v, f)
    decreases |a|
  {
    if |a| == 0 {
      assert |b| == |multiset(b)| == 0;
    } else {
      var j, rest := Seqs.PickOut(a, b);
      CostPermutation(a[..|a| - 1], rest, v, f);
      assert b == b[..j] + ([b[j]] + b[j + 1..]);
      CostAppend(b[..j], [b[j]] + b[j + 1..], v, f);
      CostAppend([b[j]], b[j + 1..], v, f);
      CostAppend(b[..j], b[j + 1..], v, f);
      assert [b[j]][..0] == [];
    }
  }

  /** Crabs that all share one position need no fuel to stay there. */
  lemma {:induction false} CostAllSame(crabs: seq<int>, p: int, f: nat -> nat)
    requires f(0) == 0 && forall i :: 0 <= i < |crabs| ==> crabs[i] == p
    ensures Cost(crabs, p, f) == 0
    decreases |crabs|
  {
    if |crabs| > 0 {
      CostAllSame(crabs[..|crabs| - 1], p, f);
    }
  }

  function MaxOf(s: seq<nat>): (m: nat)
    requires |s| > 0
    ensures m in s && forall i :: 0 <= i < |s| ==> s[i] <= m
  {
    if |s| == 1 then s[0]
    else
      var m := MaxOf(s[..|s| - 1]);
      assert forall i :: 0 <= i < |s| - 1 ==> s[..|s| - 1][i] == s[i];
      if s[|s| - 1] > m then s[|s| - 1] else m
  }

  /** The cheapest growing-cost meeting point among `0 ..= hi`. */
  method Cheapest(crabs: seq<int>, hi: nat) returns (best: nat, bestCost: nat)
    ensures best <= hi && bestCost == Cost(crabs, best, Tri)
    ensures forall u: nat :: u <= hi ==> bestCost <= Cost(crabs, u, Tri)
  {
    best, bestCost := 0, Cost(crabs, 0, Tri);
    var v := 1;
    while v <= hi
      invariant 1 <= v <= hi + 1
      invariant best < v && bestCost == Cost(crabs, best, Tri)
      invariant forall u: nat :: u < v ==> bestCost <= Cost(crabs, u, Tri)
      decreases hi + 1 - v
    {
      var c := Cost(crabs, v, Tri);
      if c < bestCost {
        best, bestCost := v, c;
      }
      v := v + 1;
    }
  }

  /** Sorts the positions, then tries every meeting point from 0 to twice
      the largest position and returns one with the least growing-cost
      fuel, with that fuel. The source indexes an empty list and panics,
      which is `None` here; which of several cheapest points is returned
      is left open. */
  method GetAllPossibleVals(crabs: seq<nat>) returns (sorted: seq<int>, r: Option<(nat, nat)>)
    ensures multiset(sorted) == multiset(crabs) && Seqs.Sorted(sorted)
    ensures r.None? <==> |crabs| == 0
    ensures r.Some? ==> r.value.0 <= 2 * MaxOf(crabs) && r.value.1 == Cost(crabs, r.value.0, Tri)
    ensures r.Some? ==> forall u: nat :: u <= 2 * MaxOf(crabs) ==> r.value.1 <= Cost(crabs, u, Tri)
  {
    sorted := Seqs.SortAscending(crabs);
    if |crabs| == 0 {
      r := None;
      return;
    }
    Seqs.SortedLastIsMax(crabs, sorted);
    var top: nat := sorted[|sorted| - 1];
    assert top == MaxOf(crabs) by {
      assert top in crabs;
    }
    var best, bestCost := Cheapest(sorted, 2 * top);
    forall u: nat ensures Cost(sorted, u, Tri) == Cost(crabs, u, Tri) {
      CostPermutation(sorted, crabs, u, Tri);
    }
    r := Some((best, bestCost));
    assert r.value.0 == best && r.value.1 == bestCost;
  }

  /** Occurrences of `c` among the first `n` positions. */
  function Occ(s: seq<nat>, n: nat, c: nat): nat
    requires n <= |s|
  {
    if n == 0 then 0 else Occ(s, n - 1, c) + (if s[n - 1] == c then 1 else 0)
  }

  /** How often `c` occurs in `s`. */
  function Count(s: seq<nat>, c: nat): (r: nat)
    ensures r == multiset(s)[c]
  {
    OccMultiset(s, |s|, c);
    assert s[..|s|] == s;
    Occ(s, |s|, c)
  }

  lemma {:induction false} OccMultiset(s: seq<nat>, n: nat, c: nat)
    requires n <= |s|
    ensures Occ(s, n, c) == multiset(s[..n])[c]
  {
    if n > 0 {
      OccMultiset(s, n - 1, c);
      assert s[..n] == s[..n - 1] + [s[n - 1]];
    }
  }

  /** The position-to-count map the source builds. */
  method CountPositions(crabs: seq<nat>) returns (counts: map<nat, nat>)
    ensures forall c :: c in counts <==> c in crabs
    ensures forall c :: c in counts ==> counts[c] == Count(crabs, c)
  {
    counts := map[];
    for i := 0 to |crabs|
      invariant forall c :: c in counts <==> c in crabs[..i]
      invariant forall c :: Occ(crabs, i, c) == (if c in counts then counts[c] else 0)
    {
      var c := crabs[i];
      var before := counts;
      if c in counts {
        counts := counts[c := counts[c] + 1];
      } else {
        counts := counts[c := 1];
      }
      assert crabs[..i + 1] == crabs[..i] + [c];
      forall d ensures Occ(crabs, i + 1, d) == (if d in counts then counts[d] else 0) {
        if d != c {
          assert d in counts <==> d in before;
        }
      }
    }
    assert crabs[..|crabs|] == crabs;
  }

  /** A position whose count no crab's position exceeds. */
  method MostFrequent(crabs: seq<nat>, counts: map<nat, nat>) returns (m: nat)
    requires |crabs| > 0 && forall c :: c in crabs ==> c in counts
    ensures m in crabs && forall i :: 0 <= i < |crabs| ==> counts[crabs[i]] <= counts[m]
  {
    m := crabs[0];
    for i := 1 to |crabs|
      invariant m in crabs
      invariant forall k :: 0 <= k < i ==> counts[crabs[k]] <= counts[m]
    {
      if counts[crabs[i]] > counts[m] {
        m := crabs[i];
      }
    }
  }

  method LinearFuel(crabs: seq<nat>, m: nat) returns (fuel: nat)
    ensures fuel == Cost(crabs, m, Linear)
  {
    fuel := 0;
    for i := 0 to |crabs|
      invariant fuel == Cost(crabs[..i], m, Linear)
    {
      assert crabs[..i + 1][..i] == crabs[..i];
      fuel := fuel + Dist(crabs[i], m);
    }
    assert crabs[..|crabs|] == crabs;
  }

  /** Counts the crabs at each position, picks a most frequent position
      and returns the linear-cost fuel to gather there. The source indexes
      an empty list and panics, which is `None` here; among equally
      frequent positions the choice is left open. */
  method GetEfficientCrabs(crabs: seq<nat>) returns (r: Option<nat>, m: nat)
    ensures r.None? <==> |crabs| == 0
    ensures r.Some? ==> m in crabs && r.value == Cost(crabs, m, Linear)
    ensures r.Some? ==> forall i :: 0 <= i < |crabs| ==> Count(crabs, crabs[i]) <= Count(crabs, m)
  {
    var counts := CountPositions(crabs);
    if |crabs| == 0 {
      r, m := None, 0;
      return;
    }
    m := MostFrequent(crabs, counts);
    var fuel := LinearFuel(crabs, m);
    r := Some(fuel);
  }

  /** When every crab shares one position, both kinds of fuel are 0 there. */
  lemma AllSameFree(crabs: seq<nat>, p: nat)
    requires forall i :: 0 <= i < |crabs| ==> crabs[i] == p
    ensures Cost(crabs, p, Tri) == 0 && Cost(crabs, p, Linear) == 0
  {
    CostAllSame(crabs, p, Tri);
    CostAllSame(crabs, p, Linear);
  }
}

=== FILE: diagnostic.dfy ===
/** Submarine diagnostics (rust/src/day_three.rs): per-position bit counts
    over a list of `usize` words, the most and least common bit patterns
    built from them, and the oxygen and CO2 ratings found by filtering the
    words one bit position at a time. A `usize` is modelled as its 64
    bits, least significant first, and the source's shifts, `|` and `!`
    act on them bit by bit. */
module Diagnostic {
  import opened Wrappers

  const WordBits: nat := 64

  type Word = w: seq<bool> | |w| == WordBits witness seq(WordBits, _ => false)

  /** The words 0 and 1. */
  function Zero(): Word
  {
    seq(WordBits, _ => false)
  }

  function One(): Word
  {
    seq(WordBits, i => i == 0)
  }

  /** `x << c`: bits move up by `c`; those pushed past the top are lost. */
  function Shl(x: Word, c: nat): (r: Word)
    ensures forall i :: 0 <= i < WordBits ==> r[i] == (i >= c && x[i - c])
  {
    seq(WordBits, i requires 0 <= i < WordBits => i >= c && x[i - c])
  }

  /** `x >> c`: bits move down by `c`; zeros come in at the top. */
  function Shr(x: Word, c: nat): (r: Word)
    ensures forall i :: 0 <= i < WordBits ==> r[i] == (i + c < WordBits && x[i + c])
  {
    seq(WordBits, i requires 0 <= i < WordBits => i + c < WordBits && x[i + c])
  }

  function Or(x: Word, y: Word): (r: Word)
    ensures forall i :: 0 <= i < WordBits ==> r[i] == (x[i] || y[i])
  {
    seq(WordBits, i requires 0 <= i < WordBits => x[i] || y[i])
  }

  function Not(x: Word): (r: Word)
    ensures forall i :: 0 <= i < WordBits ==> r[i] == !x[i]
  {
    seq(WordBits, i requires 0 <= i < WordBits => !x[i])
  }

  /** `get_nth_bit_in_word`: `(word >> n) & 1`, bit `n` of `word` counted
      from the least significant end. */
  function NthBit(word: Word, n: nat): (b: nat)
    requires n < WordBits
    ensures b == 0 || b == 1
    ensures b == 1 <==> word[n]
  {
    if Shr(word, n)[0] then 1 else 0
  }

  // ---------------------------------------------------------------------
  // BitIter

  datatype BitIter = BitIter(num: Word, curBit: nat)

  function NewBitIter(num: Word): BitIter
  {
    BitIter(num, 0)
  }

  datatype BitStep = BitStep(iter: BitIter, item: Option<nat>)

  /** One call of the iterator: the next bit, or `None` once all the
      word's bits are out. */
  function NextBit(it: BitIter): (r: BitStep)
    requires it.curBit <= WordBits
    ensures r.iter.num == it.num && r.iter.curBit <= WordBits
    ensures r.item.Some? <==> it.curBit < WordBits
  {
    if it.curBit == WordBits then BitStep(it, None)
    else BitStep(it.(curBit := it.curBit + 1), Some(NthBit(it.num, it.curBit)))
  }

  /** Everything the iterator yields from its current state. */
  function Items(it: BitIter): seq<nat>
    requires it.curBit <= WordBits
    decreases WordBits - it.curBit
  {
    var s := NextBit(it);
    match s.item
    case None => []
    case Some(b) => [b] + Items(s.iter)
  }

  lemma {:induction false} ItemsFrom(it: BitIter)
    requires it.curBit <= WordBits
    ensures |Items(it)| == WordBits - it.curBit
    ensures forall k :: 0 <= k < |Items(it)| ==> Items(it)[k] == NthBit(it.num, it.curBit + k)
    decreases WordBits - it.curBit
  {
    if it.curBit < WordBits {
      var s := NextBit(it);
      ItemsFrom(s.iter);
      assert Items(it) == [NthBit(it.num, it.curBit)] + Items(s.iter);
    }
  }

  /** A fresh iterator yields the word's 64 bits, least significant first. */
  lemma BitIterYieldsBits(num: Word)
    ensures |Items(NewBitIter(num))| == WordBits
    ensures forall n :: 0 <= n < WordBits ==> Items(NewBitIter(num))[n] == NthBit(num, n)
  {
    ItemsFrom(NewBitIter(num));
  }

  // ---------------------------------------------------------------------
  // Bit counting

  /** Zeros and ones seen at one bit position. */
  datatype BitCount = BitCount(zeros: nat, ones: nat)

  function AddZero(c: BitCount): BitCount
  {
    c.(zeros := c.zeros + 1)
  }

  function AddOne(c: BitCount): BitCount
  {
    c.(ones := c.ones + 1)
  }

  /** Among the first `n` words, those whose bit `i` is `bit`. */
  function Count(words: seq<Word>, n: nat, i: nat, bit: nat): nat
    requires n <= |words| && i < WordBits
  {
    if n == 0 then 0 else Count(words, n - 1, i, bit) + (if NthBit(words[n - 1], i) == bit then 1 else 0)
  }

  /** Every word is counted once at each position. */
  lemma {:induction false} CountsCoverWords(words: seq<Word>, n: nat, i: nat)
    requires n <= |words| && i < WordBits
    ensures Count(words, n, i, 0) + Count(words, n, i, 1) == n
    decreases n
  {
    if n > 0 {
      CountsCoverWords(words, n - 1, i);
    }
  }

  function Min(a: nat, b: nat): nat
  {
    if a <= b then a else b
  }

  /** The counts `buf` holds after all `words` are added to `base`. */
  ghost predicate Counted(buf: seq<BitCount>, base: seq<BitCount>, words: seq<Word>, n: nat, take: nat)
    requires n <= |words| && take <= WordBits && |buf| == |base|
  {
    forall i :: 0 <= i < |buf| ==> buf[i] == if i < take then BitCount(base[i].zeros + Count(words, n, i, 0), base[i].ones + Count(words, n, i, 1)) else base[i]
  }

  /** Adds one word's first `take` bits to `buf`. */
  method AddWord(buf: seq<BitCount>, word: Word, take: nat) returns (buf': seq<BitCount>)
    requires take <= WordBits && take <= |buf|
    ensures |buf'| == |buf|
    ensures forall i :: 0 <= i < |buf| ==> buf'[i] == if i < take then (if NthBit(word, i) == 0 then AddZero(buf[i]) else AddOne(buf[i])) else buf[i]
  {
    buf' := buf;
    var it := NewBitIter(word);
    for i := 0 to take
      invariant it == BitIter(word, i) && |buf'| == |buf|
      invariant forall k :: 0 <= k < |buf| ==> buf'[k] == if k < i then (if NthBit(word, k) == 0 then AddZero(buf[k]) else AddOne(buf[k])) else buf[k]
    {
      var s := NextBit(it);
      it := s.iter;
      if s.item.value == 0 {
        buf' := buf'[i := AddZero(buf'[i])];
      } else {
        buf' := buf'[i := AddOne(buf'[i])];
      }
    }
  }

  /** For every word, adds each of its first `fieldCount` bits (at most a
      word's 64) to the pair at that position. A buffer shorter than that
      is indexed out of bounds, which panics in the source, as soon as there
      is a word. */
  method CountBitsPerField(words: seq<Word>, fieldCount: nat, buf: seq<BitCount>) returns (r: Option<seq<BitCount>>)
    ensures r.None? <==> |words| > 0 && |buf| < Min(fieldCount, WordBits)
    ensures r.Some? ==> |r.value| == |buf| && Counted(r.value, buf, words, |words|, Min(fieldCount, WordBits))
  {
    var take := Min(fieldCount, WordBits);
    if |words| > 0 && |buf| < take {
      return None;
    }
    var cur := buf;
    for j := 0 to |words|
      invariant |cur| == |buf| && Counted(cur, buf, words, j, take)
    {
      cur := AddWord(cur, words[j], take);
    }
    r := Some(cur);
  }

  // ---------------------------------------------------------------------
  // Common and least common bits

  /** 1 when the position has strictly more ones than zeros; ties give 0. */
  function MajorityBit(c: BitCount): (b: nat)
    ensures b == 0 || b == 1
    ensures b == 1 <==> c.zeros < c.ones
  {
    if c.zeros < c.ones then 1 else 0
  }

  /** The source's `new_bit`: the word 1 when ones outnumber zeros. */
  function NewBit(c: BitCount): (r: Word)
    ensures r == One() <==> c.zeros < c.ones
    ensures r == Zero() <==> c.zeros >= c.ones
  {
    assert One()[0] && !Zero()[0];
    if c.zeros < c.ones then One() else Zero()
  }

  /** Setting bit `c` of a word leaves every other bit alone. */
  lemma OrBit(res: Word, nb: Word, c: nat, n: nat)
    requires (nb == Zero() || nb == One()) && c < WordBits && n < WordBits
    ensures n != c ==> NthBit(Or(res, Shl(nb, c)), n) == NthBit(res, n)
    ensures n == c && NthBit(res, c) == 0 ==> NthBit(Or(res, Shl(nb, c)), n) == if nb == One() then 1 else 0
  {
  }

  /** The source's loop: `counts[i]` sets bit `|counts| - 1 - i`. */
  function CommonLoop(counts: seq<BitCount>, i: nat, res: Word): Word
    requires i <= |counts| <= WordBits
    decreases |counts| - i
  {
    if i == |counts| then res
    else CommonLoop(counts, i + 1, Or(res, Shl(NewBit(counts[i]), |counts| - i - 1)))
  }

  /** Bit `|counts| - 1 - k` of `res` is the majority bit of `counts[k]`
      for every `k < i`. */
  ghost predicate MirroredUpTo(res: Word, counts: seq<BitCount>, i: nat)
    requires i <= |counts| <= WordBits
  {
    forall k :: 0 <= k < i ==> NthBit(res, Mirror(|counts|, k)) == MajorityBit(counts[k])
  }

  function Mirror(len: nat, k: nat): nat
    requires k < len
  {
    len - 1 - k
  }

  /** The bits from `lo` up to `hi` are clear. */
  ghost predicate ClearBetween(res: Word, lo: nat, hi: nat)
    requires hi <= WordBits
  {
    forall n :: lo <= n < hi ==> NthBit(res, n) == 0
  }

  lemma {:induction false} CommonLoopBits(counts: seq<BitCount>, i: nat, res: Word)
    requires i <= |counts| <= WordBits
    requires MirroredUpTo(res, counts, i)
    requires ClearBetween(res, 0, |counts| - i) && ClearBetween(res, |counts|, WordBits)
    ensures MirroredUpTo(CommonLoop(counts, i, res), counts, |counts|)
    ensures ClearBetween(CommonLoop(counts, i, res), |counts|, WordBits)
    decreases |counts| - i
  {
    if i < |counts| {
      var c := |counts| - i - 1;
      var nb := NewBit(counts[i]);
      var res' := Or(res, Shl(nb, c));
      forall n | 0 <= n < WordBits
        ensures n != c ==> NthBit(res', n) == NthBit(res, n)
        ensures n == c ==> NthBit(res', n) == MajorityBit(counts[i])
      {
        OrBit(res, nb, c, n);
      }
      assert MirroredUpTo(res', counts, i + 1) by {
        forall k | 0 <= k < i + 1
          ensures NthBit(res', Mirror(|counts|, k)) == MajorityBit(counts[k])
        {
          if k < i {
            assert Mirror(|counts|, k) != c;
          }
        }
      }
      assert CommonLoop(counts, i, res) == CommonLoop(counts, i + 1, res');
      CommonLoopBits(counts, i + 1, res');
    }
  }

  /** `get_common_bits` as written: the majority bit of `counts[k]` lands
      at bit `|counts| - 1 - k`, so the first pair, which the counting fills
      from bit 0 of the words, becomes the top bit of the result. */
  function GetCommonBits(counts: seq<BitCount>): (r: Word)
    requires |counts| <= WordBits
    ensures forall k :: 0 <= k < |counts| ==> NthBit(r, |counts| - 1 - k) == MajorityBit(counts[k])
    ensures forall n :: |counts| <= n < WordBits ==> NthBit(r, n) == 0
  {
    CommonLoopBits(counts, 0, Zero());
    assert forall k :: 0 <= k < |counts| ==> Mirror(|counts|, k) == |counts| - 1 - k;
    CommonLoop(counts, 0, Zero())
  }

  /** The low `len` bits of `g`, inverted; the bits above are cleared. */
  function Complement(g: Word, len: nat): (r: Word)
    requires 1 <= len <= WordBits
  {
    Shr(Shl(Not(g), WordBits - len), WordBits - len)
  }

  lemma ComplementBit(g: Word, len: nat, n: nat)
    requires 1 <= len <= WordBits && n < WordBits
    ensures NthBit(Complement(g, len), n) == if n < len then 1 - NthBit(g, n) else 0
  {
  }

  /** `get_least_common_bits`: the common bits inverted within the
      `|counts|` low bits. An empty or over-long buffer makes the source's
      shift overflow. */
  function GetLeastCommonBits(counts: seq<BitCount>): (r: Word)
    requires 1 <= |counts| <= WordBits
    ensures forall k :: 0 <= k < |counts| ==> NthBit(r, |counts| - 1 - k) == 1 - MajorityBit(counts[k])
    ensures forall n :: |counts| <= n < WordBits ==> NthBit(r, n) == 0
  {
    var g := GetCommonBits(counts);
    var r := Complement(g, |counts|);
    forall n | 0 <= n < WordBits
      ensures NthBit(r, n) == if n < |counts| then 1 - NthBit(g, n) else 0
    {
      ComplementBit(g, |counts|, n);
    }
    r
  }

  /** The gamma rate the counting evidently intends: bit `k` of the result
      is the majority bit of position `k`, the position the counting filled
      from bit `k` of the words. */
  function GammaLoop(counts: seq<BitCount>, i: nat, res: Word): Word
    requires i <= |counts| <= WordBits
    decreases |counts| - i
  {
    if i == |counts| then res
    else GammaLoop(counts, i + 1, Or(res, Shl(NewBit(counts[i]), i)))
  }

  lemma {:induction false} GammaLoopBits(counts: seq<BitCount>, i: nat, res: Word)
    requires i <= |counts| <= WordBits
    requires forall k :: 0 <= k < i ==> NthBit(res, k) == MajorityBit(counts[k])
    requires forall n :: i <= n < WordBits ==> NthBit(res, n) == 0
    ensures forall k :: 0 <= k < |counts| ==> NthBit(GammaLoop(counts, i, res), k) == MajorityBit(counts[k])
    ensures forall n :: |counts| <= n < WordBits ==> NthBit(GammaLoop(counts, i, res), n) == 0
    decreases |counts| - i
  {
    if i < |counts| {
      var nb := NewBit(counts[i]);
      var res' := Or(res, Shl(nb, i));
      forall n | 0 <= n < WordBits
        ensures n != i ==> NthBit(res', n) == NthBit(res, n)
        ensures n == i ==> NthBit(res', n) == MajorityBit(counts[i])
      {
        OrBit(res, nb, i, n);
      }
      GammaLoopBits(counts, i + 1, res');
    }
  }

  function GammaRate(counts: seq<BitCount>): (r: Word)
    requires |counts| <= WordBits
    ensures forall k :: 0 <= k < |counts| ==> NthBit(r, k) == MajorityBit(counts[k])
    ensures forall n :: |counts| <= n < WordBits ==> NthBit(r, n) == 0
  {
    GammaLoopBits(counts, 0, Zero());
    GammaLoop(counts, 0, Zero())
  }

  /** The matching epsilon rate: the least common bit at every position. */
  function EpsilonRate(counts: seq<BitCount>): (r: Word)
    requires 1 <= |counts| <= WordBits
    ensures forall k :: 0 <= k < |counts| ==> NthBit(r, k) == 1 - MajorityBit(counts[k])
    ensures forall n :: |counts| <= n < WordBits ==> NthBit(r, n) == 0
  {
    var g := GammaRate(counts);
    var r := Complement(g, |counts|);
    forall n | 0 <= n < WordBits
      ensures NthBit(r, n) == if n < |counts| then 1 - NthBit(g, n) else 0
    {
      ComplementBit(g, |counts|, n);
    }
    r
  }

  /** Counts for the single word 1 over three fields: bit 0 is set, bits 1
      and 2 are clear. */
  const OneOverThree: seq<BitCount> := [BitCount(0, 1), BitCount(1, 0), BitCount(1, 0)]

  /** For that input the source's common bits are 100 where the word's own
      majority pattern is 001, and the least common bits 011 where 110 is
      meant: the pattern comes out bit-reversed. */
  lemma CommonBitsReversed()
    ensures GetCommonBits(OneOverThree) != GammaRate(OneOverThree)
    ensures NthBit(GetCommonBits(OneOverThree), 2) == 1 && NthBit(GammaRate(OneOverThree), 0) == 1
  {
    var c := OneOverThree;
    assert NthBit(GetCommonBits(c), 0) == MajorityBit(c[2]) == 0;
    assert NthBit(GammaRate(c), 0) == MajorityBit(c[0]) == 1;
    assert NthBit(GetCommonBits(c), 2) == MajorityBit(c[0]) == 1;
  }

  /** The counting puts bit `k` of the words at position `k`, so the
      intended gamma rate has, at every bit, the bit most words carry there
      (ties 0), and the epsilon rate the other one. */
  method PowerRates(words: seq<Word>, fieldCount: nat) returns (gamma: Word, epsilon: Word)
    requires 1 <= fieldCount <= WordBits
    ensures forall k :: 0 <= k < fieldCount ==> (NthBit(gamma, k) == 1 <==> Count(words, |words|, k, 0) < Count(words, |words|, k, 1))
    ensures forall k :: 0 <= k < fieldCount ==> NthBit(epsilon, k) == 1 - NthBit(gamma, k)
    ensures forall n :: fieldCount <= n < WordBits ==> NthBit(gamma, n) == 0 && NthBit(epsilon, n) == 0
  {
    var buf := seq(fieldCount, _ => BitCount(0, 0));
    var counts := CountBitsPerField(words, fieldCount, buf);
    gamma := GammaRate(counts.value);
    epsilon := EpsilonRate(counts.value);
  }

  // ---------------------------------------------------------------------
  // Ratings

  datatype Rating = Oxygen | Co2

  /** The `common_bit` each rating computes; words carrying it are dropped. */
  function CommonBit(rating: Rating, c: BitCount): (r: nat)
    ensures r == 0 || r == 1
    ensures rating == Oxygen ==> (1 - r == 0 <==> c.zeros <= c.ones)
    ensures rating == Co2 ==> (1 - r == 1 <==> c.ones >= c.zeros)
  {
    match rating
    case Oxygen => if c.zeros < c.ones then 1 else if c.zeros > c.ones then 0 else 1
    case Co2 => if c.zeros < c.ones then 0 else if c.zeros > c.ones then 1 else 0
  }

  /** The words whose bit `i` is not `drop`, in order. */
  function Keep(words: seq<Word>, i: nat, drop: nat): (r: seq<Word>)
    requires i < WordBits
    ensures |r| <= |words|
    ensures forall w :: w in r <==> w in words && NthBit(w, i) != drop
  {
    if |words| == 0 then []
    else
      var rest := Keep(words[..|words| - 1], i, drop);
      var w := words[|words| - 1];
      assert forall v :: v in words <==> v in words[..|words| - 1] || v == w;
      if NthBit(w, i) != drop then rest + [w] else rest
  }

  /** Keeps as many words as carry the other bit. */
  lemma {:induction false} KeepCount(words: seq<Word>, i: nat, drop: nat)
    requires i < WordBits && (drop == 0 || drop == 1)
    ensures |Keep(words, i, drop)| == Count(words, |words|, i, 1 - drop)
    decreases |words|
  {
    if |words| > 0 {
      var p := words[..|words| - 1];
      KeepCount(p, i, drop);
      CountPrefix(words, i, 1 - drop);
    }
  }

  lemma CountPrefix(words: seq<Word>, i: nat, bit: nat)
    requires |words| > 0 && i < WordBits
    ensures Count(words, |words|, i, bit) == Count(words[..|words| - 1], |words| - 1, i, bit) + (if NthBit(words[|words| - 1], i) == bit then 1 else 0)
  {
    var p := words[..|words| - 1];
    CountSame(words, p, |p|, i, bit);
  }

  lemma {:induction false} CountSame(a: seq<Word>, b: seq<Word>, n: nat, i: nat, bit: nat)
    requires n <= |a| && n <= |b| && i < WordBits
    requires forall k :: 0 <= k < n ==> a[k] == b[k]
    ensures Count(a, n, i, bit) == Count(b, n, i, bit)
    decreases n
  {
    if n > 0 {
      CountSame(a, b, n - 1, i, bit);
    }
  }

  /** The filtering both ratings perform, bit `cur` first and down to bit
      0, stopping as soon as one word is left. */
  function Sieve(words: seq<Word>, cur: nat, rating: Rating): (r: seq<Word>)
    requires cur < WordBits
    ensures forall w :: w in r ==> w in words
    decreases cur
  {
    if |words| == 1 then words
    else
      var c := BitCount(Count(words, |words|, cur, 0), Count(words, |words|, cur, 1));
      var next := Keep(words, cur, CommonBit(rating, c));
      if cur == 0 then next else Sieve(next, cur - 1, rating)
  }

  /** A CO2 round keeps the larger group of a non-empty list. */
  lemma Co2Round(words: seq<Word>, cur: nat) returns (next: seq<Word>)
    requires cur < WordBits && |words| > 0
    ensures next == Keep(words, cur, CommonBit(Co2, BitCount(Count(words, |words|, cur, 0), Count(words, |words|, cur, 1))))
    ensures |next| > 0
  {
    var c := BitCount(Count(words, |words|, cur, 0), Count(words, |words|, cur, 1));
    var drop := CommonBit(Co2, c);
    KeepCount(words, cur, drop);
    CountsCoverWords(words, |words|, cur);
    next := Keep(words, cur, drop);
  }

  /** The CO2 rating keeps the majority, so it never runs out of words. */
  lemma {:induction false} Co2NeverEmpties(words: seq<Word>, cur: nat)
    requires cur < WordBits && |words| > 0
    ensures |Sieve(words, cur, Co2)| > 0
    decreases cur
  {
    if |words| != 1 {
      var next := Co2Round(words, cur);
      if cur > 0 {
        Co2NeverEmpties(next, cur - 1);
      }
    }
  }

  /** When every remaining word carries the same bit, the oxygen rating
      keeps the minority and is left with nothing: two equal words over
      one field, for instance. */
  lemma OxygenCanEmpty()
    ensures Sieve([Zero(), Zero()], 0, Oxygen) == []
  {
    var w: seq<Word> := [Zero(), Zero()];
    assert NthBit(Zero(), 0) == 0;
    assert Count(w, 2, 0, 0) == 2 && Count(w, 2, 0, 1) == 0;
  }

  /** One round of the loop: count the words' bits, pick the common bit at
      `cur` and drop the words that carry it. */
  method Round(words: seq<Word>, fieldCount: nat, cur: nat, rating: Rating) returns (next: seq<Word>)
    requires cur < fieldCount <= WordBits
    ensures next == Keep(words, cur, CommonBit(rating, BitCount(Count(words, |words|, cur, 0), Count(words, |words|, cur, 1))))
  {
    var buf := seq(fieldCount, _ => BitCount(0, 0));
    var counts := CountBitsPerField(words, fieldCount, buf);
    var c := counts.value[cur];
    next := Keep(words, cur, CommonBit(rating, c));
  }

  /** `get_oxy_rating` / `get_co2_rating`: filters from the top field down
      until one word is left or bit 0 is done, then takes the first word
      left; none left is the source's out-of-bounds panic. A field count of
      0 underflows the source's `usize` and is not allowed. */
  method GetRating(words: seq<Word>, fieldCount: nat, rating: Rating) returns (r: Option<Word>)
    requires 1 <= fieldCount <= WordBits
    ensures var left := Sieve(words, fieldCount - 1, rating);
      r == if |left| == 0 then None else Some(left[0])
    ensures r.Some? ==> r.value in words
  {
    var cur := fieldCount - 1;
    var list := words;
    while |list| != 1
      invariant cur < fieldCount
      invariant Sieve(list, cur, rating) == Sieve(words, fieldCount - 1, rating)
      decreases cur
    {
      list := Round(list, fieldCount, cur, rating);
      if cur == 0 {
        break;
      }
      cur := cur - 1;
    }
    if |list| == 0 {
      return None;
    }
    r := Some(list[0]);
  }

  method GetOxyRating(words: seq<Word>, fieldCount: nat) returns (r: Option<Word>)
    requires 1 <= fieldCount <= WordBits
    ensures var left := Sieve(words, fieldCount - 1, Oxygen);
      r == if |left| == 0 then None else Some(left[0])
    ensures r.Some? ==> r.value in words
  {
    r := GetRating(words, fieldCount, Oxygen);
  }

  method GetCo2Rating(words: seq<Word>, fieldCount: nat) returns (r: Option<Word>)
    requires 1 <= fieldCount <= WordBits
    ensures var left := Sieve(words, fieldCount - 1, Co2);
      r == if |left| == 0 then None else Some(left[0])
    ensures r.Some? <==> |words| > 0
    ensures r.Some? ==> r.value in words
  {
    r := GetRating(words, fieldCount, Co2);
    if |words| > 0 {
      Co2NeverEmpties(words, fieldCount - 1);
    }
  }
}

=== FILE: dive.dfy ===
/** Submarine course commands (rust/src/day_two.rs): parsing a command line
    and the two ways of applying commands to a position, with and without
    aim. Positions are unbounded integers. */
module Dive {
  import opened Wrappers
  import opened Strings

  datatype Command = Forward(units: nat) | Down(units: nat) | Up(units: nat)

  datatype Position = Position(horizontal: int, depth: int, aim: int)

  function Keyword(c: Command): string
  {
    match c
    case Forward(_) => "forward"
    case Down(_) => "down"
    case Up(_) => "up"
  }

  /** Parses `<keyword> <units>`: the line must split at spaces into exactly
      two tokens, the units token must be an unsigned number, and the
      keyword one of `forward`, `down`, `up`; each failure has its message. */
  function ParseCommand(line: string): (r: Result<Command, string>)
    ensures |Split(line, " ")| != 2 <==> r == Failure("too long")
    ensures |Split(line, " ")| == 2 && ParseNat(Split(line, " ")[1]).None? <==> r == Failure("parse error")
    ensures r.Success? ==> var parts := Split(line, " ");
      |parts| == 2 && parts[0] == Keyword(r.value) && ParseNat(parts[1]) == Some(r.value.units)
    ensures r == Failure("incorrect command") <==> var parts := Split(line, " ");
      |parts| == 2 && ParseNat(parts[1]).Some? && parts[0] !in {"forward", "down", "up"}
    ensures r.Failure? ==> r.error in {"too long", "parse error", "incorrect command"}
  {
    var action := Split(line, " ");
    if |action| != 2 then Failure("too long")
    else
      match ParseNat(action[1])
      case None => Failure("parse error")
      case Some(units) =>
        if action[0] == "forward" then Success(Forward(units))
        else if action[0] == "down" then Success(Down(units))
        else if action[0] == "up" then Success(Up(units))
        else Failure("incorrect command")
  }

  /** The command written back as a line. */
  function Render(c: Command): string
  {
    Keyword(c) + " " + NatToString(c.units)
  }

  /** Parsing a rendered command gives the command back. */
  lemma ParseRender(c: Command)
    ensures ParseCommand(Render(c)) == Success(c)
  {
    var parts := [Keyword(c), NatToString(c.units)];
    assert Join(parts, [' ']) == Render(c) by {
      assert Join(parts[1..], [' ']) == NatToString(c.units);
    }
    forall i | 0 <= i < |parts| ensures ' ' !in parts[i] {
      if i == 1 {
        forall j | 0 <= j < |parts[1]| ensures parts[1][j] != ' ' {
          assert IsDigit(parts[1][j]);
        }
      }
    }
    SplitJoinChar(parts, ' ');
    ParseNatRoundTrip(c.units);
  }

  const Start := Position(0, 0, 0)

  /** Without aim: forward moves ahead, down and up change the depth. */
  function ChangePos(p: Position, c: Command): (r: Position)
    ensures r.aim == p.aim
    ensures c.Forward? ==> r == p.(horizontal := p.horizontal + c.units)
    ensures c.Down? ==> r == p.(depth := p.depth + c.units)
    ensures c.Up? ==> r == p.(depth := p.depth - c.units)
  {
    match c
    case Forward(d) => p.(horizontal := p.horizontal + d)
    case Down(d) => p.(depth := p.depth + d)
    case Up(d) => p.(depth := p.depth - d)
  }

  /** With aim: down and up turn the aim, forward moves ahead and dives by
      the aim times the distance. */
  function ChangePosAim(p: Position, c: Command): (r: Position)
    ensures c.Forward? ==> r == Position(p.horizontal + c.units, p.depth + p.aim * c.units, p.aim)
    ensures c.Down? ==> r == p.(aim := p.aim + c.units)
    ensures c.Up? ==> r == p.(aim := p.aim - c.units)
  {
    match c
    case Forward(d) => p.(horizontal := p.horizontal + d, depth := p.depth + p.aim * d)
    case Down(d) => p.(aim := p.aim + d)
    case Up(d) => p.(aim := p.aim - d)
  }

  /** The commands applied in order from the start, without aim. */
  function Course(cmds: seq<Command>): Position
  {
    if |cmds| == 0 then Start else ChangePos(Course(cmds[..|cmds| - 1]), cmds[|cmds| - 1])
  }

  /** The commands applied in order from the start, with aim. */
  function CourseAim(cmds: seq<Command>): Position
  {
    if |cmds| == 0 then Start else ChangePosAim(CourseAim(cmds[..|cmds| - 1]), cmds[|cmds| - 1])
  }

  /** Total distance of the forward commands. */
  function Forwards(cmds: seq<Command>): nat
  {
    if |cmds| == 0 then 0
    else Forwards(cmds[..|cmds| - 1]) + (if cmds[|cmds| - 1].Forward? then cmds[|cmds| - 1].units else 0)
  }

  /** Down distance minus up distance. */
  function NetDown(cmds: seq<Command>): int
  {
    if |cmds| == 0 then 0
    else
      var c := cmds[|cmds| - 1];
      NetDown(cmds[..|cmds| - 1]) + (match c case Forward(_) => 0 case Down(d) => d case Up(d) => -(d as int))
  }

  /** Without aim the position ends at the total forward distance and the
      net downward distance, with the aim untouched. */
  lemma {:induction false} CourseTotals(cmds: seq<Command>)
    ensures Course(cmds) == Position(Forwards(cmds), NetDown(cmds), 0)
    decreases |cmds|
  {
    if |cmds| > 0 {
      CourseTotals(cmds[..|cmds| - 1]);
    }
  }

  /** With aim the horizontal distance is the same and the aim ends where
      the depth ends without aim. */
  lemma {:induction false} AimIsDepth(cmds: seq<Command>)
    ensures CourseAim(cmds).horizontal == Course(cmds).horizontal
    ensures CourseAim(cmds).aim == Course(cmds).depth
    decreases |cmds|
  {
    if |cmds| > 0 {
      AimIsDepth(cmds[..|cmds| - 1]);
    }
  }
}

=== FILE: game_rounds.dfy ===
/** Rock, paper, scissors in the TypeScript solution
    (typescript/challenges/day_two/day_two.ts). Its enums carry the same
    values as the Java ones, so the shapes, outcomes and rounds of
    `StrategyGuide` are reused; the functions are the TypeScript ones, with
    their own argument order (`getGameResult(opponent, ours)`). A thrown
    `Error` is a `Failure` carrying its message. */
module GameRounds {
  import opened Wrappers
  import opened Strings
  import opened StrategyGuide

  /** `parseGameSelection`: the one-character strings A or X, B or Y, C or Z;
      anything else throws. */
  function ParseGameSelection(selection: string): (r: Result<GameSelection, string>)
    ensures r.Success? <==> |selection| == 1 && selection[0] in "ABCXYZ"
    ensures r.Success? ==> Success(r.value) == SelectionFromLetter(selection[0])
    ensures r.Failure? ==> r.error == "game selection could not be parsed"
  {
    if selection == "A" || selection == "X" then Success(Rock)
    else if selection == "B" || selection == "Y" then Success(Paper)
    else if selection == "C" || selection == "Z" then Success(Scissors)
    else Failure("game selection could not be parsed")
  }

  /** `getGameResult(opponent, ours)`: the two winning and two losing
      pairs per opponent shape are listed; every other pair falls through
      to a draw. */
  function GetGameResult(opponent: GameSelection, ours: GameSelection): (r: GameResult)
    ensures r == Draw <==> ours == opponent
    ensures r == Win <==> Beats(ours, opponent)
    ensures r == Loss <==> Beats(opponent, ours)
  {
    match opponent
    case Rock => (
      match ours
      case Paper => Win
      case Scissors => Loss
      case _ => Draw)
    case Paper => (
      match ours
      case Rock => Loss
      case Scissors => Win
      case _ => Draw)
    case Scissors => (
      match ours
      case Rock => Win
      case Paper => Loss
      case _ => Draw)
  }

  /** The TypeScript outcome agrees with Java's `ours.checkWin(opponent)`
      on all nine pairs. */
  lemma GetGameResultAgrees(opponent: GameSelection, ours: GameSelection)
    ensures GetGameResult(opponent, ours) == CheckWin(ours, opponent)
  {
  }

  /** `parseGameResult`: X, Y, Z as loss, draw, win; anything else throws. */
  function ParseGameResult(input: string): (r: Result<GameResult, string>)
    ensures r.Success? <==> |input| == 1 && input[0] in "XYZ"
    ensures r.Success? ==> Success(r.value) == ResultFromLetter(input[0])
    ensures r.Failure? ==> r.error == "incorrect letter passed into parseGameResult"
  {
    if input == "X" then Success(Loss)
    else if input == "Y" then Success(Draw)
    else if input == "Z" then Success(Win)
    else Failure("incorrect letter passed into parseGameResult")
  }

  /** `getGameSelectionFromResult`: loss and win are listed per opponent
      shape; a draw falls through to the opponent's own shape. */
  function GetGameSelectionFromResult(opponent: GameSelection, result: GameResult): (r: GameSelection)
    ensures GetGameResult(opponent, r) == result
  {
    match result
    case Loss => (
      match opponent
      case Rock => Scissors
      case Paper => Rock
      case Scissors => Paper)
    case Win => (
      match opponent
      case Rock => Paper
      case Paper => Scissors
      case Scissors => Rock)
    case Draw => opponent
  }

  /** It picks the same shape as Java's `getResult`. */
  lemma SelectionFromResultAgrees(opponent: GameSelection, result: GameResult)
    ensures GetGameSelectionFromResult(opponent, result) == GetResult(opponent, result)
  {
    GetResultUnique(opponent, GetGameSelectionFromResult(opponent, result), result);
    GetGameResultAgrees(opponent, GetGameSelectionFromResult(opponent, result));
  }

  /** The two implementations of `IGameRoundParser`. */
  datatype RoundParser = BothSelect | RoundResultSelect

  /** `parseRound` of either parser: the opponent's letter is a shape; the
      second letter is our shape, or the outcome we want. */
  function ParseRound(parser: RoundParser, opponent: string, ours: string): (r: Result<GameRound, string>)
    ensures parser.BothSelect? ==>
      (r.Success? <==> ParseGameSelection(opponent).Success? && ParseGameSelection(ours).Success?)
    ensures parser.RoundResultSelect? ==>
      (r.Success? <==> ParseGameSelection(opponent).Success? && ParseGameResult(ours).Success?)
    ensures r.Success? ==> ParseGameSelection(opponent) == Success(r.value.opponentPlay)
    ensures r.Success? && parser.BothSelect? ==> ParseGameSelection(ours) == Success(r.value.ourPlay)
    ensures r.Success? && parser.RoundResultSelect? ==>
      ParseGameResult(ours) == Success(GetGameResult(r.value.opponentPlay, r.value.ourPlay))
  {
    var opponentPlay :- ParseGameSelection(opponent);
    match parser
    case BothSelect =>
      var ourPlay :- ParseGameSelection(ours);
      Success(GameRound(opponentPlay, ourPlay))
    case RoundResultSelect =>
      var wantedResult :- ParseGameResult(ours);
      Success(GameRound(opponentPlay, GetGameSelectionFromResult(opponentPlay, wantedResult)))
  }

  /** Two parses that fail together and agree when they succeed (the
      exception messages of the two languages differ). */
  predicate SameRounds<T(==)>(r: Result<T, string>, s: Result<T, string>)
  {
    r.Success? == s.Success? && (r.Success? ==> r.value == s.value)
  }

  /** On the same two letters both TypeScript parsers accept what the
      matching Java strategy parser accepts, and build the same round. */
  lemma ParseRoundAgrees(parser: RoundParser, a: char, b: char)
    ensures parser.BothSelect? ==> SameRounds(ParseRound(parser, [a], [b]), BothSelectStrategy(a, b))
    ensures parser.RoundResultSelect? ==> SameRounds(ParseRound(parser, [a], [b]), RoundResultStrategy(a, b))
  {
    if parser.RoundResultSelect? && ParseRound(parser, [a], [b]).Success? {
      var round := ParseRound(parser, [a], [b]).value;
      SelectionFromResultAgrees(round.opponentPlay, ResultFromLetter(b).value);
    }
  }

  /** `parseGameRound`: a round line has exactly three characters; the
      first and the third go to the parser. */
  function ParseGameRound(round: string, parser: RoundParser): (r: Result<GameRound, string>)
    ensures |round| != 3 ==> r == Failure("incorrect length for round string")
    ensures |round| == 3 ==> r == ParseRound(parser, [round[0]], [round[2]])
  {
    if |round| != 3 then Failure("incorrect length for round string")
    else ParseRound(parser, [round[0]], [round[2]])
  }

  function RoundOf(parser: RoundParser): string -> Result<GameRound, string>
  {
    (line: string) => ParseGameRound(line, parser)
  }

  /** `parseGameRounds`: every line parsed, in order; the first bad line
      throws. */
  function ParseGameRounds(rounds: seq<string>, parser: RoundParser): (r: Result<seq<GameRound>, string>)
    ensures r.Success? <==> forall i :: 0 <= i < |rounds| ==> ParseGameRound(rounds[i], parser).Success?
    ensures r.Success? ==> |r.value| == |rounds|
    ensures r.Success? ==> forall i :: 0 <= i < |rounds| ==> ParseGameRound(rounds[i], parser) == Success(r.value[i])
  {
    var f := RoundOf(parser);
    MapAllSucceeds(rounds, f);
    var r := MapAll(rounds, f);
    if r.Success? then
      assert forall i :: 0 <= i < |rounds| ==> ParseGameRound(rounds[i], parser) == Success(r.value[i]) by {
        forall i | 0 <= i < |rounds|
          ensures ParseGameRound(rounds[i], parser) == Success(r.value[i])
        {
          MapAllAt(rounds, f, i);
        }
      }
      r
    else r
  }

  /** With the shape-for-shape parser, the rounds are those of Java's
      line-by-line `parseStrategyGuide`. */
  lemma {:induction false} ParseGameRoundsAgrees(lines: seq<string>)
    ensures SameRounds(ParseGameRounds(lines, BothSelect), ParseStrategyGuide(lines))
  {
    forall i | 0 <= i < |lines|
      ensures ParseGameRound(lines[i], BothSelect).Success? == ParseLine(lines[i]).Success?
      ensures ParseLine(lines[i]).Success? ==> ParseGameRound(lines[i], BothSelect).value == ParseLine(lines[i]).value
    {
      var line := lines[i];
      if |line| == 3 {
        ParseRoundAgrees(BothSelect, line[0], line[2]);
      }
    }
    if ParseGameRounds(lines, BothSelect).Success? {
      var a, b := ParseGameRounds(lines, BothSelect).value, ParseStrategyGuide(lines).value;
      assert forall i :: 0 <= i < |lines| ==> a[i] == b[i];
      assert a == b;
    }
  }

  /** `parseGameRoundsFromString`: one round per part between newlines, in
      order; the first part that is not a round throws. */
  function ParseGameRoundsFromString(input: string, parser: RoundParser): (r: Result<seq<GameRound>, string>)
    ensures r.Success? <==> forall i :: 0 <= i < |Split(input, "\n")| ==> ParseGameRound(Split(input, "\n")[i], parser).Success?
    ensures r.Success? ==> |r.value| == |Split(input, "\n")|
    ensures r.Success? ==> forall i :: 0 <= i < |r.value| ==> ParseGameRound(Split(input, "\n")[i], parser) == Success(r.value[i])
  {
    var lines := Split(input, "\n");
    var r := ParseGameRounds(lines, parser);
    assert r.Success? ==> forall i :: 0 <= i < |r.value| ==> ParseGameRound(lines[i], parser) == Success(r.value[i]);
    r
  }

  /** A trailing newline leaves an empty last line, which throws. */
  lemma TrailingNewlineFails(input: string, parser: RoundParser)
    requires |input| > 0 && input[|input| - 1] == '\n'
    ensures ParseGameRoundsFromString(input, parser).Failure?
  {
    SplitTrailing(input, '\n');
    EmptyLineFails(Split(input, "\n"), parser);
  }

  lemma EmptyLineFails(lines: seq<string>, parser: RoundParser)
    requires |lines| > 0 && lines[|lines| - 1] == ""
    ensures ParseGameRounds(lines, parser).Failure?
  {
    assert ParseGameRound(lines[|lines| - 1], parser).Failure?;
  }

  /** `getRoundTotal`: outcome value plus our shape's value, added over
      the rounds. */
  function GetRoundTotal(rounds: seq<GameRound>): int
  {
    if |rounds| == 0 then 0
    else
      var round := rounds[|rounds| - 1];
      GetRoundTotal(rounds[..|rounds| - 1]) + GetGameResult(round.opponentPlay, round.ourPlay).Value() + round.ourPlay.Value()
  }

  /** The TypeScript total is the Java score. */
  lemma {:induction false} GetRoundTotalAgrees(rounds: seq<GameRound>)
    ensures GetRoundTotal(rounds) == TotalScore(rounds)
    decreases |rounds|
  {
    if |rounds| > 0 {
      var round := rounds[|rounds| - 1];
      GetRoundTotalAgrees(rounds[..|rounds| - 1]);
      GetGameResultAgrees(round.opponentPlay, round.ourPlay);
    }
  }

  function ExampleInput(): string
  {
    "A Y\nB X\nC Z"
  }

  lemma ExampleSplits()
    ensures Split(ExampleInput(), "\n") == ExampleLines()
  {
    var lines := ExampleLines();
    assert Join(lines, "\n") == ExampleInput();
    SplitJoinChar(lines, '\n');
  }

  /** Read shape for shape, the example totals 15. */
  lemma ExampleBothSelect()
    ensures ParseGameRoundsFromString(ExampleInput(), BothSelect).Success?
    ensures GetRoundTotal(ParseGameRoundsFromString(ExampleInput(), BothSelect).value) == 15
  {
    ExampleSplits();
    ParseGameRoundsAgrees(ExampleLines());
    ExampleGuide();
    GetRoundTotalAgrees(ParseStrategyGuide(ExampleLines()).value);
  }

  lemma ExampleResultLinesParse(i: nat)
    requires i < 3
    ensures ParseGameRound(ExampleLines()[i], RoundResultSelect) ==
      Success([GameRound(Rock, Rock), GameRound(Paper, Rock), GameRound(Scissors, Rock)][i])
  {
    if i == 0 {
      assert ExampleLines()[0] == ['A', ' ', 'Y'];
    } else if i == 1 {
      assert ExampleLines()[1] == ['B', ' ', 'X'];
    } else {
      assert ExampleLines()[2] == ['C', ' ', 'Z'];
    }
  }

  lemma ExampleResultParses()
    ensures ParseGameRounds(ExampleLines(), RoundResultSelect) ==
      Success([GameRound(Rock, Rock), GameRound(Paper, Rock), GameRound(Scissors, Rock)])
  {
    var rounds := [GameRound(Rock, Rock), GameRound(Paper, Rock), GameRound(Scissors, Rock)];
    forall i | 0 <= i < 3
      ensures ParseGameRound(ExampleLines()[i], RoundResultSelect) == Success(rounds[i])
    {
      ExampleResultLinesParse(i);
    }
    var r := ParseGameRounds(ExampleLines(), RoundResultSelect);
    assert r.value == rounds;
  }

  /** Read as wanted outcomes, the example totals 4 + 1 + 7 = 12. */
  lemma ExampleRoundResultSelect()
    ensures ParseGameRoundsFromString(ExampleInput(), RoundResultSelect).Success?
    ensures GetRoundTotal(ParseGameRoundsFromString(ExampleInput(), RoundResultSelect).value) == 12
  {
    ExampleSplits();
    ExampleResultParses();
    ExampleResultTotal();
  }

  lemma ExampleResultTotal()
    ensures GetRoundTotal([GameRound(Rock, Rock), GameRound(Paper, Rock), GameRound(Scissors, Rock)]) == 12
  {
    var rounds := [GameRound(Rock, Rock), GameRound(Paper, Rock), GameRound(Scissors, Rock)];
    assert GetRoundTotal(rounds[..1]) == 4;
    assert GetRoundTotal(rounds[..2]) == 5;
  }
}

=== FILE: grid.dfy ===
/** Shared plane geometry and the row-major `Table` of the grid puzzles:
    reflection about an axis line, the eight compass offsets, bounds-checked
    cell access, and building a table of marks from a list of coordinates. */
module Grid {
  import opened Wrappers

  /** A point of the plane, `(x, y)`, with `y` growing downwards. */
  type Coord = (int, int)

  datatype PlaneAxis = X | Y

  /** Mirror image of `c` in the line `axis = l`. */
  function Reflect(axis: PlaneAxis, c: Coord, l: int): (r: Coord)
    ensures axis.X? ==> r.1 == c.1 && r.0 - l == l - c.0
    ensures axis.Y? ==> r.0 == c.0 && r.1 - l == l - c.1
  {
    match axis
    case X => (2 * l - c.0, c.1)
    case Y => (c.0, 2 * l - c.1)
  }

  /** The coordinate of `c` that an `axis` line constrains. */
  function Along(axis: PlaneAxis, c: Coord): int
  {
    if axis.X? then c.0 else c.1
  }

  /** Reflecting twice is the identity, and the points of the line are the
      only fixed points. */
  lemma ReflectInvolution(axis: PlaneAxis, c: Coord, l: int)
    ensures Reflect(axis, Reflect(axis, c, l), l) == c
    ensures Reflect(axis, c, l) == c <==> Along(axis, c) == l
    ensures Along(axis, Reflect(axis, c, l)) > l <==> Along(axis, c) < l
  {
  }

  function AxisFromChar(c: char): (r: Option<PlaneAxis>)
    ensures r.Some? <==> c == 'x' || c == 'y'
    ensures r == Some(X) <==> c == 'x'
  {
    if c == 'x' then Some(X) else if c == 'y' then Some(Y) else None
  }

  datatype Direction = North | NorthWest | NorthEast | South | SouthWest | SouthEast | West | East

  /** The unit offset of a direction on a screen grid, where north is
      towards smaller `y` and west towards smaller `x`. */
  function ToCoords(d: Direction): (r: Coord)
    ensures r != (0, 0) && -1 <= r.0 <= 1 && -1 <= r.1 <= 1
    ensures r.1 == -1 <==> d == North || d == NorthWest || d == NorthEast
    ensures r.1 == 1 <==> d == South || d == SouthWest || d == SouthEast
    ensures r.0 == -1 <==> d == West || d == NorthWest || d == SouthWest
    ensures r.0 == 1 <==> d == East || d == NorthEast || d == SouthEast
  {
    match d
    case North => (0, -1)
    case NorthWest => (-1, -1)
    case NorthEast => (1, -1)
    case South => (0, 1)
    case SouthWest => (-1, 1)
    case SouthEast => (1, 1)
    case West => (-1, 0)
    case East => (1, 0)
  }

  function MoveCoords(d: Direction, c: Coord): (r: Coord)
    ensures r.0 - c.0 == ToCoords(d).0 && r.1 - c.1 == ToCoords(d).1
  {
    var o := ToCoords(d);
    (c.0 + o.0, c.1 + o.1)
  }

  /** Two points are 8-neighbours: distinct, and at most one step apart on
      each axis. */
  predicate Adjacent8(a: Coord, b: Coord)
  {
    a != b && -1 <= a.0 - b.0 <= 1 && -1 <= a.1 - b.1 <= 1
  }

  /** The eight offsets are pairwise distinct and are exactly the steps to
      the eight neighbours. */
  lemma DirectionsCoverNeighbours(a: Direction, b: Direction, c: Coord, n: Coord)
    ensures ToCoords(a) == ToCoords(b) ==> a == b
    ensures Adjacent8(MoveCoords(a, c), c)
    ensures Adjacent8(n, c) ==> exists d :: MoveCoords(d, c) == n
  {
    if Adjacent8(n, c) {
      var o := (n.0 - c.0, n.1 - c.1);
      var d :=
        if o == (0, -1) then North else if o == (-1, -1) then NorthWest
        else if o == (1, -1) then NorthEast else if o == (0, 1) then South
        else if o == (-1, 1) then SouthWest else if o == (1, 1) then SouthEast
        else if o == (-1, 0) then West else East;
      assert MoveCoords(d, c) == n;
    }
  }

  // ------------------------------------------------------------------- tables

  /** Rows of equal length; `rowSize` is fixed by the first row inserted. */
  datatype Table<T> = Table(rows: seq<seq<T>>, rowSize: Option<nat>)

  ghost predicate WellFormed<T>(t: Table<T>)
  {
    (t.rowSize.None? <==> |t.rows| == 0) &&
    forall j :: 0 <= j < |t.rows| ==> |t.rows[j]| == t.rowSize.value
  }

  /** A table whose bounds check does not fail: at least one row, rows of
      at least one cell. */
  ghost predicate Accessible<T>(t: Table<T>)
  {
    WellFormed(t) && |t.rows| > 0 && t.rowSize.value > 0
  }

  function Width<T>(t: Table<T>): nat
  {
    if t.rowSize.Some? then t.rowSize.value else 0
  }

  predicate InBounds<T>(t: Table<T>, c: Coord)
  {
    0 <= c.0 < Width(t) && 0 <= c.1 < |t.rows|
  }

  function NewTable<T>(): (t: Table<T>)
    ensures WellFormed(t) && |t.rows| == 0
  {
    Table([], None)
  }

  const InequalRowSize := "inequal row size"

  /** Appends a row; the first row fixes the width and a later row of
      another length is an error. */
  function InsertRow<T>(t: Table<T>, row: seq<T>): (r: Result<Table<T>, string>)
    requires WellFormed(t)
    ensures r.Success? <==> |t.rows| == 0 || |row| == t.rowSize.value
    ensures r.Success? ==> WellFormed(r.value) && r.value.rows == t.rows + [row]
    ensures r.Success? ==> r.value.rowSize == Some(if |t.rows| == 0 then |row| else t.rowSize.value)
  {
    match t.rowSize
    case Some(s) => if |row| != s then Failure(InequalRowSize) else Success(Table(t.rows + [row], t.rowSize))
    case None => Success(Table(t.rows + [row], Some(|row|)))
  }

  /** The cell at `(x, y)`, `None` outside the table. */
  function GetElemAt<T>(t: Table<T>, x: int, y: int): (r: Option<T>)
    requires Accessible(t)
    ensures r.Some? <==> InBounds(t, (x, y))
    ensures r.Some? ==> r.value == t.rows[y][x]
  {
    if x < 0 || x > t.rowSize.value - 1 || y < 0 || y > |t.rows| - 1 then None
    else Some(t.rows[y][x])
  }

  /** Overwrites the cell at `c`, `None` outside the table: the write through
      the mutable reference `get_elem_mut_at` hands out. */
  function SetElemAt<T>(t: Table<T>, c: Coord, v: T): (r: Option<Table<T>>)
    requires Accessible(t)
    ensures r.Some? <==> InBounds(t, c)
    ensures r.Some? ==> Accessible(r.value) && r.value.rowSize == t.rowSize && |r.value.rows| == |t.rows|
    ensures r.Some? ==> forall x, y :: InBounds(t, (x, y)) ==>
      r.value.rows[y][x] == if (x, y) == c then v else t.rows[y][x]
  {
    if GetElemAt(t, c.0, c.1).None? then None
    else Some(Table(t.rows[c.1 := t.rows[c.1][c.0 := v]], t.rowSize))
  }

  // -------------------------------------------------------------- cell sets

  /** The cells `(x, y)` with `0 <= x < w` on row `y`. */
  function Row(w: nat, y: int): set<Coord>
  {
    if w == 0 then {} else Row(w - 1, y) + {(w - 1, y)}
  }

  /** The cells `(x, y)` with `0 <= x < w` and `0 <= y < h`. */
  function Rect(w: nat, h: nat): set<Coord>
  {
    if h == 0 then {} else Rect(w, h - 1) + Row(w, h - 1)
  }

  lemma {:induction false} RowMember(w: nat, y: int, c: Coord)
    ensures c in Row(w, y) <==> 0 <= c.0 < w && c.1 == y
  {
    if w > 0 {
      RowMember(w - 1, y, c);
    }
  }

  lemma {:induction false} RowCard(w: nat, y: int)
    ensures |Row(w, y)| == w
  {
    if w > 0 {
      RowCard(w - 1, y);
      RowMember(w - 1, y, (w - 1, y));
    }
  }

  lemma {:induction false} RectMember(w: nat, h: nat, c: Coord)
    ensures c in Rect(w, h) <==> 0 <= c.0 < w && 0 <= c.1 < h
  {
    if h > 0 {
      RectMember(w, h - 1, c);
      RowMember(w, h - 1, c);
    }
  }

  lemma RectCard(w: nat, h: nat)
    ensures |Rect(w, h)| == w * h
  {
    RectArea(w, h);
    AreaMul(w, h);
  }

  /** `h` rows of `w`, added up. */
  function Area(w: nat, h: nat): nat
  {
    if h == 0 then 0 else Area(w, h - 1) + w
  }

  lemma {:induction false} RectArea(w: nat, h: nat)
    ensures |Rect(w, h)| == Area(w, h)
  {
    if h > 0 {
      RectArea(w, h - 1);
      RowCard(w, h - 1);
      RectCardStep(w, h);
    }
  }

  lemma {:induction false} AreaMul(w: nat, h: nat)
    ensures Area(w, h) == w * h
  {
    if h > 0 {
      AreaMul(w, h - 1);
      MulPred(Area(w, h - 1), w, Area(w, h), w, h);
    }
  }

  lemma RectCardStep(w: nat, h: nat)
    requires h > 0
    ensures |Rect(w, h)| == |Rect(w, h - 1)| + |Row(w, h - 1)|
  {
    RectRowDisjoint(w, h - 1);
    DisjointUnionCard(Rect(w, h - 1), Row(w, h - 1));
  }

  /** Row `h` lies below the rectangle of rows `0..h`. */
  lemma RectRowDisjoint(w: nat, h: nat)
    ensures forall c :: c in Rect(w, h) ==> c !in Row(w, h)
  {
    forall c | c in Rect(w, h)
      ensures c !in Row(w, h)
    {
      RectMember(w, h, c);
      RowMember(w, h, c);
    }
  }

  lemma DisjointUnionCard(a: set<Coord>, b: set<Coord>)
    requires forall c :: c in a ==> c !in b
    ensures |a + b| == |a| + |b|
  {
    assert a !! b;
  }

  lemma MulPred(a: nat, b: nat, n: nat, w: nat, h: nat)
    requires h > 0 && a == w * (h - 1) && b == w && n == a + b
    ensures n == w * h
  {
  }

  lemma MulSucc(i: nat, k: nat)
    ensures (i + 1) * k == i * k + k
  {
  }

  /** `Rect(w, h)` holds exactly the `w * h` cells of the rectangle. */
  lemma RectFacts(w: nat, h: nat)
    ensures forall c :: c in Rect(w, h) <==> 0 <= c.0 < w && 0 <= c.1 < h
    ensures |Rect(w, h)| == w * h
  {
    forall c
      ensures c in Rect(w, h) <==> 0 <= c.0 < w && 0 <= c.1 < h
    {
      RectMember(w, h, c);
    }
    RectCard(w, h);
  }

  lemma SubsetCard(a: set<Coord>, b: set<Coord>)
    requires a <= b
    ensures |a| <= |b|
  {
    assert b == a + (b - a);
  }

  /** Marking one more unmarked cell leaves fewer to mark. */
  lemma RemoveOneCard(a: set<Coord>, b: set<Coord>, c: Coord)
    requires c in a && c !in b
    ensures |a - (b + {c})| < |a - b|
  {
    assert a - (b + {c}) == (a - b) - {c};
  }

  /** Every coordinate of the table. */
  function Cells<T>(t: Table<T>): set<Coord>
  {
    Rect(Width(t), |t.rows|)
  }

  lemma CellsMember<T>(t: Table<T>, c: Coord)
    ensures c in Cells(t) <==> InBounds(t, c)
  {
    RectFacts(Width(t), |t.rows|);
  }

  lemma CellsMembers<T>(t: Table<T>)
    ensures forall c :: c in Cells(t) <==> InBounds(t, c)
  {
    RectFacts(Width(t), |t.rows|);
  }

  /** There are as many cells as `row_size * rows.len()`. */
  lemma CellsCard<T>(t: Table<T>)
    ensures |Cells(t)| == Width(t) * |t.rows|
  {
    RectFacts(Width(t), |t.rows|);
  }

  /** The compass order the neighbours are listed in. */
  const AroundOrder: seq<Direction> := [North, South, West, East, NorthWest, NorthEast, SouthWest, SouthEast]

  /** The eight neighbours of `(x, y)`, in compass order, each with its
      coordinate, or `None` when it lies outside the table. */
  function GetElemsAround<T>(t: Table<T>, x: int, y: int): (r: seq<Option<(T, Coord)>>)
    requires Accessible(t)
    ensures |r| == 8
    ensures forall i :: 0 <= i < 8 ==> var c := MoveCoords(AroundOrder[i], (x, y));
      (r[i].Some? <==> InBounds(t, c)) && (r[i].Some? ==> r[i].value == (t.rows[c.1][c.0], c))
  {
    seq(8, i requires 0 <= i < 8 =>
      var c := MoveCoords(AroundOrder[i], (x, y));
      match GetElemAt(t, c.0, c.1)
      case Some(v) => Some((v, c))
      case None => None)
  }

  /** The listed neighbours are exactly the in-bounds 8-neighbours. */
  lemma ElemsAroundAreNeighbours<T>(t: Table<T>, x: int, y: int, c: Coord)
    requires Accessible(t)
    ensures (exists i :: 0 <= i < 8 && GetElemsAround(t, x, y)[i].Some? && GetElemsAround(t, x, y)[i].value.1 == c)
      <==> InBounds(t, c) && Adjacent8(c, (x, y))
  {
    var r := GetElemsAround(t, x, y);
    if InBounds(t, c) && Adjacent8(c, (x, y)) {
      DirectionsCoverNeighbours(North, North, (x, y), c);
      var d :| MoveCoords(d, (x, y)) == c;
      var i := if d == North then 0 else if d == South then 1 else if d == West then 2
        else if d == East then 3 else if d == NorthWest then 4 else if d == NorthEast then 5
        else if d == SouthWest then 6 else 7;
      assert AroundOrder[i] == d;
      assert r[i].Some? && r[i].value.1 == c;
    }
    if exists i :: 0 <= i < 8 && r[i].Some? && r[i].value.1 == c {
      var i :| 0 <= i < 8 && r[i].Some? && r[i].value.1 == c;
      DirectionsCoverNeighbours(AroundOrder[i], AroundOrder[i], (x, y), c);
    }
  }

  // --------------------------------------------------------- coords_to_table

  /** Largest first coordinate. */
  function MaxX(coords: seq<Coord>): (m: int)
    requires |coords| > 0
    ensures exists i :: 0 <= i < |coords| && coords[i].0 == m
    ensures forall i :: 0 <= i < |coords| ==> coords[i].0 <= m
  {
    if |coords| == 1 then coords[0].0
    else
      var m := MaxX(coords[1..]);
      assert forall i :: 1 <= i < |coords| ==> coords[i] == coords[1..][i - 1];
      if coords[0].0 >= m then coords[0].0 else m
  }

  /** Largest second coordinate. */
  function MaxY(coords: seq<Coord>): (m: int)
    requires |coords| > 0
    ensures exists i :: 0 <= i < |coords| && coords[i].1 == m
    ensures forall i :: 0 <= i < |coords| ==> coords[i].1 <= m
  {
    if |coords| == 1 then coords[0].1
    else
      var m := MaxY(coords[1..]);
      assert forall i :: 1 <= i < |coords| ==> coords[i] == coords[1..][i - 1];
      if coords[0].1 >= m then coords[0].1 else m
  }

  /** `n` rows of `width` copies of `empty`, inserted one by one. */
  function BlankRows<T>(n: nat, width: nat, empty: T): (t: Table<T>)
    requires width > 0
    ensures WellFormed(t) && |t.rows| == n && (n > 0 ==> t.rowSize == Some(width))
    ensures forall x, y :: 0 <= y < n && 0 <= x < width ==> t.rows[y][x] == empty
  {
    if n == 0 then NewTable()
    else
      var t := BlankRows(n - 1, width, empty);
      InsertRow(t, seq(width, _ => empty)).value
  }

  /** Writes `mark` at every coordinate in turn; a coordinate outside the
      table is an error (the `unwrap` of the source). */
  function MarkAll<T>(t: Table<T>, coords: seq<Coord>, mark: T): (r: Option<Table<T>>)
    requires Accessible(t)
    ensures r.Some? <==> forall i :: 0 <= i < |coords| ==> InBounds(t, coords[i])
    ensures r.Some? ==> Accessible(r.value) && r.value.rowSize == t.rowSize && |r.value.rows| == |t.rows|
    ensures r.Some? ==> forall x, y :: InBounds(t, (x, y)) ==>
      r.value.rows[y][x] == if (x, y) in coords then mark else t.rows[y][x]
    decreases |coords|
  {
    if |coords| == 0 then Some(t)
    else
      match SetElemAt(t, coords[0], mark)
      case None => None
      case Some(t') =>
        var r := MarkAll(t', coords[1..], mark);
        assert forall i :: 1 <= i < |coords| ==> coords[i] == coords[1..][i - 1];
        assert forall c :: c in coords <==> c == coords[0] || c in coords[1..];
        r
  }

  /** A table spanning `0..=max x` by `0..=max y` with `mark` at the given
      coordinates and `empty` elsewhere; an empty list or a negative
      coordinate is an error. */
  method CoordsToTable(coords: seq<Coord>, mark: char, empty: char) returns (r: Option<Table<char>>)
    ensures r.Some? <==> |coords| > 0 && forall i :: 0 <= i < |coords| ==> coords[i].0 >= 0 && coords[i].1 >= 0
    ensures r.Some? ==> WellFormed(r.value) && |r.value.rows| == MaxY(coords) + 1 && r.value.rowSize == Some(MaxX(coords) + 1)
    ensures r.Some? ==> forall x, y :: 0 <= x <= MaxX(coords) && 0 <= y <= MaxY(coords) ==>
      r.value.rows[y][x] == if (x, y) in coords then mark else empty
  {
    if |coords| == 0 {
      return None;
    }
    if MaxX(coords) < 0 || MaxY(coords) < 0 {
      NegativeMax(coords);
      return None;
    }
    r := MarkBlank(coords, mark, empty);
  }

  /** `CoordsToTable` once the maxima are known not to be negative: marks a
      blank table that spans them. */
  method MarkBlank(coords: seq<Coord>, mark: char, empty: char) returns (r: Option<Table<char>>)
    requires |coords| > 0 && MaxX(coords) >= 0 && MaxY(coords) >= 0
    ensures r.Some? <==> forall i :: 0 <= i < |coords| ==> coords[i].0 >= 0 && coords[i].1 >= 0
    ensures r.Some? ==> WellFormed(r.value) && |r.value.rows| == MaxY(coords) + 1 && r.value.rowSize == Some(MaxX(coords) + 1)
    ensures r.Some? ==> forall x, y :: 0 <= x <= MaxX(coords) && 0 <= y <= MaxY(coords) ==>
      r.value.rows[y][x] == if (x, y) in coords then mark else empty
  {
    var blank := BlankRows(MaxY(coords) + 1, MaxX(coords) + 1, empty);
    CoordsInBlank(coords, blank);
    r := MarkAll(blank, coords, mark);
    if r.Some? {
      CoordsTableFacts(coords, mark, empty, MaxX(coords), MaxY(coords), r);
    }
  }

  /** Marking a blank table `mx + 1` wide and `my + 1` high, when every
      mark lands inside it: each cell is `mark` when listed and `empty`
      otherwise. */
  lemma CoordsTableFacts(coords: seq<Coord>, mark: char, empty: char, mx: int, my: int, r: Option<Table<char>>)
    requires mx >= 0 && my >= 0
    requires r == MarkAll(BlankRows(my + 1, mx + 1, empty), coords, mark) && r.Some?
    ensures WellFormed(r.value) && |r.value.rows| == my + 1 && r.value.rowSize == Some(mx + 1)
    ensures forall x, y :: 0 <= x <= mx && 0 <= y <= my ==>
      r.value.rows[y][x] == if (x, y) in coords then mark else empty
  {
    var t := BlankRows(my + 1, mx + 1, empty);
    forall x, y | 0 <= x <= mx && 0 <= y <= my
      ensures r.value.rows[y][x] == if (x, y) in coords then mark else empty
    {
      assert InBounds(t, (x, y));
    }
  }

  lemma NegativeMax(coords: seq<Coord>)
    requires |coords| > 0 && (MaxX(coords) < 0 || MaxY(coords) < 0)
    ensures !forall i :: 0 <= i < |coords| ==> coords[i].0 >= 0 && coords[i].1 >= 0
  {
    var i :| 0 <= i < |coords| && coords[i].0 == MaxX(coords);
    var j :| 0 <= j < |coords| && coords[j].1 == MaxY(coords);
  }

  /** The coordinates all fit a table spanning the maxima exactly when none
      is negative. */
  lemma CoordsInBlank<T>(coords: seq<Coord>, t: Table<T>)
    requires |coords| > 0 && MaxX(coords) >= 0 && MaxY(coords) >= 0
    requires Width(t) == MaxX(coords) + 1 && |t.rows| == MaxY(coords) + 1
    ensures (forall i :: 0 <= i < |coords| ==> InBounds(t, coords[i])) <==>
      forall i :: 0 <= i < |coords| ==> coords[i].0 >= 0 && coords[i].1 >= 0
  {
  }
}

=== FILE: lanternfish.dfy ===
/** Lanternfish population (rust/src/day_six.rs): every fish counts its
    timer down once a day; a fish at 0 resets to 6 and a new fish with
    timer 8 joins the end of the list. */
module Lanternfish {

  datatype Fish = Fish(timer: nat, spawning: bool)

  /** A new fish is not spawning. */
  function NewFish(timer: nat): (f: Fish)
    ensures f.timer == timer && !f.spawning
  {
    Fish(timer, false)
  }

  /** Lowers the timer by one; the fish starts spawning when it reaches 0.
      The timer is unsigned, so the source underflows at 0. */
  function Dec(f: Fish): (r: Fish)
    requires f.timer > 0
    ensures r.timer + 1 == f.timer
    ensures r.spawning <==> f.spawning || f.timer == 1
  {
    var t := f.timer - 1;
    if t == 0 then Fish(t, true) else Fish(t, f.spawning)
  }

  /** Sets the timer; the fish is spawning exactly when it is 0. */
  function SetTimer(f: Fish, n: nat): (r: Fish)
    ensures r.timer == n && (r.spawning <==> n == 0)
  {
    Fish(n, n == 0)
  }

  /** One fish's day: at 0 it resets to 6 (its flag untouched), otherwise it
      counts down. */
  function Tick(f: Fish): (r: Fish)
    ensures f.timer <= 6 ==> r.timer <= 6 && (r.timer + 1) % 7 == f.timer % 7
    ensures f.timer > 6 ==> r.timer + 1 == f.timer
    ensures r.spawning <==> f.spawning || f.timer == 1
  {
    if f.timer == 0 then f.(timer := 6) else Dec(f)
  }

  /** Number of fish among the first `n` whose timer is `t`. */
  function CountTo(fish: seq<Fish>, n: nat, t: nat): nat
    requires n <= |fish|
  {
    if n == 0 then 0 else CountTo(fish, n - 1, t) + (if fish[n - 1].timer == t then 1 else 0)
  }

  /** Number of fish whose timer is `t`. */
  function CountTimer(fish: seq<Fish>, t: nat): nat
  {
    CountTo(fish, |fish|, t)
  }

  lemma {:induction false} CountToAppend(a: seq<Fish>, b: seq<Fish>, n: nat, t: nat)
    requires n <= |b|
    ensures CountTo(a + b, |a| + n, t) == CountTimer(a, t) + CountTo(b, n, t)
  {
    if n == 0 {
      CountToPrefix(a + b, a, |a|, t);
    } else {
      CountToAppend(a, b, n - 1, t);
    }
  }

  /** Counting a prefix only looks at the prefix. */
  lemma {:induction false} CountToPrefix(s: seq<Fish>, p: seq<Fish>, n: nat, t: nat)
    requires n <= |p| <= |s| && p == s[..|p|]
    ensures CountTo(s, n, t) == CountTo(p, n, t)
  {
    if n > 0 {
      CountToPrefix(s, p, n - 1, t);
    }
  }

  lemma CountTimerAppend(a: seq<Fish>, b: seq<Fish>, t: nat)
    ensures CountTimer(a + b, t) == CountTimer(a, t) + CountTimer(b, t)
  {
    CountToAppend(a, b, |b|, t);
  }

  /** Every fish of the list ticked, in order. */
  function Ticks(fish: seq<Fish>): (r: seq<Fish>)
    ensures |r| == |fish|
  {
    seq(|fish|, i requires 0 <= i < |fish| => Tick(fish[i]))
  }

  lemma TicksAppend(a: seq<Fish>, b: seq<Fish>)
    ensures Ticks(a + b) == Ticks(a) + Ticks(b)
  {
    assert Ticks(a + b) == Ticks(a) + Ticks(b);
  }

  /** What `DecRecur` leaves: the counted-down fish and how many were at 0. */
  datatype Decremented = Decremented(fish: seq<Fish>, spawned: nat)

  /** Counts down every fish, splitting the list in halves, and returns how
      many were at 0. */
  function DecRecur(fish: seq<Fish>): (r: Decremented)
    ensures r.fish == Ticks(fish)
    ensures r.spawned == CountTimer(fish, 0)
    decreases |fish|
  {
    if |fish| == 0 then Decremented([], 0)
    else if |fish| == 1 then
      assert Ticks(fish) == [Tick(fish[0])];
      assert CountTimer(fish, 0) == CountTo(fish, 0, 0) + (if fish[0].timer == 0 then 1 else 0);
      if fish[0].timer == 0 then Decremented([fish[0].(timer := 6)], 1) else Decremented([Dec(fish[0])], 0)
    else
      var half := |fish| / 2;
      var left := DecRecur(fish[..half]);
      var right := DecRecur(fish[half..]);
      Halves(fish, half);
      Decremented(left.fish + right.fish, left.spawned + right.spawned)
  }

  lemma Halves(fish: seq<Fish>, half: nat)
    requires half <= |fish|
    ensures Ticks(fish) == Ticks(fish[..half]) + Ticks(fish[half..])
    ensures CountTimer(fish, 0) == CountTimer(fish[..half], 0) + CountTimer(fish[half..], 0)
  {
    assert fish == fish[..half] + fish[half..];
    TicksAppend(fish[..half], fish[half..]);
    CountTimerAppend(fish[..half], fish[half..], 0);
  }

  /** A day keeps the ticked fish in place and appends the new ones behind them. */
  lemma DayAppends(fish: seq<Fish>)
    ensures Day(fish)[..|fish|] == Ticks(fish)
    ensures forall i :: |fish| <= i < |Day(fish)| ==> Day(fish)[i] == NewFish(8)
  {
    assert Day(fish) == Ticks(fish) + Born(CountTimer(fish, 0));
  }

  /** `n` new fish. */
  function Born(n: nat): (r: seq<Fish>)
    ensures |r| == n && forall i :: 0 <= i < n ==> r[i] == NewFish(8)
  {
    if n == 0 then [] else Born(n - 1) + [NewFish(8)]
  }

  /** One day: every fish ticks and one fish with timer 8 is appended per
      fish that was at 0. */
  function Day(fish: seq<Fish>): (r: seq<Fish>)
    ensures |r| == |fish| + CountTimer(fish, 0)
  {
    var d := DecRecur(fish);
    d.fish + Born(d.spawned)
  }

  /** `days` applications of `step`. */
  function Iterate(step: seq<Fish> -> seq<Fish>, fish: seq<Fish>, days: nat): seq<Fish>
    decreases days
  {
    if days == 0 then fish else Iterate(step, step(fish), days - 1)
  }

  /** `days` days in a row. */
  function Process(fish: seq<Fish>, days: nat): (r: seq<Fish>)
    ensures |r| >= |fish|
    ensures TimersBelow(fish, 8) ==> TimersBelow(r, 8)
  {
    IterateGrows(Day, fish, days);
    DaysKeepTimers();
    if TimersBelow(fish, 8) then
      IterateKeepsTimers(Day, fish, days);
      Iterate(Day, fish, days)
    else Iterate(Day, fish, days)
  }

  lemma DaysKeepTimers()
    ensures forall x :: TimersBelow(x, 8) ==> TimersBelow(Day(x), 8)
  {
    forall x | TimersBelow(x, 8) ensures TimersBelow(Day(x), 8) {
      DayKeepsTimers(x);
    }
  }

  lemma {:induction false} IterateGrows(step: seq<Fish> -> seq<Fish>, fish: seq<Fish>, days: nat)
    requires forall x :: |step(x)| >= |x|
    ensures |Iterate(step, fish, days)| >= |fish|
    decreases days
  {
    if days > 0 {
      IterateGrows(step, step(fish), days - 1);
    }
  }

  predicate TimersBelow(fish: seq<Fish>, bound: nat)
  {
    forall i :: 0 <= i < |fish| ==> fish[i].timer <= bound
  }

  lemma {:induction false} IterateKeepsTimers(step: seq<Fish> -> seq<Fish>, fish: seq<Fish>, days: nat)
    requires forall x :: TimersBelow(x, 8) ==> TimersBelow(step(x), 8)
    requires TimersBelow(fish, 8)
    ensures TimersBelow(Iterate(step, fish, days), 8)
    decreases days
  {
    if days > 0 {
      IterateKeepsTimers(step, step(fish), days - 1);
    }
  }

  /** A day keeps timers in 0..8. */
  lemma DayKeepsTimers(fish: seq<Fish>)
    requires TimersBelow(fish, 8)
    ensures TimersBelow(Day(fish), 8)
  {
    var next := Day(fish);
    var ticked := Ticks(fish);
    assert next == ticked + Born(CountTimer(fish, 0));
    forall i | 0 <= i < |next| ensures next[i].timer <= 8 {
      if i < |fish| {
        assert next[i] == ticked[i] == Tick(fish[i]);
      }
    }
  }

  /** Counts by timer after one tick of the first `n` fish: each count
      moves down one timer, and the fish at 0 join those at 6. */
  lemma {:induction false} TickCounts(fish: seq<Fish>, n: nat, t: nat)
    requires TimersBelow(fish, 8) && n <= |fish|
    ensures CountTo(Ticks(fish), n, t) ==
      (if t == 6 then CountTo(fish, n, 0) else 0) + (if t < 8 then CountTo(fish, n, t + 1) else 0)
  {
    if n > 0 {
      TickCounts(fish, n - 1, t);
      assert Ticks(fish)[n - 1] == Tick(fish[n - 1]);
    }
  }

  /** The population by timer evolves as a rotation: the fish at 0 become
      fish at 6 plus as many new fish at 8, every other count moves down
      one timer. */
  lemma DayCounts(fish: seq<Fish>, t: nat)
    requires TimersBelow(fish, 8)
    ensures CountTimer(Day(fish), t) ==
      (if t == 6 || t == 8 then CountTimer(fish, 0) else 0) + (if t < 8 then CountTimer(fish, t + 1) else 0)
  {
    var n := CountTimer(fish, 0);
    assert Day(fish) == Ticks(fish) + Born(n);
    CountTimerAppend(Ticks(fish), Born(n), t);
    TickCounts(fish, |fish|, t);
    BornCount(n, t);
  }

  lemma {:induction false} BornCount(n: nat, t: nat)
    ensures CountTimer(Born(n), t) == (if t == 8 then n else 0)
  {
    if n > 0 {
      BornCount(n - 1, t);
      CountToPrefix(Born(n), Born(n - 1), n - 1, t);
    }
  }
}

=== FILE: octopus.dfy ===
/** Day eleven: a grid of octopi with energy levels. A step charges every
    octopus by one; each octopus above 9 flashes once, charging its eight
    neighbours, which may flash in turn; flashed octopi end the step at 0. */
module Octopus {
  import opened Wrappers
  import opened Grid

  /** The grid, the octopi charged past 9 and the octopi flashed during the
      current step, and the running number of flashes. */
  datatype OctopusCave = OctopusCave(
    octopi: Table<nat>,
    overcharged: set<Coord>,
    flashed: set<Coord>,
    flashCount: nat)

  lemma DiffSplit(s0: set<Coord>, s1: set<Coord>, s2: set<Coord>)
    requires s0 <= s1 <= s2
    ensures s2 - s0 == (s1 - s0) + (s2 - s1) && (s1 - s0) !! (s2 - s1)
  {
  }

  lemma DiffSelf(a: set<Coord>)
    ensures a - a == {}
  {
  }

  lemma DiffAddOne(s0: set<Coord>, c: Coord, s2: set<Coord>)
    requires c !in s0 && s0 + {c} <= s2
    ensures s2 - s0 == {c} + (s2 - (s0 + {c})) && c !in s2 - (s0 + {c})
  {
  }

  lemma AddOneCard(b: set<Coord>, c: Coord)
    requires c !in b
    ensures |b + {c}| == |b| + 1
  {
  }

  predicate SameShape(a: Table<nat>, b: Table<nat>)
  {
    a.rowSize == b.rowSize && |a.rows| == |b.rows|
  }

  function Energy(t: Table<nat>, c: Coord): nat
    requires WellFormed(t) && InBounds(t, c)
  {
    t.rows[c.1][c.0]
  }

  /** The working sets only ever name cells of the grid. */
  ghost predicate Valid(st: OctopusCave)
  {
    WellFormed(st.octopi) &&
    (forall c :: c in st.flashed ==> InBounds(st.octopi, c)) &&
    (forall c :: c in st.overcharged ==> InBounds(st.octopi, c))
  }

  /** Between steps both working sets are empty. */
  predicate AtRest(st: OctopusCave)
  {
    st.flashed == {} && st.overcharged == {}
  }

  ghost predicate Calm(t: Table<nat>)
    requires WellFormed(t)
  {
    forall c :: InBounds(t, c) ==> Energy(t, c) <= 9
  }

  function Zeros(t: Table<nat>): (r: set<Coord>)
    requires WellFormed(t)
    ensures forall c :: c in r <==> InBounds(t, c) && Energy(t, c) == 0
  {
    CellsMembers(t);
    set c | c in Cells(t) && Energy(t, c) == 0
  }

  // --------------------------------------------------------------- charging

  function Charged(t: Table<nat>): (r: Table<nat>)
    requires WellFormed(t)
    ensures WellFormed(r) && SameShape(r, t)
    ensures forall c :: InBounds(t, c) ==> Energy(r, c) == Energy(t, c) + 1
  {
    Table(seq(|t.rows|, j requires 0 <= j < |t.rows| =>
            seq(|t.rows[j]|, i requires 0 <= i < |t.rows[j]| => t.rows[j][i] + 1)),
          t.rowSize)
  }

  /** Adds one to every octopus and records every octopus now above 9. */
  function ChargeOctopi(st: OctopusCave): (r: OctopusCave)
    requires Valid(st)
    ensures Valid(r) && SameShape(r.octopi, st.octopi)
    ensures forall c :: InBounds(st.octopi, c) ==> Energy(r.octopi, c) == Energy(st.octopi, c) + 1
    ensures forall c :: c in r.overcharged <==>
      c in st.overcharged || (InBounds(st.octopi, c) && Energy(st.octopi, c) >= 9)
    ensures r.flashed == st.flashed && r.flashCount == st.flashCount
  {
    var t := Charged(st.octopi);
    CellsMembers(t);
    st.(octopi := t, overcharged := st.overcharged + (set c | c in Cells(t) && Energy(t, c) > 9))
  }

  // --------------------------------------------------------------- flashing

  /** The in-bounds cells among the compass neighbours `AroundOrder[k..]`
      of `c`, in that order. */
  function NeighboursFrom(t: Table<nat>, c: Coord, k: nat): (r: seq<Coord>)
    requires k <= 8
    ensures forall d :: d in r ==> InBounds(t, d)
    decreases 8 - k
  {
    if k == 8 then []
    else
      var m := MoveCoords(AroundOrder[k], c);
      (if InBounds(t, m) then [m] else []) + NeighboursFrom(t, c, k + 1)
  }

  /** The coordinates of the in-bounds 8-neighbours of `c`, in compass
      order; `NeighboursAreAround` shows they are the `Some` entries of
      `GetElemsAround`. */
  function Neighbours(t: Table<nat>, c: Coord): (r: seq<Coord>)
    ensures forall d :: d in r ==> InBounds(t, d)
  {
    NeighboursFrom(t, c, 0)
  }

  /** The state right after `c` flashes, before its neighbours charge. */
  function Lit(st: OctopusCave, c: Coord): (r: OctopusCave)
    requires Valid(st) && InBounds(st.octopi, c)
    ensures Valid(r) && r.octopi == st.octopi && r.flashed == st.flashed + {c}
  {
    st.(flashCount := st.flashCount + 1, flashed := st.flashed + {c})
  }

  /** Flashes `c` unless it already flashed this step: counts the flash and
      charges each neighbour, flashing those that go above 9. */
  function FlashOctopus(st: OctopusCave, c: Coord): (r: OctopusCave)
    requires Valid(st) && InBounds(st.octopi, c)
    ensures Valid(r) && SameShape(r.octopi, st.octopi)
    ensures st.flashed <= r.flashed && c in r.flashed && r.overcharged == st.overcharged
    ensures r.flashCount - |r.flashed| == st.flashCount - |st.flashed|
    decreases |Cells(st.octopi) - st.flashed|, 0, 0
  {
    if c in st.flashed then st
    else
      var lit := Lit(st, c);
      CellsMember(st.octopi, c);
      RemoveOneCard(Cells(st.octopi), st.flashed, c);
      AddOneCard(st.flashed, c);
      ChargeNeighbours(lit, Neighbours(st.octopi, c))
  }

  lemma FlashUnfold(st: OctopusCave, c: Coord)
    requires Valid(st) && InBounds(st.octopi, c) && c !in st.flashed
    ensures FlashOctopus(st, c) == ChargeNeighbours(Lit(st, c), Neighbours(st.octopi, c))
  {
  }

  /** Charges the one octopus at `c`, through `get_elem_mut_at_coord`. */
  function Bump(st: OctopusCave, c: Coord): (r: OctopusCave)
    requires Valid(st) && InBounds(st.octopi, c)
    ensures Valid(r) && SameShape(r.octopi, st.octopi) && Cells(r.octopi) == Cells(st.octopi)
    ensures r.flashed == st.flashed && r.overcharged == st.overcharged && r.flashCount == st.flashCount
    ensures forall d :: InBounds(st.octopi, d) ==>
      Energy(r.octopi, d) == if d == c then Energy(st.octopi, d) + 1 else Energy(st.octopi, d)
  {
    var rows := st.octopi.rows;
    st.(octopi := Table(rows[c.1 := rows[c.1][c.0 := rows[c.1][c.0] + 1]], st.octopi.rowSize))
  }

  /** Charges the listed cells in order, flashing each that goes above 9. */
  function ChargeNeighbours(st: OctopusCave, cs: seq<Coord>): (r: OctopusCave)
    requires Valid(st) && forall d :: d in cs ==> InBounds(st.octopi, d)
    ensures Valid(r) && SameShape(r.octopi, st.octopi)
    ensures st.flashed <= r.flashed && r.overcharged == st.overcharged
    ensures r.flashCount - |r.flashed| == st.flashCount - |st.flashed|
    decreases |Cells(st.octopi) - st.flashed|, 1, |cs|
  {
    if |cs| == 0 then st
    else
      var next := Step(st, cs[0]);
      SubsetCard(Cells(next.octopi) - next.flashed, Cells(st.octopi) - st.flashed);
      assert forall d :: d in cs[1..] ==> d in cs;
      ChargeNeighbours(next, cs[1..])
  }

  /** Charges the octopus at `c` and flashes it when it goes above 9. */
  function Step(st: OctopusCave, c: Coord): (r: OctopusCave)
    requires Valid(st) && InBounds(st.octopi, c)
    ensures Valid(r) && SameShape(r.octopi, st.octopi) && Cells(r.octopi) == Cells(st.octopi)
    ensures st.flashed <= r.flashed && r.overcharged == st.overcharged
    ensures r.flashCount - |r.flashed| == st.flashCount - |st.flashed|
    decreases |Cells(st.octopi) - st.flashed|, 1, 0
  {
    var bumped := Bump(st, c);
    if Energy(bumped.octopi, c) > 9 then FlashOctopus(bumped, c) else bumped
  }

  // ------------------------------------------------- what a cascade does

  lemma MultisetHead(s: seq<Coord>, d: Coord)
    requires |s| > 0
    ensures multiset(s)[d] == (if s[0] == d then 1 else 0) + multiset(s[1..])[d]
  {
    assert s == [s[0]] + s[1..];
  }

  ghost predicate Distinct(s: seq<Coord>)
  {
    forall i, j :: 0 <= i < j < |s| ==> s[i] != s[j]
  }

  lemma {:induction false} DistinctCount(s: seq<Coord>, d: Coord)
    requires Distinct(s)
    ensures multiset(s)[d] == if d in s then 1 else 0
  {
    if |s| > 0 {
      assert s == [s[0]] + s[1..];
      assert s[0] !in s[1..];
      DistinctCount(s[1..], d);
    }
  }

  /** The `Some` entries of the eight around a cell, as coordinates: the
      `flatten` of `get_elems_around`. */
  function Present(s: seq<Option<(nat, Coord)>>): (r: seq<Coord>)
  {
    if |s| == 0 then []
    else (if s[0].Some? then [s[0].value.1] else []) + Present(s[1..])
  }

  lemma {:induction false} NeighboursFromAround(t: Table<nat>, c: Coord, k: nat)
    requires Accessible(t) && k <= 8
    ensures NeighboursFrom(t, c, k) == Present(GetElemsAround(t, c.0, c.1)[k..])
    decreases 8 - k
  {
    var s := GetElemsAround(t, c.0, c.1);
    if k < 8 {
      NeighboursFromAround(t, c, k + 1);
      assert s[k..][1..] == s[k + 1..];
    }
  }

  /** The cells a flash charges are the in-bounds neighbours that
      `GetElemsAround` lists, in its order. */
  lemma NeighboursAreAround(t: Table<nat>, c: Coord)
    requires Accessible(t)
    ensures Neighbours(t, c) == Present(GetElemsAround(t, c.0, c.1))
  {
    NeighboursFromAround(t, c, 0);
    assert GetElemsAround(t, c.0, c.1)[0..] == GetElemsAround(t, c.0, c.1);
  }

  lemma AroundOrderDistinct(i: nat, j: nat)
    requires i < j < 8
    ensures AroundOrder[i] != AroundOrder[j]
  {
  }

  lemma {:induction false} NeighboursFromFacts(t: Table<nat>, c: Coord, k: nat)
    requires k <= 8
    ensures Distinct(NeighboursFrom(t, c, k))
    ensures forall d :: d in NeighboursFrom(t, c, k) <==>
      InBounds(t, d) && exists j :: k <= j < 8 && MoveCoords(AroundOrder[j], c) == d
    decreases 8 - k
  {
    if k < 8 {
      NeighboursFromFacts(t, c, k + 1);
      var m := MoveCoords(AroundOrder[k], c);
      var rest := NeighboursFrom(t, c, k + 1);
      forall j | k + 1 <= j < 8
        ensures MoveCoords(AroundOrder[j], c) != m
      {
        AroundOrderDistinct(k, j);
        DirectionsCoverNeighbours(AroundOrder[k], AroundOrder[j], c, c);
      }
      assert m !in rest;
    }
  }

  lemma Adjacent8Symmetric(a: Coord, b: Coord)
    ensures Adjacent8(a, b) == Adjacent8(b, a)
  {
  }

  /** The eight probe directions reach exactly the 8-neighbours. */
  lemma AroundAdjacent(c: Coord, d: Coord)
    ensures (exists j :: 0 <= j < 8 && MoveCoords(AroundOrder[j], c) == d) <==> Adjacent8(d, c)
  {
    DirectionsCoverNeighbours(North, North, c, d);
    if Adjacent8(d, c) {
      var dir :| MoveCoords(dir, c) == d;
      var j := if dir == North then 0 else if dir == South then 1 else if dir == West then 2
        else if dir == East then 3 else if dir == NorthWest then 4 else if dir == NorthEast then 5
        else if dir == SouthWest then 6 else 7;
      assert AroundOrder[j] == dir;
    }
    if exists j :: 0 <= j < 8 && MoveCoords(AroundOrder[j], c) == d {
      var j :| 0 <= j < 8 && MoveCoords(AroundOrder[j], c) == d;
      DirectionsCoverNeighbours(AroundOrder[j], AroundOrder[j], c, c);
    }
  }

  /** Each in-bounds 8-neighbour of `c` is listed exactly once, and nothing
      else is listed. */
  lemma NeighbourCount(t: Table<nat>, c: Coord, d: Coord)
    ensures multiset(Neighbours(t, c))[d] == if InBounds(t, d) && Adjacent8(c, d) then 1 else 0
  {
    Adjacent8Symmetric(c, d);
    NeighboursFromFacts(t, c, 0);
    DistinctCount(Neighbours(t, c), d);
    AroundAdjacent(c, d);
  }

  /** The cells of `f` that neighbour `d`, and how many there are. */
  function Adjacent(f: set<Coord>, d: Coord): (r: set<Coord>)
    ensures forall e :: e in r <==> e in f && Adjacent8(e, d)
  {
    set e | e in f && Adjacent8(e, d)
  }

  function AdjCount(f: set<Coord>, d: Coord): nat
  {
    |Adjacent(f, d)|
  }

  lemma AdjCountUnion(f: set<Coord>, g: set<Coord>, d: Coord)
    requires f !! g
    ensures AdjCount(f + g, d) == AdjCount(f, d) + AdjCount(g, d)
  {
    assert Adjacent(f + g, d) == Adjacent(f, d) + Adjacent(g, d);
    assert Adjacent(f, d) !! Adjacent(g, d);
  }

  lemma AdjCountEmpty(d: Coord)
    ensures AdjCount({}, d) == 0
  {
    assert Adjacent({}, d) == {};
  }

  /** Adding one more flashed cell adds one exactly when it neighbours `d`. */
  lemma AdjCountAdd(c: Coord, f: set<Coord>, d: Coord)
    requires c !in f
    ensures AdjCount({c} + f, d) == (if Adjacent8(c, d) then 1 else 0) + AdjCount(f, d)
  {
    if Adjacent8(c, d) {
      assert Adjacent({c}, d) == {c};
    } else {
      assert Adjacent({c}, d) == {};
    }
    AdjCountUnion({c}, f, d);
  }

  /** A flash cascade raises every cell by the number of its neighbours that
      flashed in it. */
  lemma {:induction false} FlashEnergy(st: OctopusCave, c: Coord, d: Coord)
    requires Valid(st) && InBounds(st.octopi, c) && InBounds(st.octopi, d)
    ensures var r := FlashOctopus(st, c);
      Energy(r.octopi, d) == Energy(st.octopi, d) + AdjCount(r.flashed - st.flashed, d)
    decreases |Cells(st.octopi) - st.flashed|, 0, 0
  {
    var r := FlashOctopus(st, c);
    if c in st.flashed {
      DiffSelf(st.flashed);
      AdjCountEmpty(d);
    } else {
      var lit := Lit(st, c);
      CellsMember(st.octopi, c);
      RemoveOneCard(Cells(st.octopi), st.flashed, c);
      var ns := Neighbours(st.octopi, c);
      NeighbourCount(st.octopi, c, d);
      ChargeEnergy(lit, ns, d);
      FlashUnfold(st, c);
      DiffAddOne(st.flashed, c, r.flashed);
      AdjCountAdd(c, r.flashed - lit.flashed, d);
    }
  }

  /** One charge of the list: the head, then the rest from the new state. */
  lemma ChargeTail(st: OctopusCave, cs: seq<Coord>)
    requires Valid(st) && |cs| > 0 && forall e :: e in cs ==> InBounds(st.octopi, e)
    ensures var next := Step(st, cs[0]);
      (forall e :: e in cs[1..] ==> InBounds(next.octopi, e)) &&
      |Cells(next.octopi) - next.flashed| <= |Cells(st.octopi) - st.flashed| &&
      ChargeNeighbours(st, cs) == ChargeNeighbours(next, cs[1..])
  {
    var next := Step(st, cs[0]);
    SubsetCard(Cells(next.octopi) - next.flashed, Cells(st.octopi) - st.flashed);
    assert forall e :: e in cs[1..] ==> e in cs;
  }

  /** Charging one cell raises it by one, and every cell by the number of
      its neighbours that flashed in the cascade it set off. */
  lemma {:induction false} StepEnergy(st: OctopusCave, c: Coord, d: Coord)
    requires Valid(st) && InBounds(st.octopi, c) && InBounds(st.octopi, d)
    ensures var r := Step(st, c);
      Energy(r.octopi, d) == Energy(st.octopi, d) + (if c == d then 1 else 0) + AdjCount(r.flashed - st.flashed, d)
    decreases |Cells(st.octopi) - st.flashed|, 1, 0
  {
    var bumped := Bump(st, c);
    if Energy(bumped.octopi, c) > 9 {
      FlashEnergy(bumped, c, d);
    } else {
      DiffSelf(st.flashed);
      AdjCountEmpty(d);
    }
  }

  /** Charging a list of cells raises each cell by the number of times it is
      listed plus the number of its neighbours that flashed meanwhile. */
  lemma {:induction false} ChargeEnergy(st: OctopusCave, cs: seq<Coord>, d: Coord)
    requires Valid(st) && (forall e :: e in cs ==> InBounds(st.octopi, e)) && InBounds(st.octopi, d)
    ensures var r := ChargeNeighbours(st, cs);
      Energy(r.octopi, d) == Energy(st.octopi, d) + multiset(cs)[d] + AdjCount(r.flashed - st.flashed, d)
    decreases |Cells(st.octopi) - st.flashed|, 1, |cs|
  {
    var r := ChargeNeighbours(st, cs);
    if |cs| == 0 {
      DiffSelf(st.flashed);
      AdjCountEmpty(d);
    } else {
      var next := Step(st, cs[0]);
      StepEnergy(st, cs[0], d);
      ChargeTail(st, cs);
      ChargeEnergy(next, cs[1..], d);
      MultisetHead(cs, d);
      DiffSplit(st.flashed, next.flashed, r.flashed);
      AdjCountUnion(next.flashed - st.flashed, r.flashed - next.flashed, d);
    }
  }

  /** Every flashed octopus is above 9 until the step ends. */
  ghost predicate HotFlashed(st: OctopusCave)
    requires Valid(st)
  {
    forall d :: d in st.flashed ==> Energy(st.octopi, d) > 9
  }

  /** A cascade keeps flashed octopi above 9. */
  lemma {:induction false} FlashHot(st: OctopusCave, c: Coord)
    requires Valid(st) && InBounds(st.octopi, c) && HotFlashed(st) && Energy(st.octopi, c) > 9
    ensures HotFlashed(FlashOctopus(st, c))
    decreases |Cells(st.octopi) - st.flashed|, 0, 0
  {
    if c !in st.flashed {
      var lit := Lit(st, c);
      CellsMember(st.octopi, c);
      RemoveOneCard(Cells(st.octopi), st.flashed, c);
      ChargeHot(lit, Neighbours(st.octopi, c));
      FlashUnfold(st, c);
    }
  }

  lemma {:induction false} StepHot(st: OctopusCave, c: Coord)
    requires Valid(st) && InBounds(st.octopi, c) && HotFlashed(st)
    ensures HotFlashed(Step(st, c))
    decreases |Cells(st.octopi) - st.flashed|, 1, 0
  {
    var bumped := Bump(st, c);
    assert HotFlashed(bumped);
    if Energy(bumped.octopi, c) > 9 {
      FlashHot(bumped, c);
    }
  }

  lemma {:induction false} ChargeHot(st: OctopusCave, cs: seq<Coord>)
    requires Valid(st) && (forall d :: d in cs ==> InBounds(st.octopi, d)) && HotFlashed(st)
    ensures HotFlashed(ChargeNeighbours(st, cs))
    decreases |Cells(st.octopi) - st.flashed|, 1, |cs|
  {
    if |cs| > 0 {
      var next := Step(st, cs[0]);
      StepHot(st, cs[0]);
      ChargeTail(st, cs);
      ChargeHot(next, cs[1..]);
    }
  }

  /** Going from `a` to `b`, every octopus above 9 that has not flashed kept
      its energy. */
  ghost predicate Settled(a: OctopusCave, b: OctopusCave)
    requires Valid(a) && Valid(b) && SameShape(a.octopi, b.octopi)
  {
    forall d :: InBounds(a.octopi, d) && Energy(b.octopi, d) > 9 && d !in b.flashed ==>
      Energy(b.octopi, d) == Energy(a.octopi, d)
  }

  lemma SettledTrans(a: OctopusCave, b: OctopusCave, c: OctopusCave)
    requires Valid(a) && Valid(b) && Valid(c)
    requires SameShape(a.octopi, b.octopi) && SameShape(b.octopi, c.octopi)
    requires b.flashed <= c.flashed && Settled(a, b) && Settled(b, c)
    ensures Settled(a, c)
  {
  }

  /** A cascade leaves no octopus above 9 unflashed unless it was already
      there and left untouched. */
  lemma {:induction false} FlashSettled(st: OctopusCave, c: Coord)
    requires Valid(st) && InBounds(st.octopi, c)
    ensures Settled(st, FlashOctopus(st, c))
    decreases |Cells(st.octopi) - st.flashed|, 0, 0
  {
    if c !in st.flashed {
      var lit := Lit(st, c);
      CellsMember(st.octopi, c);
      RemoveOneCard(Cells(st.octopi), st.flashed, c);
      var ns := Neighbours(st.octopi, c);
      ChargeSettled(lit, ns);
      FlashUnfold(st, c);
      SettledLit(st, lit, FlashOctopus(st, c));
    }
  }

  lemma SettledLit(st: OctopusCave, lit: OctopusCave, r: OctopusCave)
    requires Valid(st) && Valid(lit) && Valid(r) && lit.octopi == st.octopi
    requires SameShape(lit.octopi, r.octopi) && Settled(lit, r)
    ensures Settled(st, r)
  {
  }

  lemma BumpSettled(st: OctopusCave, c: Coord, next: OctopusCave)
    requires Valid(st) && InBounds(st.octopi, c)
    requires Valid(next) && SameShape(st.octopi, next.octopi)
    requires Energy(Bump(st, c).octopi, c) > 9 ==> Settled(Bump(st, c), next) && c in next.flashed
    requires Energy(Bump(st, c).octopi, c) <= 9 ==> next == Bump(st, c)
    ensures Settled(st, next)
  {
  }

  lemma {:induction false} StepSettled(st: OctopusCave, c: Coord)
    requires Valid(st) && InBounds(st.octopi, c)
    ensures Settled(st, Step(st, c))
    decreases |Cells(st.octopi) - st.flashed|, 1, 0
  {
    var bumped := Bump(st, c);
    if Energy(bumped.octopi, c) > 9 {
      FlashSettled(bumped, c);
    }
    BumpSettled(st, c, Step(st, c));
  }

  lemma {:induction false} ChargeSettled(st: OctopusCave, cs: seq<Coord>)
    requires Valid(st) && (forall d :: d in cs ==> InBounds(st.octopi, d))
    ensures Settled(st, ChargeNeighbours(st, cs))
    decreases |Cells(st.octopi) - st.flashed|, 1, |cs|
  {
    if |cs| > 0 {
      var next := Step(st, cs[0]);
      StepSettled(st, cs[0]);
      ChargeTail(st, cs);
      ChargeSettled(next, cs[1..]);
      SettledTrans(st, next, ChargeNeighbours(st, cs));
    }
  }

  // ------------------------------------------------ a cascade stays inside

  /** From `s`, with the charges `rest` still to be delivered, no cell
      outside `z` can reach 10 even if every unflashed cell of `z` flashes;
      and so far only cells of `z` have flashed. */
  ghost predicate Within(s: OctopusCave, z: set<Coord>, rest: seq<Coord>)
    requires Valid(s)
  {
    s.flashed <= z &&
    forall d :: InBounds(s.octopi, d) && d !in z ==>
      Energy(s.octopi, d) + multiset(rest)[d] + AdjCount(z - s.flashed, d) <= 9
  }

  /** Lighting `c` in `z` moves its charge from the flash budget of `z`
      onto the charges still to come. */
  lemma LitWithin(st: OctopusCave, c: Coord, z: set<Coord>, rest: seq<Coord>)
    requires Valid(st) && InBounds(st.octopi, c) && c in z && c !in st.flashed && Within(st, z, rest)
    ensures Within(Lit(st, c), z, Neighbours(st.octopi, c) + rest)
  {
    var ns := Neighbours(st.octopi, c);
    forall d | InBounds(st.octopi, d) && d !in z
      ensures Energy(st.octopi, d) + multiset(ns + rest)[d] + AdjCount(z - (st.flashed + {c}), d) <= 9
    {
      NeighbourCount(st.octopi, c, d);
      LitWithinAt(st, c, z, rest, ns, d);
    }
  }

  /** `LitWithin` at one cell `d` outside `z`, for a list `ns` that holds
      `d` once when it neighbours `c` and otherwise not at all. */
  lemma LitWithinAt(st: OctopusCave, c: Coord, z: set<Coord>, rest: seq<Coord>, ns: seq<Coord>, d: Coord)
    requires Valid(st) && c in z && c !in st.flashed && Within(st, z, rest)
    requires InBounds(st.octopi, d) && d !in z
    requires multiset(ns)[d] == if Adjacent8(c, d) then 1 else 0
    ensures Energy(st.octopi, d) + multiset(ns + rest)[d] + AdjCount(z - (st.flashed + {c}), d) <= 9
  {
    var left := z - (st.flashed + {c});
    assert multiset(ns + rest)[d] == multiset(ns)[d] + multiset(rest)[d];
    assert z - st.flashed == {c} + left;
    AdjCountAdd(c, left, d);
  }

  /** A cascade that starts inside `z` flashes only cells of `z`. */
  lemma {:induction false} FlashWithin(st: OctopusCave, c: Coord, z: set<Coord>, rest: seq<Coord>)
    requires Valid(st) && InBounds(st.octopi, c) && c in z && Within(st, z, rest)
    ensures Within(FlashOctopus(st, c), z, rest)
    decreases |Cells(st.octopi) - st.flashed|, 0, 0
  {
    if c !in st.flashed {
      CellsMember(st.octopi, c);
      RemoveOneCard(Cells(st.octopi), st.flashed, c);
      LitWithin(st, c, z, rest);
      ChargeWithin(Lit(st, c), Neighbours(st.octopi, c), z, rest);
      FlashUnfold(st, c);
    }
  }

  lemma {:induction false} StepWithin(st: OctopusCave, c: Coord, z: set<Coord>, rest: seq<Coord>)
    requires Valid(st) && InBounds(st.octopi, c) && Within(st, z, [c] + rest)
    ensures Within(Step(st, c), z, rest)
    decreases |Cells(st.octopi) - st.flashed|, 1, 0
  {
    var bumped := Bump(st, c);
    assert Within(bumped, z, rest);
    if Energy(bumped.octopi, c) > 9 {
      assert c in z;
      FlashWithin(bumped, c, z, rest);
    }
  }

  lemma {:induction false} ChargeWithin(st: OctopusCave, cs: seq<Coord>, z: set<Coord>, rest: seq<Coord>)
    requires Valid(st) && (forall d :: d in cs ==> InBounds(st.octopi, d)) && Within(st, z, cs + rest)
    ensures Within(ChargeNeighbours(st, cs), z, rest)
    decreases |Cells(st.octopi) - st.flashed|, 1, |cs|
  {
    if |cs| == 0 {
      assert cs + rest == rest;
    } else {
      var next := Step(st, cs[0]);
      assert cs + rest == [cs[0]] + (cs[1..] + rest);
      StepWithin(st, cs[0], z, cs[1..] + rest);
      ChargeTail(st, cs);
      ChargeWithin(next, cs[1..], z, rest);
    }
  }

  /** `z` holds every octopus of `c0` that flashing the cells of `z` would
      push above 9. */
  ghost predicate Closed(c0: OctopusCave, z: set<Coord>)
    requires Valid(c0)
  {
    forall d :: InBounds(c0.octopi, d) && Energy(c0.octopi, d) + AdjCount(z, d) > 9 ==> d in z
  }

  // ------------------------------------------- the step as a least fixpoint

  /** The octopi that go above 9 in a step when exactly the cells of `f`
      flash: energy plus one plus the flashing neighbours exceeds 9. */
  function Ignited(t: Table<nat>, f: set<Coord>): (r: set<Coord>)
    requires WellFormed(t)
    ensures forall d :: d in r <==> InBounds(t, d) && Energy(t, d) + 1 + AdjCount(f, d) > 9
  {
    CellsMembers(t);
    set d | d in Cells(t) && Energy(t, d) + 1 + AdjCount(f, d) > 9
  }

  lemma AdjCountMono(f: set<Coord>, g: set<Coord>, d: Coord)
    requires f <= g
    ensures AdjCount(f, d) <= AdjCount(g, d)
  {
    AdjCountGrow(f, g, d);
  }

  /** More flashes ignite more octopi. */
  lemma IgnitedMono(t: Table<nat>, f: set<Coord>, g: set<Coord>)
    requires WellFormed(t) && f <= g
    ensures Ignited(t, f) <= Ignited(t, g)
  {
    forall d | d in Ignited(t, f)
      ensures d in Ignited(t, g)
    {
      AdjCountMono(f, g, d);
    }
  }

  lemma GrowCard(a: set<Coord>, f: set<Coord>, g: set<Coord>)
    requires f <= g <= a && f != g
    ensures |a - g| < |a - f|
  {
    var x :| x in g && x !in f;
    assert a - f == (a - g) + (g - f);
    assert x in g - f;
  }

  /** Kleene iteration of `Ignited` from a set lying below its image. */
  function FlashesFrom(t: Table<nat>, f: set<Coord>): set<Coord>
    requires WellFormed(t) && f <= Ignited(t, f)
    decreases |Cells(t) - f|
  {
    var g := Ignited(t, f);
    if g == f then f
    else
      CellsMembers(t);
      IgnitedMono(t, f, g);
      GrowCard(Cells(t), f, g);
      FlashesFrom(t, g)
  }

  lemma {:induction false} FlashesFromFixed(t: Table<nat>, f: set<Coord>)
    requires WellFormed(t) && f <= Ignited(t, f)
    ensures Ignited(t, FlashesFrom(t, f)) == FlashesFrom(t, f)
    decreases |Cells(t) - f|
  {
    var g := Ignited(t, f);
    if g != f {
      CellsMembers(t);
      IgnitedMono(t, f, g);
      GrowCard(Cells(t), f, g);
      FlashesFromFixed(t, g);
    }
  }

  lemma {:induction false} FlashesFromLeast(t: Table<nat>, f: set<Coord>, z: set<Coord>)
    requires WellFormed(t) && f <= Ignited(t, f) && f <= z && Ignited(t, z) <= z
    ensures FlashesFrom(t, f) <= z
    decreases |Cells(t) - f|
  {
    var g := Ignited(t, f);
    if g != f {
      CellsMembers(t);
      IgnitedMono(t, f, g);
      IgnitedMono(t, f, z);
      GrowCard(Cells(t), f, g);
      FlashesFromLeast(t, g, z);
    }
  }

  /** The octopi that flash in a step of `t`: the least set that holds
      every octopus its own flashes push above 9. */
  function FlashSet(t: Table<nat>): set<Coord>
    requires WellFormed(t)
  {
    FlashesFrom(t, {})
  }

  /** `FlashSet` is a fixpoint of the flash rule and lies inside every set
      closed under it. */
  lemma FlashSetLeast(t: Table<nat>)
    requires WellFormed(t)
    ensures Ignited(t, FlashSet(t)) == FlashSet(t)
    ensures forall z :: Ignited(t, z) <= z ==> FlashSet(t) <= z
  {
    FlashesFromFixed(t, {});
    forall z | Ignited(t, z) <= z
      ensures FlashSet(t) <= z
    {
      FlashesFromLeast(t, {}, z);
    }
  }

  /** Row `j` after a step in which the cells of `f` flashed. */
  function SettledRow(t: Table<nat>, f: set<Coord>, j: nat): (r: seq<nat>)
    requires j < |t.rows|
    ensures |r| == |t.rows[j]|
  {
    seq(|t.rows[j]|, i requires 0 <= i < |t.rows[j]| =>
      if (i, j) in f then 0 else t.rows[j][i] + 1 + AdjCount(f, (i, j)))
  }

  /** Rows `j..` after a step in which the cells of `f` flashed. */
  function SettledRows(t: Table<nat>, f: set<Coord>, j: nat): (r: seq<seq<nat>>)
    requires j <= |t.rows|
    ensures |r| == |t.rows| - j
    decreases |t.rows| - j
  {
    if j == |t.rows| then [] else [SettledRow(t, f, j)] + SettledRows(t, f, j + 1)
  }

  lemma {:induction false} SettledRowsAt(t: Table<nat>, f: set<Coord>, j: nat, k: nat)
    requires j <= k < |t.rows|
    ensures SettledRows(t, f, j)[k - j] == SettledRow(t, f, k)
    decreases k - j
  {
    if j < k {
      SettledRowsAt(t, f, j + 1, k);
    }
  }

  /** The grid after one step: flashed octopi at 0, every other one at its
      energy plus one plus its flashed neighbours (`NextEnergy`). */
  function NextTable(t: Table<nat>): (r: Table<nat>)
    requires WellFormed(t)
    ensures WellFormed(r) && SameShape(r, t)
  {
    var rows := SettledRows(t, FlashSet(t), 0);
    assert forall j :: 0 <= j < |rows| ==> |rows[j]| == t.rowSize.value by {
      forall j | 0 <= j < |rows|
        ensures |rows[j]| == t.rowSize.value
      {
        SettledRowsAt(t, FlashSet(t), 0, j);
      }
    }
    Table(rows, t.rowSize)
  }

  lemma NextEnergy(t: Table<nat>, c: Coord)
    requires WellFormed(t) && InBounds(t, c)
    ensures Energy(NextTable(t), c) ==
      if c in FlashSet(t) then 0 else Energy(t, c) + 1 + AdjCount(FlashSet(t), c)
  {
    SettledRowsAt(t, FlashSet(t), 0, c.1);
  }

  /** Two grids of one shape with the same energies are the same grid. */
  lemma TableExt(a: Table<nat>, b: Table<nat>)
    requires WellFormed(a) && WellFormed(b) && SameShape(a, b)
    requires forall c :: InBounds(a, c) ==> Energy(a, c) == Energy(b, c)
    ensures a == b
  {
    forall j | 0 <= j < |a.rows|
      ensures a.rows[j] == b.rows[j]
    {
      forall i | 0 <= i < |a.rows[j]|
        ensures a.rows[j][i] == b.rows[j][i]
      {
        assert InBounds(a, (i, j));
      }
    }
  }

  // ------------------------------------------------------------ one step

  lemma AdjCountGrow(f: set<Coord>, g: set<Coord>, d: Coord)
    requires f <= g
    ensures AdjCount(g, d) == AdjCount(f, d) + AdjCount(g - f, d)
  {
    assert g == f + (g - f);
    AdjCountUnion(f, g - f, d);
  }

  /** What the flash loop of a step keeps true, relative to the charged
      state `c0`: the energy of each cell is its charged energy plus its
      flashed neighbours, flashed octopi stay above 9, and the counter
      grows with the flashed set. */
  ghost predicate FlashLoop(c0: OctopusCave, s: OctopusCave, base: nat)
  {
    Valid(c0) && Valid(s) && SameShape(s.octopi, c0.octopi) &&
    s.overcharged == c0.overcharged && c0.flashed == {} &&
    HotFlashed(s) && Settled(c0, s) &&
    (forall d :: InBounds(c0.octopi, d) ==>
      Energy(s.octopi, d) == Energy(c0.octopi, d) + AdjCount(s.flashed, d)) &&
    s.flashCount == base + |s.flashed|
  }

  /** One flash of the loop keeps `FlashLoop`. */
  lemma FlashLoopStep(c0: OctopusCave, s: OctopusCave, base: nat, o: Coord)
    requires FlashLoop(c0, s, base) && InBounds(s.octopi, o) && Energy(c0.octopi, o) > 9
    ensures FlashLoop(c0, FlashOctopus(s, o), base)
  {
    var next := FlashOctopus(s, o);
    forall d | InBounds(c0.octopi, d)
      ensures Energy(next.octopi, d) == Energy(c0.octopi, d) + AdjCount(next.flashed, d)
    {
      FlashEnergy(s, o, d);
      AdjCountGrow(s.flashed, next.flashed, d);
    }
    FlashHot(s, o);
    FlashSettled(s, o);
    SettledTrans(c0, s, next);
    SubsetCard(s.flashed, next.flashed);
  }

  /** Flashes every overcharged octopus, in an unspecified order. Whatever
      the order, only octopi of a set closed under flashing can flash. */
  method FlashOvercharged(c0: OctopusCave, base: nat) returns (s: OctopusCave)
    requires Valid(c0) && c0.flashed == {} && c0.flashCount == base
    requires forall d :: d in c0.overcharged ==> Energy(c0.octopi, d) > 9
    ensures FlashLoop(c0, s, base) && c0.overcharged <= s.flashed
    ensures forall z :: Closed(c0, z) ==> s.flashed <= z
  {
    s := c0;
    DiffSelf({});
    forall d | InBounds(c0.octopi, d)
      ensures Energy(s.octopi, d) == Energy(c0.octopi, d) + AdjCount(s.flashed, d)
    {
      AdjCountEmpty(d);
    }
    forall z | Closed(c0, z)
      ensures Within(s, z, [])
    {
      assert z - s.flashed == z;
    }
    var pending := c0.overcharged;
    while pending != {}
      invariant FlashLoop(c0, s, base)
      invariant pending <= c0.overcharged && c0.overcharged - pending <= s.flashed
      invariant forall z :: Closed(c0, z) ==> Within(s, z, [])
      decreases |pending|
    {
      var o :| o in pending;
      FlashLoopStep(c0, s, base, o);
      forall z | Closed(c0, z)
        ensures Within(FlashOctopus(s, o), z, [])
      {
        FlashWithin(s, o, z, []);
      }
      s := FlashOctopus(s, o);
      pending := pending - {o};
    }
  }

  /** After the flash loop and the reset, pointwise: an octopus has flashed
      exactly when its energy plus one plus its flashed neighbours is above
      9; it is then at 0, and otherwise at that sum, which is at least 1 and
      at most 9. */
  lemma StepOutcome(st: OctopusCave, s: OctopusCave, t: Table<nat>, d: Coord)
    requires Valid(st) && AtRest(st) && FlashLoop(ChargeOctopi(st), s, st.flashCount)
    requires ChargeOctopi(st).overcharged <= s.flashed
    requires WellFormed(t) && SameShape(t, st.octopi)
    requires forall e :: InBounds(st.octopi, e) ==>
      Energy(t, e) == if e in s.flashed then 0 else Energy(s.octopi, e)
    requires InBounds(st.octopi, d)
    ensures d in s.flashed <==> Energy(st.octopi, d) + 1 + AdjCount(s.flashed, d) > 9
    ensures Energy(t, d) == 0 <==> d in s.flashed
    ensures d !in s.flashed ==> Energy(t, d) == Energy(st.octopi, d) + 1 + AdjCount(s.flashed, d) <= 9
  {
    var c0 := ChargeOctopi(st);
    assert Energy(s.octopi, d) == Energy(c0.octopi, d) + AdjCount(s.flashed, d);
    assert Energy(c0.octopi, d) == Energy(st.octopi, d) + 1;
  }

  /** The step's outcome over the whole grid: the flashed set is exactly
      the zeros, and every other octopus is calm. */
  lemma StepOutcomes(st: OctopusCave, s: OctopusCave, t: Table<nat>)
    requires Valid(st) && AtRest(st) && FlashLoop(ChargeOctopi(st), s, st.flashCount)
    requires ChargeOctopi(st).overcharged <= s.flashed
    requires WellFormed(t) && SameShape(t, st.octopi)
    requires forall e :: InBounds(st.octopi, e) ==>
      Energy(t, e) == if e in s.flashed then 0 else Energy(s.octopi, e)
    ensures Zeros(t) == s.flashed && Calm(t)
    ensures forall d :: InBounds(st.octopi, d) ==>
      (d in s.flashed <==> Energy(st.octopi, d) + 1 + AdjCount(s.flashed, d) > 9)
    ensures forall d :: InBounds(st.octopi, d) && d !in s.flashed ==>
      Energy(t, d) == Energy(st.octopi, d) + 1 + AdjCount(s.flashed, d)
  {
    forall d | InBounds(st.octopi, d)
      ensures d in s.flashed <==> Energy(st.octopi, d) + 1 + AdjCount(s.flashed, d) > 9
      ensures Energy(t, d) == 0 <==> d in s.flashed
      ensures d !in s.flashed ==> Energy(t, d) == Energy(st.octopi, d) + 1 + AdjCount(s.flashed, d) <= 9
    {
      StepOutcome(st, s, t, d);
    }
  }

  /** A set that is exactly the octopi its own flashes push above 9, and
      that lies inside every set closed under flashing, is `FlashSet`. */
  lemma LeastIsFlashSet(st: OctopusCave, f: set<Coord>)
    requires Valid(st)
    requires forall d :: InBounds(st.octopi, d) ==>
      (d in f <==> Energy(st.octopi, d) + 1 + AdjCount(f, d) > 9)
    requires forall d :: d in f ==> InBounds(st.octopi, d)
    requires forall z :: Closed(ChargeOctopi(st), z) ==> f <= z
    ensures f == FlashSet(st.octopi)
  {
    var c0 := ChargeOctopi(st);
    var g := FlashSet(st.octopi);
    FlashSetLeast(st.octopi);
    assert Ignited(st.octopi, f) <= f;
    assert Closed(c0, g) by {
      forall d | InBounds(c0.octopi, d) && Energy(c0.octopi, d) + AdjCount(g, d) > 9
        ensures d in g
      {
        assert d in Ignited(st.octopi, g);
      }
    }
  }

  /** The flash loop's set is the step's `FlashSet`, and the grid after
      the reset is `NextTable`. */
  lemma StepIsNext(st: OctopusCave, s: OctopusCave, t: Table<nat>)
    requires Valid(st) && AtRest(st) && FlashLoop(ChargeOctopi(st), s, st.flashCount)
    requires ChargeOctopi(st).overcharged <= s.flashed
    requires forall z :: Closed(ChargeOctopi(st), z) ==> s.flashed <= z
    requires WellFormed(t) && SameShape(t, st.octopi)
    requires forall e :: InBounds(st.octopi, e) ==>
      Energy(t, e) == if e in s.flashed then 0 else Energy(s.octopi, e)
    ensures s.flashed == FlashSet(st.octopi) && t == NextTable(st.octopi)
  {
    StepOutcomes(st, s, t);
    LeastIsFlashSet(st, s.flashed);
    forall c | InBounds(t, c)
      ensures Energy(t, c) == Energy(NextTable(st.octopi), c)
    {
      NextEnergy(st.octopi, c);
    }
    TableExt(t, NextTable(st.octopi));
  }

  /** Sets the octopus at `c` to 0, through `get_elem_mut_at_coord`. */
  function Drain(t: Table<nat>, c: Coord): (r: Table<nat>)
    requires WellFormed(t) && InBounds(t, c)
    ensures WellFormed(r) && SameShape(r, t)
    ensures forall d :: InBounds(t, d) ==> Energy(r, d) == if d == c then 0 else Energy(t, d)
  {
    Table(t.rows[c.1 := t.rows[c.1][c.0 := 0]], t.rowSize)
  }

  /** Resets every flashed octopus to 0, in an unspecified order. */
  method DrainFlashed(t: Table<nat>, f: set<Coord>) returns (r: Table<nat>)
    requires WellFormed(t) && forall d :: d in f ==> InBounds(t, d)
    ensures WellFormed(r) && SameShape(r, t)
    ensures forall d :: InBounds(t, d) ==> Energy(r, d) == if d in f then 0 else Energy(t, d)
  {
    r := t;
    var pending := f;
    while pending != {}
      invariant WellFormed(r) && SameShape(r, t) && pending <= f
      invariant forall d :: InBounds(t, d) ==>
        Energy(r, d) == if d in f - pending then 0 else Energy(t, d)
      decreases |pending|
    {
      var o :| o in pending;
      r := Drain(r, o);
      pending := pending - {o};
    }
  }

  /** `process_octopi`: charge every octopus, flash the overcharged ones
      and whatever their flashes push above 9, then reset the flashed
      octopi to 0. The octopi at 0 afterwards are exactly those that
      flashed: each one whose energy plus one plus its flashed neighbours
      exceeds 9. Every other octopus ends at that sum, at most 9. The
      zeros are the least such set, whatever order the overcharged octopi
      flash in, so the grid is `NextTable`'s. */
  method ProcessOctopi(st: OctopusCave) returns (r: OctopusCave)
    requires Valid(st) && AtRest(st)
    ensures Valid(r) && AtRest(r) && SameShape(r.octopi, st.octopi)
    ensures Calm(r.octopi)
    ensures r.flashCount == st.flashCount + |Zeros(r.octopi)|
    ensures forall d :: InBounds(st.octopi, d) ==>
      (d in Zeros(r.octopi) <==> Energy(st.octopi, d) + 1 + AdjCount(Zeros(r.octopi), d) > 9)
    ensures forall d :: InBounds(st.octopi, d) && d !in Zeros(r.octopi) ==>
      Energy(r.octopi, d) == Energy(st.octopi, d) + 1 + AdjCount(Zeros(r.octopi), d)
    ensures forall z :: Ignited(st.octopi, z) <= z ==> Zeros(r.octopi) <= z
    ensures Zeros(r.octopi) == FlashSet(st.octopi) && r.octopi == NextTable(st.octopi)
  {
    var c0 := ChargeOctopi(st);
    var s := FlashOvercharged(c0, st.flashCount);
    var t := DrainFlashed(s.octopi, s.flashed);
    StepOutcomes(st, s, t);
    StepIsNext(st, s, t);
    FlashSetLeast(st.octopi);
    r := OctopusCave(t, {}, {}, s.flashCount);
  }

  // ------------------------------------------------------------- many steps

  lemma ZerosAreCells(t: Table<nat>)
    requires WellFormed(t)
    ensures Zeros(t) <= Cells(t)
  {
    CellsMembers(t);
  }

  lemma SubsetSameCard(a: set<Coord>, b: set<Coord>)
    requires a <= b && |a| == |b|
    ensures a == b
  {
    assert |b - a| == |b| - |a|;
  }

  /** The grid after `k` steps. */
  function Iterate(t: Table<nat>, k: nat): (r: Table<nat>)
    requires WellFormed(t)
    ensures WellFormed(r) && SameShape(r, t)
    decreases k
  {
    if k == 0 then t else Iterate(NextTable(t), k - 1)
  }

  lemma {:induction false} IterateNext(t: Table<nat>, k: nat)
    requires WellFormed(t)
    ensures Iterate(t, k + 1) == NextTable(Iterate(t, k))
    decreases k
  {
    if k > 0 {
      IterateNext(NextTable(t), k - 1);
      assert Iterate(NextTable(t), k - 1 + 1) == Iterate(NextTable(t), k);
      assert Iterate(t, k + 1) == Iterate(NextTable(t), k);
      assert Iterate(t, k) == Iterate(NextTable(t), k - 1);
    }
  }

  /** The flashes during the first `k` steps: those of the first `k - 1`
      plus the flash set of the grid they leave. */
  function FlashTotal(t: Table<nat>, k: nat): nat
    requires WellFormed(t)
    decreases k
  {
    if k == 0 then 0 else FlashTotal(t, k - 1) + |FlashSet(Iterate(t, k - 1))|
  }

  /** `process_n_times`: `n` steps in a row. The grid is the `n`-th iterate
      and the counter has grown by the flashes of those steps, at most one
      per cell and step; after at least one step every octopus is at most
      9. */
  method ProcessNTimes(st: OctopusCave, n: nat) returns (r: OctopusCave)
    requires Valid(st) && AtRest(st)
    ensures Valid(r) && AtRest(r) && SameShape(r.octopi, st.octopi)
    ensures r.octopi == Iterate(st.octopi, n)
    ensures r.flashCount == st.flashCount + FlashTotal(st.octopi, n)
    ensures st.flashCount <= r.flashCount <= st.flashCount + n * |Cells(st.octopi)|
    ensures n > 0 ==> Calm(r.octopi)
  {
    r := st;
    var k := |Cells(st.octopi)|;
    for i := 0 to n
      invariant Valid(r) && AtRest(r) && SameShape(r.octopi, st.octopi)
      invariant r.octopi == Iterate(st.octopi, i)
      invariant r.flashCount == st.flashCount + FlashTotal(st.octopi, i)
      invariant st.flashCount <= r.flashCount <= st.flashCount + i * k
      invariant i > 0 ==> Calm(r.octopi)
    {
      IterateNext(st.octopi, i);
      r := ProcessOctopi(r);
      ZerosAreCells(r.octopi);
      SubsetCard(Zeros(r.octopi), Cells(r.octopi));
      assert Cells(r.octopi) == Cells(st.octopi);
      MulSucc(i, k);
    }
  }

  /** The next step of `t` flashes `row_size * rows.len()` octopi, the
      condition `process_until_sync` stops on. */
  predicate Synced(t: Table<nat>)
    requires WellFormed(t)
  {
    |FlashSet(t)| == Width(t) * |t.rows|
  }

  /** A step is synced exactly when every octopus flashes in it. */
  lemma SyncedCount(t: Table<nat>)
    requires WellFormed(t)
    ensures Synced(t) <==> FlashSet(t) == Cells(t)
  {
    FlashSetLeast(t);
    CellsMembers(t);
    CellsCard(t);
    assert FlashSet(t) <= Cells(t);
    if |FlashSet(t)| == Width(t) * |t.rows| {
      SubsetSameCard(FlashSet(t), Cells(t));
    }
  }

  /** Every octopus is at 0. */
  ghost predicate Dark(t: Table<nat>)
    requires WellFormed(t)
  {
    forall c :: InBounds(t, c) ==> Energy(t, c) == 0
  }

  /** A step flashes `row_size * rows.len()` octopi from a zero counter
      exactly when afterwards every octopus is at 0. */
  lemma SyncedIsDark(r: OctopusCave)
    requires Valid(r) && r.flashCount == |Zeros(r.octopi)|
    ensures r.flashCount == Width(r.octopi) * |r.octopi.rows| <==> Dark(r.octopi)
  {
    ZerosAreCells(r.octopi);
    CellsCard(r.octopi);
    CellsMembers(r.octopi);
    if r.flashCount == Width(r.octopi) * |r.octopi.rows| {
      SubsetSameCard(Zeros(r.octopi), Cells(r.octopi));
    }
    if Dark(r.octopi) {
      assert Zeros(r.octopi) == Cells(r.octopi);
    }
  }

  /** The grids the first `n` steps start from: entry `k` is the grid after
      `k` steps. */
  function Trajectory(t: Table<nat>, n: nat): (r: seq<Table<nat>>)
    requires WellFormed(t)
    ensures |r| == n && AllWellFormed(r)
  {
    seq(n, k requires 0 <= k < n => Iterate(t, k))
  }

  ghost predicate AllWellFormed(s: seq<Table<nat>>)
  {
    forall i :: 0 <= i < |s| ==> WellFormed(s[i])
  }

  /** The first index from `i` on whose step is synced, if any. */
  function FirstSyncIn(s: seq<Table<nat>>, i: nat): (r: Option<nat>)
    requires AllWellFormed(s) && i <= |s|
    ensures r.Some? ==> i <= r.value < |s| && Synced(s[r.value])
    ensures r.Some? ==> forall k :: i <= k < r.value ==> !Synced(s[k])
    ensures r.None? ==> forall k :: i <= k < |s| ==> !Synced(s[k])
    decreases |s| - i
  {
    if i == |s| then None
    else if Synced(s[i]) then Some(i)
    else FirstSyncIn(s, i + 1)
  }

  /** The first of the `fuel` steps from `t` that is synced, counted from
      0, if there is one. */
  function FirstSync(t: Table<nat>, fuel: nat): Option<nat>
    requires WellFormed(t)
  {
    FirstSyncIn(Trajectory(t, fuel), 0)
  }

  /** `FirstSync` is the first synced step within the bound; `None` means
      none of the `fuel` steps is synced. */
  lemma FirstSyncIsFirst(t: Table<nat>, fuel: nat)
    requires WellFormed(t)
    ensures FirstSync(t, fuel).Some? ==>
      FirstSync(t, fuel).value < fuel && Synced(Iterate(t, FirstSync(t, fuel).value)) &&
      forall k :: 0 <= k < FirstSync(t, fuel).value ==> !Synced(Iterate(t, k))
    ensures FirstSync(t, fuel).None? ==> forall k :: 0 <= k < fuel ==> !Synced(Iterate(t, k))
  {
    var s := Trajectory(t, fuel);
    if FirstSync(t, fuel).Some? {
    }
    forall k | 0 <= k < (if FirstSync(t, fuel).Some? then FirstSync(t, fuel).value else fuel)
      ensures !Synced(Iterate(t, k))
    {
      assert !Synced(s[k]);
    }
  }

  /** None of the first `n` steps from `t` is synced. */
  ghost predicate NoneSyncedBelow(t: Table<nat>, n: nat)
    requires WellFormed(t)
  {
    forall j :: 0 <= j < n ==> !Synced(Iterate(t, j))
  }

  /** When none of the `fuel` steps syncs, `FirstSync` finds nothing. */
  lemma FirstSyncNone(t: Table<nat>, fuel: nat)
    requires WellFormed(t) && NoneSyncedBelow(t, fuel)
    ensures FirstSync(t, fuel) == None
  {
    FirstSyncIsFirst(t, fuel);
  }

  /** What the sync loop knows after `step` steps from `st`: the grid is
      the `step`-th iterate; after a step the counter holds that step's
      flashes, so it covers the grid exactly when that step synced, and no
      earlier step did. */
  ghost predicate Searching(st: OctopusCave, step: nat, r: OctopusCave)
  {
    Valid(st) && Valid(r) && AtRest(r) && SameShape(r.octopi, st.octopi) &&
    r.octopi == Iterate(st.octopi, step) &&
    (step == 0 ==> r == st) &&
    (step > 0 ==>
      st.flashCount != Width(st.octopi) * |st.octopi.rows| &&
      r.flashCount == |Zeros(r.octopi)| &&
      (r.flashCount == Width(st.octopi) * |st.octopi.rows| <==> Synced(Iterate(st.octopi, step - 1))) &&
      NoneSyncedBelow(st.octopi, step - 1))
  }

  /** An unsynced step extends the unsynced prefix. */
  lemma NoneSyncedGrow(t: Table<nat>, n: nat)
    requires WellFormed(t) && n > 0 && NoneSyncedBelow(t, n - 1) && !Synced(Iterate(t, n - 1))
    ensures NoneSyncedBelow(t, n)
  {
  }

  /** The loop passes a step only when its counter falls short. */
  lemma SearchPasses(st: OctopusCave, step: nat, r: OctopusCave)
    requires Searching(st, step, r) && r.flashCount != Width(st.octopi) * |st.octopi.rows|
    ensures NoneSyncedBelow(st.octopi, step)
  {
    if step > 0 {
      NoneSyncedGrow(st.octopi, step);
    }
  }

  /** One pass of the sync loop: reset the counter, run a step. */
  method SearchStep(st: OctopusCave, step: nat, r: OctopusCave) returns (r': OctopusCave)
    requires Searching(st, step, r) && r.flashCount != Width(st.octopi) * |st.octopi.rows|
    ensures Searching(st, step + 1, r')
  {
    SearchPasses(st, step, r);
    IterateNext(st.octopi, step);
    r' := ProcessOctopi(r.(flashCount := 0));
  }

  /** Running out of fuel while the counter falls short: no step synced. */
  lemma SearchExhausted(st: OctopusCave, fuel: nat, r: OctopusCave)
    requires Searching(st, fuel, r) && r.flashCount != Width(st.octopi) * |st.octopi.rows|
    ensures FirstSync(st.octopi, fuel) == None
  {
    SearchPasses(st, fuel, r);
    FirstSyncNone(st.octopi, fuel);
  }

  /** When step `n - 1` is below the bound and syncs, and no step before it
      does, `FirstSync` finds it: the converse of `FirstSyncIsFirst`. The
      step is named by the count `n` of steps taken, as the loop counts. */
  lemma FirstSyncAt(t: Table<nat>, fuel: nat, n: nat)
    requires WellFormed(t) && 0 < n <= fuel && Synced(Iterate(t, n - 1)) && NoneSyncedBelow(t, n - 1)
    ensures FirstSync(t, fuel) == Some(n - 1)
  {
    FirstSyncIsFirst(t, fuel);
  }

  /** Leaving the loop with a full counter after `step` steps: the last step
      is the first synced one, and every octopus is dark. */
  lemma SearchFound(st: OctopusCave, fuel: nat, step: nat, r: OctopusCave)
    requires Searching(st, step, r) && step <= fuel
    requires r.flashCount == Width(st.octopi) * |st.octopi.rows|
    ensures r.flashCount == Width(r.octopi) * |r.octopi.rows|
    ensures st.flashCount != Width(st.octopi) * |st.octopi.rows| ==>
      step > 0 && FirstSync(st.octopi, fuel) == Some(step - 1) && Dark(r.octopi)
  {
    if step > 0 {
      FirstSyncAt(st.octopi, fuel, step);
      SyncedIsDark(r);
    }
  }

  /** How the sync loop can stop: with a full counter after `n <= fuel`
      steps, or with the fuel spent and the counter short. */
  ghost predicate Stopped(st: OctopusCave, fuel: nat, r: OctopusCave, steps: Option<nat>)
  {
    match steps
    case Some(n) => Searching(st, n, r) && n <= fuel && r.flashCount == Width(st.octopi) * |st.octopi.rows|
    case None => Searching(st, fuel, r) && r.flashCount != Width(st.octopi) * |st.octopi.rows|
  }

  /** The loop of `process_until_sync` from step `step` on, bounded by
      `fuel` steps in all: it stops on a full counter or when the fuel is
      spent, and otherwise runs one more step. */
  method SearchFrom(st: OctopusCave, fuel: nat, step: nat, r: OctopusCave) returns (r': OctopusCave, steps: Option<nat>)
    requires Searching(st, step, r) && step <= fuel && st.octopi.rowSize.Some?
    ensures Stopped(st, fuel, r', steps) == true
    decreases fuel - step, 2
  {
    if r.flashCount == st.octopi.rowSize.value * |st.octopi.rows| {
      r', steps := r, Some(step);
    } else if step == fuel {
      r', steps := r, None;
    } else {
      r', steps := SearchOn(st, fuel, step, r);
    }
  }

  /** One more pass of the sync loop, then the rest of the search. */
  method SearchOn(st: OctopusCave, fuel: nat, step: nat, r: OctopusCave) returns (r': OctopusCave, steps: Option<nat>)
    requires Searching(st, step, r) && step < fuel && st.octopi.rowSize.Some?
    requires r.flashCount != Width(st.octopi) * |st.octopi.rows|
    ensures Stopped(st, fuel, r', steps) == true
    decreases fuel - step, 1
  {
    var next := SearchStep(st, step, r);
    r', steps := SearchAfter(st, fuel, step, next);
  }

  /** The rest of the search once step `step` has run. */
  method SearchAfter(st: OctopusCave, fuel: nat, step: nat, next: OctopusCave) returns (r': OctopusCave, steps: Option<nat>)
    requires Searching(st, step + 1, next) && step < fuel && st.octopi.rowSize.Some?
    ensures Stopped(st, fuel, r', steps) == true
    decreases fuel - step, 0
  {
    r', steps := SearchFrom(st, fuel, step + 1, next);
  }

  /** Where the sync loop stops, found or exhausted: the state it leaves
      and the number of steps it reports. */
  lemma SearchOutcome(st: OctopusCave, fuel: nat, r: OctopusCave, steps: Option<nat>)
    requires Stopped(st, fuel, r, steps)
    ensures Valid(r) && AtRest(r) && SameShape(r.octopi, st.octopi)
    ensures st.flashCount == Width(st.octopi) * |st.octopi.rows| ==> steps == Some(0) && r == st
    ensures steps.Some? ==> steps.value <= fuel && r.flashCount == Width(r.octopi) * |r.octopi.rows|
    ensures steps.Some? ==> r.octopi == Iterate(st.octopi, steps.value)
    ensures steps.Some? && steps.value > 0 ==> Dark(r.octopi)
  {
    if steps.Some? {
      SearchFound(st, fuel, steps.value, r);
    }
  }

  /** The number of steps the sync loop reports is one more than the first
      synced step, and nothing when none of the `fuel` steps syncs. */
  lemma SearchReports(st: OctopusCave, fuel: nat, r: OctopusCave, steps: Option<nat>)
    requires Stopped(st, fuel, r, steps)
    ensures st.flashCount != Width(st.octopi) * |st.octopi.rows| ==>
      match FirstSync(st.octopi, fuel)
      case None => steps.None?
      case Some(k) => steps == Some(k + 1)
  {
    match steps
    case Some(n) => SearchFound(st, fuel, n, r);
    case None => SearchExhausted(st, fuel, r);
  }

  /** `process_until_sync`: resets the counter and runs steps until one step
      flashes every octopus, returning the number of steps taken: 0 when the
      counter already equals the number of octopi, otherwise one more than
      the index of the first synced step (`FirstSync`). The loop condition
      reads `row_size`, which an empty table does not have; the search runs
      for at most `fuel` steps, and `None` then means none of them synced. */
  method ProcessUntilSync(st: OctopusCave, fuel: nat) returns (r: OctopusCave, steps: Option<nat>)
    requires Valid(st) && AtRest(st)
    ensures Valid(r) && AtRest(r) && SameShape(r.octopi, st.octopi)
    ensures st.octopi.rowSize.None? ==> steps.None? && r == st
    ensures st.octopi.rowSize.Some? && st.flashCount == Width(st.octopi) * |st.octopi.rows| ==>
      steps == Some(0) && r == st
    ensures st.octopi.rowSize.Some? && st.flashCount != Width(st.octopi) * |st.octopi.rows| ==>
      match FirstSync(st.octopi, fuel)
      case None => steps.None?
      case Some(k) => steps == Some(k + 1)
    ensures steps.Some? ==> steps.value <= fuel && r.flashCount == Width(r.octopi) * |r.octopi.rows|
    ensures steps.Some? ==> r.octopi == Iterate(st.octopi, steps.value)
    ensures steps.Some? && steps.value > 0 ==> Dark(r.octopi)
  {
    r := st;
    if st.octopi.rowSize.None? {
      return r, None;
    }
    r, steps := SearchFrom(st, fuel, 0, st);
    SearchOutcome(st, fuel, r, steps);
    SearchReports(st, fuel, r, steps);
  }
}

=== FILE: origami.dfy ===
/** Day thirteen: a sheet of transparent paper with dots, folded along
    axis lines. Folding moves every dot beyond the line onto its mirror
    image; dots that land on each other merge. */
module Origami {
  import opened Wrappers
  import opened Grid

  /** The dots, and the fold instructions in input order. */
  datatype Paper = Paper(dots: set<Coord>, foldIns: seq<(PlaneAxis, int)>)

  /** The dot lies strictly beyond the fold line. */
  predicate Beyond(c: Coord, axis: PlaneAxis, l: int)
  {
    match axis
    case X => c.0 > l
    case Y => c.1 > l
  }

  function BeyondDots(dots: set<Coord>, axis: PlaneAxis, l: int): (r: set<Coord>)
    ensures forall c :: c in r <==> c in dots && Beyond(c, axis, l)
  {
    set c | c in dots && Beyond(c, axis, l)
  }

  function Image(s: set<Coord>, axis: PlaneAxis, l: int): set<Coord>
  {
    set c | c in s :: Reflect(axis, c, l)
  }

  /** The paper after one fold, as a set: the dots up to the line, and the
      mirror images of the dots beyond it. */
  function FoldImage(dots: set<Coord>, axis: PlaneAxis, l: int): set<Coord>
  {
    (dots - BeyondDots(dots, axis, l)) + Image(BeyondDots(dots, axis, l), axis, l)
  }

  /** Removes each dot beyond the line and inserts its reflection, visiting
      the dots beyond the line in an unspecified order. */
  method FoldAcross(dots: set<Coord>, axis: PlaneAxis, l: int) returns (r: set<Coord>)
    ensures r == FoldImage(dots, axis, l)
  {
    var beyond := BeyondDots(dots, axis, l);
    var pending := beyond;
    ghost var done: set<Coord> := {};
    r := dots;
    while pending != {}
      invariant done <= beyond && pending == beyond - done
      invariant r == (dots - done) + Image(done, axis, l)
      decreases |pending|
    {
      var c :| c in pending;
      FoldOne(dots, axis, l, done, c);
      r := (r - {c}) + {Reflect(axis, c, l)};
      done := done + {c};
      pending := pending - {c};
    }
    assert done == beyond;
  }

  /** Moving one more dot beyond the line onto its mirror image. */
  lemma FoldOne(dots: set<Coord>, axis: PlaneAxis, l: int, done: set<Coord>, c: Coord)
    requires done <= BeyondDots(dots, axis, l) && c in BeyondDots(dots, axis, l) && c !in done
    ensures ((dots - done) + Image(done, axis, l)) - {c} + {Reflect(axis, c, l)} ==
      (dots - (done + {c})) + Image(done + {c}, axis, l)
  {
    var beyond := BeyondDots(dots, axis, l);
    ReflectInvolution(axis, c, l);
    assert Reflect(axis, c, l) !in beyond;
    forall d | d in done
      ensures Reflect(axis, d, l) != c
    {
      ReflectInvolution(axis, d, l);
    }
    assert c !in Image(done, axis, l);
    assert Image(done + {c}, axis, l) == Image(done, axis, l) + {Reflect(axis, c, l)};
  }

  /** Membership after a fold, pointwise: a point carries a dot when it
      had one and is not beyond the line, or when its mirror image is a dot
      beyond the line. */
  lemma FoldMembership(dots: set<Coord>, axis: PlaneAxis, l: int, p: Coord)
    ensures p in FoldImage(dots, axis, l) <==>
      (p in dots && !Beyond(p, axis, l)) ||
      (Reflect(axis, p, l) in dots && Beyond(Reflect(axis, p, l), axis, l))
  {
    ReflectInvolution(axis, p, l);
    if p in Image(BeyondDots(dots, axis, l), axis, l) {
      var d :| d in BeyondDots(dots, axis, l) && Reflect(axis, d, l) == p;
      ReflectInvolution(axis, d, l);
    }
    if Reflect(axis, p, l) in dots && Beyond(Reflect(axis, p, l), axis, l) {
      assert Reflect(axis, Reflect(axis, p, l), l) in Image(BeyondDots(dots, axis, l), axis, l);
    }
  }

  /** After a fold no dot lies beyond the line, and the dots up to the line
      are all still there. */
  lemma FoldLeavesNothingBeyond(dots: set<Coord>, axis: PlaneAxis, l: int)
    ensures forall p :: p in FoldImage(dots, axis, l) ==> !Beyond(p, axis, l)
    ensures forall p :: p in dots && !Beyond(p, axis, l) ==> p in FoldImage(dots, axis, l)
  {
    forall p | p in FoldImage(dots, axis, l)
      ensures !Beyond(p, axis, l)
    {
      FoldMembership(dots, axis, l, p);
      ReflectInvolution(axis, p, l);
    }
  }

  lemma {:induction false} ImageNoLarger(s: set<Coord>, axis: PlaneAxis, l: int)
    ensures |Image(s, axis, l)| <= |s|
    decreases |s|
  {
    if s != {} {
      var c :| c in s;
      ImageNoLarger(s - {c}, axis, l);
      assert Image(s, axis, l) == Image(s - {c}, axis, l) + {Reflect(axis, c, l)};
    }
  }

  /** A fold never adds dots: images that coincide merge. */
  lemma FoldNoMoreDots(dots: set<Coord>, axis: PlaneAxis, l: int)
    ensures |FoldImage(dots, axis, l)| <= |dots|
  {
    var b := BeyondDots(dots, axis, l);
    ImageNoLarger(b, axis, l);
    assert dots == (dots - b) + b;
  }

  /** The dots after the given folds, applied first to last. */
  function ApplyFolds(dots: set<Coord>, ins: seq<(PlaneAxis, int)>): set<Coord>
    decreases |ins|
  {
    if |ins| == 0 then dots
    else ApplyFolds(FoldImage(dots, ins[0].0, ins[0].1), ins[1..])
  }

  lemma {:induction false} ApplyFoldsSnoc(dots: set<Coord>, ins: seq<(PlaneAxis, int)>, f: (PlaneAxis, int))
    ensures ApplyFolds(dots, ins + [f]) == FoldImage(ApplyFolds(dots, ins), f.0, f.1)
    decreases |ins|
  {
    if |ins| == 0 {
      assert ins + [f] == [f];
      assert [f][1..] == [];
    } else {
      assert (ins + [f])[1..] == ins[1..] + [f];
      ApplyFoldsSnoc(FoldImage(dots, ins[0].0, ins[0].1), ins[1..], f);
    }
  }

  /** No sequence of folds adds dots. */
  lemma {:induction false} ApplyFoldsNoMoreDots(dots: set<Coord>, ins: seq<(PlaneAxis, int)>)
    ensures |ApplyFolds(dots, ins)| <= |dots|
    decreases |ins|
  {
    if |ins| > 0 {
      FoldNoMoreDots(dots, ins[0].0, ins[0].1);
      ApplyFoldsNoMoreDots(FoldImage(dots, ins[0].0, ins[0].1), ins[1..]);
    }
  }

  const TooManyFolds := "cannot fold that many instructions"

  /** Performs the first `n` fold instructions in order; asking for more
      folds than there are instructions is an error. */
  method FoldAgainstNInstructions(p: Paper, n: nat) returns (r: Result<Paper, string>)
    ensures r.Failure? <==> n > |p.foldIns|
    ensures r.Success? ==> r.value.foldIns == p.foldIns && r.value.dots == ApplyFolds(p.dots, p.foldIns[..n])
  {
    if n > |p.foldIns| {
      return Failure(TooManyFolds);
    }
    var dots := p.dots;
    for i := 0 to n
      invariant dots == ApplyFolds(p.dots, p.foldIns[..i])
    {
      var f := p.foldIns[i];
      dots := FoldAcross(dots, f.0, f.1);
      ApplyFoldsSnoc(p.dots, p.foldIns[..i], f);
      assert p.foldIns[..i + 1] == p.foldIns[..i] + [f];
    }
    r := Success(Paper(dots, p.foldIns));
  }

  /** Performs every fold instruction. */
  method FoldAll(p: Paper) returns (r: Paper)
    ensures r.foldIns == p.foldIns && r.dots == ApplyFolds(p.dots, p.foldIns)
    ensures |r.dots| <= |p.dots|
  {
    var res := FoldAgainstNInstructions(p, |p.foldIns|);
    assert p.foldIns[..|p.foldIns|] == p.foldIns;
    ApplyFoldsNoMoreDots(p.dots, p.foldIns);
    r := res.value;
  }
}

=== FILE: rucksacks.dfy ===
/** Rucksack reorganisation (the Java `daythree` package): each line is a
    rucksack whose first half of items goes in one compartment and second
    half in the other; the score adds the priorities of the items found in
    both compartments, or, for groups of three rucksacks, of the items all
    three carry. Compartments are sets, so the order in which the source
    walks them is not modelled; the scores are sums and do not depend on
    it. */
module Rucksacks {
  import opened Wrappers

  // ---------------------------------------------------------------------
  // Priorities

  predicate IsLower(c: char)
  {
    'a' <= c <= 'z'
  }

  predicate IsUpper(c: char)
  {
    'A' <= c <= 'Z'
  }

  predicate IsLetter(c: char)
  {
    IsLower(c) || IsUpper(c)
  }

  const PRIORITY_ERROR := "Character not valid for priority calculation"

  /** `getPriority` as written: characters up to 'Z' count back from 52,
      characters up to 'z' count back from 26, larger ones throw. The guard
      for characters below 'A' has an empty body, so they do not throw. */
  function GetPriority(input: char): (r: Result<int, string>)
    ensures r.Success? <==> input <= 'z'
    ensures r.Failure? ==> r.error == PRIORITY_ERROR
    ensures IsLower(input) ==> r == Success(input as int - 'a' as int + 1)
    ensures IsUpper(input) ==> r == Success(input as int - 'A' as int + 27)
  {
    if input as int <= 'Z' as int then Success(26 * 2 - ('Z' as int - input as int))
    else if input as int <= 'z' as int then Success(26 - ('z' as int - input as int))
    else Failure(PRIORITY_ERROR)
  }

  /** Characters that are not letters get priorities of zero or less
      instead of the exception the empty guard was meant to throw. */
  lemma GetPriorityAcceptsNonLetters()
    ensures GetPriority('!') == Success(-5)
    ensures GetPriority('[') == Success(-5)
    ensures GetPriority('`') == Success(0)
  {
  }

  /** The priority the puzzle defines: a to z are 1 to 26, A to Z are 27
      to 52, and every other character is rejected. */
  function Priority(c: char): (r: Result<int, string>)
    ensures r.Success? <==> IsLetter(c)
    ensures r.Success? ==> 1 <= r.value <= 52
    ensures r.Success? ==> (r.value <= 26 <==> IsLower(c))
    ensures r.Failure? ==> r.error == PRIORITY_ERROR
  {
    if IsLetter(c) then GetPriority(c) else Failure(PRIORITY_ERROR)
  }

  /** Different letters have different priorities. */
  lemma PriorityInjective(c: char, d: char)
    requires IsLetter(c) && IsLetter(d) && c != d
    ensures Priority(c).value != Priority(d).value
  {
  }

  /** On letters the code as written computes the intended priority. */
  lemma PriorityAgrees(c: char)
    requires IsLetter(c)
    ensures GetPriority(c) == Priority(c)
  {
  }

  /** The letter of priority `p`: the inverse of `Priority`. */
  function LetterOf(p: int): (c: char)
    requires 1 <= p <= 52
    ensures IsLetter(c) && Priority(c) == Success(p)
  {
    if p <= 26 then ('a' as int + p - 1) as char else ('A' as int + p - 27) as char
  }

  lemma LetterOfPriority(c: char)
    requires IsLetter(c)
    ensures LetterOf(Priority(c).value) == c
  {
  }

  // ---------------------------------------------------------------------
  // Sums of priorities over sets

  predicate AllLetters(s: set<char>)
  {
    forall c :: c in s ==> IsLetter(c)
  }

  /** The priorities 1 to `p` whose letters are in `s`, added up: for a
      set of letters and `p` = 52 this is the sum of its items'
      priorities, whatever order a loop takes them in. */
  function PrioritySum(s: set<char>, p: nat): (r: int)
    requires p <= 52
    ensures r >= 0
  {
    if p == 0 then 0 else PrioritySum(s, p - 1) + (if LetterOf(p) in s then p else 0)
  }

  /** A single letter adds its own priority. */
  lemma {:induction false} PrioritySumSingle(c: char, p: nat)
    requires IsLetter(c) && p <= 52
    ensures PrioritySum({c}, p) == if Priority(c).value <= p then Priority(c).value else 0
  {
    if p > 0 {
      PrioritySumSingle(c, p - 1);
      assert LetterOf(p) == c <==> p == Priority(c).value by {
        LetterOfPriority(c);
      }
    }
  }

  /** Sums over disjoint sets add up. */
  lemma {:induction false} PrioritySumUnion(a: set<char>, b: set<char>, p: nat)
    requires a * b == {} && p <= 52
    ensures PrioritySum(a + b, p) == PrioritySum(a, p) + PrioritySum(b, p)
  {
    if p > 0 {
      PrioritySumUnion(a, b, p - 1);
      assert !(LetterOf(p) in a && LetterOf(p) in b) by {
        assert LetterOf(p) !in a * b;
      }
    }
  }

  /** Each letter of the set counts in full. */
  lemma PrioritySumPositive(s: set<char>, c: char)
    requires c in s && IsLetter(c)
    ensures PrioritySum(s, 52) >= Priority(c).value
  {
    PrioritySumAtLeast(s, c, 52);
  }

  lemma {:induction false} PrioritySumAtLeast(s: set<char>, c: char, p: nat)
    requires c in s && IsLetter(c) && Priority(c).value <= p <= 52
    ensures PrioritySum(s, p) >= Priority(c).value
  {
    if p > Priority(c).value {
      PrioritySumAtLeast(s, c, p - 1);
    } else {
      LetterOfPriority(c);
    }
  }

  /** The loop over a set of items adding their priorities: the sum, or
      the exception of the first non-letter met, whichever item that is. */
  function SetScore(s: set<char>): (r: Result<int, string>)
    ensures r.Success? <==> AllLetters(s)
    ensures r.Failure? ==> r.error == PRIORITY_ERROR
  {
    if AllLetters(s) then Success(PrioritySum(s, 52)) else Failure(PRIORITY_ERROR)
  }

  /** What the loops of the scores compute with `getPriority` as written:
      the exception at an item above 'z', otherwise the values of all
      items, non-letters included. */
  function SetScoreAsWritten(s: set<char>): (r: Result<int, string>)
    ensures r.Success? <==> forall c :: c in s ==> c <= 'z'
    ensures r.Failure? ==> r.error == PRIORITY_ERROR
  {
    if forall c :: c in s ==> c <= 'z' then Success(CodeSum(s, 'z' as int + 1)) else Failure(PRIORITY_ERROR)
  }

  /** The `getPriority` values of the items of `s` with codes below `n`,
      added up. */
  function CodeSum(s: set<char>, n: nat): int
    requires n <= 'z' as int + 1
  {
    if n == 0 then 0
    else CodeSum(s, n - 1) + (if (n - 1) as char in s then GetPriority((n - 1) as char).value else 0)
  }

  lemma {:induction false} CodeSumSingle(c: char, n: nat)
    requires c <= 'z' && n <= 'z' as int + 1
    ensures CodeSum({c}, n) == if (c as int) < n then GetPriority(c).value else 0
  {
    if n > 0 {
      CodeSumSingle(c, n - 1);
      assert (n - 1) as char == c <==> n - 1 == c as int;
    }
  }

  lemma {:induction false} CodeSumUnion(a: set<char>, b: set<char>, n: nat)
    requires a * b == {} && n <= 'z' as int + 1
    ensures CodeSum(a + b, n) == CodeSum(a, n) + CodeSum(b, n)
  {
    if n > 0 {
      CodeSumUnion(a, b, n - 1);
      assert !((n - 1) as char in a && (n - 1) as char in b) by {
        assert (n - 1) as char !in a * b;
      }
    }
  }

  lemma {:induction false} SumsOfNothing(n: nat)
    ensures n <= 'z' as int + 1 ==> CodeSum({}, n) == 0
    ensures n <= 52 ==> PrioritySum({}, n) == 0
  {
    if n > 0 {
      SumsOfNothing(n - 1);
    }
  }

  /** On sets of letters the scores as written and as intended agree. */
  lemma {:induction false} SetScoreAgrees(s: set<char>)
    requires AllLetters(s)
    ensures SetScoreAsWritten(s) == SetScore(s)
    decreases s
  {
    if s == {} {
      SumsOfNothing('z' as int + 1);
      SumsOfNothing(52);
    } else {
      var c :| c in s;
      var rest := s - {c};
      assert s == rest + {c};
      SetScoreAgrees(rest);
      CodeSumUnion(rest, {c}, 'z' as int + 1);
      PrioritySumUnion(rest, {c}, 52);
      CodeSumSingle(c, 'z' as int + 1);
      PrioritySumSingle(c, 52);
    }
  }

  /** An item that is not a letter still scores as written, where the
      intended score rejects it. */
  lemma SetScoreAsWrittenAcceptsDigits()
    ensures SetScoreAsWritten({'1'}) == Success(11)
    ensures SetScore({'1'}).Failure?
  {
    CodeSumSingle('1', 'z' as int + 1);
  }

  // ---------------------------------------------------------------------
  // Rucksacks

  datatype Rucksack = Rucksack(firstCompartment: set<char>, secondCompartment: set<char>)

  function Items(s: seq<char>): set<char>
  {
    set c | c in s
  }

  /** `populateCompartments`: the first half (rounded down) of the items
      joins the first compartment, the rest the second; what was there
      stays. */
  function PopulateCompartments(r: Rucksack, chars: seq<char>): Rucksack
  {
    var half := |chars| / 2;
    Rucksack(r.firstCompartment + Items(chars[..half]), r.secondCompartment + Items(chars[half..]))
  }

  /** Item `i` of the line goes to the first compartment when it is in
      the first half, to the second otherwise, and nothing else is
      added. */
  lemma PopulateCompartmentsSpec(r: Rucksack, chars: seq<char>)
    ensures var r' := PopulateCompartments(r, chars);
      (forall i :: 0 <= i < |chars| / 2 ==> chars[i] in r'.firstCompartment) &&
      (forall i :: |chars| / 2 <= i < |chars| ==> chars[i] in r'.secondCompartment) &&
      r.firstCompartment <= r'.firstCompartment && r.secondCompartment <= r'.secondCompartment &&
      (forall c :: c in r'.firstCompartment - r.firstCompartment ==> exists i :: 0 <= i < |chars| / 2 && chars[i] == c) &&
      (forall c :: c in r'.secondCompartment - r.secondCompartment ==> exists i :: |chars| / 2 <= i < |chars| && chars[i] == c)
  {
    var half := |chars| / 2;
    var first, second := chars[..half], chars[half..];
    assert forall i :: 0 <= i < half ==> first[i] == chars[i];
    assert forall i :: half <= i < |chars| ==> second[i - half] == chars[i];
    forall c | c in second
      ensures exists i :: half <= i < |chars| && chars[i] == c
    {
      var j :| 0 <= j < |second| && second[j] == c;
      assert chars[half + j] == c;
    }
  }

  /** With an odd number of items the second compartment gets the extra
      one. */
  lemma HalvesSizes(chars: seq<char>)
    ensures |chars| / 2 + |chars| / 2 + |chars| % 2 == |chars|
    ensures |chars[|chars| / 2..]| == |chars[..|chars| / 2]| + |chars| % 2
  {
  }

  const EMPTY := Rucksack({}, {})

  /** The rucksack one input line describes. */
  function FromLine(line: string): Rucksack
  {
    PopulateCompartments(EMPTY, line)
  }

  /** `findEqualCharacters`: the items in both compartments, each once. */
  function FindEqualCharacters(r: Rucksack): (common: set<char>)
    ensures forall c :: c in common <==> c in r.firstCompartment && c in r.secondCompartment
  {
    r.firstCompartment * r.secondCompartment
  }

  /** An item is common to a line's rucksack exactly when it occurs in
      both halves of the line. */
  lemma CommonItems(line: string, c: char)
    ensures c in FindEqualCharacters(FromLine(line)) <==>
      (exists i :: 0 <= i < |line| / 2 && line[i] == c) && (exists j :: |line| / 2 <= j < |line| && line[j] == c)
  {
    PopulateCompartmentsSpec(EMPTY, line);
  }

  /** `unionCompartments` is called but not part of the `Rucksack` class
      shown; it is taken to be the union of both compartments. */
  function UnionCompartments(r: Rucksack): (all: set<char>)
    ensures forall c :: c in all <==> c in r.firstCompartment || c in r.secondCompartment
  {
    r.firstCompartment + r.secondCompartment
  }

  /** For a line's rucksack, the union holds exactly the line's items. */
  lemma UnionIsLine(line: string, c: char)
    ensures c in UnionCompartments(FromLine(line)) <==> c in line
  {
    PopulateCompartmentsSpec(EMPTY, line);
    if c in line {
      var i :| 0 <= i < |line| && line[i] == c;
    }
  }

  /** `parseFromInput` over the reader's lines: one fresh rucksack per
      line, in order. */
  function ParseFromInput(lines: seq<string>): (r: seq<Rucksack>)
    ensures |r| == |lines|
    ensures forall i :: 0 <= i < |lines| ==> r[i] == FromLine(lines[i])
  {
    seq(|lines|, i requires 0 <= i < |lines| => FromLine(lines[i]))
  }

  // ---------------------------------------------------------------------
  // Scores

  /** `getArrangementScore`: each rucksack's common items' priorities,
      added over the rucksacks; an item above `z` among them throws. */
  function ArrangementScore(rucksacks: seq<Rucksack>): (r: Result<int, string>)
    ensures r.Success? <==> forall i :: 0 <= i < |rucksacks| ==> SetScoreAsWritten(FindEqualCharacters(rucksacks[i])).Success?
  {
    ScoreFromSucceeds(rucksacks, 0);
    ScoreFrom(rucksacks, 0)
  }

  /** The loop of `getArrangementScore` from rucksack `k` on. */
  function ScoreFrom(rucksacks: seq<Rucksack>, k: nat): (r: Result<int, string>)
    requires k <= |rucksacks|
    decreases |rucksacks| - k
  {
    if k == |rucksacks| then Success(0)
    else AddScores(SetScoreAsWritten(FindEqualCharacters(rucksacks[k])), ScoreFrom(rucksacks, k + 1))
  }

  /** The loop gets through exactly when no common item lies above `z`. */
  lemma {:induction false} ScoreFromSucceeds(rucksacks: seq<Rucksack>, k: nat)
    requires k <= |rucksacks|
    ensures ScoreFrom(rucksacks, k).Success? <==>
      forall i :: k <= i < |rucksacks| ==> SetScoreAsWritten(FindEqualCharacters(rucksacks[i])).Success?
    decreases |rucksacks| - k
  {
    if k < |rucksacks| {
      ScoreFromSucceeds(rucksacks, k + 1);
    }
  }

  /** The loop over the second of two runs sees only that run. */
  lemma {:induction false} ScoreFromShift(a: seq<Rucksack>, b: seq<Rucksack>, j: nat)
    requires j <= |b|
    ensures ScoreFrom(a + b, |a| + j) == ScoreFrom(b, j)
    decreases |b| - j
  {
    if j < |b| {
      var k := |a| + j;
      assert (a + b)[k] == b[j];
      ScoreFromShift(a, b, j + 1);
      assert ScoreFrom(a + b, k + 1) == ScoreFrom(b, j + 1);
    }
  }

  lemma {:induction false} ScoreFromAppend(a: seq<Rucksack>, b: seq<Rucksack>, k: nat)
    requires k <= |a| && ScoreFrom(a, k).Success? && ArrangementScore(b).Success?
    ensures ScoreFrom(a + b, k) == Success(ScoreFrom(a, k).value + ArrangementScore(b).value)
    decreases |a| - k
  {
    if k == |a| {
      ScoreFromShift(a, b, 0);
    } else {
      assert (a + b)[k] == a[k];
      ScoreFromAppend(a, b, k + 1);
    }
  }

  /** The arrangement score of two runs of rucksacks is the sum of theirs. */
  lemma ArrangementScoreAppend(a: seq<Rucksack>, b: seq<Rucksack>)
    requires ArrangementScore(a).Success? && ArrangementScore(b).Success?
    ensures ArrangementScore(a + b) == Success(ArrangementScore(a).value + ArrangementScore(b).value)
  {
    ScoreFromAppend(a, b, 0);
  }

  /** The items every rucksack from `start` up to `end` carries (only the
      first when the range is shorter): the running `retainAll` of
      `sumGroupScore`. */
  function GroupCommon(rucksacks: seq<Rucksack>, start: nat, end: nat): set<char>
    requires start < |rucksacks| && end <= |rucksacks|
    decreases end
  {
    if end <= start + 1 then UnionCompartments(rucksacks[start])
    else GroupCommon(rucksacks, start, end - 1) * UnionCompartments(rucksacks[end - 1])
  }

  /** An item is common to the range exactly when every rucksack in it
      carries the item. */
  lemma {:induction false} GroupCommonItems(rucksacks: seq<Rucksack>, start: nat, end: nat, c: char)
    requires start < |rucksacks| && end <= |rucksacks|
    ensures c in GroupCommon(rucksacks, start, end) <==>
      (c in UnionCompartments(rucksacks[start]) && forall i :: start < i < end ==> c in UnionCompartments(rucksacks[i]))
    decreases end
  {
    if end > start + 1 {
      GroupCommonItems(rucksacks, start, end - 1, c);
    }
  }

  const INDEX_ERROR := "Index out of bounds"

  /** `sumGroupScore(start, end)`: the priorities of the items common to
      the rucksacks `start` to `end - 1`. Reading a rucksack outside the
      list throws. */
  function SumGroupScore(rucksacks: seq<Rucksack>, start: int, end: int): (r: Result<int, string>)
    ensures start < 0 || start >= |rucksacks| || end > |rucksacks| ==> r == Failure(INDEX_ERROR)
    ensures 0 <= start < |rucksacks| && end <= |rucksacks| ==> r == SetScoreAsWritten(GroupCommon(rucksacks, start, if end < 0 then 0 else end))
  {
    if start < 0 || start >= |rucksacks| || end > |rucksacks| then Failure(INDEX_ERROR)
    else SetScoreAsWritten(GroupCommon(rucksacks, start, if end < 0 then 0 else end))
  }

  /** The score of the group of three starting at rucksack `i`. */
  function GroupScore(rucksacks: seq<Rucksack>, i: nat): Result<int, string>
  {
    SumGroupScore(rucksacks, i, i + 3)
  }

  /** The loop of `getGroupScores` from index `i`: groups of three while
      three rucksacks remain. */
  function GroupScoresFrom(rucksacks: seq<Rucksack>, i: nat): (r: Result<int, string>)
    ensures i + 3 > |rucksacks| ==> r == Success(0)
    ensures r.Success? <==> forall g :: 0 <= g && i + 3 * g + 3 <= |rucksacks| ==> GroupScore(rucksacks, i + 3 * g).Success?
    decreases |rucksacks| - i
  {
    if i + 3 > |rucksacks| then Success(0)
    else
      GroupsFromHead(rucksacks, i);
      AddScores(GroupScore(rucksacks, i), GroupScoresFrom(rucksacks, i + 3))
  }

  /** The groups from `i` on are the one at `i` and those from `i + 3`. */
  lemma GroupsFromHead(rucksacks: seq<Rucksack>, i: nat)
    requires i + 3 <= |rucksacks|
    ensures (forall g :: 0 <= g && i + 3 * g + 3 <= |rucksacks| ==> GroupScore(rucksacks, i + 3 * g).Success?) <==>
      GroupScore(rucksacks, i).Success? &&
      forall g :: 0 <= g && (i + 3) + 3 * g + 3 <= |rucksacks| ==> GroupScore(rucksacks, (i + 3) + 3 * g).Success?
  {
    if forall g :: 0 <= g && i + 3 * g + 3 <= |rucksacks| ==> GroupScore(rucksacks, i + 3 * g).Success? {
      assert GroupScore(rucksacks, i + 3 * 0).Success?;
      forall g | 0 <= g && (i + 3) + 3 * g + 3 <= |rucksacks|
        ensures GroupScore(rucksacks, (i + 3) + 3 * g).Success?
      {
        assert (i + 3) + 3 * g == i + 3 * (g + 1);
      }
    }
    if GroupScore(rucksacks, i).Success? &&
      forall g :: 0 <= g && (i + 3) + 3 * g + 3 <= |rucksacks| ==> GroupScore(rucksacks, (i + 3) + 3 * g).Success?
    {
      forall g | 0 <= g && i + 3 * g + 3 <= |rucksacks|
        ensures GroupScore(rucksacks, i + 3 * g).Success?
      {
        if g > 0 {
          assert i + 3 * g == (i + 3) + 3 * (g - 1);
        }
      }
    }
  }

  /** Adding a score to the running total; the first exception wins. */
  function AddScores(a: Result<int, string>, b: Result<int, string>): (r: Result<int, string>)
    ensures r.Success? <==> a.Success? && b.Success?
    ensures r.Success? ==> r.value == a.value + b.value
    ensures a.Failure? ==> r == a
  {
    match a
    case Failure(e) => Failure(e)
    case Success(v) =>
      match b
      case Failure(e) => Failure(e)
      case Success(w) => Success(v + w)
  }

  /** `getGroupScores`. */
  function GetGroupScores(rucksacks: seq<Rucksack>): (r: Result<int, string>)
    ensures |rucksacks| < 3 ==> r == Success(0)
    ensures r.Success? <==> forall g :: 0 <= g && 3 * g + 3 <= |rucksacks| ==> GroupScore(rucksacks, 3 * g).Success?
  {
    GroupScoresFrom(rucksacks, 0)
  }

  /** Only whole groups count: one or two rucksacks after the last full
      group of three change nothing. */
  lemma GroupScoresIgnoreTail(rucksacks: seq<Rucksack>, tail: seq<Rucksack>)
    requires |rucksacks| % 3 == 0 && |tail| < 3
    ensures GetGroupScores(rucksacks + tail) == GetGroupScores(rucksacks)
  {
    GroupsIgnoreTail(rucksacks, tail, 0, |rucksacks| / 3);
  }

  /** The same from index `i`, with `groups` whole groups left. */
  lemma {:induction false} GroupsIgnoreTail(rucksacks: seq<Rucksack>, tail: seq<Rucksack>, i: nat, groups: nat)
    requires |tail| < 3 && i + 3 * groups == |rucksacks|
    ensures GroupScoresFrom(rucksacks + tail, i) == GroupScoresFrom(rucksacks, i)
    decreases groups
  {
    if groups == 0 {
      NoGroupLeft(rucksacks + tail, i);
      NoGroupLeft(rucksacks, i);
    } else {
      GroupsIgnoreTail(rucksacks, tail, i + 3, groups - 1);
      GroupScoreStep(rucksacks, tail, i);
    }
  }

  lemma NoGroupLeft(rucksacks: seq<Rucksack>, i: nat)
    requires i + 3 > |rucksacks|
    ensures GroupScoresFrom(rucksacks, i) == Success(0)
  {
  }

  lemma GroupScoreStep(rucksacks: seq<Rucksack>, tail: seq<Rucksack>, i: nat)
    requires i + 3 <= |rucksacks|
    requires GroupScoresFrom(rucksacks + tail, i + 3) == GroupScoresFrom(rucksacks, i + 3)
    ensures GroupScoresFrom(rucksacks + tail, i) == GroupScoresFrom(rucksacks, i)
  {
    GroupCommonPrefix(rucksacks, tail, i, i + 3);
    assert SumGroupScore(rucksacks + tail, i, i + 3) == SumGroupScore(rucksacks, i, i + 3);
  }

  /** The common items of a range do not see rucksacks after it. */
  lemma {:induction false} GroupCommonPrefix(rucksacks: seq<Rucksack>, tail: seq<Rucksack>, start: nat, end: nat)
    requires start < end <= |rucksacks|
    ensures GroupCommon(rucksacks + tail, start, end) == GroupCommon(rucksacks, start, end)
    decreases end
  {
    var all := rucksacks + tail;
    assert all[end - 1] == rucksacks[end - 1];
    if end > start + 1 {
      GroupCommonPrefix(rucksacks, tail, start, end - 1);
    }
  }

  // ---------------------------------------------------------------------
  // Generic steps used by the example

  /** A line of even length split into its two halves. */
  lemma FromLineHalves(line: string, first: string, second: string)
    requires line == first + second && |first| == |second|
    ensures FindEqualCharacters(FromLine(line)) == Items(first) * Items(second)
  {
    assert line[..|line| / 2] == first;
    assert line[|line| / 2..] == second;
  }

  lemma UnionIsItems(line: string)
    ensures UnionCompartments(FromLine(line)) == Items(line)
  {
    forall c ensures c in UnionCompartments(FromLine(line)) <==> c in Items(line) {
      UnionIsLine(line, c);
    }
  }

  /** The badge of a group of three lines: the items all three carry. */
  lemma GroupBadge(lines: seq<string>, i: nat)
    requires i + 3 <= |lines|
    ensures GroupCommon(ParseFromInput(lines), i, i + 3) == Items(lines[i]) * Items(lines[i + 1]) * Items(lines[i + 2])
  {
    var rs := ParseFromInput(lines);
    UnionIsItems(lines[i]);
    UnionIsItems(lines[i + 1]);
    UnionIsItems(lines[i + 2]);
    GroupOfThree(rs, i);
  }

  lemma SetScoreSingle(c: char)
    requires IsLetter(c)
    ensures SetScoreAsWritten({c}) == SetScore({c}) == Success(Priority(c).value)
  {
    PrioritySumSingle(c, 52);
    SetScoreAgrees({c});
  }

  lemma ScoreFromStep(rs: seq<Rucksack>, k: nat, v: int, w: int)
    requires k < |rs| && SetScoreAsWritten(FindEqualCharacters(rs[k])) == Success(v) && ScoreFrom(rs, k + 1) == Success(w)
    ensures ScoreFrom(rs, k) == Success(v + w)
  {
  }

  /** The arrangement score of six rucksacks, one by one. */
  lemma ArrangementOfSix(rs: seq<Rucksack>, p: seq<int>)
    requires |rs| == 6 && |p| == 6
    requires SetScoreAsWritten(FindEqualCharacters(rs[0])) == Success(p[0]) && SetScoreAsWritten(FindEqualCharacters(rs[1])) == Success(p[1])
    requires SetScoreAsWritten(FindEqualCharacters(rs[2])) == Success(p[2]) && SetScoreAsWritten(FindEqualCharacters(rs[3])) == Success(p[3])
    requires SetScoreAsWritten(FindEqualCharacters(rs[4])) == Success(p[4]) && SetScoreAsWritten(FindEqualCharacters(rs[5])) == Success(p[5])
    ensures ArrangementScore(rs) == Success(p[0] + p[1] + p[2] + p[3] + p[4] + p[5])
  {
    assert ScoreFrom(rs, 6) == Success(0);
    ScoreFromStep(rs, 5, p[5], 0);
    ScoreFromStep(rs, 4, p[4], p[5]);
    ScoreFromStep(rs, 3, p[3], p[4] + p[5]);
    ScoreFromStep(rs, 2, p[2], p[3] + p[4] + p[5]);
    ScoreFromStep(rs, 1, p[1], p[2] + p[3] + p[4] + p[5]);
    ScoreFromStep(rs, 0, p[0], p[1] + p[2] + p[3] + p[4] + p[5]);
  }

  /** The union of a line's rucksack, from the items of its halves. */
  lemma UnionOfHalves(line: string, first: string, second: string)
    requires line == first + second && |first| == |second|
    ensures UnionCompartments(FromLine(line)) == Items(first) + Items(second)
  {
    assert line[..|line| / 2] == first;
    assert line[|line| / 2..] == second;
  }

  /** The common items of three rucksacks. */
  lemma GroupOfThree(rs: seq<Rucksack>, i: nat)
    requires i + 3 <= |rs|
    ensures GroupCommon(rs, i, i + 3) == UnionCompartments(rs[i]) * UnionCompartments(rs[i + 1]) * UnionCompartments(rs[i + 2])
  {
    assert GroupCommon(rs, i, i + 1) == UnionCompartments(rs[i]);
  }

  /** A group whose only common item is a letter scores that letter. */
  lemma BadgeScore(rs: seq<Rucksack>, i: nat, x: char, common: set<char>)
    requires i + 3 <= |rs| && IsLetter(x) && GroupCommon(rs, i, i + 3) == common && common == {x}
    ensures SumGroupScore(rs, i, i + 3) == Success(Priority(x).value)
  {
    SetScoreSingle(x);
  }

  lemma GroupStep(rs: seq<Rucksack>, i: nat, v: int, w: int)
    requires i + 3 <= |rs| && SumGroupScore(rs, i, i + 3) == Success(v) && GroupScoresFrom(rs, i + 3) == Success(w)
    ensures GroupScoresFrom(rs, i) == Success(v + w)
  {
  }

  /** Six rucksacks make two groups; when each has a single common
      letter, the groups score those two letters. */
  lemma GroupsOfSix(rs: seq<Rucksack>, x: char, y: char, total: int)
    requires |rs| == 6 && IsLetter(x) && IsLetter(y) && GroupCommon(rs, 0, 3) == {x} && GroupCommon(rs, 3, 6) == {y}
    requires total == Priority(x).value + Priority(y).value
    ensures GetGroupScores(rs) == Success(total)
  {
    BadgeScore(rs, 0, x, {x});
    BadgeScore(rs, 3, y, {y});
    TwoGroups(rs, Priority(x).value, Priority(y).value);
  }

  /** Six rucksacks make two groups. */
  lemma TwoGroups(rs: seq<Rucksack>, v: int, w: int)
    requires |rs| == 6 && SumGroupScore(rs, 0, 3) == Success(v) && SumGroupScore(rs, 3, 6) == Success(w)
    ensures GetGroupScores(rs) == Success(v + w)
  {
    NoGroupLeft(rs, 6);
    GroupStep(rs, 3, w, 0);
    GroupStep(rs, 0, v, w);
  }

  // ---------------------------------------------------------------------
  // The example of the tests: scores 157 and 70. The lemmas about the
  // example take its lines as a parameter and each states one small fact.

  function ExampleLines(): seq<string>
  {
    ["vJrwpWtwJgWrhcsFMMfFFhFp",
     "jqHRNqRjqzjGDLGLrsFMfFZSrLrFZsSL",
     "PmmdzqPrVvPwwTWBwg",
     "wMqvLMZHhHMvwLHjbvcjnnSBnvTQFn",
     "ttgJtRGJQctTZtZT",
     "CrZsJsPPZsGzwwsLwLmpwMDw"]
  }

  lemma ExampleFirst0() ensures Items("vJrwpWtwJgWr") == {'v', 'J', 'r', 'w', 'p', 'W', 't', 'g'} {}
  lemma ExampleSecond0() ensures Items("hcsFMMfFFhFp") == {'h', 'c', 's', 'F', 'M', 'f', 'p'} {}
  lemma ExampleShared0() ensures {'v', 'J', 'r', 'w', 'p', 'W', 't', 'g'} * {'h', 'c', 's', 'F', 'M', 'f', 'p'} == {'p'} {}

  lemma ExampleCommon0(line: string)
    requires line == "vJrwpWtwJgWrhcsFMMfFFhFp"
    ensures FindEqualCharacters(FromLine(line)) == {'p'}
  {
    FromLineHalves(line, "vJrwpWtwJgWr", "hcsFMMfFFhFp");
    ExampleFirst0();
    ExampleSecond0();
    ExampleShared0();
  }

  lemma ExampleUnion0(line: string)
    requires line == "vJrwpWtwJgWrhcsFMMfFFhFp"
    ensures UnionCompartments(FromLine(line)) == {'v', 'J', 'r', 'w', 'p', 'W', 't', 'g'} + {'h', 'c', 's', 'F', 'M', 'f', 'p'}
  {
    UnionOfHalves(line, "vJrwpWtwJgWr", "hcsFMMfFFhFp");
    ExampleFirst0();
    ExampleSecond0();
  }

  lemma ExampleScore0(lines: seq<string>)
    requires lines == ExampleLines()
    ensures SetScoreAsWritten(FindEqualCharacters(ParseFromInput(lines)[0])) == Success(16)
  {
    ExampleCommon0(lines[0]);
    SetScoreSingle('p');
  }

  lemma ExampleFirst1() ensures Items("jqHRNqRjqzjGDLGL") == {'j', 'q', 'H', 'R', 'N', 'z', 'G', 'D', 'L'} {}
  lemma ExampleSecond1() ensures Items("rsFMfFZSrLrFZsSL") == {'r', 's', 'F', 'M', 'f', 'Z', 'S', 'L'} {}
  lemma ExampleShared1() ensures {'j', 'q', 'H', 'R', 'N', 'z', 'G', 'D', 'L'} * {'r', 's', 'F', 'M', 'f', 'Z', 'S', 'L'} == {'L'} {}

  lemma ExampleCommon1(line: string)
    requires line == "jqHRNqRjqzjGDLGLrsFMfFZSrLrFZsSL"
    ensures FindEqualCharacters(FromLine(line)) == {'L'}
  {
    FromLineHalves(line, "jqHRNqRjqzjGDLGL", "rsFMfFZSrLrFZsSL");
    ExampleFirst1();
    ExampleSecond1();
    ExampleShared1();
  }

  lemma ExampleUnion1(line: string)
    requires line == "jqHRNqRjqzjGDLGLrsFMfFZSrLrFZsSL"
    ensures UnionCompartments(FromLine(line)) == {'j', 'q', 'H', 'R', 'N', 'z', 'G', 'D', 'L'} + {'r', 's', 'F', 'M', 'f', 'Z', 'S', 'L'}
  {
    UnionOfHalves(line, "jqHRNqRjqzjGDLGL", "rsFMfFZSrLrFZsSL");
    ExampleFirst1();
    ExampleSecond1();
  }

  lemma ExampleScore1(lines: seq<string>)
    requires lines == ExampleLines()
    ensures SetScoreAsWritten(FindEqualCharacters(ParseFromInput(lines)[1])) == Success(38)
  {
    ExampleCommon1(lines[1]);
    SetScoreSingle('L');
  }

  lemma ExampleFirst2() ensures Items("PmmdzqPrV") == {'P', 'm', 'd', 'z', 'q', 'r', 'V'} {}
  lemma ExampleSecond2() ensures Items("vPwwTWBwg") == {'v', 'P', 'w', 'T', 'W', 'B', 'g'} {}
  lemma ExampleShared2() ensures {'P', 'm', 'd', 'z', 'q', 'r', 'V'} * {'v', 'P', 'w', 'T', 'W', 'B', 'g'} == {'P'} {}

  lemma ExampleCommon2(line: string)
    requires line == "PmmdzqPrVvPwwTWBwg"
    ensures FindEqualCharacters(FromLine(line)) == {'P'}
  {
    FromLineHalves(line, "PmmdzqPrV", "vPwwTWBwg");
    ExampleFirst2();
    ExampleSecond2();
    ExampleShared2();
  }

  lemma ExampleUnion2(line: string)
    requires line == "PmmdzqPrVvPwwTWBwg"
    ensures UnionCompartments(FromLine(line)) == {'P', 'm', 'd', 'z', 'q', 'r', 'V'} + {'v', 'P', 'w', 'T', 'W', 'B', 'g'}
  {
    UnionOfHalves(line, "PmmdzqPrV", "vPwwTWBwg");
    ExampleFirst2();
    ExampleSecond2();
  }

  lemma ExampleScore2(lines: seq<string>)
    requires lines == ExampleLines()
    ensures SetScoreAsWritten(FindEqualCharacters(ParseFromInput(lines)[2])) == Success(42)
  {
    ExampleCommon2(lines[2]);
    SetScoreSingle('P');
  }

  lemma ExampleFirst3() ensures Items("wMqvLMZHhHMvwLH") == {'w', 'M', 'q', 'v', 'L', 'Z', 'H', 'h'} {}
  lemma ExampleSecond3() ensures Items("jbvcjnnSBnvTQFn") == {'j', 'b', 'v', 'c', 'n', 'S', 'B', 'T', 'Q', 'F'} {}
  lemma ExampleShared3() ensures {'w', 'M', 'q', 'v', 'L', 'Z', 'H', 'h'} * {'j', 'b', 'v', 'c', 'n', 'S', 'B', 'T', 'Q', 'F'} == {'v'} {}

  lemma ExampleCommon3(line: string)
    requires line == "wMqvLMZHhHMvwLHjbvcjnnSBnvTQFn"
    ensures FindEqualCharacters(FromLine(line)) == {'v'}
  {
    FromLineHalves(line, "wMqvLMZHhHMvwLH", "jbvcjnnSBnvTQFn");
    ExampleFirst3();
    ExampleSecond3();
    ExampleShared3();
  }

  lemma ExampleUnion3(line: string)
    requires line == "wMqvLMZHhHMvwLHjbvcjnnSBnvTQFn"
    ensures UnionCompartments(FromLine(line)) == {'w', 'M', 'q', 'v', 'L', 'Z', 'H', 'h'} + {'j', 'b', 'v', 'c', 'n', 'S', 'B', 'T', 'Q', 'F'}
  {
    UnionOfHalves(line, "wMqvLMZHhHMvwLH", "jbvcjnnSBnvTQFn");
    ExampleFirst3();
    ExampleSecond3();
  }

  lemma ExampleScore3(lines: seq<string>)
    requires lines == ExampleLines()
    ensures SetScoreAsWritten(FindEqualCharacters(ParseFromInput(lines)[3])) == Success(22)
  {
    ExampleCommon3(lines[3]);
    SetScoreSingle('v');
  }

  lemma ExampleFirst4() ensures Items("ttgJtRGJ") == {'t', 'g', 'J', 'R', 'G'} {}
  lemma ExampleSecond4() ensures Items("QctTZtZT") == {'Q', 'c', 't', 'T', 'Z'} {}
  lemma ExampleShared4() ensures {'t', 'g', 'J', 'R', 'G'} * {'Q', 'c', 't', 'T', 'Z'} == {'t'} {}

  lemma ExampleCommon4(line: string)
    requires line == "ttgJtRGJQctTZtZT"
    ensures FindEqualCharacters(FromLine(line)) == {'t'}
  {
    FromLineHalves(line, "ttgJtRGJ", "QctTZtZT");
    ExampleFirst4();
    ExampleSecond4();
    ExampleShared4();
  }

  lemma ExampleUnion4(line: string)
    requires line == "ttgJtRGJQctTZtZT"
    ensures UnionCompartments(FromLine(line)) == {'t', 'g', 'J', 'R', 'G'} + {'Q', 'c', 't', 'T', 'Z'}
  {
    UnionOfHalves(line, "ttgJtRGJ", "QctTZtZT");
    ExampleFirst4();
    ExampleSecond4();
  }

  lemma ExampleScore4(lines: seq<string>)
    requires lines == ExampleLines()
    ensures SetScoreAsWritten(FindEqualCharacters(ParseFromInput(lines)[4])) == Success(20)
  {
    ExampleCommon4(lines[4]);
    SetScoreSingle('t');
  }

  lemma ExampleFirst5() ensures Items("CrZsJsPPZsGz") == {'C', 'r', 'Z', 's', 'J', 'P', 'G', 'z'} {}
  lemma ExampleSecond5() ensures Items("wwsLwLmpwMDw") == {'w', 's', 'L', 'm', 'p', 'M', 'D'} {}
  lemma ExampleShared5() ensures {'C', 'r', 'Z', 's', 'J', 'P', 'G', 'z'} * {'w', 's', 'L', 'm', 'p', 'M', 'D'} == {'s'} {}

  lemma ExampleCommon5(line: string)
    requires line == "CrZsJsPPZsGzwwsLwLmpwMDw"
    ensures FindEqualCharacters(FromLine(line)) == {'s'}
  {
    FromLineHalves(line, "CrZsJsPPZsGz", "wwsLwLmpwMDw");
    ExampleFirst5();
    ExampleSecond5();
    ExampleShared5();
  }

  lemma ExampleUnion5(line: string)
    requires line == "CrZsJsPPZsGzwwsLwLmpwMDw"
    ensures UnionCompartments(FromLine(line)) == {'C', 'r', 'Z', 's', 'J', 'P', 'G', 'z'} + {'w', 's', 'L', 'm', 'p', 'M', 'D'}
  {
    UnionOfHalves(line, "CrZsJsPPZsGz", "wwsLwLmpwMDw");
    ExampleFirst5();
    ExampleSecond5();
  }

  lemma ExampleScore5(lines: seq<string>)
    requires lines == ExampleLines()
    ensures SetScoreAsWritten(FindEqualCharacters(ParseFromInput(lines)[5])) == Success(19)
  {
    ExampleCommon5(lines[5]);
    SetScoreSingle('s');
  }

  lemma ExampleBadgeSets0(a: set<char>, b: set<char>, c: set<char>)
    requires a == {'v', 'J', 'r', 'w', 'p', 'W', 't', 'g'} + {'h', 'c', 's', 'F', 'M', 'f', 'p'}
    requires b == {'j', 'q', 'H', 'R', 'N', 'z', 'G', 'D', 'L'} + {'r', 's', 'F', 'M', 'f', 'Z', 'S', 'L'}
    requires c == {'P', 'm', 'd', 'z', 'q', 'r', 'V'} + {'v', 'P', 'w', 'T', 'W', 'B', 'g'}
    ensures a * b * c == {'r'}
  {
  }

  lemma ExampleBadgeCommon0(lines: seq<string>)
    requires |lines| == 6 && lines[0] == "vJrwpWtwJgWrhcsFMMfFFhFp" && lines[1] == "jqHRNqRjqzjGDLGLrsFMfFZSrLrFZsSL" && lines[2] == "PmmdzqPrVvPwwTWBwg"
    ensures GroupCommon(ParseFromInput(lines), 0, 3) == {'r'}
  {
    var rs := ParseFromInput(lines);
    ExampleUnion0(lines[0]);
    ExampleUnion1(lines[1]);
    ExampleUnion2(lines[2]);
    var a, b, c := UnionCompartments(rs[0]), UnionCompartments(rs[1]), UnionCompartments(rs[2]);
    ExampleBadgeSets0(a, b, c);
    assert GroupCommon(rs, 0, 3) == a * b * c by {
      GroupOfThree(rs, 0);
    }
  }

  lemma ExampleBadgeSets3(a: set<char>, b: set<char>, c: set<char>)
    requires a == {'w', 'M', 'q', 'v', 'L', 'Z', 'H', 'h'} + {'j', 'b', 'v', 'c', 'n', 'S', 'B', 'T', 'Q', 'F'}
    requires b == {'t', 'g', 'J', 'R', 'G'} + {'Q', 'c', 't', 'T', 'Z'}
    requires c == {'C', 'r', 'Z', 's', 'J', 'P', 'G', 'z'} + {'w', 's', 'L', 'm', 'p', 'M', 'D'}
    ensures a * b * c == {'Z'}
  {
  }

  lemma ExampleBadgeCommon3(lines: seq<string>)
    requires |lines| == 6 && lines[3] == "wMqvLMZHhHMvwLHjbvcjnnSBnvTQFn" && lines[4] == "ttgJtRGJQctTZtZT" && lines[5] == "CrZsJsPPZsGzwwsLwLmpwMDw"
    ensures GroupCommon(ParseFromInput(lines), 3, 6) == {'Z'}
  {
    var rs := ParseFromInput(lines);
    ExampleUnion3(lines[3]);
    ExampleUnion4(lines[4]);
    ExampleUnion5(lines[5]);
    var a, b, c := UnionCompartments(rs[3]), UnionCompartments(rs[4]), UnionCompartments(rs[5]);
    ExampleBadgeSets3(a, b, c);
    assert GroupCommon(rs, 3, 6) == a * b * c by {
      GroupOfThree(rs, 3);
    }
  }

  /** The compartments of the example score 157. */
  lemma ExampleArrangement(lines: seq<string>)
    requires lines == ExampleLines()
    ensures ArrangementScore(ParseFromInput(lines)) == Success(157)
  {
    ExampleScore0(lines);
    ExampleScore1(lines);
    ExampleScore2(lines);
    ExampleScore3(lines);
    ExampleScore4(lines);
    ExampleScore5(lines);
    ArrangementOfSix(ParseFromInput(lines), [16, 38, 42, 22, 20, 19]);
  }

  /** The two groups of the example score 70. */
  lemma ExampleBadges(lines: seq<string>)
    requires lines == ExampleLines()
    ensures var rs := ParseFromInput(lines); |rs| == 6 && GroupCommon(rs, 0, 3) == {'r'} && GroupCommon(rs, 3, 6) == {'Z'}
  {
    ExampleBadgeCommon0(lines);
    ExampleBadgeCommon3(lines);
  }

  lemma ExampleGroups(lines: seq<string>)
    requires lines == ExampleLines()
    ensures GetGroupScores(ParseFromInput(lines)) == Success(70)
  {
    ExampleBadges(lines);
    GroupsOfSix(ParseFromInput(lines), 'r', 'Z', 70);
  }

  /** The line "1a1b" shares only '1', which scores 11 as written; the
      intended score rejects it. */
  lemma ArrangementAcceptsDigits(lines: seq<string>)
    requires lines == ["1a1b"]
    ensures ArrangementScore(ParseFromInput(lines)) == Success(11)
    ensures SetScore(FindEqualCharacters(ParseFromInput(lines)[0])).Failure?
  {
    var rs := ParseFromInput(lines);
    FromLineHalves(lines[0], "1a", "1b");
    assert Items("1a") * Items("1b") == {'1'};
    SetScoreAsWrittenAcceptsDigits();
    assert ScoreFrom(rs, 1) == Success(0);
    ScoreFromStep(rs, 0, 11, 0);
  }
}

=== FILE: segments.dfy ===
/** Seven-segment decoding (rust/src/day_eight.rs): the segment and digit
    masks, the string helpers the decoder uses, and `construct`, which works
    out from the ten scrambled digit patterns which wire drives which
    segment. Masks are `u8` values, modelled as `bv8`; strings are ASCII,
    so a byte and a character are the same thing here. */
module Segments {
  import opened Wrappers
  import Seqs

  const SEGMENT_A: bv8 := 1
  const SEGMENT_B: bv8 := 1 << 1
  const SEGMENT_C: bv8 := 1 << 2
  const SEGMENT_D: bv8 := 1 << 3
  const SEGMENT_E: bv8 := 1 << 4
  const SEGMENT_F: bv8 := 1 << 5
  const SEGMENT_G: bv8 := 1 << 6

  /** The segments each digit lights. */
  const ONE: bv8 := SEGMENT_C | SEGMENT_F
  const TWO: bv8 := SEGMENT_A | SEGMENT_C | SEGMENT_D | SEGMENT_E | SEGMENT_G
  const THREE: bv8 := SEGMENT_A | SEGMENT_C | SEGMENT_D | SEGMENT_F | SEGMENT_G
  const FOUR: bv8 := SEGMENT_B | SEGMENT_C | SEGMENT_D | SEGMENT_F
  const FIVE: bv8 := SEGMENT_A | SEGMENT_B | SEGMENT_D | SEGMENT_F | SEGMENT_G
  const SIX: bv8 := SEGMENT_A | SEGMENT_B | SEGMENT_D | SEGMENT_E | SEGMENT_F | SEGMENT_G
  const SEVEN: bv8 := SEGMENT_A | SEGMENT_C | SEGMENT_F
  const EIGHT: bv8 := SEGMENT_A | SEGMENT_B | SEGMENT_C | SEGMENT_D | SEGMENT_E | SEGMENT_F | SEGMENT_G
  const NINE: bv8 := SEGMENT_A | SEGMENT_B | SEGMENT_C | SEGMENT_D | SEGMENT_F | SEGMENT_G
  const ZERO: bv8 := SEGMENT_A | SEGMENT_B | SEGMENT_C | SEGMENT_E | SEGMENT_F | SEGMENT_G

  /** The segment constants in order a to g. */
  function Segment(k: nat): (r: bv8)
    requires k < 7
    ensures r == 1 << k
  {
    [SEGMENT_A, SEGMENT_B, SEGMENT_C, SEGMENT_D, SEGMENT_E, SEGMENT_F, SEGMENT_G][k]
  }

  /** Each segment is its own bit: `1 << k` for the `k`-th, no two share one. */
  lemma SegmentsAreBits(k: nat, m: nat)
    requires k < 7 && m < 7
    ensures Segment(k) == 1 << k
    ensures k != m ==> Segment(k) & Segment(m) == 0
  {
  }

  function DigitMask(d: nat): bv8
    requires d < 10
  {
    [ZERO, ONE, TWO, THREE, FOUR, FIVE, SIX, SEVEN, EIGHT, NINE][d]
  }

  /** No two digits light the same segments, and none lights the eighth bit. */
  lemma DigitMasksDistinct(i: nat, j: nat)
    requires i < 10 && j < 10
    ensures i != j ==> DigitMask(i) != DigitMask(j)
    ensures DigitMask(i) < 128
  {
  }

  /** A `u8` value as a number, for the sums `string_to_number` forms. */
  type U8 = n: nat | n < 256

  /** The digit mask as a number. */
  function MaskValue(d: nat): U8
    requires d < 10
  {
    DigitMask(d) as nat
  }

  /** `display_as_int`: the digit a mask shows; any other value is the
      source's "unsupported number" panic. */
  function DisplayAsInt(display: U8): (r: Option<nat>)
    ensures r.Some? ==> r.value < 10 && MaskValue(r.value) == display
  {
    if display == ZERO as nat then Some(0)
    else if display == ONE as nat then Some(1)
    else if display == TWO as nat then Some(2)
    else if display == THREE as nat then Some(3)
    else if display == FOUR as nat then Some(4)
    else if display == FIVE as nat then Some(5)
    else if display == SIX as nat then Some(6)
    else if display == SEVEN as nat then Some(7)
    else if display == EIGHT as nat then Some(8)
    else if display == NINE as nat then Some(9)
    else None
  }

  /** Every digit's mask decodes to that digit. */
  lemma DisplayRoundTrip(d: nat)
    requires d < 10
    ensures DisplayAsInt(MaskValue(d)) == Some(d)
  {
  }

  /** A value decodes exactly when it is one of the ten masks. */
  lemma DisplayOnlyDigits(display: U8)
    ensures DisplayAsInt(display).None? <==> forall d :: 0 <= d < 10 ==> MaskValue(d) != display
  {
    if DisplayAsInt(display).None? {
      forall d | 0 <= d < 10
        ensures MaskValue(d) != display
      {
        DisplayRoundTrip(d);
      }
    }
  }

  // ---------------------------------------------------------------------
  // BitIter over a u8

  const ByteBits: nat := 8

  function NthBit(word: bv8, n: nat): (b: nat)
    requires n < ByteBits
    ensures b == 0 || b == 1
  {
    if (word >> n) & 1 == 1 then 1 else 0
  }

  datatype BitIter = BitIter(num: bv8, curBit: nat)

  function NewBitIter(num: bv8): BitIter
  {
    BitIter(num, 0)
  }

  datatype BitStep = BitStep(iter: BitIter, item: Option<nat>)

  function NextBit(it: BitIter): (r: BitStep)
    requires it.curBit <= ByteBits
    ensures r.iter.num == it.num && r.iter.curBit <= ByteBits
    ensures r.item.Some? <==> it.curBit < ByteBits
  {
    if it.curBit == ByteBits then BitStep(it, None)
    else BitStep(it.(curBit := it.curBit + 1), Some(NthBit(it.num, it.curBit)))
  }

  function Items(it: BitIter): seq<nat>
    requires it.curBit <= ByteBits
    decreases ByteBits - it.curBit
  {
    var s := NextBit(it);
    match s.item
    case None => []
    case Some(b) => [b] + Items(s.iter)
  }

  lemma {:induction false} ItemsFrom(it: BitIter)
    requires it.curBit <= ByteBits
    ensures |Items(it)| == ByteBits - it.curBit
    ensures forall k :: 0 <= k < |Items(it)| ==> Items(it)[k] == NthBit(it.num, it.curBit + k)
    decreases ByteBits - it.curBit
  {
    if it.curBit < ByteBits {
      var s := NextBit(it);
      ItemsFrom(s.iter);
      assert Items(it) == [NthBit(it.num, it.curBit)] + Items(s.iter);
    }
  }

  /** A fresh iterator yields the byte's 8 bits, least significant first;
      for the byte 1 that is a 1 and seven 0s. */
  lemma BitIterYieldsBits(num: bv8)
    ensures |Items(NewBitIter(num))| == ByteBits
    ensures forall n :: 0 <= n < ByteBits ==> Items(NewBitIter(num))[n] == NthBit(num, n)
    ensures num == 1 ==> Items(NewBitIter(num)) == [1, 0, 0, 0, 0, 0, 0, 0]
  {
    ItemsFrom(NewBitIter(num));
    if num == 1 {
      var s := Items(NewBitIter(num));
      assert NthBit(1, 0) == 1 && NthBit(1, 1) == 0 && NthBit(1, 2) == 0 && NthBit(1, 3) == 0;
      assert NthBit(1, 4) == 0 && NthBit(1, 5) == 0 && NthBit(1, 6) == 0 && NthBit(1, 7) == 0;
      assert s[0] == 1 && s[1] == 0 && s[2] == 0 && s[3] == 0 && s[4] == 0 && s[5] == 0 && s[6] == 0 && s[7] == 0;
    }
  }

  // ---------------------------------------------------------------------
  // String helpers

  /** `xor_string`: the characters of `a` that do not occur in `b`, in order. */
  function XorString(a: string, b: string): (r: string)
    ensures |r| <= |a|
    ensures forall c :: c in r <==> c in a && c !in b
  {
    if |a| == 0 then ""
    else
      var rest := XorString(a[..|a| - 1], b);
      var c := a[|a| - 1];
      assert forall x :: x in a <==> x in a[..|a| - 1] || x == c;
      if c !in b then rest + [c] else rest
  }

  /** Filtering distributes over concatenation, so the kept characters
      keep their order. */
  lemma {:induction false} XorAppend(a: string, a': string, b: string)
    ensures XorString(a + a', b) == XorString(a, b) + XorString(a', b)
    decreases |a'|
  {
    if |a'| == 0 {
      assert a + a' == a;
    } else {
      assert (a + a')[..|a + a'| - 1] == a + a'[..|a'| - 1];
      XorAppend(a, a'[..|a'| - 1], b);
    }
  }

  /** Each kept character keeps all its occurrences. */
  lemma {:induction false} XorMultiset(a: string, b: string, c: char)
    ensures multiset(XorString(a, b))[c] == if c in b then 0 else multiset(a)[c]
    decreases |a|
  {
    if |a| > 0 {
      var init, x := a[..|a| - 1], a[|a| - 1];
      XorMultiset(init, b, c);
      assert a == init + [x];
      assert multiset(a) == multiset(init) + multiset{x};
    }
  }

  /** Removing nothing keeps everything. */
  lemma {:induction false} XorNothing(a: string)
    ensures XorString(a, "") == a
    decreases |a|
  {
    if |a| > 0 {
      XorNothing(a[..|a| - 1]);
      assert a == a[..|a| - 1] + [a[|a| - 1]];
    }
  }

  /** Removing twice is removing once. */
  lemma {:induction false} XorTwice(a: string, b: string)
    ensures XorString(XorString(a, b), b) == XorString(a, b)
    decreases |a|
  {
    if |a| > 0 {
      var init, c := a[..|a| - 1], a[|a| - 1];
      XorTwice(init, b);
      XorAppend(XorString(init, b), [c], b);
      assert XorString([c], b) == (if c !in b then [c] else []) by {
        assert [c][..0] == [];
      }
    }
  }

  /** Among the first `n` strings, those that contain `c`. */
  function Containing(strs: seq<string>, n: nat, c: char): nat
    requires n <= |strs|
  {
    if n == 0 then 0 else Containing(strs, n - 1, c) + (if c in strs[n - 1] then 1 else 0)
  }

  function Holding(strs: seq<string>, c: char): nat
  {
    Containing(strs, |strs|, c)
  }

  lemma {:induction false} ContainingBound(strs: seq<string>, n: nat, c: char)
    requires n <= |strs|
    ensures Containing(strs, n, c) <= n
    decreases n
  {
    if n > 0 {
      ContainingBound(strs, n - 1, c);
    }
  }

  lemma {:induction false} HoldingAppend(a: seq<string>, b: seq<string>, c: char)
    ensures Holding(a + b, c) == Holding(a, c) + Holding(b, c)
    decreases |b|
  {
    if |b| == 0 {
      assert a + b == a;
    } else {
      assert (a + b)[..|a + b| - 1] == a + b[..|b| - 1];
      HoldingPrefix(a + b, c);
      HoldingPrefix(b, c);
      HoldingAppend(a, b[..|b| - 1], c);
    }
  }

  lemma HoldingPrefix(s: seq<string>, c: char)
    requires |s| > 0
    ensures Holding(s, c) == Holding(s[..|s| - 1], c) + (if c in s[|s| - 1] then 1 else 0)
  {
    ContainingSame(s, s[..|s| - 1], |s| - 1, c);
  }

  lemma {:induction false} ContainingSame(a: seq<string>, b: seq<string>, n: nat, c: char)
    requires n <= |a| && n <= |b| && forall k :: 0 <= k < n ==> a[k] == b[k]
    ensures Containing(a, n, c) == Containing(b, n, c)
    decreases n
  {
    if n > 0 {
      ContainingSame(a, b, n - 1, c);
    }
  }

  /** How many strings hold a character does not depend on their order. */
  lemma {:induction false} HoldingPermutation(a: seq<string>, b: seq<string>, c: char)
    requires multiset(a) == multiset(b)
    ensures Holding(a, c) == Holding(b, c)
    decreases |a|
  {
    if |a| == 0 {
      assert |b| == |multiset(b)| == 0;
    } else {
      var j, rest := Seqs.PickOut(a, b);
      HoldingPermutation(a[..|a| - 1], rest, c);
      HoldingPrefix(a, c);
      var pre, mid, post := b[..j], [b[j]], b[j + 1..];
      assert b == pre + (mid + post);
      HoldingAppend(pre, mid + post, c);
      HoldingAppend(mid, post, c);
      HoldingAppend(pre, post, c);
      HoldingPrefix(mid, c);
      assert mid[..0] == [];
      assert Holding(b, c) == Holding(rest, c) + (if c in b[j] then 1 else 0);
    }
  }

  /** `count_chars_in_strings`: for each character of `chars`, in order,
      the character and how many of `strs` contain it. */
  method CountCharsInStrings(strs: seq<string>, chars: string) returns (res: seq<(char, nat)>)
    ensures |res| == |chars|
    ensures forall i :: 0 <= i < |chars| ==> res[i] == (chars[i], Holding(strs, chars[i]))
    ensures forall i :: 0 <= i < |chars| ==> res[i].1 <= |strs|
  {
    res := [];
    for i := 0 to |chars|
      invariant |res| == i
      invariant forall k :: 0 <= k < i ==> res[k] == (chars[k], Holding(strs, chars[k]))
    {
      var c := chars[i];
      var count := 0;
      for j := 0 to |strs|
        invariant count == Containing(strs, j, c)
      {
        if c in strs[j] {
          count := count + 1;
        }
      }
      res := res + [(c, count)];
    }
    forall i | 0 <= i < |chars|
      ensures res[i].1 <= |strs|
    {
      ContainingBound(strs, |strs|, chars[i]);
    }
  }

  /** The pure form of `count_chars_in_strings`, for use in contracts. */
  function CharCounts(strs: seq<string>, chars: string): (res: seq<(char, nat)>)
    ensures |res| == |chars|
    ensures forall i :: 0 <= i < |chars| ==> res[i] == (chars[i], Holding(strs, chars[i]))
  {
    seq(|chars|, i requires 0 <= i < |chars| => (chars[i], Holding(strs, chars[i])))
  }

  // ---------------------------------------------------------------------
  // elem_count_in_vec

  /** Keys strictly ascending. */
  ghost predicate KeysAscending(acc: seq<(char, nat)>)
  {
    forall i, j :: 0 <= i < j < |acc| ==> acc[i].0 < acc[j].0
  }

  ghost predicate HasKey(acc: seq<(char, nat)>, c: char)
  {
    exists j :: 0 <= j < |acc| && acc[j].0 == c
  }

  function Total(acc: seq<(char, nat)>): nat
  {
    if |acc| == 0 then 0 else Total(acc[..|acc| - 1]) + acc[|acc| - 1].1
  }

  lemma {:induction false} TotalAppend(a: seq<(char, nat)>, b: seq<(char, nat)>)
    ensures Total(a + b) == Total(a) + Total(b)
    decreases |b|
  {
    if |b| == 0 {
      assert a + b == a;
    } else {
      assert (a + b)[..|a + b| - 1] == a + b[..|b| - 1];
      TotalAppend(a, b[..|b| - 1]);
    }
  }

  lemma TotalBump(acc: seq<(char, nat)>, v: nat)
    requires v < |acc|
    ensures Total(acc[v := (acc[v].0, acc[v].1 + 1)]) == Total(acc) + 1
  {
    var acc' := acc[v := (acc[v].0, acc[v].1 + 1)];
    assert acc == acc[..v] + [acc[v]] + acc[v + 1..];
    assert acc' == acc[..v] + [acc'[v]] + acc[v + 1..];
    TotalAppend(acc[..v] + [acc[v]], acc[v + 1..]);
    TotalAppend(acc[..v], [acc[v]]);
    TotalAppend(acc[..v] + [acc'[v]], acc[v + 1..]);
    TotalAppend(acc[..v], [acc'[v]]);
  }

  /** The index of key `x`, where `binary_search_by` finds it: with
      distinct ascending keys there is only one. */
  function FindKey(acc: seq<(char, nat)>, x: char): (r: Option<nat>)
    ensures r.Some? ==> r.value < |acc| && acc[r.value].0 == x
    ensures r.None? ==> !HasKey(acc, x)
  {
    if |acc| == 0 then None
    else if acc[|acc| - 1].0 == x then Some(|acc| - 1)
    else
      var r := FindKey(acc[..|acc| - 1], x);
      assert r.None? ==> forall j :: 0 <= j < |acc| - 1 ==> acc[..|acc| - 1][j] == acc[j];
      r
  }

  /** Pushing a new key and re-sorting by key: since the keys are distinct
      and ascending, the pair lands just before the first larger key. */
  function InsertKey(acc: seq<(char, nat)>, x: char): (r: seq<(char, nat)>)
    requires KeysAscending(acc) && !HasKey(acc, x)
    ensures KeysAscending(r) && |r| == |acc| + 1
    ensures forall c :: HasKey(r, c) <==> HasKey(acc, c) || c == x
    ensures forall j :: 0 <= j < |r| ==> (r[j].0 == x && r[j].1 == 1) || Kept(acc, r[j])
    ensures Total(r) == Total(acc) + 1
  {
    var k := Below(acc, x, 0);
    assert forall j :: k <= j < |acc| ==> acc[j].0 != x;
    InsertShape(acc, k, x);
    InsertKeys(acc, k, x);
    InsertTotal(acc, k, x);
    acc[..k] + [(x, 1)] + acc[k..]
  }

  ghost predicate Kept(acc: seq<(char, nat)>, p: (char, nat))
  {
    exists k :: 0 <= k < |acc| && acc[k] == p
  }

  /** Where each pair of the insertion comes from. */
  lemma InsertShape(acc: seq<(char, nat)>, k: nat, x: char)
    requires KeysAscending(acc) && k <= |acc|
    requires forall j :: 0 <= j < k ==> acc[j].0 < x
    requires forall j :: k <= j < |acc| ==> acc[j].0 > x
    ensures var r := acc[..k] + [(x, 1)] + acc[k..];
      |r| == |acc| + 1 && KeysAscending(r) &&
      (forall j :: 0 <= j < |r| ==> (r[j].0 == x && r[j].1 == 1) || Kept(acc, r[j]))
  {
    var r := acc[..k] + [(x, 1)] + acc[k..];
    InsertAscending(acc, k, x);
    forall j | 0 <= j < |r| ensures (r[j].0 == x && r[j].1 == 1) || Kept(acc, r[j]) {
      if j < k {
        assert acc[j] == r[j];
      } else if j > k {
        assert acc[j - 1] == r[j];
      }
    }
  }

  lemma InsertAscending(acc: seq<(char, nat)>, k: nat, x: char)
    requires KeysAscending(acc) && k <= |acc|
    requires forall j :: 0 <= j < k ==> acc[j].0 < x
    requires forall j :: k <= j < |acc| ==> acc[j].0 > x
    ensures KeysAscending(acc[..k] + [(x, 1)] + acc[k..])
  {
    var r := acc[..k] + [(x, 1)] + acc[k..];
    assert forall j :: 0 <= j < k ==> r[j] == acc[j];
    assert forall j :: k < j < |r| ==> r[j] == acc[j - 1];
  }

  lemma InsertKeys(acc: seq<(char, nat)>, k: nat, x: char)
    requires k <= |acc|
    ensures var r := acc[..k] + [(x, 1)] + acc[k..];
      forall c :: HasKey(r, c) <==> HasKey(acc, c) || c == x
  {
    var r := acc[..k] + [(x, 1)] + acc[k..];
    forall c ensures HasKey(r, c) <==> HasKey(acc, c) || c == x {
      if HasKey(acc, c) {
        var j :| 0 <= j < |acc| && acc[j].0 == c;
        if j < k {
          assert r[j] == acc[j];
        } else {
          assert r[j + 1] == acc[j];
        }
      }
      if c == x {
        assert r[k].0 == x;
      }
      if HasKey(r, c) {
        var j :| 0 <= j < |r| && r[j].0 == c;
        if j < k {
          assert acc[j] == r[j];
        } else if j > k {
          assert acc[j - 1] == r[j];
        }
      }
    }
  }

  lemma InsertTotal(acc: seq<(char, nat)>, k: nat, x: char)
    requires k <= |acc|
    ensures Total(acc[..k] + [(x, 1)] + acc[k..]) == Total(acc) + 1
  {
    assert acc == acc[..k] + acc[k..];
    TotalAppend(acc[..k] + [(x, 1)], acc[k..]);
    TotalAppend(acc[..k], [(x, 1)]);
    TotalAppend(acc[..k], acc[k..]);
    assert Total([(x, 1)]) == 1 by {
      assert [(x, 1)][..0] == [];
    }
  }

  /** The number of keys below `x`, counting from `from`. */
  function Below(acc: seq<(char, nat)>, x: char, from: nat): (k: nat)
    requires KeysAscending(acc) && from <= |acc|
    requires forall j :: 0 <= j < from ==> acc[j].0 < x
    ensures from <= k <= |acc|
    ensures forall j :: 0 <= j < k ==> acc[j].0 < x
    ensures forall j :: k <= j < |acc| ==> acc[j].0 >= x
    decreases |acc| - from
  {
    if from == |acc| || acc[from].0 >= x then from else Below(acc, x, from + 1)
  }

  /** `elem_count_in_vec` on characters, as the fold over the input: the
      distinct characters in ascending order, each with its number of
      occurrences, the counts adding up to the input's length. */
  function ElemCountInVec(vec: string): (acc: seq<(char, nat)>)
    ensures Tallies(acc, vec) && Total(acc) == |vec|
  {
    if |vec| == 0 then []
    else
      var init := vec[..|vec| - 1];
      assert vec == init + [vec[|vec| - 1]];
      CountOne(ElemCountInVec(init), vec[|vec| - 1], init)
  }

  /** What the fold keeps true of its accumulator after reading `seen`. */
  ghost predicate Tallies(acc: seq<(char, nat)>, seen: string)
  {
    && KeysAscending(acc)
    && (forall j :: 0 <= j < |acc| ==> acc[j].1 == multiset(seen)[acc[j].0] && acc[j].1 > 0)
    && (forall c :: HasKey(acc, c) <==> c in seen)
  }

  /** One step of the fold: bump the character's count, or add it with 1. */
  function CountOne(acc: seq<(char, nat)>, x: char, seen: string): (acc': seq<(char, nat)>)
    requires Tallies(acc, seen)
    ensures Tallies(acc', seen + [x])
    ensures Total(acc') == Total(acc) + 1
  {
    match FindKey(acc, x)
    case Some(v) =>
      TotalBump(acc, v);
      BumpTallies(acc, v, x, seen);
      acc[v := (x, acc[v].1 + 1)]
    case None =>
      InsertTallies(acc, x, seen);
      InsertKey(acc, x)
  }

  lemma BumpTallies(acc: seq<(char, nat)>, v: nat, x: char, seen: string)
    requires Tallies(acc, seen) && v < |acc| && acc[v].0 == x
    ensures Tallies(acc[v := (x, acc[v].1 + 1)], seen + [x])
  {
    var acc' := acc[v := (x, acc[v].1 + 1)];
    var seen' := seen + [x];
    assert multiset(seen') == multiset(seen) + multiset{x};
    assert forall c :: c in seen' <==> c in seen || c == x;
    assert forall j :: 0 <= j < |acc| ==> acc'[j].0 == acc[j].0;
    assert forall c :: HasKey(acc', c) <==> HasKey(acc, c) by {
      forall c ensures HasKey(acc', c) ==> HasKey(acc, c) {
        if HasKey(acc', c) {
          var j :| 0 <= j < |acc'| && acc'[j].0 == c;
          assert acc[j].0 == c;
        }
      }
      forall c ensures HasKey(acc, c) ==> HasKey(acc', c) {
        if HasKey(acc, c) {
          var j :| 0 <= j < |acc| && acc[j].0 == c;
          assert acc'[j].0 == c;
        }
      }
    }
    forall j | 0 <= j < |acc'|
      ensures acc'[j].1 == multiset(seen')[acc'[j].0] && acc'[j].1 > 0
    {
      if j != v {
        assert acc'[j].0 != x;
      }
    }
  }

  lemma InsertTallies(acc: seq<(char, nat)>, x: char, seen: string)
    requires Tallies(acc, seen) && !HasKey(acc, x)
    ensures Tallies(InsertKey(acc, x), seen + [x])
  {
    var acc' := InsertKey(acc, x);
    var seen' := seen + [x];
    assert multiset(seen') == multiset(seen) + multiset{x};
    assert forall c :: c in seen' <==> c in seen || c == x;
    forall j | 0 <= j < |acc'|
      ensures acc'[j].1 == multiset(seen')[acc'[j].0] && acc'[j].1 > 0
    {
      if acc'[j].0 == x && acc'[j].1 == 1 {
        assert x !in seen;
      } else {
        assert Kept(acc, acc'[j]);
        var k :| 0 <= k < |acc| && acc'[j] == acc[k];
        assert HasKey(acc, acc[k].0);
        assert acc[k].0 != x;
      }
    }
  }

  // ---------------------------------------------------------------------
  // Sorting the patterns by length (`sort_by` is stable)

  ghost predicate LengthsAscending(s: seq<string>)
  {
    forall i, j :: 0 <= i < j < |s| ==> |s[i]| <= |s[j]|
  }

  /** Place `x` behind every pattern no longer than it. */
  function InsertByLength(sorted: seq<string>, x: string): (r: seq<string>)
    requires LengthsAscending(sorted)
    ensures LengthsAscending(r) && multiset(r) == multiset(sorted) + multiset{x}
    ensures |r| == |sorted| + 1
    decreases |sorted|
  {
    if |sorted| == 0 then [x]
    else
      var init, last := sorted[..|sorted| - 1], sorted[|sorted| - 1];
      assert sorted == init + [last];
      AscendingPrefix(init, last);
      if |last| <= |x| then sorted + [x]
      else
        var r := InsertByLength(init, x);
        StaysBelow(init, x, last, r);
        r + [last]
  }

  lemma AscendingPrefix(init: seq<string>, last: string)
    requires LengthsAscending(init + [last])
    ensures LengthsAscending(init)
    ensures forall y :: y in init ==> |y| <= |last|
  {
    var s := init + [last];
    assert forall i :: 0 <= i < |init| ==> s[i] == init[i];
    forall y | y in init ensures |y| <= |last| {
      var i :| 0 <= i < |init| && init[i] == y;
      assert s[i] == y && s[|init|] == last;
    }
  }

  /** A pattern longer than `x` and than everything in `init` still sorts
      after them once `x` is placed among them. */
  lemma StaysBelow(init: seq<string>, x: string, last: string, r: seq<string>)
    requires LengthsAscending(r) && multiset(r) == multiset(init) + multiset{x}
    requires |x| < |last| && forall y :: y in init ==> |y| <= |last|
    ensures LengthsAscending(r + [last])
  {
    forall y | y in r ensures |y| <= |last| {
      assert y in multiset(r);
    }
    var r' := r + [last];
    forall i, j | 0 <= i < j < |r'| ensures |r'[i]| <= |r'[j]| {
      if j == |r| {
        assert r'[i] == r[i] && r[i] in r;
      } else {
        assert r'[i] == r[i] && r'[j] == r[j];
      }
    }
  }

  /** The patterns by ascending length, equal lengths in input order. */
  function SortByLength(s: seq<string>): (r: seq<string>)
    ensures LengthsAscending(r) && multiset(r) == multiset(s) && |r| == |s|
  {
    if |s| == 0 then []
    else
      var init := s[..|s| - 1];
      assert s == init + [s[|s| - 1]];
      InsertByLength(SortByLength(init), s[|s| - 1])
  }

  /** The patterns of one length, in their order. */
  function OfLength(s: seq<string>, n: nat): seq<string>
  {
    if |s| == 0 then []
    else OfLength(s[..|s| - 1], n) + (if |s[|s| - 1]| == n then [s[|s| - 1]] else [])
  }

  lemma {:induction false} InsertKeepsOrder(sorted: seq<string>, x: string, n: nat)
    requires LengthsAscending(sorted)
    ensures OfLength(InsertByLength(sorted, x), n) == OfLength(sorted, n) + (if |x| == n then [x] else [])
    decreases |sorted|
  {
    if |sorted| > 0 {
      var init, last := sorted[..|sorted| - 1], sorted[|sorted| - 1];
      assert sorted == init + [last];
      AscendingPrefix(init, last);
      if |last| <= |x| {
        OfLengthSnoc(sorted, x, n);
      } else {
        var r := InsertByLength(init, x);
        assert InsertByLength(sorted, x) == r + [last];
        InsertKeepsOrder(init, x, n);
        OfLengthSnoc(r, last, n);
        OfLengthSnoc(init, last, n);
      }
    }
  }

  lemma OfLengthSnoc(s: seq<string>, x: string, n: nat)
    ensures OfLength(s + [x], n) == OfLength(s, n) + (if |x| == n then [x] else [])
  {
    assert (s + [x])[..|s|] == s;
  }

  /** `sort_by` on lengths is stable: patterns of the same length keep
      their relative order. */
  lemma {:induction false} SortIsStable(s: seq<string>, n: nat)
    ensures OfLength(SortByLength(s), n) == OfLength(s, n)
    decreases |s|
  {
    if |s| > 0 {
      var init := s[..|s| - 1];
      SortIsStable(init, n);
      InsertKeepsOrder(SortByLength(init), s[|s| - 1], n);
    }
  }

  // ---------------------------------------------------------------------
  // construct

  /** Settle an ambiguous pair from its two counts: the character found in
      fewer patterns gets the first segment. Fewer than two characters is
      the source's index panic, equal counts its "malformed input" panic. */
  function Resolve(counts: seq<(char, nat)>): (r: Option<(char, char)>)
    ensures r.None? <==> |counts| < 2 || counts[0].1 == counts[1].1
    ensures r.Some? ==>
      || (r.value == (counts[0].0, counts[1].0) && counts[0].1 < counts[1].1)
      || (r.value == (counts[1].0, counts[0].0) && counts[1].1 < counts[0].1)
  {
    if |counts| < 2 then None
    else if counts[0].1 < counts[1].1 then Some((counts[0].0, counts[1].0))
    else if counts[0].1 > counts[1].1 then Some((counts[1].0, counts[0].0))
    else None
  }

  /** The wire found for each segment. */
  datatype Wiring = Wiring(a: char, c: char, f: char, e: char, g: char, b: char, d: char)

  ghost predicate FirstAt(counts: seq<(char, nat)>, c: char)
  {
    exists j :: 0 <= j < |counts| && counts[j].0 == c && counts[j].1 <= 1 && forall k :: 0 <= k < j ==> counts[k].1 > 1
  }

  /** The first character counted at most once. */
  function FirstSingle(counts: seq<(char, nat)>): (r: Option<char>)
    ensures r.Some? <==> exists j :: 0 <= j < |counts| && counts[j].1 <= 1
    ensures r.Some? ==> FirstAt(counts, r.value)
  {
    if |counts| == 0 then None
    else if counts[0].1 <= 1 then Some(counts[0].0)
    else
      var r := FirstSingle(counts[1..]);
      assert forall j :: 0 < j < |counts| ==> counts[1..][j - 1] == counts[j];
      assert r.Some? ==> exists j :: 0 <= j < |counts[1..]| && counts[1..][j].1 <= 1;
      r
  }

  /** The segment `a`: the character of seven missing from one, found as
      the first character counted at most once in the two concatenated. */
  function SegmentA(sorted: seq<string>): (r: Option<char>)
    requires |sorted| >= 2
    ensures r.Some? ==> r.value in sorted[1] + sorted[0] && multiset(sorted[1] + sorted[0])[r.value] <= 1
  {
    var counts := ElemCountInVec(sorted[1] + sorted[0]);
    var r := FirstSingle(counts);
    if r.Some? then
      assert HasKey(counts, r.value);
      r
    else r
  }

  /** The characters of eight outside four and `a`: the wires of `e`, `g`. */
  function EgWires(sorted: seq<string>, a: char): string
    requires |sorted| >= 10
  {
    XorString(sorted[9], sorted[2] + [a])
  }

  /** The characters of eight outside `e`, `g`, `a` and one: those of `b`, `d`. */
  function BdWires(sorted: seq<string>, a: char): string
    requires |sorted| >= 10
  {
    XorString(sorted[9], EgWires(sorted, a) + [a] + sorted[0])
  }

  /** The deductions of `construct`, on the patterns sorted by length. */
  function Deduce(sorted: seq<string>): (r: Option<Wiring>)
    requires LengthsAscending(sorted)
    ensures r.Some? ==> |sorted| >= 10
    ensures r.Some? ==> r.value.c != r.value.f && r.value.e != r.value.g && r.value.b != r.value.d
    ensures r.Some? ==> Holding(sorted, r.value.c) < Holding(sorted, r.value.f)
    ensures r.Some? ==> Holding(sorted, r.value.e) < Holding(sorted, r.value.g)
    ensures r.Some? ==> Holding(sorted, r.value.b) < Holding(sorted, r.value.d)
    ensures r.Some? ==> r.value.c in sorted[0] && r.value.f in sorted[0]
    ensures r.Some? ==> r.value.e in sorted[9] && r.value.g in sorted[9] && r.value.b in sorted[9] && r.value.d in sorted[9]
    ensures r.Some? ==> r.value.e !in sorted[2] && r.value.g !in sorted[2]
    ensures r.Some? ==> r.value.b in sorted[2] && r.value.d in sorted[2]
  {
    if |sorted| < 10 then None
    else
      match SegmentA(sorted)
      case None => None
      case Some(a) =>
        var cf := CharCounts(sorted, sorted[0]);
        var eg := CharCounts(sorted, EgWires(sorted, a));
        var bd := CharCounts(sorted, BdWires(sorted, a));
        match (Resolve(cf), Resolve(eg), Resolve(bd))
        case (Some((c, f)), Some((e, g)), Some((b, d))) =>
          assert c in sorted[0] && f in sorted[0] by {
            assert cf[0].0 == sorted[0][0] && cf[1].0 == sorted[0][1];
          }
          var egw := EgWires(sorted, a);
          assert e in egw && g in egw by {
            assert eg[0].0 == egw[0] && eg[1].0 == egw[1];
          }
          var bdw := BdWires(sorted, a);
          assert b in bdw && d in bdw by {
            assert bd[0].0 == bdw[0] && bd[1].0 == bdw[1];
          }
          Some(Wiring(a, c, f, e, g, b, d))
        case _ => None
  }

  /** `construct`: sort the ten patterns by length, deduce the wires, and
      record each wire's segment in the known map. */
  function Construct(known: map<char, bv8>, segments: seq<string>): (r: Option<map<char, bv8>>)
    ensures r.None? <==> Deduce(SortByLength(segments)).None?
    ensures r.Some? ==> |segments| >= 10
    ensures r.Some? ==> r.value.Keys == known.Keys + Wires(Deduce(SortByLength(segments)).value)
  {
    match Deduce(SortByLength(segments))
    case None => None
    case Some(w) => Some(Record(known, w))
  }

  /** The inserts of `construct`, in the source's order. */
  function Record(known: map<char, bv8>, w: Wiring): (m: map<char, bv8>)
    ensures m.Keys == known.Keys + Wires(w)
    ensures m[w.d] == SEGMENT_D
  {
    known[w.a := SEGMENT_A][w.c := SEGMENT_C][w.f := SEGMENT_F][w.e := SEGMENT_E]
      [w.g := SEGMENT_G][w.b := SEGMENT_B][w.d := SEGMENT_D]
  }

  function Wires(w: Wiring): set<char>
  {
    {w.a, w.c, w.f, w.e, w.g, w.b, w.d}
  }

  // ---------------------------------------------------------------------
  // string_to_number

  /** The running `u8` sum of the segments of `s`: `None` when a character
      is not known (the `unwrap` panic) or the sum passes 255 (the
      overflow panic of a debug build). */
  function SegmentSum(known: map<char, bv8>, s: string): (r: Option<U8>)
    ensures r.Some? ==> forall c :: c in s ==> c in known
  {
    if |s| == 0 then Some(0)
    else
      match SegmentSum(known, s[..|s| - 1])
      case None => None
      case Some(acc) =>
        var c := s[|s| - 1];
        assert forall x :: x in s ==> x in s[..|s| - 1] || x == c;
        if c !in known then None
        else if acc + known[c] as nat >= 256 then None
        else Some(acc + known[c] as nat)
  }

  /** `string_to_number`: add up the segments of the characters and read
      the digit off the sum. */
  function StringToNumber(known: map<char, bv8>, s: string): (r: Option<nat>)
    ensures r.Some? ==> r.value < 10 && SegmentSum(known, s).Some?
    ensures r.Some? ==> MaskValue(r.value) == SegmentSum(known, s).value
    ensures SegmentSum(known, s).Some? && DisplayAsInt(SegmentSum(known, s).value).Some? ==> r.Some?
  {
    match SegmentSum(known, s)
    case None => None
    case Some(sum) => DisplayAsInt(sum)
  }

  /** `new_segment_map`: each letter a to g on its own segment. */
  function NewSegmentMap(): (m: map<char, bv8>)
    ensures m.Keys == {'a', 'b', 'c', 'd', 'e', 'f', 'g'}
    ensures forall k :: 0 <= k < 7 ==> m[Letter(k)] == Segment(k)
  {
    map['a' := SEGMENT_A, 'b' := SEGMENT_B, 'c' := SEGMENT_C, 'd' := SEGMENT_D,
        'e' := SEGMENT_E, 'f' := SEGMENT_F, 'g' := SEGMENT_G]
  }

  function Letter(k: nat): char
    requires k < 7
  {
    "abcdefg"[k]
  }

  /** The display: the letter map it starts with and the wires `construct`
      has settled. */
  datatype SegmentDisplay = SegmentDisplay(segments: map<char, bv8>, knownSegments: map<char, bv8>)

  function NewDisplay(): (d: SegmentDisplay)
    ensures d.segments == NewSegmentMap() && d.knownSegments == map[]
  {
    SegmentDisplay(NewSegmentMap(), map[])
  }
}

=== FILE: segments_wiring.dfy ===
/** Why `construct` works (rust/src/day_eight.rs): when the ten patterns are
    the ten digits under some one-to-one wiring, each with its letters in
    any order, `construct` finds that wiring, and `string_to_number` then
    reads every scrambled digit back. */
module SegmentsWiring {
  import opened Wrappers
  import Seqs
  import opened Segments

  /** A segment index: 0 is `a`, 6 is `g`. */
  type Seg = k: nat | k < 7

  /** The segments each digit lights, ascending. */
  function DigitSegments(d: nat): seq<Seg>
    requires d < 10
  {
    [[0, 1, 2, 4, 5, 6], [2, 5], [0, 2, 3, 4, 6], [0, 2, 3, 5, 6], [1, 2, 3, 5],
     [0, 1, 3, 5, 6], [0, 1, 3, 4, 5, 6], [0, 2, 5], [0, 1, 2, 3, 4, 5, 6], [0, 1, 2, 3, 5, 6]][d]
  }

  /** The table is the digit masks read bit by bit. */
  lemma DigitSegmentsMatchMasks(d: nat, k: nat)
    requires d < 10 && k < 7
    ensures k in DigitSegments(d) <==> DigitMask(d) & Segment(k) != 0
  {
  }

  /** How many segments each digit lights. */
  function DigitLength(d: nat): int
  {
    if d < 10 then [6, 2, 5, 5, 4, 5, 6, 3, 7, 6][d] else 0
  }

  lemma LengthTable(d: nat)
    requires d < 10
    ensures |DigitSegments(d)| == DigitLength(d)
    ensures 2 <= DigitLength(d) <= 7
  {
  }

  /** The digits 0 to 9. */
  function Digits(): (s: seq<nat>)
    ensures |s| == 10 && forall i :: 0 <= i < 10 ==> s[i] == i
  {
    seq(10, i => i)
  }

  // ---------------------------------------------------------------------
  // Sums and counts, and their invariance under permutation

  function SumOf<T>(s: seq<T>, f: T -> int, n: nat): int
    requires n <= |s|
  {
    if n == 0 then 0 else SumOf(s, f, n - 1) + f(s[n - 1])
  }

  function Total<T>(s: seq<T>, f: T -> int): int
  {
    SumOf(s, f, |s|)
  }

  function OneIf<T>(p: T -> bool): T -> int
  {
    x => if p(x) then 1 else 0
  }

  lemma {:induction false} SumOfSame<A, B>(a: seq<A>, f: A -> int, b: seq<B>, g: B -> int, n: nat)
    requires n <= |a| && n <= |b|
    requires forall i :: 0 <= i < n ==> f(a[i]) == g(b[i])
    ensures SumOf(a, f, n) == SumOf(b, g, n)
    decreases n
  {
    if n > 0 {
      SumOfSame(a, f, b, g, n - 1);
    }
  }

  lemma {:induction false} TotalAppend<T>(a: seq<T>, b: seq<T>, f: T -> int)
    ensures Total(a + b, f) == Total(a, f) + Total(b, f)
    decreases |b|
  {
    if |b| > 0 {
      var init := b[..|b| - 1];
      TotalAppend(a, init, f);
      SumOfSame(a + b, f, a + init, f, |a + init|);
      SumOfSame(b, f, init, f, |init|);
    } else {
      SumOfSame(a + b, f, a, f, |a|);
    }
  }

  lemma TotalSingle<T>(x: T, f: T -> int)
    ensures Total([x], f) == f(x)
  {
    assert SumOf([x], f, 1) == SumOf([x], f, 0) + f([x][0]);
  }

  lemma {:induction false} TotalPermutation<T>(a: seq<T>, b: seq<T>, f: T -> int)
    requires multiset(a) == multiset(b)
    ensures Total(a, f) == Total(b, f)
    decreases |a|
  {
    if |a| == 0 {
      assert |b| == |multiset(b)| == 0;
    } else {
      var j, rest := Seqs.PickOut(a, b);
      var init := a[..|a| - 1];
      TotalPermutation(init, rest, f);
      SumOfSame(a, f, init, f, |init|);
      var pre, mid, post := b[..j], [b[j]], b[j + 1..];
      assert b == pre + (mid + post);
      TotalAppend(pre, mid + post, f);
      TotalAppend(mid, post, f);
      TotalAppend(pre, post, f);
      TotalSingle(b[j], f);
    }
  }

  /** Terms that are all zero add nothing. */
  lemma {:induction false} SumOfZeros<T>(s: seq<T>, f: T -> int, m: nat, n: nat)
    requires m <= n <= |s|
    requires forall i :: m <= i < n ==> f(s[i]) == 0
    ensures SumOf(s, f, n) == SumOf(s, f, m)
    decreases n
  {
    if n > m {
      SumOfZeros(s, f, m, n - 1);
    }
  }

  /** Terms that are 0 or 1 add at most their number. */
  lemma {:induction false} SumOfOnes<T>(s: seq<T>, f: T -> int, m: nat, n: nat)
    requires m <= n <= |s|
    requires forall i :: m <= i < n ==> 0 <= f(s[i]) <= 1
    ensures SumOf(s, f, m) <= SumOf(s, f, n) <= SumOf(s, f, m) + n - m
    decreases n
  {
    if n > m {
      SumOfOnes(s, f, m, n - 1);
    }
  }

  // ---------------------------------------------------------------------
  // Counts over the ten digits, computed from the table

  /** 1 when digit `d` lights segment `k`. */
  function LitK(k: nat, d: nat): int
  {
    if d < 10 && k in DigitSegments(d) then 1 else 0
  }

  function LitOf(k: nat): nat -> int
  {
    (d: nat) => LitK(k, d)
  }

  function ShortK(v: int, d: nat): int
  {
    if DigitLength(d) < v then 1 else 0
  }

  function LongK(v: int, d: nat): int
  {
    if DigitLength(d) > v then 1 else 0
  }

  function ShortOf(v: int): nat -> int
  {
    (d: nat) => ShortK(v, d)
  }

  function LongOf(v: int): nat -> int
  {
    (d: nat) => LongK(v, d)
  }

  /** A sum over the ten digits, term by term. */
  lemma SumOfDigits(f: nat -> int)
    ensures Total(Digits(), f) == f(0) + f(1) + f(2) + f(3) + f(4) + f(5) + f(6) + f(7) + f(8) + f(9)
  {
    var s := Digits();
    assert SumOf(s, f, 1) == f(0);
    assert SumOf(s, f, 2) == SumOf(s, f, 1) + f(1);
    assert SumOf(s, f, 3) == SumOf(s, f, 2) + f(2);
    assert SumOf(s, f, 4) == SumOf(s, f, 3) + f(3);
    assert SumOf(s, f, 5) == SumOf(s, f, 4) + f(4);
    assert SumOf(s, f, 6) == SumOf(s, f, 5) + f(5);
    assert SumOf(s, f, 7) == SumOf(s, f, 6) + f(6);
    assert SumOf(s, f, 8) == SumOf(s, f, 7) + f(7);
    assert SumOf(s, f, 9) == SumOf(s, f, 8) + f(8);
    assert SumOf(s, f, 10) == SumOf(s, f, 9) + f(9);
  }

  /** How many digits light segments b to g. */
  lemma UsesB() ensures Total(Digits(), LitOf(1)) == 6 { SumOfDigits(LitOf(1)); }
  lemma UsesC() ensures Total(Digits(), LitOf(2)) == 8 { SumOfDigits(LitOf(2)); }
  lemma UsesD() ensures Total(Digits(), LitOf(3)) == 7 { SumOfDigits(LitOf(3)); }
  lemma UsesE() ensures Total(Digits(), LitOf(4)) == 4 { SumOfDigits(LitOf(4)); }
  lemma UsesF() ensures Total(Digits(), LitOf(5)) == 9 { SumOfDigits(LitOf(5)); }
  lemma UsesG() ensures Total(Digits(), LitOf(6)) == 7 { SumOfDigits(LitOf(6)); }

  /** How many digits are shorter, or longer, than the lengths that pin
      down the sorted positions 0, 1, 2 and 9. */
  lemma LengthCounts()
    ensures Total(Digits(), ShortOf(3)) == 1 && Total(Digits(), ShortOf(4)) == 2
    ensures Total(Digits(), ShortOf(5)) == 3
    ensures Total(Digits(), LongOf(2)) == 9 && Total(Digits(), LongOf(3)) == 8
    ensures Total(Digits(), LongOf(6)) == 1
  {
    SumOfDigits(ShortOf(3));
    SumOfDigits(ShortOf(4));
    SumOfDigits(ShortOf(5));
    SumOfDigits(LongOf(2));
    SumOfDigits(LongOf(3));
    SumOfDigits(LongOf(6));
  }

  lemma {:induction false} SumOfMonotone<T>(s: seq<T>, f: T -> int, g: T -> int, n: nat)
    requires n <= |s| && forall i :: 0 <= i < n ==> f(s[i]) <= g(s[i])
    ensures SumOf(s, f, n) <= SumOf(s, g, n)
    decreases n
  {
    if n > 0 {
      SumOfMonotone(s, f, g, n - 1);
    }
  }

  /** More digits are shorter than a longer length. */
  lemma ShorterMonotone(u: int, v: int)
    requires u <= v
    ensures Total(Digits(), ShortOf(u)) <= Total(Digits(), ShortOf(v))
  {
    var s := Digits();
    forall i | 0 <= i < 10 ensures ShortOf(u)(s[i]) <= ShortOf(v)(s[i]) {
      assert ShortOf(u)(s[i]) == ShortK(u, s[i]) && ShortOf(v)(s[i]) == ShortK(v, s[i]);
    }
    SumOfMonotone(s, ShortOf(u), ShortOf(v), 10);
  }

  /** Fewer digits are longer than a longer length. */
  lemma LongerMonotone(u: int, v: int)
    requires u <= v
    ensures Total(Digits(), LongOf(v)) <= Total(Digits(), LongOf(u))
  {
    var s := Digits();
    forall i | 0 <= i < 10 ensures LongOf(v)(s[i]) <= LongOf(u)(s[i]) {
      assert LongOf(u)(s[i]) == LongK(u, s[i]) && LongOf(v)(s[i]) == LongK(v, s[i]);
    }
    SumOfMonotone(s, LongOf(v), LongOf(u), 10);
  }

  /** The digit counts around each sorted position fix its length. */
  lemma PinFirst(v: int)
    requires 2 <= v <= 7 && Total(Digits(), ShortOf(v)) <= 0
    ensures v == 2
  {
    if v >= 3 {
      LengthCounts();
      ShorterMonotone(3, v);
    }
  }

  lemma PinSecond(v: int)
    requires 2 <= v <= 7 && Total(Digits(), ShortOf(v)) <= 1 && Total(Digits(), LongOf(v)) <= 8
    ensures v == 3
  {
    LengthCounts();
    if v >= 4 {
      ShorterMonotone(4, v);
    }
  }

  lemma PinThird(v: int)
    requires 2 <= v <= 7 && Total(Digits(), ShortOf(v)) <= 2 && Total(Digits(), LongOf(v)) <= 7
    ensures v == 4
  {
    LengthCounts();
    if v >= 5 {
      ShorterMonotone(5, v);
    } else if v <= 3 {
      LongerMonotone(v, 3);
    }
  }

  lemma PinLast(v: int)
    requires 2 <= v <= 7 && Total(Digits(), LongOf(v)) <= 0
    ensures v == 7
  {
    if v <= 6 {
      LengthCounts();
      LongerMonotone(v, 6);
    }
  }

  // ---------------------------------------------------------------------
  // Wirings and scrambled inputs

  ghost predicate Distinct<T>(w: seq<T>)
  {
    forall i, j :: 0 <= i < j < |w| ==> w[i] != w[j]
  }

  /** The letter driving each of the seven segments, no letter twice. */
  ghost predicate IsWiring(w: seq<char>)
  {
    |w| == 7 && Distinct(w)
  }

  /** The pattern of digit `d` under wiring `w`, in segment order. */
  function Wired(w: seq<char>, d: nat): (p: string)
    requires |w| == 7 && d < 10
    ensures |p| == |DigitSegments(d)|
  {
    seq(|DigitSegments(d)|, i requires 0 <= i < |DigitSegments(d)| => w[DigitSegments(d)[i]])
  }

  lemma WiredHas(w: seq<char>, d: nat, k: nat)
    requires IsWiring(w) && d < 10 && k < 7
    ensures w[k] in Wired(w, d) <==> k in DigitSegments(d)
  {
    var p := Wired(w, d);
    if w[k] in p {
      var i :| 0 <= i < |p| && p[i] == w[k];
      assert w[DigitSegments(d)[i]] == w[k];
    }
    if k in DigitSegments(d) {
      var i :| 0 <= i < |DigitSegments(d)| && DigitSegments(d)[i] == k;
      assert p[i] == w[k];
    }
  }

  /** The ten patterns show the ten digits under wiring `w`: pattern `i`
      shows digit `pi[i]`, each digit once, its letters in any order. */
  ghost predicate Scrambled(w: seq<char>, segments: seq<string>, pi: seq<nat>)
  {
    && IsWiring(w) && |segments| == 10 && |pi| == 10 && multiset(pi) == multiset(Digits())
    && (forall i :: 0 <= i < 10 ==> pi[i] < 10)
    && (forall i :: 0 <= i < 10 ==> multiset(segments[i]) == multiset(Wired(w, pi[i])))
  }

  function HoldsOf(c: char): string -> int
  {
    (x: string) => if c in x then 1 else 0
  }

  lemma {:induction false} HoldingIsTotal(s: seq<string>, c: char, n: nat)
    requires n <= |s|
    ensures Containing(s, n, c) == SumOf(s, HoldsOf(c), n)
    decreases n
  {
    if n > 0 {
      HoldingIsTotal(s, c, n - 1);
    }
  }

  /** The patterns holding a segment's letter are the digits lighting it. */
  lemma HoldingWire(w: seq<char>, segments: seq<string>, pi: seq<nat>, k: nat)
    requires Scrambled(w, segments, pi) && k < 7
    ensures Holding(segments, w[k]) == Total(Digits(), LitOf(k))
  {
    HoldingIsTotal(segments, w[k], 10);
    forall i | 0 <= i < 10
      ensures HoldsOf(w[k])(segments[i]) == LitOf(k)(pi[i])
    {
      WiredHas(w, pi[i], k);
      assert w[k] in segments[i] <==> w[k] in multiset(segments[i]);
      assert w[k] in Wired(w, pi[i]) <==> w[k] in multiset(Wired(w, pi[i]));
    }
    SumOfSame(segments, HoldsOf(w[k]), pi, LitOf(k), 10);
    TotalPermutation(pi, Digits(), LitOf(k));
  }

  function ShorterThan(v: int): string -> int
  {
    (x: string) => if |x| < v then 1 else 0
  }

  function LongerThan(v: int): string -> int
  {
    (x: string) => if |x| > v then 1 else 0
  }

  lemma PatternLength(w: seq<char>, segments: seq<string>, pi: seq<nat>, i: nat)
    requires Scrambled(w, segments, pi) && i < 10
    ensures |segments[i]| == DigitLength(pi[i])
  {
    assert |segments[i]| == |multiset(segments[i])| == |multiset(Wired(w, pi[i]))| == |Wired(w, pi[i])|;
    LengthTable(pi[i]);
  }

  /** Counting patterns by length is counting digits by length. */
  lemma LengthTransfer(w: seq<char>, segments: seq<string>, pi: seq<nat>, v: int)
    requires Scrambled(w, segments, pi)
    ensures Total(segments, ShorterThan(v)) == Total(Digits(), ShortOf(v))
    ensures Total(segments, LongerThan(v)) == Total(Digits(), LongOf(v))
  {
    forall i | 0 <= i < 10
      ensures ShorterThan(v)(segments[i]) == ShortOf(v)(pi[i])
      ensures LongerThan(v)(segments[i]) == LongOf(v)(pi[i])
    {
      PatternLength(w, segments, pi, i);
    }
    SumOfSame(segments, ShorterThan(v), pi, ShortOf(v), 10);
    SumOfSame(segments, LongerThan(v), pi, LongOf(v), 10);
    TotalPermutation(pi, Digits(), ShortOf(v));
    TotalPermutation(pi, Digits(), LongOf(v));
  }

  /** In a length-sorted list at most `k` patterns are shorter than the
      `k`-th and at most `|s| - 1 - k` longer. */
  lemma SortedRankLength(s: seq<string>, k: nat)
    requires LengthsAscending(s) && k < |s|
    ensures Total(s, ShorterThan(|s[k]|)) <= k
    ensures Total(s, LongerThan(|s[k]|)) <= |s| - 1 - k
  {
    var v := |s[k]|;
    SumOfZeros(s, ShorterThan(v), k, |s|);
    SumOfOnes(s, ShorterThan(v), 0, k);
    SumOfZeros(s, LongerThan(v), 0, k + 1);
    SumOfOnes(s, LongerThan(v), k + 1, |s|);
  }

  /** The `k`-th pattern after sorting is one of the digits. */
  lemma SortedPattern(w: seq<char>, segments: seq<string>, pi: seq<nat>, k: nat) returns (d: nat)
    requires Scrambled(w, segments, pi) && k < 10
    ensures d < 10 && multiset(SortByLength(segments)[k]) == multiset(Wired(w, d))
    ensures |SortByLength(segments)[k]| == DigitLength(d)
  {
    var sorted := SortByLength(segments);
    assert sorted[k] in multiset(segments);
    var i :| 0 <= i < 10 && segments[i] == sorted[k];
    d := pi[i];
    PatternLength(w, segments, pi, i);
  }

  /** The length of the `k`-th sorted pattern, with the digit counts around it. */
  lemma RankCounts(w: seq<char>, segments: seq<string>, pi: seq<nat>, k: nat) returns (v: int)
    requires Scrambled(w, segments, pi) && k < 10
    ensures v == |SortByLength(segments)[k]| && 2 <= v <= 7
    ensures Total(Digits(), ShortOf(v)) <= k && Total(Digits(), LongOf(v)) <= 9 - k
  {
    var sorted := SortByLength(segments);
    var d := SortedPattern(w, segments, pi, k);
    LengthTable(d);
    v := |sorted[k]|;
    SortedRankLength(sorted, k);
    TotalPermutation(sorted, segments, ShorterThan(v));
    TotalPermutation(sorted, segments, LongerThan(v));
    LengthTransfer(w, segments, pi, v);
  }

  /** Only one digit has each of the lengths 2, 3, 4 and 7. */
  lemma DigitOfLength(d: nat)
    requires d < 10
    ensures DigitLength(d) == 2 ==> d == 1
    ensures DigitLength(d) == 3 ==> d == 7
    ensures DigitLength(d) == 4 ==> d == 4
    ensures DigitLength(d) == 7 ==> d == 8
  {
  }

  /** The one, seven, four and eight under a wiring. */
  lemma WiredKeyDigits(w: seq<char>)
    requires |w| == 7
    ensures Wired(w, 1) == [w[2], w[5]]
    ensures Wired(w, 7) == [w[0], w[2], w[5]]
    ensures Wired(w, 4) == [w[1], w[2], w[3], w[5]]
    ensures Wired(w, 8) == [w[0], w[1], w[2], w[3], w[4], w[5], w[6]]
  {
  }

  /** After sorting, the first pattern is the one. */
  lemma FirstIsOne(w: seq<char>, segments: seq<string>, pi: seq<nat>)
    requires Scrambled(w, segments, pi)
    ensures multiset(SortByLength(segments)[0]) == multiset{w[2], w[5]}
  {
    var v := RankCounts(w, segments, pi, 0);
    PinFirst(v);
    var d := SortedPattern(w, segments, pi, 0);
    DigitOfLength(d);
    WiredKeyDigits(w);
  }

  /** The second is the seven. */
  lemma SecondIsSeven(w: seq<char>, segments: seq<string>, pi: seq<nat>)
    requires Scrambled(w, segments, pi)
    ensures multiset(SortByLength(segments)[1]) == multiset{w[0], w[2], w[5]}
  {
    var v := RankCounts(w, segments, pi, 1);
    PinSecond(v);
    var d := SortedPattern(w, segments, pi, 1);
    DigitOfLength(d);
    WiredKeyDigits(w);
  }

  /** The third is the four. */
  lemma ThirdIsFour(w: seq<char>, segments: seq<string>, pi: seq<nat>)
    requires Scrambled(w, segments, pi)
    ensures multiset(SortByLength(segments)[2]) == multiset{w[1], w[2], w[3], w[5]}
  {
    var v := RankCounts(w, segments, pi, 2);
    PinThird(v);
    var d := SortedPattern(w, segments, pi, 2);
    DigitOfLength(d);
    WiredKeyDigits(w);
  }

  /** The last is the eight. */
  lemma LastIsEight(w: seq<char>, segments: seq<string>, pi: seq<nat>)
    requires Scrambled(w, segments, pi)
    ensures multiset(SortByLength(segments)[9]) == multiset{w[0], w[1], w[2], w[3], w[4], w[5], w[6]}
  {
    var v := RankCounts(w, segments, pi, 9);
    PinLast(v);
    var d := SortedPattern(w, segments, pi, 9);
    DigitOfLength(d);
    WiredKeyDigits(w);
  }

  // ---------------------------------------------------------------------
  // What construct deduces

  lemma WiringDistinct(w: seq<char>)
    requires IsWiring(w)
    ensures w[0] != w[1] && w[0] != w[2] && w[0] != w[3] && w[0] != w[4] && w[0] != w[5] && w[0] != w[6]
    ensures w[1] != w[2] && w[1] != w[3] && w[1] != w[4] && w[1] != w[5] && w[1] != w[6]
    ensures w[2] != w[3] && w[2] != w[4] && w[2] != w[5] && w[2] != w[6]
    ensures w[3] != w[4] && w[3] != w[5] && w[3] != w[6]
    ensures w[4] != w[5] && w[4] != w[6] && w[5] != w[6]
  {
  }

  /** The wires `construct` should find, for segments a, c, f, e, g, b, d. */
  function Expected(w: seq<char>): Wiring
    requires |w| == 7
  {
    Wiring(w[0], w[2], w[5], w[4], w[6], w[1], w[3])
  }

  lemma SortedHolding(w: seq<char>, segments: seq<string>, pi: seq<nat>, k: nat)
    requires Scrambled(w, segments, pi) && k < 7
    ensures Holding(SortByLength(segments), w[k]) == Total(Digits(), LitOf(k))
  {
    HoldingPermutation(SortByLength(segments), segments, w[k]);
    HoldingWire(w, segments, pi, k);
  }

  lemma FirstSingleIs(counts: seq<(char, nat)>, x: char, j: nat)
    requires j < |counts| && counts[j].0 == x && counts[j].1 <= 1
    requires forall k :: 0 <= k < |counts| && counts[k].0 != x ==> counts[k].1 > 1
    ensures FirstSingle(counts) == Some(x)
  {
    var r := FirstSingle(counts);
    assert FirstAt(counts, r.value);
  }

  /** A letter met once, among letters all met more often, is the first
      one counted at most once. */
  lemma OnlySingle(vec: string, x: char)
    requires multiset(vec)[x] == 1
    requires forall c :: c in multiset(vec) && c != x ==> multiset(vec)[c] > 1
    ensures FirstSingle(ElemCountInVec(vec)) == Some(x)
  {
    var counts := ElemCountInVec(vec);
    assert x in vec by {
      assert x in multiset(vec);
    }
    assert HasKey(counts, x);
    var j :| 0 <= j < |counts| && counts[j].0 == x;
    forall k | 0 <= k < |counts| && counts[k].0 != x
      ensures counts[k].1 > 1
    {
      assert counts[k].0 in multiset(vec);
    }
    FirstSingleIs(counts, x, j);
  }

  /** Seven and one together hold `a` once and `c`, `f` twice, so the
      first letter counted at most once is `a`'s wire. */
  lemma FindsA(w: seq<char>, one: string, seven: string)
    requires IsWiring(w)
    requires multiset(one) == multiset{w[2], w[5]} && multiset(seven) == multiset{w[0], w[2], w[5]}
    ensures FirstSingle(ElemCountInVec(seven + one)) == Some(w[0])
  {
    WiringDistinct(w);
    var m := multiset(seven + one);
    assert m == multiset{w[0], w[2], w[5]} + multiset{w[2], w[5]};
    assert m[w[0]] == 1 && m[w[2]] == 2 && m[w[5]] == 2;
    assert forall c :: c in m ==> c == w[0] || c == w[2] || c == w[5];
    OnlySingle(seven + one, w[0]);
  }

  lemma TwoLetters(p: string, x: char, y: char)
    requires multiset(p) == multiset{x, y} && x != y
    ensures |p| == 2 && ((p[0] == x && p[1] == y) || (p[0] == y && p[1] == x))
  {
    assert |p| == |multiset(p)| == 2;
    assert p == [p[0], p[1]];
    assert multiset(p) == multiset{p[0], p[1]};
  }

  /** Two different letters held by different numbers of patterns are
      told apart, the rarer one first. */
  lemma ResolvesPair(sorted: seq<string>, p: string, x: char, y: char)
    requires multiset(p) == multiset{x, y} && x != y && Holding(sorted, x) < Holding(sorted, y)
    ensures Resolve(CharCounts(sorted, p)) == Some((x, y))
  {
    TwoLetters(p, x, y);
  }

  /** Removing from `a` all but two of its letters leaves those two. */
  lemma XorLeavesTwo(a: string, b: string, x: char, y: char)
    requires multiset(a) == multiset(b) + multiset{x, y} && x !in b && y !in b
    ensures multiset(XorString(a, b)) == multiset{x, y}
  {
    forall c ensures multiset(XorString(a, b))[c] == multiset{x, y}[c] {
      XorMultiset(a, b, c);
    }
  }

  /** Eight without four and `a` leaves the wires of `e` and `g`. */
  lemma FindsEg(w: seq<char>, four: string, eight: string)
    requires IsWiring(w)
    requires multiset(four) == multiset{w[1], w[2], w[3], w[5]}
    requires multiset(eight) == multiset{w[0], w[1], w[2], w[3], w[4], w[5], w[6]}
    ensures multiset(XorString(eight, four + [w[0]])) == multiset{w[4], w[6]}
  {
    WiringDistinct(w);
    var removed := four + [w[0]];
    assert multiset(removed) == multiset{w[1], w[2], w[3], w[5], w[0]};
    assert w[4] !in removed by {
      assert w[4] !in multiset(removed);
    }
    assert w[6] !in removed by {
      assert w[6] !in multiset(removed);
    }
    XorLeavesTwo(eight, removed, w[4], w[6]);
  }

  /** Eight without `e`, `g`, `a` and one leaves the wires of `b` and `d`. */
  lemma FindsBd(w: seq<char>, eg: string, one: string, eight: string)
    requires IsWiring(w)
    requires multiset(eg) == multiset{w[4], w[6]} && multiset(one) == multiset{w[2], w[5]}
    requires multiset(eight) == multiset{w[0], w[1], w[2], w[3], w[4], w[5], w[6]}
    ensures multiset(XorString(eight, eg + [w[0]] + one)) == multiset{w[1], w[3]}
  {
    WiringDistinct(w);
    var removed := eg + [w[0]] + one;
    assert multiset(removed) == multiset{w[4], w[6], w[0], w[2], w[5]};
    assert w[1] !in removed by {
      assert w[1] !in multiset(removed);
    }
    assert w[3] !in removed by {
      assert w[3] !in multiset(removed);
    }
    XorLeavesTwo(eight, removed, w[1], w[3]);
  }

  /** `Deduce` from the results of its steps. */
  lemma DeduceSteps(sorted: seq<string>, w: Wiring)
    requires LengthsAscending(sorted) && |sorted| >= 10
    requires SegmentA(sorted) == Some(w.a)
    requires Resolve(CharCounts(sorted, sorted[0])) == Some((w.c, w.f))
    requires Resolve(CharCounts(sorted, EgWires(sorted, w.a))) == Some((w.e, w.g))
    requires Resolve(CharCounts(sorted, BdWires(sorted, w.a))) == Some((w.b, w.d))
    ensures Deduce(sorted) == Some(w)
  {
  }

  /** Given the one, seven, four and eight in their sorted places and the
      letters' usage counts, the deductions recover the wiring. */
  lemma DeduceFrom(w: seq<char>, sorted: seq<string>)
    requires IsWiring(w) && LengthsAscending(sorted) && |sorted| == 10
    requires multiset(sorted[0]) == multiset{w[2], w[5]}
    requires multiset(sorted[1]) == multiset{w[0], w[2], w[5]}
    requires multiset(sorted[2]) == multiset{w[1], w[2], w[3], w[5]}
    requires multiset(sorted[9]) == multiset{w[0], w[1], w[2], w[3], w[4], w[5], w[6]}
    requires Holding(sorted, w[1]) == 6 && Holding(sorted, w[2]) == 8 && Holding(sorted, w[3]) == 7
    requires Holding(sorted, w[4]) == 4 && Holding(sorted, w[5]) == 9 && Holding(sorted, w[6]) == 7
    ensures Deduce(sorted) == Some(Expected(w))
  {
    WiringDistinct(w);
    FindsA(w, sorted[0], sorted[1]);
    assert SegmentA(sorted) == Some(w[0]);
    FindsEg(w, sorted[2], sorted[9]);
    var eg := EgWires(sorted, w[0]);
    FindsBd(w, eg, sorted[0], sorted[9]);
    ResolvesPair(sorted, sorted[0], w[2], w[5]);
    ResolvesPair(sorted, eg, w[4], w[6]);
    ResolvesPair(sorted, BdWires(sorted, w[0]), w[1], w[3]);
    DeduceSteps(sorted, Expected(w));
  }

  /** On a scrambled input the deductions recover the wiring. */
  lemma DeduceFindsWiring(w: seq<char>, segments: seq<string>, pi: seq<nat>)
    requires Scrambled(w, segments, pi)
    ensures Deduce(SortByLength(segments)) == Some(Expected(w))
  {
    FirstIsOne(w, segments, pi);
    SecondIsSeven(w, segments, pi);
    ThirdIsFour(w, segments, pi);
    LastIsEight(w, segments, pi);
    SortedHolding(w, segments, pi, 1);
    SortedHolding(w, segments, pi, 2);
    SortedHolding(w, segments, pi, 3);
    SortedHolding(w, segments, pi, 4);
    SortedHolding(w, segments, pi, 5);
    SortedHolding(w, segments, pi, 6);
    UsesB();
    UsesC();
    UsesD();
    UsesE();
    UsesF();
    UsesG();
    DeduceFrom(w, SortByLength(segments));
  }

  /** The inserts put each wire on its own segment. */
  lemma RecordSegments(known: map<char, bv8>, w: seq<char>, k: nat)
    requires IsWiring(w) && k < 7
    ensures w[k] in Record(known, Expected(w)) && Record(known, Expected(w))[w[k]] == Segment(k)
  {
    WiringDistinct(w);
    var m := Record(known, Expected(w));
    if k == 0 {
      assert m[w[0]] == SEGMENT_A;
    } else if k == 1 {
      assert m[w[1]] == SEGMENT_B;
    } else if k == 2 {
      assert m[w[2]] == SEGMENT_C;
    } else if k == 3 {
      assert m[w[3]] == SEGMENT_D;
    } else if k == 4 {
      assert m[w[4]] == SEGMENT_E;
    } else if k == 5 {
      assert m[w[5]] == SEGMENT_F;
    } else {
      assert m[w[6]] == SEGMENT_G;
    }
  }

  /** `construct` on a scrambled input records every wire's own segment. */
  lemma ConstructFindsWiring(known: map<char, bv8>, w: seq<char>, segments: seq<string>, pi: seq<nat>, k: nat)
    requires Scrambled(w, segments, pi) && k < 7
    ensures Construct(known, segments) == Some(Record(known, Expected(w)))
    ensures w[k] in Construct(known, segments).value && Construct(known, segments).value[w[k]] == Segment(k)
  {
    DeduceFindsWiring(w, segments, pi);
    RecordSegments(known, w, k);
  }

  // ---------------------------------------------------------------------
  // Reading a digit back

  /** A known letter's segment bits as a number; 0 for an unknown one. */
  function ValueOf(known: map<char, bv8>): char -> int
  {
    (c: char) => if c in known then known[c] as int else 0
  }

  /** With every letter known and no overflow, `SegmentSum` adds up the
      letters' segment values. */
  lemma {:induction false} SegmentSumIsTotal(known: map<char, bv8>, s: string)
    requires forall c :: c in s ==> c in known
    requires Total(s, ValueOf(known)) < 256
    ensures SegmentSum(known, s).Some? && SegmentSum(known, s).value == Total(s, ValueOf(known))
    decreases |s|
  {
    if |s| > 0 {
      var init := s[..|s| - 1];
      SumOfSame(s, ValueOf(known), init, ValueOf(known), |init|);
      assert forall c :: c in init ==> c in s;
      SegmentSumIsTotal(known, init);
    }
  }

  /** The number each segment's bit stands for. */
  function Weight(k: Seg): int
  {
    [1, 2, 4, 8, 16, 32, 64][k]
  }

  lemma SegmentWeight(k: Seg)
    ensures Segment(k) as int == Weight(k)
  {
    if k == 0 {
    } else if k == 1 {
    } else if k == 2 {
    } else if k == 3 {
    } else if k == 4 {
    } else if k == 5 {
    } else {
    }
  }

  /** A total of at most seven terms, written out. */
  lemma TotalUpToSeven<T>(s: seq<T>, f: T -> int)
    requires |s| <= 7
    ensures Total(s, f) ==
      (if |s| > 0 then f(s[0]) else 0) + (if |s| > 1 then f(s[1]) else 0) +
      (if |s| > 2 then f(s[2]) else 0) + (if |s| > 3 then f(s[3]) else 0) +
      (if |s| > 4 then f(s[4]) else 0) + (if |s| > 5 then f(s[5]) else 0) +
      (if |s| > 6 then f(s[6]) else 0)
  {
    assert SumOf(s, f, 0) == 0;
    if |s| > 0 { assert SumOf(s, f, 1) == f(s[0]); }
    if |s| > 1 { assert SumOf(s, f, 2) == SumOf(s, f, 1) + f(s[1]); }
    if |s| > 2 { assert SumOf(s, f, 3) == SumOf(s, f, 2) + f(s[2]); }
    if |s| > 3 { assert SumOf(s, f, 4) == SumOf(s, f, 3) + f(s[3]); }
    if |s| > 4 { assert SumOf(s, f, 5) == SumOf(s, f, 4) + f(s[4]); }
    if |s| > 5 { assert SumOf(s, f, 6) == SumOf(s, f, 5) + f(s[5]); }
    if |s| > 6 { assert SumOf(s, f, 7) == SumOf(s, f, 6) + f(s[6]); }
  }

  /** The mask values as numbers. */
  lemma MaskValues(d: nat)
    requires d < 10
    ensures MaskValue(d) == [119, 36, 93, 109, 46, 107, 123, 37, 127, 111][d]
  {
    if d == 0 {
    } else if d == 1 {
    } else if d == 2 {
    } else if d == 3 {
    } else if d == 4 {
    } else if d == 5 {
    } else if d == 6 {
    } else if d == 7 {
    } else if d == 8 {
    } else {
    }
  }

  /** A digit's segments weigh as much as its mask. */
  lemma DigitWeight(d: nat)
    requires d < 10
    ensures Total(DigitSegments(d), Weight) == MaskValue(d)
  {
    TotalUpToSeven(DigitSegments(d), Weight);
    MaskValues(d);
  }

  /** The letters wired to a digit add up to its mask. */
  lemma WiredTotal(known: map<char, bv8>, w: seq<char>, d: nat)
    requires IsWiring(w) && d < 10
    requires forall k :: 0 <= k < 7 ==> w[k] in known && known[w[k]] == Segment(k)
    ensures Total(Wired(w, d), ValueOf(known)) == MaskValue(d)
  {
    var segs := DigitSegments(d);
    forall i | 0 <= i < |segs|
      ensures ValueOf(known)(Wired(w, d)[i]) == Weight(segs[i])
    {
      SegmentWeight(segs[i]);
    }
    SumOfSame(Wired(w, d), ValueOf(known), segs, Weight, |segs|);
    DigitWeight(d);
  }

  /** `string_to_number` reads any arrangement of a digit's wires as that
      digit, once each wire is on its own segment. */
  lemma ReadsDigit(known: map<char, bv8>, w: seq<char>, d: nat, p: string)
    requires IsWiring(w) && d < 10
    requires forall k :: 0 <= k < 7 ==> w[k] in known && known[w[k]] == Segment(k)
    requires multiset(p) == multiset(Wired(w, d))
    ensures StringToNumber(known, p) == Some(d)
  {
    var wired := Wired(w, d);
    TotalPermutation(p, wired, ValueOf(known));
    WiredTotal(known, w, d);
    forall c | c in p
      ensures c in known
    {
      assert c in multiset(wired);
    }
    SegmentSumIsTotal(known, p);
    DisplayRoundTrip(d);
  }

  /** The whole of day eight's decoding: after `construct` on a scrambled
      set of the ten patterns, any arrangement of a digit's wires reads as
      that digit. */
  lemma ConstructThenRead(known: map<char, bv8>, w: seq<char>, segments: seq<string>, pi: seq<nat>, d: nat, p: string)
    requires Scrambled(w, segments, pi) && d < 10 && multiset(p) == multiset(Wired(w, d))
    ensures Construct(known, segments).Some?
    ensures StringToNumber(Construct(known, segments).value, p) == Some(d)
  {
    ConstructFindsWiring(known, w, segments, pi, 0);
    var m := Construct(known, segments).value;
    forall k | 0 <= k < 7
      ensures w[k] in m && m[w[k]] == Segment(k)
    {
      ConstructFindsWiring(known, w, segments, pi, k);
    }
    ReadsDigit(m, w, d, p);
  }

  // ---------------------------------------------------------------------
  // The puzzle's example

  /** Two sequences of the same length, the first without repeats and
      each of its elements found in the second, are rearrangements. */
  lemma {:induction false} SameElements<T>(a: seq<T>, b: seq<T>)
    requires Distinct(a) && |a| == |b| && forall i :: 0 <= i < |a| ==> a[i] in b
    ensures multiset(a) == multiset(b)
    decreases |a|
  {
    if |a| > 0 {
      var init, x := a[..|a| - 1], a[|a| - 1];
      var j :| 0 <= j < |b| && b[j] == x;
      var rest := b[..j] + b[j + 1..];
      forall i | 0 <= i < |init|
        ensures init[i] in rest
      {
        var y := init[i];
        assert y != x by {
          assert a[i] == y;
        }
        var k :| 0 <= k < |b| && b[k] == y;
        if k < j {
          assert rest[k] == y;
        } else {
          assert rest[k - 1] == y;
        }
      }
      SameElements(init, rest);
      assert a == init + [x];
      assert b == b[..j] + [x] + b[j + 1..];
    }
  }

  /** The example's ten patterns, in the order the source's construction
      test hands them over (sorted lexicographically). */
  function ExamplePatterns(): seq<string>
  {
    ["ab", "acedgfb", "cagedb", "cdfbe", "cdfgeb", "cefabd", "dab", "eafb", "fbcad", "gcdfa"]
  }

  /** The digit each example pattern shows. */
  function ExampleDigits(): seq<nat>
  {
    [1, 8, 0, 5, 6, 9, 7, 4, 3, 2]
  }

  /** The example's wires for segments a to g. */
  function ExampleWiring(): seq<char>
  {
    "deafgbc"
  }

  lemma ExampleDigitsPermute()
    ensures multiset(ExampleDigits()) == multiset(Digits())
  {
    var pi := ExampleDigits();
    assert Digits()[1] == 1 && Digits()[8] == 8 && Digits()[0] == 0 && Digits()[5] == 5 && Digits()[6] == 6;
    assert Digits()[9] == 9 && Digits()[7] == 7 && Digits()[4] == 4 && Digits()[3] == 3 && Digits()[2] == 2;
    SameElements(pi, Digits());
  }

  lemma ExamplePattern0()
    ensures multiset(ExamplePatterns()[0]) == multiset(Wired(ExampleWiring(), ExampleDigits()[0]))
  {
    assert ExamplePatterns()[0] == "ab" && ExampleDigits()[0] == 1;
    assert Wired(ExampleWiring(), 1) == "ab";
    SameElements("ab", "ab");
  }

  lemma ExamplePattern1()
    ensures multiset(ExamplePatterns()[1]) == multiset(Wired(ExampleWiring(), ExampleDigits()[1]))
  {
    assert ExamplePatterns()[1] == "acedgfb" && ExampleDigits()[1] == 8;
    assert Wired(ExampleWiring(), 8) == "deafgbc";
    SameElements("acedgfb", "deafgbc");
  }

  lemma ExamplePattern2()
    ensures multiset(ExamplePatterns()[2]) == multiset(Wired(ExampleWiring(), ExampleDigits()[2]))
  {
    assert ExamplePatterns()[2] == "cagedb" && ExampleDigits()[2] == 0;
    assert Wired(ExampleWiring(), 0) == "deagbc";
    SameElements("cagedb", "deagbc");
  }

  lemma ExamplePattern3()
    ensures multiset(ExamplePatterns()[3]) == multiset(Wired(ExampleWiring(), ExampleDigits()[3]))
  {
    assert ExamplePatterns()[3] == "cdfbe" && ExampleDigits()[3] == 5;
    assert Wired(ExampleWiring(), 5) == "defbc";
    SameElements("cdfbe", "defbc");
  }

  lemma ExamplePattern4()
    ensures multiset(ExamplePatterns()[4]) == multiset(Wired(ExampleWiring(), ExampleDigits()[4]))
  {
    assert ExamplePatterns()[4] == "cdfgeb" && ExampleDigits()[4] == 6;
    assert Wired(ExampleWiring(), 6) == "defgbc";
    SameElements("cdfgeb", "defgbc");
  }

  lemma ExamplePattern5()
    ensures multiset(ExamplePatterns()[5]) == multiset(Wired(ExampleWiring(), ExampleDigits()[5]))
  {
    assert ExamplePatterns()[5] == "cefabd" && ExampleDigits()[5] == 9;
    assert Wired(ExampleWiring(), 9) == "deafbc";
    SameElements("cefabd", "deafbc");
  }

  lemma ExamplePattern6()
    ensures multiset(ExamplePatterns()[6]) == multiset(Wired(ExampleWiring(), ExampleDigits()[6]))
  {
    assert ExamplePatterns()[6] == "dab" && ExampleDigits()[6] == 7;
    assert Wired(ExampleWiring(), 7) == "dab";
    SameElements("dab", "dab");
  }

  lemma ExamplePattern7()
    ensures multiset(ExamplePatterns()[7]) == multiset(Wired(ExampleWiring(), ExampleDigits()[7]))
  {
    assert ExamplePatterns()[7] == "eafb" && ExampleDigits()[7] == 4;
    assert Wired(ExampleWiring(), 4) == "eafb";
    SameElements("eafb", "eafb");
  }

  lemma ExamplePattern8()
    ensures multiset(ExamplePatterns()[8]) == multiset(Wired(ExampleWiring(), ExampleDigits()[8]))
  {
    assert ExamplePatterns()[8] == "fbcad" && ExampleDigits()[8] == 3;
    assert Wired(ExampleWiring(), 3) == "dafbc";
    SameElements("fbcad", "dafbc");
  }

  lemma ExamplePattern9()
    ensures multiset(ExamplePatterns()[9]) == multiset(Wired(ExampleWiring(), ExampleDigits()[9]))
  {
    assert ExamplePatterns()[9] == "gcdfa" && ExampleDigits()[9] == 2;
    assert Wired(ExampleWiring(), 2) == "dafgc";
    SameElements("gcdfa", "dafgc");
  }

  /** Pattern `i` of the example is a rearrangement of its digit's wires. */
  lemma ExamplePattern(i: nat)
    requires i < 10
    ensures multiset(ExamplePatterns()[i]) == multiset(Wired(ExampleWiring(), ExampleDigits()[i]))
  {
    if i == 0 {
      ExamplePattern0();
    } else if i == 1 {
      ExamplePattern1();
    } else if i == 2 {
      ExamplePattern2();
    } else if i == 3 {
      ExamplePattern3();
    } else if i == 4 {
      ExamplePattern4();
    } else if i == 5 {
      ExamplePattern5();
    } else if i == 6 {
      ExamplePattern6();
    } else if i == 7 {
      ExamplePattern7();
    } else if i == 8 {
      ExamplePattern8();
    } else {
      ExamplePattern9();
    }
  }

  lemma ExampleIsWiring()
    ensures IsWiring(ExampleWiring())
  {
  }

  lemma ExampleShape()
    ensures |ExamplePatterns()| == 10 && |ExampleDigits()| == 10
    ensures forall i :: 0 <= i < 10 ==> ExampleDigits()[i] < 10
  {
  }

  lemma ExampleMatches()
    ensures forall i :: 0 <= i < 10 ==> multiset(ExamplePatterns()[i]) == multiset(Wired(ExampleWiring(), ExampleDigits()[i]))
  {
    forall i | 0 <= i < 10
      ensures multiset(ExamplePatterns()[i]) == multiset(Wired(ExampleWiring(), ExampleDigits()[i]))
    {
      ExamplePattern(i);
    }
  }

  /** The example is a scrambling of the ten digits. */
  lemma ExampleScrambled()
    ensures Scrambled(ExampleWiring(), ExamplePatterns(), ExampleDigits())
  {
    ExampleShape();
    ExampleMatches();
    ExampleIsWiring();
    ExampleDigitsPermute();
  }

  // The example's output values are rearrangements of five and three.

  lemma ExampleWiresCdfeb()
    ensures multiset("cdfeb") == multiset(Wired(ExampleWiring(), 5))
  {
    assert Wired(ExampleWiring(), 5) == "defbc";
    SameElements("cdfeb", "defbc");
  }

  lemma ExampleWiresFcadb()
    ensures multiset("fcadb") == multiset(Wired(ExampleWiring(), 3))
  {
    assert Wired(ExampleWiring(), 3) == "dafbc";
    SameElements("fcadb", "dafbc");
  }

  lemma ExampleWiresCdbaf()
    ensures multiset("cdbaf") == multiset(Wired(ExampleWiring(), 3))
  {
    assert Wired(ExampleWiring(), 3) == "dafbc";
    SameElements("cdbaf", "dafbc");
  }

  /** Starting from a fresh display, the example's output digits read as
      5, 3, 5, 3. */
  lemma ExampleOutput()
    ensures Construct(NewDisplay().knownSegments, ExamplePatterns()).Some?
    ensures StringToNumber(Construct(NewDisplay().knownSegments, ExamplePatterns()).value, "cdfeb") == Some(5)
    ensures StringToNumber(Construct(NewDisplay().knownSegments, ExamplePatterns()).value, "fcadb") == Some(3)
    ensures StringToNumber(Construct(NewDisplay().knownSegments, ExamplePatterns()).value, "cdbaf") == Some(3)
  {
    var w, segments := ExampleWiring(), ExamplePatterns();
    ExampleScrambled();
    ExampleWiresCdfeb();
    ExampleWiresFcadb();
    ExampleWiresCdbaf();
    ConstructThenRead(NewDisplay().knownSegments, w, segments, ExampleDigits(), 5, "cdfeb");
    ConstructThenRead(NewDisplay().knownSegments, w, segments, ExampleDigits(), 3, "fcadb");
    ConstructThenRead(NewDisplay().knownSegments, w, segments, ExampleDigits(), 3, "cdbaf");
  }
}

=== FILE: seqs.dfy ===
/** Sums, ascending sorts and counting over integer sequences, shared by the
    puzzle modules that fold or sort their data. */
module Seqs {

  /** Sum of a sequence of integers, the left fold `acc + x` from 0. */
  function Sum(s: seq<int>): int
  {
    if |s| == 0 then 0 else Sum(s[..|s| - 1]) + s[|s| - 1]
  }

  lemma {:induction false} SumAppend(a: seq<int>, b: seq<int>)
    ensures Sum(a + b) == Sum(a) + Sum(b)
    decreases |b|
  {
    if |b| == 0 {
      assert a + b == a;
    } else {
      assert (a + b)[..|a + b| - 1] == a + b[..|b| - 1];
      SumAppend(a, b[..|b| - 1]);
    }
  }

  lemma SumSingleton(x: int)
    ensures Sum([x]) == x
  {
    assert [x][..0] == [];
  }

  /** Adding one element to the end of a fold. */
  lemma SumSnoc(a: seq<int>, x: int)
    ensures Sum(a + [x]) == Sum(a) + x
  {
    assert (a + [x])[..|a|] == a;
  }

  lemma {:induction false} SumNonNegative(s: seq<int>)
    requires forall i :: 0 <= i < |s| ==> s[i] >= 0
    ensures Sum(s) >= 0
    decreases |s|
  {
    if |s| > 0 {
      SumNonNegative(s[..|s| - 1]);
    }
  }

  lemma {:induction false} SumAllZero(s: seq<int>)
    requires forall i :: 0 <= i < |s| ==> s[i] == 0
    ensures Sum(s) == 0
    decreases |s|
  {
    if |s| > 0 {
      SumAllZero(s[..|s| - 1]);
    }
  }

  ghost predicate Sorted(s: seq<int>)
  {
    forall i, j :: 0 <= i < j < |s| ==> s[i] <= s[j]
  }

  /** Inserts `x` into an ascending sequence, keeping it ascending. */
  function Insert(x: int, s: seq<int>): (r: seq<int>)
    requires Sorted(s)
    ensures Sorted(r)
    ensures multiset(r) == multiset(s) + multiset{x}
    ensures |r| == |s| + 1
  {
    if |s| == 0 then [x]
    else if x <= s[0] then [x] + s
    else
      var rest := Insert(x, s[1..]);
      InsertBehind(x, s, rest);
      [s[0]] + rest
  }

  /** The head of `s`, put back in front of the insertion into its tail. */
  lemma InsertBehind(x: int, s: seq<int>, rest: seq<int>)
    requires Sorted(s) && |s| > 0 && s[0] < x
    requires Sorted(rest) && multiset(rest) == multiset(s[1..]) + multiset{x}
    ensures Sorted([s[0]] + rest)
    ensures multiset([s[0]] + rest) == multiset(s) + multiset{x}
  {
    assert s == [s[0]] + s[1..];
    forall k | 0 <= k < |rest|
      ensures s[0] <= rest[k]
    {
      ElementBelow(x, s, rest, k);
    }
    ConsSorted(s[0], rest);
  }

  lemma ElementBelow(x: int, s: seq<int>, rest: seq<int>, k: nat)
    requires Sorted(s) && |s| > 0 && s[0] < x
    requires multiset(rest) == multiset(s[1..]) + multiset{x} && k < |rest|
    ensures s[0] <= rest[k]
  {
    assert rest[k] in multiset(rest);
    if rest[k] != x {
      assert rest[k] in multiset(s[1..]);
      var j :| 0 <= j < |s[1..]| && s[1..][j] == rest[k];
      assert s[j + 1] == rest[k];
    }
  }

  /** A value no larger than anything in a sorted sequence may go in front. */
  lemma ConsSorted(h: int, rest: seq<int>)
    requires Sorted(rest) && forall k :: 0 <= k < |rest| ==> h <= rest[k]
    ensures Sorted([h] + rest)
  {
    var r := [h] + rest;
    forall i, j | 0 <= i < j < |r|
      ensures r[i] <= r[j]
    {
      assert r[j] == rest[j - 1];
      if i > 0 {
        assert r[i] == rest[i - 1];
      }
    }
  }

  /** Ascending sort (the model of `sort`, `sort_unstable` and
      `sort((a, b) => a - b)` on integers: every ascending permutation is the same
      sequence, so stability does not matter). */
  function SortAscending(s: seq<int>): (r: seq<int>)
    ensures Sorted(r)
    ensures multiset(r) == multiset(s)
    ensures |r| == |s|
  {
    if |s| == 0 then []
    else
      assert s == s[..|s| - 1] + [s[|s| - 1]];
      Insert(s[|s| - 1], SortAscending(s[..|s| - 1]))
  }

  /** The largest element is the last one of an ascending permutation. */
  lemma SortedLastIsMax(s: seq<int>, t: seq<int>)
    requires |s| > 0
    requires Sorted(t) && multiset(t) == multiset(s)
    ensures t[|t| - 1] in s
    ensures forall i :: 0 <= i < |s| ==> s[i] <= t[|t| - 1]
  {
    assert |t| == |multiset(t)| == |s|;
    assert t[|t| - 1] in multiset(t);
    forall i | 0 <= i < |s|
      ensures s[i] <= t[|t| - 1]
    {
      assert s[i] in multiset(s);
      assert s[i] in multiset(t);
      var j :| 0 <= j < |t| && t[j] == s[i];
    }
  }

  /** Two ascending sequences with the same elements are equal. */
  lemma {:induction false} SortedUnique(a: seq<int>, b: seq<int>)
    requires Sorted(a) && Sorted(b) && multiset(a) == multiset(b)
    ensures a == b
    decreases |a|
  {
    assert |a| == |multiset(a)| == |multiset(b)| == |b|;
    if |a| > 0 {
      var n := |a|;
      SameLast(a, b);
      DropLast(a);
      DropLast(b);
      SortedUnique(a[..n - 1], b[..n - 1]);
    }
  }

  /** Ascending sequences with the same elements end alike. */
  lemma SameLast(a: seq<int>, b: seq<int>)
    requires Sorted(a) && Sorted(b) && multiset(a) == multiset(b) && |a| == |b| > 0
    ensures a[|a| - 1] == b[|b| - 1]
  {
    var n := |a|;
    assert a[n - 1] in multiset(b) && b[n - 1] in multiset(a);
    var i :| 0 <= i < n && b[i] == a[n - 1];
    var j :| 0 <= j < n && a[j] == b[n - 1];
  }

  lemma DropLast(a: seq<int>)
    requires |a| > 0
    ensures multiset(a[..|a| - 1]) == multiset(a) - multiset{a[|a| - 1]}
    ensures Sorted(a) ==> Sorted(a[..|a| - 1])
  {
    assert a == a[..|a| - 1] + [a[|a| - 1]];
  }

  /** Reordering does not change a sum. */
  lemma {:induction false} SumPermutation(a: seq<int>, b: seq<int>)
    requires multiset(a) == multiset(b)
    ensures Sum(a) == Sum(b)
    decreases |a|
  {
    assert |a| == |multiset(a)| == |multiset(b)| == |b|;
    if |a| > 0 {
      var j, rest := PickOut(a, b);
      SumPermutation(a[..|a| - 1], rest);
      SumAppend(b[..j], b[j + 1..]);
      SumSnoc(b[..j], b[j]);
      SumAppend(b[..j] + [b[j]], b[j + 1..]);
      assert b == b[..j] + [b[j]] + b[j + 1..];
    }
  }

  /** Number of elements strictly below `x`. */
  function CountBelow(s: seq<int>, x: int): nat
  {
    if |s| == 0 then 0 else CountBelow(s[..|s| - 1], x) + (if s[|s| - 1] < x then 1 else 0)
  }

  /** Number of elements strictly above `x`. */
  function CountAbove(s: seq<int>, x: int): nat
  {
    if |s| == 0 then 0 else CountAbove(s[..|s| - 1], x) + (if s[|s| - 1] > x then 1 else 0)
  }

  lemma {:induction false} CountBelowAppend(a: seq<int>, b: seq<int>, x: int)
    ensures CountBelow(a + b, x) == CountBelow(a, x) + CountBelow(b, x)
    ensures CountAbove(a + b, x) == CountAbove(a, x) + CountAbove(b, x)
    decreases |b|
  {
    if |b| == 0 {
      assert a + b == a;
    } else {
      assert (a + b)[..|a + b| - 1] == a + b[..|b| - 1];
      CountBelowAppend(a, b[..|b| - 1], x);
    }
  }

  /** Counting is invariant under permutation. */
  lemma {:induction false} CountPermutation(a: seq<int>, b: seq<int>, x: int)
    requires multiset(a) == multiset(b)
    ensures CountBelow(a, x) == CountBelow(b, x)
    ensures CountAbove(a, x) == CountAbove(b, x)
    decreases |a|
  {
    if |a| == 0 {
      assert |b| == |multiset(b)| == 0;
    } else {
      var init := a[..|a| - 1];
      var j, rest := PickOut(a, b);
      CountPermutation(init, rest, x);
      CountRemove(b, j, x);
      assert a == init + [a[|a| - 1]];
      CountBelowAppend(init, [a[|a| - 1]], x);
    }
  }

  /** The last element of `a` is somewhere in its permutation `b`; taking it
      out of both leaves permutations of each other. */
  lemma PickOut<T>(a: seq<T>, b: seq<T>) returns (j: nat, rest: seq<T>)
    requires |a| > 0 && multiset(a) == multiset(b)
    ensures j < |b| && b[j] == a[|a| - 1] && rest == b[..j] + b[j + 1..]
    ensures multiset(a[..|a| - 1]) == multiset(rest)
  {
    var last := a[|a| - 1];
    var init := a[..|a| - 1];
    assert a == init + [last];
    assert multiset(a) == multiset(init) + multiset{last};
    assert last in multiset(b);
    j :| 0 <= j < |b| && b[j] == last;
    rest := b[..j] + b[j + 1..];
    assert b == b[..j] + ([last] + b[j + 1..]);
    assert multiset(b) == multiset(b[..j]) + multiset{last} + multiset(b[j + 1..]);
    assert multiset(rest) == multiset(b[..j]) + multiset(b[j + 1..]);
    assert multiset(init) == multiset(a) - multiset{last};
    assert multiset(rest) == multiset(b) - multiset{last};
  }

  /** Taking out one element changes each count by that element alone. */
  lemma CountRemove(b: seq<int>, j: nat, x: int)
    requires j < |b|
    ensures CountBelow(b, x) == CountBelow(b[..j] + b[j + 1..], x) + (if b[j] < x then 1 else 0)
    ensures CountAbove(b, x) == CountAbove(b[..j] + b[j + 1..], x) + (if b[j] > x then 1 else 0)
  {
    assert b == b[..j] + ([b[j]] + b[j + 1..]);
    CountBelowAppend(b[..j], [b[j]] + b[j + 1..], x);
    CountBelowAppend([b[j]], b[j + 1..], x);
    CountBelowAppend(b[..j], b[j + 1..], x);
    assert [b[j]][..0] == [];
  }

  /** In an ascending sequence, at most `k` elements lie strictly below `t[k]`
      and at most `|t| - 1 - k` strictly above it. */
  lemma {:induction false} SortedRank(t: seq<int>, k: int)
    requires Sorted(t) && 0 <= k < |t|
    ensures CountBelow(t, t[k]) <= k
    ensures CountAbove(t, t[k]) <= |t| - 1 - k
  {
    assert t == t[..k] + t[k..];
    CountBelowAppend(t[..k], t[k..], t[k]);
    BoundedCount(t[..k], t[k]);
    NoneBelow(t[k..], t[k]);
    assert t == t[..k + 1] + t[k + 1..];
    CountBelowAppend(t[..k + 1], t[k + 1..], t[k]);
    NoneAbove(t[..k + 1], t[k]);
    BoundedCount(t[k + 1..], t[k]);
  }

  lemma {:induction false} BoundedCount(s: seq<int>, x: int)
    ensures CountBelow(s, x) <= |s| && CountAbove(s, x) <= |s|
    decreases |s|
  {
    if |s| > 0 {
      BoundedCount(s[..|s| - 1], x);
    }
  }

  lemma {:induction false} NoneBelow(s: seq<int>, x: int)
    requires forall i :: 0 <= i < |s| ==> s[i] >= x
    ensures CountBelow(s, x) == 0
    decreases |s|
  {
    if |s| > 0 {
      NoneBelow(s[..|s| - 1], x);
    }
  }

  lemma {:induction false} NoneAbove(s: seq<int>, x: int)
    requires forall i :: 0 <= i < |s| ==> s[i] <= x
    ensures CountAbove(s, x) == 0
    decreases |s|
  {
    if |s| > 0 {
      NoneAbove(s[..|s| - 1], x);
    }
  }
}

=== FILE: sonar.dfy ===
/** Depth-sweep increase counting (rust/src/day_one.rs): how often a depth
    reading, or the sum of a sliding window of three readings, is larger
    than the one before. Readings are unbounded integers. */
module Sonar {

  /** Reference count: the positions `1 <= i < n` whose reading exceeds the
      reading at `i - 1`. */
  function CountUp(list: seq<int>, n: nat): nat
    requires n <= |list|
  {
    if n <= 1 then 0 else CountUp(list, n - 1) + (if list[n - 1] > list[n - 2] then 1 else 0)
  }

  function Increases(list: seq<int>): nat
  {
    CountUp(list, |list|)
  }

  /** The first `n` readings have at most `n - 1` increases. */
  lemma {:induction false} CountUpBound(list: seq<int>, n: nat)
    requires n <= |list|
    ensures n <= 1 ==> CountUp(list, n) == 0
    ensures n >= 1 ==> CountUp(list, n) <= n - 1
  {
    if n > 1 {
      CountUpBound(list, n - 1);
    }
  }

  /** Walks the readings remembering the previous one, counting each
      reading larger than it. */
  method CountIncreases(list: seq<int>) returns (inc: nat)
    ensures inc == Increases(list)
    ensures |list| <= 1 ==> inc == 0
    ensures |list| >= 1 ==> inc <= |list| - 1
  {
    inc := 0;
    var prev: int := 0;
    var seen := false;
    for i := 0 to |list|
      invariant seen <==> i > 0
      invariant i > 0 ==> prev == list[i - 1]
      invariant inc == CountUp(list, i)
    {
      if seen && list[i] > prev {
        inc := inc + 1;
      }
      prev := list[i];
      seen := true;
    }
    CountUpBound(list, |list|);
  }

  /** Sum of the window of three readings starting at `i`. */
  function Window(list: seq<int>, i: nat): int
    requires i + 2 < |list|
  {
    list[i] + list[i + 1] + list[i + 2]
  }

  /** The sums of the windows of three consecutive readings, in order. */
  function Windows(list: seq<int>): (r: seq<int>)
    ensures |list| >= 2 ==> |r| == |list| - 2
    ensures |list| < 2 ==> r == []
    ensures forall i :: 0 <= i < |r| ==> r[i] == Window(list, i)
  {
    if |list| < 3 then [] else seq(|list| - 2, i requires 0 <= i < |list| - 2 => Window(list, i))
  }

  /** The windows `1 <= i < n` whose sum exceeds the window before. */
  function WindowUps(list: seq<int>, n: nat): nat
    requires n == 0 || n + 2 <= |list|
  {
    if n <= 1 then 0 else WindowUps(list, n - 1) + (if Window(list, n - 1) > Window(list, n - 2) then 1 else 0)
  }

  lemma {:induction false} WindowUpsCount(list: seq<int>, n: nat)
    requires n <= |Windows(list)|
    ensures CountUp(Windows(list), n) == WindowUps(list, n)
  {
    if n > 1 {
      WindowUpsCount(list, n - 1);
    }
  }

  /** Walks the windows `list[i..i + 3]` for every `i` with `i + 2 < |list|`,
      counting each window whose sum exceeds the previous window's. */
  method CountIncreasesInThrees(list: seq<int>) returns (inc: nat)
    ensures inc == Increases(Windows(list))
    ensures |list| < 4 ==> inc == 0
  {
    inc := 0;
    var prev: int := 0;
    var seen := false;
    var i := 0;
    while i + 2 < |list|
      invariant i == 0 || i + 1 < |list|
      invariant seen <==> i > 0
      invariant i > 0 ==> prev == Window(list, i - 1)
      invariant inc == WindowUps(list, i)
      decreases |list| - i
    {
      var cur := list[i] + list[i + 1] + list[i + 2];
      if seen && cur > prev {
        inc := inc + 1;
      }
      i := i + 1;
      prev := cur;
      seen := true;
    }
    var w := Windows(list);
    assert i == |w|;
    WindowUpsCount(list, i);
    CountUpBound(w, |w|);
  }
  /** Counts the positions `i` with `i + 3 < n` and `list[i + 3] > list[i]`. */
  function CountSkips(list: seq<int>, n: nat): nat
    requires n <= |list|
  {
    if n <= 3 then 0 else CountSkips(list, n - 1) + (if list[n - 1] > list[n - 4] then 1 else 0)
  }

  /** Consecutive windows share two readings, so one window exceeds the
      previous exactly when the reading it gains exceeds the one it loses. */
  lemma {:induction false} WindowsAreSkips(list: seq<int>, n: nat)
    requires |list| >= 2 && n <= |Windows(list)|
    ensures CountUp(Windows(list), n) == CountSkips(list, n + 2)
  {
    if n > 1 {
      WindowsAreSkips(list, n - 1);
    }
  }

  /** The three-window count is the number of `i` with `list[i + 3] > list[i]`. */
  lemma ThreesAreSkips(list: seq<int>)
    ensures Increases(Windows(list)) == CountSkips(list, |list|)
  {
    var w := Windows(list);
    if |list| >= 2 {
      WindowsAreSkips(list, |w|);
    }
  }
}

=== FILE: strategy_guide.dfy ===
/** Rock, paper, scissors on a strategy guide (the Java `daytwo` package):
    the two enums and their letters, who wins a round, the play that gets a
    wanted result, the round score, the two strategy parsers and the parse
    of a guide line by line. A thrown `IllegalArgumentException` is a
    `Failure` carrying its message. */
module StrategyGuide {
  import opened Wrappers

  datatype GameSelection = Rock | Paper | Scissors {
    /** The shape's score. */
    function Value(): nat
    {
      match this
      case Rock => 1
      case Paper => 2
      case Scissors => 3
    }
  }

  datatype GameResult = Loss | Draw | Win {
    /** The outcome's score. */
    function Value(): nat
    {
      match this
      case Loss => 0
      case Draw => 3
      case Win => 6
    }
  }

  /** The shape values are 1, 2, 3 and tell the shapes apart. */
  lemma SelectionValues(a: GameSelection, b: GameSelection)
    ensures 1 <= a.Value() <= 3
    ensures a.Value() == b.Value() <==> a == b
  {
  }

  /** The outcome values are 0, 3, 6 and tell the outcomes apart. */
  lemma ResultValues(a: GameResult, b: GameResult)
    ensures a.Value() % 3 == 0 && a.Value() <= 6
    ensures a.Value() == b.Value() <==> a == b
  {
  }

  /** `a` beats `b`: its value is one more than `b`'s, counting round from
      3 back to 1. */
  predicate Beats(a: GameSelection, b: GameSelection)
  {
    (a.Value() - b.Value() + 3) % 3 == 1
  }

  /** `GameSelection.fromLetter`: A or X is rock, B or Y paper, C or Z
      scissors; any other letter throws. */
  function SelectionFromLetter(letter: char): (r: Result<GameSelection, string>)
    ensures r.Success? <==> letter in "ABCXYZ"
    ensures r.Failure? ==> r.error == "Incorrect letter passed into selection parse"
    ensures r.Success? ==> (r.value == Rock <==> letter in "AX")
    ensures r.Success? ==> (r.value == Paper <==> letter in "BY")
    ensures r.Success? ==> (r.value == Scissors <==> letter in "CZ")
  {
    match letter
    case 'A' => Success(Rock)
    case 'X' => Success(Rock)
    case 'B' => Success(Paper)
    case 'Y' => Success(Paper)
    case 'C' => Success(Scissors)
    case 'Z' => Success(Scissors)
    case _ => Failure("Incorrect letter passed into selection parse")
  }

  /** `GameResult.fromLetter`: X loses, Y draws, Z wins; any other letter
      throws. */
  function ResultFromLetter(letter: char): (r: Result<GameResult, string>)
    ensures r.Success? <==> letter in "XYZ"
    ensures r.Failure? ==> r.error == "Invalid letter passed into GameResult"
  {
    match letter
    case 'X' => Success(Loss)
    case 'Y' => Success(Draw)
    case 'Z' => Success(Win)
    case _ => Failure("Invalid letter passed into GameResult")
  }

  /** The letter of each outcome. */
  function ResultLetter(r: GameResult): char
  {
    match r
    case Loss => 'X'
    case Draw => 'Y'
    case Win => 'Z'
  }

  /** `fromLetter` of results is a bijection between X, Y, Z and the three
      outcomes. */
  lemma ResultLetterBijection(r: GameResult, c: char)
    ensures ResultFromLetter(ResultLetter(r)) == Success(r)
    ensures ResultFromLetter(c).Success? ==> ResultLetter(ResultFromLetter(c).value) == c
  {
  }

  /** `this.checkWin(other)`: the outcome for the player of `ours`. */
  function CheckWin(ours: GameSelection, other: GameSelection): (r: GameResult)
    ensures r == Draw <==> ours == other
    ensures r == Win <==> Beats(ours, other)
    ensures r == Loss <==> Beats(other, ours)
  {
    match ours
    case Rock => (
      match other
      case Rock => Draw
      case Paper => Loss
      case Scissors => Win)
    case Paper => (
      match other
      case Rock => Win
      case Paper => Draw
      case Scissors => Loss)
    case Scissors => (
      match other
      case Rock => Loss
      case Paper => Win
      case Scissors => Draw)
  }

  /** Winning one way is losing the other way round. */
  lemma CheckWinSwapped(a: GameSelection, b: GameSelection)
    ensures CheckWin(a, b) == Win <==> CheckWin(b, a) == Loss
    ensures CheckWin(a, b) == Draw <==> CheckWin(b, a) == Draw
  {
  }

  /** `getResult`: the play that gets `intendedResult` against `selection`. */
  function GetResult(selection: GameSelection, intendedResult: GameResult): (r: GameSelection)
    ensures CheckWin(r, selection) == intendedResult
  {
    match intendedResult
    case Win => (
      match selection
      case Rock => Paper
      case Paper => Scissors
      case Scissors => Rock)
    case Draw => selection
    case Loss => (
      match selection
      case Rock => Scissors
      case Paper => Rock
      case Scissors => Paper)
  }

  /** The play `getResult` picks is the only one with that outcome; so
      every shape beats exactly one shape and loses to exactly one. */
  lemma GetResultUnique(selection: GameSelection, p: GameSelection, intendedResult: GameResult)
    ensures CheckWin(p, selection) == intendedResult <==> p == GetResult(selection, intendedResult)
  {
  }

  /** Each shape beats exactly one shape and loses to exactly one. */
  lemma BeatsExactlyOne(s: GameSelection, t: GameSelection)
    ensures CheckWin(s, t) == Win <==> t == GetResult(s, Loss)
    ensures CheckWin(s, t) == Loss <==> t == GetResult(s, Win)
  {
    GetResultUnique(s, t, Loss);
    GetResultUnique(s, t, Win);
    CheckWinSwapped(s, t);
  }

  datatype GameRound = GameRound(opponentPlay: GameSelection, ourPlay: GameSelection)

  /** `GameRound.getScore`: the outcome judged from our side plus our
      shape. The score lies in 1..9 and gives both back. */
  function RoundScore(round: GameRound): (n: nat)
    ensures 1 <= n <= 9
    ensures (n - 1) % 3 + 1 == round.ourPlay.Value()
    ensures (n - 1) / 3 * 3 == CheckWin(round.ourPlay, round.opponentPlay).Value()
  {
    CheckWin(round.ourPlay, round.opponentPlay).Value() + round.ourPlay.Value()
  }

  /** Rounds with the same score have the same play and outcome. */
  lemma RoundScoreDecodes(a: GameRound, b: GameRound)
    requires RoundScore(a) == RoundScore(b)
    ensures a.ourPlay == b.ourPlay
    ensures CheckWin(a.ourPlay, a.opponentPlay) == CheckWin(b.ourPlay, b.opponentPlay)
  {
    SelectionValues(a.ourPlay, b.ourPlay);
    ResultValues(CheckWin(a.ourPlay, a.opponentPlay), CheckWin(b.ourPlay, b.opponentPlay));
  }

  /** `GameStrategyBothSelectParser.getStrategy`: both letters are shapes. */
  function BothSelectStrategy(opponentPlay: char, ourPlay: char): (r: Result<GameRound, string>)
    ensures r.Success? <==> opponentPlay in "ABCXYZ" && ourPlay in "ABCXYZ"
    ensures r.Success? ==> Success(r.value.opponentPlay) == SelectionFromLetter(opponentPlay)
    ensures r.Success? ==> Success(r.value.ourPlay) == SelectionFromLetter(ourPlay)
  {
    var opponent :- SelectionFromLetter(opponentPlay);
    var ours :- SelectionFromLetter(ourPlay);
    Success(GameRound(opponent, ours))
  }

  /** `GameStrategyRoundResultSelectParser.getStrategy`: the second letter
      is the outcome wanted, and our play is chosen to get it. */
  function RoundResultStrategy(opponentPlay: char, ourPlay: char): (r: Result<GameRound, string>)
    ensures r.Success? <==> opponentPlay in "ABCXYZ" && ourPlay in "XYZ"
    ensures r.Success? ==> Success(r.value.opponentPlay) == SelectionFromLetter(opponentPlay)
    ensures r.Success? ==> Success(CheckWin(r.value.ourPlay, r.value.opponentPlay)) == ResultFromLetter(ourPlay)
  {
    var opponent :- SelectionFromLetter(opponentPlay);
    var roundResult :- ResultFromLetter(ourPlay);
    Success(GameRound(opponent, GetResult(opponent, roundResult)))
  }

  /** One line of `parseStrategyGuide`: exactly three characters, the
      first and the last read as shapes. */
  function ParseLine(line: string): (r: Result<GameRound, string>)
    ensures r.Success? <==> |line| == 3 && line[0] in "ABCXYZ" && line[2] in "ABCXYZ"
    ensures |line| != 3 ==> r == Failure("Too many characters in line")
    ensures r.Success? ==> Success(r.value.opponentPlay) == SelectionFromLetter(line[0])
    ensures r.Success? ==> Success(r.value.ourPlay) == SelectionFromLetter(line[2])
  {
    if |line| != 3 then Failure("Too many characters in line")
    else
      var opponent :- SelectionFromLetter(line[0]);
      var ours :- SelectionFromLetter(line[2]);
      Success(GameRound(opponent, ours))
  }

  /** `parseStrategyGuide` over the reader's lines: one round per line, in
      order; the first bad line's exception otherwise. */
  function ParseStrategyGuide(lines: seq<string>): (r: Result<seq<GameRound>, string>)
    ensures r.Success? <==> forall i :: 0 <= i < |lines| ==> ParseLine(lines[i]).Success?
    ensures r.Success? ==> |r.value| == |lines|
    ensures r.Success? ==> forall i :: 0 <= i < |lines| ==> ParseLine(lines[i]) == Success(r.value[i])
  {
    MapAllSucceeds(lines, ParseLine);
    var r := MapAll(lines, ParseLine);
    if r.Success? then
      assert forall i :: 0 <= i < |lines| ==> ParseLine(lines[i]) == Success(r.value[i]) by {
        forall i | 0 <= i < |lines|
          ensures ParseLine(lines[i]) == Success(r.value[i])
        {
          MapAllAt(lines, ParseLine, i);
        }
      }
      r
    else r
  }

  /** `DayTwo.getScore`: the rounds' scores added up. */
  function TotalScore(rounds: seq<GameRound>): int
  {
    if |rounds| == 0 then 0 else TotalScore(rounds[..|rounds| - 1]) + RoundScore(rounds[|rounds| - 1])
  }

  /** The total of a concatenation is the sum of the totals. */
  lemma {:induction false} TotalScoreAppend(a: seq<GameRound>, b: seq<GameRound>)
    ensures TotalScore(a + b) == TotalScore(a) + TotalScore(b)
    decreases |b|
  {
    if |b| > 0 {
      var init := b[..|b| - 1];
      assert (a + b)[..|a + b| - 1] == a + init;
      TotalScoreAppend(a, init);
    } else {
      assert a + b == a;
    }
  }

  /** Every round scores between 1 and 9, so the total lies between the
      number of rounds and nine times it. */
  lemma {:induction false} TotalScoreBounds(rounds: seq<GameRound>)
    ensures |rounds| <= TotalScore(rounds) <= 9 * |rounds|
    decreases |rounds|
  {
    if |rounds| > 0 {
      TotalScoreBounds(rounds[..|rounds| - 1]);
    }
  }

  function ExampleLines(): seq<string>
  {
    ["A Y", "B X", "C Z"]
  }

  function ExampleRounds(): seq<GameRound>
  {
    [GameRound(Rock, Paper), GameRound(Paper, Rock), GameRound(Scissors, Scissors)]
  }

  lemma ExampleLinesParse(i: nat)
    requires i < 3
    ensures ParseLine(ExampleLines()[i]) == Success(ExampleRounds()[i])
  {
    if i == 0 {
      assert ExampleLines()[0] == ['A', ' ', 'Y'];
    } else if i == 1 {
      assert ExampleLines()[1] == ['B', ' ', 'X'];
    } else {
      assert ExampleLines()[2] == ['C', ' ', 'Z'];
    }
  }

  lemma ExampleParses()
    ensures ParseStrategyGuide(ExampleLines()) == Success(ExampleRounds())
  {
    forall i | 0 <= i < 3
      ensures ParseLine(ExampleLines()[i]) == Success(ExampleRounds()[i])
    {
      ExampleLinesParse(i);
    }
    var r := ParseStrategyGuide(ExampleLines());
    assert r.value == ExampleRounds();
  }

  /** The guide `A Y`, `B X`, `C Z` scores 8 + 1 + 6 = 15. */
  lemma ExampleGuide()
    ensures ParseStrategyGuide(ExampleLines()).Success?
    ensures TotalScore(ParseStrategyGuide(ExampleLines()).value) == 15
  {
    ExampleParses();
    var rounds := ExampleRounds();
    assert TotalScore(rounds[..1]) == 8;
    assert TotalScore(rounds[..2]) == 9;
  }
}

=== FILE: strings.dfy ===
/** String splitting and decimal number parsing, the library behaviour the
    puzzle parsers rely on (`str::split`, `String.split`, `str::parse`,
    `Integer.parseInt`). Numbers are unbounded: overflow is not modelled. */
module Strings {
  import opened Wrappers

  /** `sep` occurs in `s` starting at position `j`. */
  predicate MatchAt(s: string, sep: string, j: int)
  {
    0 <= j && j + |sep| <= |s| && s[j..j + |sep|] == sep
  }

  ghost predicate Contains(s: string, sep: string)
  {
    exists j :: MatchAt(s, sep, j)
  }

  /** Leftmost occurrence of `sep` in `s` at or after position `from`. */
  function FindFrom(s: string, sep: string, from: nat): (r: Option<nat>)
    requires |sep| > 0
    ensures r.Some? ==> from <= r.value && MatchAt(s, sep, r.value)
    ensures r.Some? ==> forall j :: from <= j < r.value ==> !MatchAt(s, sep, j)
    ensures r.None? ==> forall j :: from <= j ==> !MatchAt(s, sep, j)
    decreases |s| - from
  {
    if from + |sep| > |s| then None
    else if s[from..from + |sep|] == sep then Some(from)
    else FindFrom(s, sep, from + 1)
  }

  /** Concatenation of `parts` with `sep` between consecutive parts. */
  function Join(parts: seq<string>, sep: string): string
  {
    if |parts| == 0 then ""
    else if |parts| == 1 then parts[0]
    else parts[0] + sep + Join(parts[1..], sep)
  }

  /** Left-to-right split at every non-overlapping occurrence of `sep`, as
      Rust's `str::split` and JavaScript's `String.prototype.split` do for a
      non-empty separator. */
  function Split(s: string, sep: string): (r: seq<string>)
    requires |sep| > 0
    ensures |r| >= 1
    ensures Join(r, sep) == s
    ensures forall i :: 0 <= i < |r| ==> !Contains(r[i], sep)
    decreases |s|
  {
    match FindFrom(s, sep, 0)
    case None => [s]
    case Some(k) =>
      var head := s[..k];
      var rest := Split(s[k + |sep|..], sep);
      assert !Contains(head, sep) by {
        forall j | MatchAt(head, sep, j)
          ensures false
        {
          assert head[j..j + |sep|] == s[j..j + |sep|];
          assert MatchAt(s, sep, j);
        }
      }
      assert s == head + sep + s[k + |sep|..] by {
        assert s[k..k + |sep|] == sep;
      }
      assert ([head] + rest)[1..] == rest;
      [head] + rest
  }

  /** A string that does not contain the separator is its own single part. */
  lemma SplitNoSeparator(s: string, sep: string)
    requires |sep| > 0
    requires forall j :: !MatchAt(s, sep, j)
    ensures Split(s, sep) == [s]
  {
    var _ := FindFrom(s, sep, 0);
  }

  /** Splitting at a single character undoes joining at it, when no part
      contains that character. */
  lemma {:induction false} SplitJoinChar(parts: seq<string>, c: char)
    requires |parts| >= 1
    requires forall i :: 0 <= i < |parts| ==> c !in parts[i]
    ensures Split(Join(parts, [c]), [c]) == parts
    decreases |parts|
  {
    var s := Join(parts, [c]);
    if |parts| == 1 {
      forall j | 0 <= j < |s|
        ensures s[j] != c
      {
        assert s[j] in parts[0];
      }
      forall j | 0 <= j < |s|
        ensures !MatchAt(s, [c], j)
      {
        assert s[j..j + 1] == [s[j]];
      }
      SplitNoSeparator(s, [c]);
    } else {
      var h := parts[0];
      var rest := parts[1..];
      assert s == h + [c] + Join(rest, [c]);
      var k := |h|;
      assert MatchAt(s, [c], k);
      forall j | 0 <= j < k
        ensures !MatchAt(s, [c], j)
      {
        assert s[j] == h[j];
      }
      var f := FindFrom(s, [c], 0);
      assert f == Some(k);
      assert s[..k] == h;
      assert s[k + 1..] == Join(rest, [c]);
      SplitJoinChar(rest, c);
      assert Split(s, [c]) == [h] + rest;
    }
  }

  predicate IsDigit(c: char)
  {
    '0' <= c <= '9'
  }

  function DigitValue(c: char): nat
    requires IsDigit(c)
  {
    (c as int - '0' as int) as nat
  }

  predicate AllDigits(s: string)
  {
    forall i :: 0 <= i < |s| ==> IsDigit(s[i])
  }

  /** Decimal value of a digit string, read most significant digit first. */
  function DigitsValue(s: string): nat
    requires AllDigits(s)
  {
    if |s| == 0 then 0 else 10 * DigitsValue(s[..|s| - 1]) + DigitValue(s[|s| - 1])
  }

  /** An unsigned decimal: an optional `+` and at least one digit. */
  function ParseNat(s: string): (r: Option<nat>)
    ensures r.Some? <==> (|s| > 0 && AllDigits(s)) || (|s| > 1 && s[0] == '+' && AllDigits(s[1..]))
  {
    if |s| > 0 && s[0] == '+' then
      (if |s| > 1 && AllDigits(s[1..]) then Some(DigitsValue(s[1..])) else None)
    else if |s| > 0 && AllDigits(s) then Some(DigitsValue(s))
    else None
  }

  /** A signed decimal: an optional `+` or `-` and at least one digit. */
  function ParseInt(s: string): (r: Option<int>)
    ensures |s| > 0 && s[0] == '-' ==> (r.Some? <==> ParseNat(s[1..]).Some? && (|s| < 2 || s[1] != '+'))
    ensures |s| > 0 && s[0] == '-' && r.Some? ==> r.value == -(ParseNat(s[1..]).value as int)
    ensures (|s| == 0 || s[0] != '-') ==> (r.Some? <==> ParseNat(s).Some?)
    ensures (|s| == 0 || s[0] != '-') && r.Some? ==> r.value == ParseNat(s).value
  {
    if |s| > 0 && s[0] == '-' then
      (if |s| > 1 && AllDigits(s[1..]) then Some(-(DigitsValue(s[1..]) as int)) else None)
    else
      match ParseNat(s)
      case Some(n) => Some(n as int)
      case None => None
  }

  function DigitChar(d: nat): (c: char)
    requires d < 10
    ensures IsDigit(c) && DigitValue(c) == d
  {
    ('0' as int + d) as char
  }

  /** Canonical decimal rendering of a natural number. */
  function NatToString(n: nat): (s: string)
    ensures |s| > 0 && AllDigits(s)
  {
    if n < 10 then [DigitChar(n)] else NatToString(n / 10) + [DigitChar(n % 10)]
  }

  lemma {:induction false} DigitsOfNatToString(n: nat)
    ensures DigitsValue(NatToString(n)) == n
  {
    var s := NatToString(n);
    if n >= 10 {
      DigitsOfNatToString(n / 10);
      assert s[..|s| - 1] == NatToString(n / 10);
    }
  }

  /** Parsing the rendering of a number gives the number back. */
  lemma ParseNatRoundTrip(n: nat)
    ensures ParseNat(NatToString(n)) == Some(n)
    ensures ParseInt(NatToString(n)) == Some(n)
  {
    DigitsOfNatToString(n);
  }

  /** Decimal rendering of an integer, with a leading `-` when negative. */
  function IntToString(i: int): (s: string)
    ensures |s| > 0 && forall k :: 0 <= k < |s| ==> IsDigit(s[k]) || s[k] == '-'
  {
    if i < 0 then "-" + NatToString(-i) else NatToString(i)
  }

  lemma ParseIntRoundTrip(i: int)
    ensures ParseInt(IntToString(i)) == Some(i)
  {
    if i < 0 {
      var s := IntToString(i);
      assert s[1..] == NatToString(-i);
      ParseNatRoundTrip(-i);
    } else {
      ParseNatRoundTrip(i);
    }
  }

  /** A string that is two parts around one separator splits into those
      two parts, when neither part contains the separator's first
      character. */
  lemma SplitPair(a: string, b: string, sep: string)
    requires |sep| > 0 && sep[0] !in a && sep[0] !in b
    ensures Split(a + sep + b, sep) == [a, b]
  {
    var s := a + sep + b;
    forall j | 0 <= j < |a|
      ensures !MatchAt(s, sep, j)
    {
      assert s[j] == a[j];
    }
    assert s[|a|..|a| + |sep|] == sep;
    assert MatchAt(s, sep, |a|);
    var f := FindFrom(s, sep, 0);
    assert f.Some? && f.value <= |a|;
    assert f == Some(|a|);
    assert s[|a| + |sep|..] == b;
    assert forall j :: !MatchAt(b, sep, j);
    SplitNoSeparator(b, sep);
  }

  /** A join ends with its last part. */
  lemma {:induction false} JoinEndsWithLast(parts: seq<string>, sep: string) returns (prefix: string)
    requires |parts| >= 1
    ensures Join(parts, sep) == prefix + parts[|parts| - 1]
    decreases |parts|
  {
    if |parts| == 1 {
      prefix := [];
    } else {
      var rest := JoinEndsWithLast(parts[1..], sep);
      prefix := parts[0] + sep + rest;
    }
  }

  /** Joining one more part adds the separator and that part. */
  lemma {:induction false} JoinSnoc(parts: seq<string>, x: string, sep: string)
    requires |parts| >= 1
    ensures Join(parts + [x], sep) == Join(parts, sep) + sep + x
    decreases |parts|
  {
    if |parts| > 1 {
      assert (parts + [x])[1..] == parts[1..] + [x];
      JoinSnoc(parts[1..], x, sep);
    } else {
      assert (parts + [x])[1..] == [x];
    }
  }

  /** The last character of a non-empty string, as a one-character slice
      and as the last character of anything it ends. */
  lemma LastChar(prefix: string, t: string)
    ensures |t| > 0 ==> t[|t| - 1..|t|] == [t[|t| - 1]]
    ensures |t| > 0 ==> (prefix + t)[|prefix + t| - 1] == t[|t| - 1]
  {
  }

  /** Splitting at a character that ends the string leaves an empty last
      part. */
  lemma SplitTrailing(s: string, c: char)
    requires |s| > 0 && s[|s| - 1] == c
    ensures var parts := Split(s, [c]); parts[|parts| - 1] == ""
  {
    var parts := Split(s, [c]);
    var last := parts[|parts| - 1];
    var prefix := JoinEndsWithLast(parts, [c]);
    LastChar(prefix, last);
    assert !MatchAt(last, [c], |last| - 1);
  }
}

=== FILE: vents.dfy ===
/** Hydrothermal vent lines (rust/src/day_five.rs): a vector from a head to
    a tail point, iterated point by point from the tail to the head, and a
    map from every point to the number of stored vectors through it.
    Coordinates are unbounded integers: `isize` overflow is not modelled. */
module Vents {
  import opened Wrappers
  import Strings

  datatype Coord = Coord(x: int, y: int)

  datatype Ordering = Less | Equal | Greater

  function Compare(a: int, b: int): (r: Ordering)
    ensures r == Less <==> a < b
    ensures r == Greater <==> a > b
  {
    if a < b then Less else if a > b then Greater else Equal
  }

  function Abs(n: int): nat
  {
    if n < 0 then -n else n
  }

  function Sign(n: int): int
  {
    if n > 0 then 1 else if n < 0 then -1 else 0
  }

  /** The absolute difference on each axis. */
  function DeltaBetween(a: Coord, b: Coord): (r: (nat, nat))
    ensures r.0 == 0 <==> a.x == b.x
    ensures r.1 == 0 <==> a.y == b.y
  {
    (Abs(b.x - a.x), Abs(b.y - a.y))
  }

  lemma DeltaSymmetric(a: Coord, b: Coord)
    ensures DeltaBetween(a, b) == DeltaBetween(b, a)
    ensures DeltaBetween(a, b).0 == DeltaBetween(a, b).1 <==> Abs(a.x - b.x) == Abs(a.y - b.y)
  {
  }

  /** Both axes differ. */
  predicate IsDiagonal(a: Coord, b: Coord)
  {
    var d := DeltaBetween(a, b);
    d.0 != 0 && d.1 != 0
  }

  function IsLevel(a: Coord, b: Coord): (r: bool)
    ensures r <==> a.x == b.x || a.y == b.y
  {
    !IsDiagonal(a, b)
  }

  /** One axis moved `acc` toward `target`, or left alone when it is there. */
  function Shift(p: int, target: int, acc: nat): (r: int)
    ensures p < target ==> r == p + acc
    ensures p > target ==> r == p - acc
    ensures p == target ==> r == p
  {
    match Compare(target, p)
    case Greater => p + acc
    case Less => p - acc
    case Equal => p
  }

  function MoveTowards(p: Coord, target: Coord, acc: nat): (r: Coord)
    ensures r.x == Shift(p.x, target.x, acc) && r.y == Shift(p.y, target.y, acc)
  {
    Coord(Shift(p.x, target.x, acc), Shift(p.y, target.y, acc))
  }

  /** With step 1, a move brings a distinct point exactly one step closer
      on every axis where it differs, and never past the target. */
  lemma MoveCloser(p: Coord, target: Coord)
    ensures var r := MoveTowards(p, target, 1);
      var d := DeltaBetween(p, target);
      var e := DeltaBetween(r, target);
      (d.0 == 0 ==> e.0 == 0) && (d.0 > 0 ==> e.0 == d.0 - 1) &&
      (d.1 == 0 ==> e.1 == 0) && (d.1 > 0 ==> e.1 == d.1 - 1)
  {
  }

  /** `pos` is where an iteration stands; `None` before it starts. */
  datatype Vector = Vector(head: Coord, tail: Coord, pos: Option<Coord>, acc: nat)

  function NewVector(head: Coord, tail: Coord, acc: nat): (v: Vector)
    ensures v.head == head && v.tail == tail && v.acc == acc && v.pos.None?
  {
    Vector(head, tail, None, acc)
  }

  predicate VectorIsLevel(v: Vector)
  {
    IsLevel(v.head, v.tail)
  }

  function Is45Deg(v: Vector): (r: bool)
    ensures r <==> Abs(v.head.x - v.tail.x) == Abs(v.head.y - v.tail.y) != 0
    ensures r ==> !VectorIsLevel(v)
  {
    var d := DeltaBetween(v.head, v.tail);
    d.0 == d.1 && d.0 != 0 && d.1 != 0
  }

  /** A vector the iteration walks to its head. */
  predicate Straight(v: Vector)
  {
    VectorIsLevel(v) || Is45Deg(v)
  }

  /** One call of the iterator: the new state and the item it yields. */
  datatype Step = Step(vec: Vector, item: Option<Coord>)

  function Next(v: Vector): (r: Step)
    ensures r.vec.head == v.head && r.vec.tail == v.tail && r.vec.acc == v.acc
    ensures r.item.Some? ==> r.vec.pos == r.item
    ensures v.pos.None? ==> r.item == Some(v.tail)
    ensures v.pos == Some(v.head) ==> r.item.None? && r.vec.pos.None?
  {
    if v.pos.None? then
      Step(v.(pos := Some(v.tail)), Some(v.tail))
    else if v.pos.value == v.head then
      Step(v.(pos := None), None)
    else if IsDiagonal(v.head, v.tail) && !Is45Deg(v) then
      Step(v, None)
    else
      var p := MoveTowards(v.pos.value, v.head, v.acc);
      Step(v.(pos := Some(p)), Some(p))
  }

  /** Number of unit steps from tail to head. */
  function Length(v: Vector): nat
  {
    var d := DeltaBetween(v.tail, v.head);
    if d.0 >= d.1 then d.0 else d.1
  }

  /** The point `k` unit steps from the tail toward the head. */
  function At(v: Vector, k: int): Coord
  {
    Coord(v.tail.x + k * Sign(v.head.x - v.tail.x), v.tail.y + k * Sign(v.head.y - v.tail.y))
  }

  /** The points of a straight vector, tail first and head last: an
      independent description of what the iteration yields. */
  function Walk(v: Vector): (r: seq<Coord>)
    ensures |r| == Length(v) + 1
    ensures forall k :: 0 <= k < |r| ==> r[k] == At(v, k)
  {
    seq(Length(v) + 1, k => At(v, k))
  }

  /** On one axis of a straight vector the difference is 0 or the length. */
  lemma AxisStep(t: int, h: int, n: nat, k: nat)
    requires Abs(h - t) == 0 || Abs(h - t) == n
    requires k < n
    ensures Shift(t + k * Sign(h - t), h, 1) == t + (k + 1) * Sign(h - t)
  {
  }

  lemma AxisEnd(t: int, h: int, n: nat)
    requires Abs(h - t) == 0 || Abs(h - t) == n
    ensures t + n * Sign(h - t) == h
  {
  }

  lemma StraightAxes(v: Vector)
    requires Straight(v)
    ensures Abs(v.head.x - v.tail.x) == 0 || Abs(v.head.x - v.tail.x) == Length(v)
    ensures Abs(v.head.y - v.tail.y) == 0 || Abs(v.head.y - v.tail.y) == Length(v)
  {
  }

  lemma StepAt(v: Vector, k: nat)
    requires Straight(v) && k < Length(v)
    ensures MoveTowards(At(v, k), v.head, 1) == At(v, k + 1)
    ensures At(v, k) != v.head
  {
    StraightAxes(v);
    var n := Length(v);
    AxisStep(v.tail.x, v.head.x, n, k);
    AxisStep(v.tail.y, v.head.y, n, k);
    if Abs(v.head.x - v.tail.x) == n {
      assert At(v, k).x != v.head.x;
    } else {
      assert At(v, k).y != v.head.y;
    }
  }

  lemma EndAt(v: Vector)
    requires Straight(v)
    ensures At(v, Length(v)) == v.head
  {
    StraightAxes(v);
    AxisEnd(v.tail.x, v.head.x, Length(v));
    AxisEnd(v.tail.y, v.head.y, Length(v));
  }

  /** No point of a walk repeats. */
  lemma WalkDistinct(v: Vector, i: nat, j: nat)
    requires i < j <= Length(v)
    ensures At(v, i) != At(v, j)
  {
    var n := Length(v);
    if DeltaBetween(v.tail, v.head).0 >= DeltaBetween(v.tail, v.head).1 {
      assert Sign(v.head.x - v.tail.x) != 0;
      assert i * Sign(v.head.x - v.tail.x) != j * Sign(v.head.x - v.tail.x);
    } else {
      assert Sign(v.head.y - v.tail.y) != 0;
      assert i * Sign(v.head.y - v.tail.y) != j * Sign(v.head.y - v.tail.y);
    }
  }

  /** What a fresh vector with step 1 is ready to be iterated. */
  predicate Fresh(v: Vector)
  {
    v.acc == 1 && v.pos.None?
  }

  /** `for c in v`: calls `Next` until it yields `None`. A straight vector
      yields its walk and is left reset, ready to be iterated again; any
      other vector yields only its tail and is left standing there. */
  method Points(v: Vector) returns (pts: seq<Coord>, after: Vector)
    requires Fresh(v)
    ensures Straight(v) ==> pts == Walk(v) && after == v
    ensures !Straight(v) ==> pts == [v.tail] && after == v.(pos := Some(v.tail))
  {
    var s := Next(v);
    pts := [v.tail];
    var cur := s.vec;
    s := Next(cur);
    if !Straight(v) {
      return pts, s.vec;
    }
    var n := Length(v);
    var k := 0;
    while s.item.Some?
      invariant k <= n && cur == v.(pos := Some(At(v, k))) && s == Next(cur)
      invariant pts == Walk(v)[..k + 1]
      decreases n - k
    {
      if k == n {
        EndAt(v);
        assert false;
      }
      StepAt(v, k);
      pts := pts + [s.item.value];
      cur := s.vec;
      k := k + 1;
      s := Next(cur);
    }
    if k < n {
      StepAt(v, k);
    }
    assert k == n;
    after := s.vec;
  }

  /** Number of the first `n` vectors whose walk passes through `c`. */
  function Through(vectors: seq<Vector>, n: nat, c: Coord): nat
    requires n <= |vectors|
  {
    if n == 0 then 0 else Through(vectors, n - 1, c) + (if c in Walk(vectors[n - 1]) then 1 else 0)
  }

  /** Count held for `c`, 0 when it is absent. */
  function Held(m: map<Coord, nat>, c: Coord): nat
  {
    if c in m then m[c] else 0
  }

  /** A point occurs in a walk at most once. */
  lemma WalkOnce(v: Vector, c: Coord)
    ensures multiset(Walk(v))[c] == if c in Walk(v) then 1 else 0
  {
    var w := Walk(v);
    if c in w {
      var i :| 0 <= i < |w| && w[i] == c;
      assert w == w[..i] + [c] + w[i + 1..];
      forall j | 0 <= j < |w| && j != i
        ensures w[j] != c
      {
        if j < i {
          WalkDistinct(v, j, i);
        } else {
          WalkDistinct(v, i, j);
        }
      }
      assert c !in w[..i] && c !in w[i + 1..];
      assert multiset(w) == multiset(w[..i]) + multiset{c} + multiset(w[i + 1..]);
    }
  }

  /** Adds one to the count of every point in `pts`. */
  method AddPoints(m: map<Coord, nat>, pts: seq<Coord>) returns (m': map<Coord, nat>)
    requires forall c :: c in m ==> m[c] > 0
    ensures forall c :: Held(m', c) == Held(m, c) + multiset(pts)[c]
    ensures forall c :: c in m' ==> m'[c] > 0
  {
    m' := m;
    for j := 0 to |pts|
      invariant forall c :: Held(m', c) == Held(m, c) + multiset(pts[..j])[c]
      invariant forall c :: c in m' ==> m'[c] > 0
    {
      var c := pts[j];
      if c in m' {
        m' := m'[c := m'[c] + 1];
      } else {
        m' := m'[c := 1];
      }
      assert pts[..j + 1] == pts[..j] + [c];
    }
    assert pts[..|pts|] == pts;
  }

  /** Clears the map, then iterates every stored vector, counting each
      point it yields. For straight, fresh vectors each point ends up with
      the number of vectors through it, and the vectors are left as they
      were, so running it again recounts the same map from scratch. */
  method PopulateMap(vectors: seq<Vector>) returns (m: map<Coord, nat>, after: seq<Vector>)
    requires forall i :: 0 <= i < |vectors| ==> Fresh(vectors[i]) && Straight(vectors[i])
    ensures after == vectors
    ensures forall c :: Held(m, c) == Through(vectors, |vectors|, c)
    ensures forall c :: c in m <==> exists i :: 0 <= i < |vectors| && c in Walk(vectors[i])
  {
    m := map[];
    after := [];
    for i := 0 to |vectors|
      invariant after == vectors[..i]
      invariant forall c :: Held(m, c) == Through(vectors, i, c)
      invariant forall c :: c in m ==> m[c] > 0
    {
      var pts, v := Points(vectors[i]);
      m := AddPoints(m, pts);
      forall c ensures Held(m, c) == Through(vectors, i + 1, c) {
        WalkOnce(vectors[i], c);
      }
      after := after + [v];
    }
    forall c ensures c in m <==> exists i :: 0 <= i < |vectors| && c in Walk(vectors[i]) {
      ThroughPositive(vectors, |vectors|, c);
    }
  }

  lemma {:induction false} ThroughPositive(vectors: seq<Vector>, n: nat, c: Coord)
    requires n <= |vectors|
    ensures Through(vectors, n, c) > 0 <==> exists i :: 0 <= i < n && c in Walk(vectors[i])
    decreases n
  {
    if n > 0 {
      ThroughPositive(vectors, n - 1, c);
    }
  }

  /** The numbers of one "x,y" point; every field must parse. */
  function ParseNumbers(part: string): (r: Result<seq<int>, string>)
    ensures r.Success? <==> forall i :: 0 <= i < |Strings.Split(part, ",")| ==> Strings.ParseInt(Strings.Split(part, ",")[i]).Some?
    ensures r.Success? ==> |r.value| == |Strings.Split(part, ",")|
    ensures r.Success? ==> forall i :: 0 <= i < |r.value| ==> Strings.ParseInt(Strings.Split(part, ",")[i]) == Some(r.value[i])
  {
    var f := (s: string) => match Strings.ParseInt(s)
      case Some(n) => Success(n)
      case None => Failure("parse error");
    var r := MapAll(Strings.Split(part, ","), f);
    MapAllSucceeds(Strings.Split(part, ","), f);
    if r.Success? then
      forall i | 0 <= i < |r.value|
        ensures Strings.ParseInt(Strings.Split(part, ",")[i]) == Some(r.value[i])
      {
        MapAllAt(Strings.Split(part, ","), f, i);
      }
      r
    else
      r
  }

  /** A point from its first two numbers; fewer than two is an error. */
  function ParseCoord(part: string): (r: Result<Coord, string>)
    ensures r.Success? <==> ParseNumbers(part).Success? && |ParseNumbers(part).value| >= 2
    ensures r.Success? ==> r.value == Coord(ParseNumbers(part).value[0], ParseNumbers(part).value[1])
  {
    var nums :- ParseNumbers(part);
    if |nums| < 2 then Failure("missing coordinate") else Success(Coord(nums[0], nums[1]))
  }

  /** "x1,y1 -> x2,y2" as a vector from head (x1, y1) to tail (x2, y2) with
      step 1. Every point must parse; there must be at least two, and any
      further ones are ignored. */
  function FromString(line: string): (r: Result<Vector, string>)
    ensures var parts := Strings.Split(line, " -> ");
      r.Success? <==> |parts| >= 2 && forall i :: 0 <= i < |parts| ==> ParseCoord(parts[i]).Success?
    ensures var parts := Strings.Split(line, " -> ");
      r.Success? ==> r.value == NewVector(ParseCoord(parts[0]).value, ParseCoord(parts[1]).value, 1)
  {
    var parts := Strings.Split(line, " -> ");
    MapAllSucceeds(parts, ParseCoord);
    match MapAll(parts, ParseCoord)
    case Failure(e) => Failure(e)
    case Success(coords) =>
      if |coords| < 2 then Failure("missing point")
      else
        MapAllAt(parts, ParseCoord, 0);
        MapAllAt(parts, ParseCoord, 1);
        Success(NewVector(coords[0], coords[1], 1))
  }

  function CoordString(c: Coord): string
  {
    Strings.IntToString(c.x) + "," + Strings.IntToString(c.y)
  }

  function Render(head: Coord, tail: Coord): string
  {
    CoordString(head) + " -> " + CoordString(tail)
  }

  lemma ParseCoordString(c: Coord)
    ensures ParseCoord(CoordString(c)) == Success(c)
  {
    var a, b := Strings.IntToString(c.x), Strings.IntToString(c.y);
    assert ',' !in a && ',' !in b;
    Strings.SplitPair(a, b, ",");
    assert a + "," + b == CoordString(c);
    Strings.ParseIntRoundTrip(c.x);
    Strings.ParseIntRoundTrip(c.y);
  }

  /** Parsing a rendered line gives back its two points. */
  lemma ParseRender(head: Coord, tail: Coord)
    ensures FromString(Render(head, tail)) == Success(NewVector(head, tail, 1))
  {
    var a, b := CoordString(head), CoordString(tail);
    assert ' ' !in a && ' ' !in b;
    Strings.SplitPair(a, b, " -> ");
    ParseCoordString(head);
    ParseCoordString(tail);
  }

  /** `w` is what some line parses to. */
  ghost predicate ParsedFrom(lines: seq<string>, parse: string -> Result<Vector, string>, w: Vector)
  {
    exists i :: 0 <= i < |lines| && parse(lines[i]) == Success(w)
  }

  /** Parses every line (a failure is the result) and keeps the level and
      45° vectors, in order. */
  function KeepParsed(lines: seq<string>, parse: string -> Result<Vector, string>): (r: Result<seq<Vector>, string>)
    ensures r.Success? <==> forall i :: 0 <= i < |lines| ==> parse(lines[i]).Success?
    ensures r.Success? ==> forall i :: 0 <= i < |lines| && Straight(parse(lines[i]).value) ==> parse(lines[i]).value in r.value
    ensures r.Success? ==> forall j :: 0 <= j < |r.value| ==> ParsedFrom(lines, parse, r.value[j]) && Straight(r.value[j])
    decreases |lines|
  {
    if |lines| == 0 then Success([])
    else
      var prefix := lines[..|lines| - 1];
      assert forall i :: 0 <= i < |prefix| ==> prefix[i] == lines[i];
      var rest :- KeepParsed(prefix, parse);
      var v :- parse(lines[|lines| - 1]);
      assert forall w :: ParsedFrom(prefix, parse, w) ==> ParsedFrom(lines, parse, w);
      assert ParsedFrom(lines, parse, v);
      Success(if Straight(v) then rest + [v] else rest)
  }

  /** Reference for the parse: every line parsed, front to back, stopping
      at the first line that fails. */
  function ParseAll(lines: seq<string>, parse: string -> Result<Vector, string>): (r: Result<seq<Vector>, string>)
    ensures r.Success? <==> forall i :: 0 <= i < |lines| ==> parse(lines[i]).Success?
    ensures r.Success? ==> |r.value| == |lines| && forall i :: 0 <= i < |lines| ==> r.value[i] == parse(lines[i]).value
    decreases |lines|
  {
    if |lines| == 0 then Success([])
    else
      var v :- parse(lines[0]);
      var rest :- ParseAll(lines[1..], parse);
      assert forall i :: 1 <= i < |lines| ==> lines[1..][i - 1] == lines[i];
      Success([v] + rest)
  }

  /** Reference for the filter: the level and 45° vectors, in order. */
  function StraightOnes(vs: seq<Vector>): (r: seq<Vector>)
    ensures |r| <= |vs|
    decreases |vs|
  {
    if |vs| == 0 then [] else (if Straight(vs[0]) then [vs[0]] else []) + StraightOnes(vs[1..])
  }

  lemma {:induction false} StraightOnesSnoc(vs: seq<Vector>, v: Vector)
    ensures StraightOnes(vs + [v]) == StraightOnes(vs) + (if Straight(v) then [v] else [])
    decreases |vs|
  {
    if |vs| > 0 {
      assert (vs + [v])[1..] == vs[1..] + [v];
      StraightOnesSnoc(vs[1..], v);
    } else {
      assert [v][1..] == [];
    }
  }

  /** The filter keeps duplicates: a level or 45° vector occurs as often as
      it was listed, any other vector not at all. */
  lemma {:induction false} StraightOnesCount(vs: seq<Vector>, w: Vector)
    ensures multiset(StraightOnes(vs))[w] == if Straight(w) then multiset(vs)[w] else 0
    decreases |vs|
  {
    if |vs| > 0 {
      StraightOnesCount(vs[1..], w);
      assert vs == [vs[0]] + vs[1..];
    }
  }

  /** `ParseAll` taken one line from the back, as `KeepParsed` takes it. */
  lemma {:induction false} ParseAllSnoc(lines: seq<string>, parse: string -> Result<Vector, string>)
    requires |lines| > 0
    ensures var prefix, last := lines[..|lines| - 1], lines[|lines| - 1];
      ParseAll(lines, parse) ==
        match ParseAll(prefix, parse)
        case Failure(e) => Failure(e)
        case Success(vs) =>
          match parse(last)
          case Failure(e) => Failure(e)
          case Success(v) => Success(vs + [v])
    decreases |lines|
  {
    if |lines| > 1 {
      var prefix, tail, last := lines[..|lines| - 1], lines[1..], lines[|lines| - 1];
      assert tail[..|tail| - 1] == prefix[1..];
      assert tail[|tail| - 1] == last;
      assert prefix[0] == lines[0];
      ParseAllSnoc(tail, parse);
      var middle := ParseAll(prefix[1..], parse);
      if parse(lines[0]).Success? && middle.Success? && parse(last).Success? {
        var v0, vs, v := parse(lines[0]).value, middle.value, parse(last).value;
        assert [v0] + (vs + [v]) == ([v0] + vs) + [v];
      }
    } else {
      assert lines[..0] == [] && lines[1..] == [];
      if parse(lines[0]).Success? {
        var v := parse(lines[0]).value;
        assert [v] + [] == [] + [v];
      }
    }
  }

  /** `KeepParsed` taken one line from the back: its own recursion. */
  lemma KeepParsedSnoc(lines: seq<string>, parse: string -> Result<Vector, string>)
    requires |lines| > 0
    ensures KeepParsed(lines, parse) ==
      match KeepParsed(lines[..|lines| - 1], parse)
      case Failure(e) => Failure(e)
      case Success(rest) =>
        match parse(lines[|lines| - 1])
        case Failure(e) => Failure(e)
        case Success(v) => Success(if Straight(v) then rest + [v] else rest)
  {
  }

  /** One line more on both sides keeps `KeepParsed` equal to the
      reference, whatever the earlier lines and the new line parse to. */
  lemma FilterStep(kp: Result<seq<Vector>, string>, pa: Result<seq<Vector>, string>, pl: Result<Vector, string>,
                   kp': Result<seq<Vector>, string>, pa': Result<seq<Vector>, string>)
    requires kp == match pa case Failure(e) => Failure(e) case Success(vs) => Success(StraightOnes(vs))
    requires kp' == match kp case Failure(e) => Failure(e) case Success(rest) =>
      match pl case Failure(e) => Failure(e) case Success(v) => Success(if Straight(v) then rest + [v] else rest)
    requires pa' == match pa case Failure(e) => Failure(e) case Success(vs) =>
      match pl case Failure(e) => Failure(e) case Success(v) => Success(vs + [v])
    ensures kp' == match pa' case Failure(e) => Failure(e) case Success(vs) => Success(StraightOnes(vs))
  {
    if pa.Success? && pl.Success? {
      StraightOnesSnoc(pa.value, pl.value);
      assert StraightOnes(pa.value) + [] == StraightOnes(pa.value);
    }
  }

  /** `KeepParsed` is the reference: parse every line, then keep the level
      and 45° vectors in order, duplicates included; a failing line's error
      is the first failure. */
  lemma {:induction false} KeepParsedIsFilter(lines: seq<string>, parse: string -> Result<Vector, string>)
    ensures KeepParsed(lines, parse) ==
      match ParseAll(lines, parse)
      case Failure(e) => Failure(e)
      case Success(vs) => Success(StraightOnes(vs))
    decreases |lines|
  {
    if |lines| > 0 {
      var prefix := lines[..|lines| - 1];
      KeepParsedIsFilter(prefix, parse);
      KeepParsedSnoc(lines, parse);
      ParseAllSnoc(lines, parse);
      FilterStep(KeepParsed(prefix, parse), ParseAll(prefix, parse), parse(lines[|lines| - 1]),
                 KeepParsed(lines, parse), ParseAll(lines, parse));
    }
  }

  /** `from_file` without the file: every line is parsed and the level and
      45° vectors are kept in line order, duplicates included; each kept
      vector is ready for `PopulateMap`. */
  function FromLines(lines: seq<string>): (r: Result<seq<Vector>, string>)
    ensures r == match ParseAll(lines, FromString)
      case Failure(e) => Failure(e)
      case Success(vs) => Success(StraightOnes(vs))
    ensures r.Success? <==> forall i :: 0 <= i < |lines| ==> FromString(lines[i]).Success?
    ensures r.Success? ==> forall i :: 0 <= i < |lines| && Straight(FromString(lines[i]).value) ==> FromString(lines[i]).value in r.value
    ensures r.Success? ==> forall j :: 0 <= j < |r.value| ==> ParsedFrom(lines, FromString, r.value[j])
    ensures r.Success? ==> forall j :: 0 <= j < |r.value| ==> Fresh(r.value[j]) && Straight(r.value[j])
  {
    KeepParsedIsFilter(lines, FromString);
    KeepParsed(lines, FromString)
  }

  /** Duplicate lines are all kept: a level or 45° vector occurs in the
      result as often as the lines parse to it, so `PopulateMap` counts
      each of them. */
  lemma FromLinesCounts(lines: seq<string>, w: Vector)
    requires FromLines(lines).Success?
    ensures multiset(FromLines(lines).value)[w] ==
      if Straight(w) then multiset(ParseAll(lines, FromString).value)[w] else 0
  {
    StraightOnesCount(ParseAll(lines, FromString).value, w);
  }
}

=== FILE: wrappers.dfy ===
/** Failure-compatible result types shared by every module of the model.
    A Rust `panic!`, a failed `unwrap` or a Java/TypeScript exception is modelled
    as `None` or `Failure(...)`, so that the error path stays visible in contracts. */
module Wrappers {

  datatype Option<+T> = None | Some(value: T) {
    predicate IsFailure() { None? }

    function PropagateFailure<U>(): Option<U>
      requires None?
    {
      None
    }

    function Extract(): T
      requires Some?
    {
      value
    }
  }

  datatype Result<+R, +E> = Success(value: R) | Failure(error: E) {
    predicate IsFailure() { Failure? }

    function PropagateFailure<U>(): Result<U, E>
      requires Failure?
    {
      Failure(error)
    }

    function Extract(): R
      requires Success?
    {
      value
    }
  }

  /** Applies `f` to every element, in order, and collects the results; the
      first failure is the result (a `collect` into a `Result`). */
  function MapAll<A, R, E>(xs: seq<A>, f: A -> Result<R, E>): (r: Result<seq<R>, E>)
    ensures r.Success? ==> |r.value| == |xs|
    decreases |xs|
  {
    if |xs| == 0 then Success([])
    else
      match MapAll(xs[..|xs| - 1], f)
      case Failure(err) => Failure(err)
      case Success(ys) =>
        match f(xs[|xs| - 1])
        case Failure(err) => Failure(err)
        case Success(y) => Success(ys + [y])
  }

  /** Each collected value is `f` of the element at the same index. */
  lemma {:induction false} MapAllAt<A, R, E>(xs: seq<A>, f: A -> Result<R, E>, i: nat)
    requires MapAll(xs, f).Success? && i < |xs|
    ensures f(xs[i]) == Success(MapAll(xs, f).value[i])
    decreases |xs|
  {
    var prefix := xs[..|xs| - 1];
    if i < |prefix| {
      assert prefix[i] == xs[i];
      MapAllAt(prefix, f, i);
    }
  }

  /** A failure is the error of the first element `f` rejects. */
  lemma {:induction false} MapAllFirstFailure<A, R, E>(xs: seq<A>, f: A -> Result<R, E>) returns (k: nat)
    requires MapAll(xs, f).Failure?
    ensures k < |xs| && f(xs[k]).Failure? && MapAll(xs, f).error == f(xs[k]).error
    ensures forall j :: 0 <= j < k ==> f(xs[j]).Success?
    decreases |xs|
  {
    var prefix := xs[..|xs| - 1];
    if MapAll(prefix, f).Failure? {
      k := MapAllFirstFailure(prefix, f);
      assert forall j :: 0 <= j <= k ==> prefix[j] == xs[j];
    } else {
      k := |xs| - 1;
      forall j | 0 <= j < k
        ensures f(xs[j]).Success?
      {
        MapAllAt(prefix, f, j);
        assert prefix[j] == xs[j];
      }
    }
  }

  /** The collection succeeds exactly when `f` accepts every element. */
  lemma MapAllSucceeds<A, R, E>(xs: seq<A>, f: A -> Result<R, E>)
    ensures MapAll(xs, f).Success? <==> forall i :: 0 <= i < |xs| ==> f(xs[i]).Success?
  {
    if MapAll(xs, f).Success? {
      forall i | 0 <= i < |xs|
        ensures f(xs[i]).Success?
      {
        MapAllAt(xs, f, i);
      }
    } else {
      var k := MapAllFirstFailure(xs, f);
    }
  }
}
